=== FILE: README.md ===
# commonplace-notes, modelled in Dafny

A model of the core of the Obsidian plugin *commonplace-notes*, which turns notes into
web pages and publishes them per profile, either to an S3 bucket through the AWS CLI or
to one combined local JSON file. The model covers:

- **Slugs and paths** (`PathUtils`): `sluggify`, `slugifyFilePath`, `stripSlashes`,
  `simplifySlug` and `createRelativePath`.
- **Note UIDs** (`Uid`): the hex-to-base-64 encoder of `generateUID`, with the UUID as input.
- **Profile layout** (`Profiles`): the per-profile directories and files, and the
  order in which they are created.
- **AWS CLI choice** (`AwsCli`): which command runs for a profile.
- **Deferred stores**:
  - the frontmatter write queue (`Frontmatter`);
  - the slug/uid/hash tables (`Mappings`);
  - the per-profile search index with its pending updates (`ContentIndex`).
- **The note pipeline** (`Notes`): stripping frontmatter, the prior-hash rule, the
  pending-note map keyed `profileId:uid`, committing and content-addressed staging,
  backlinks, and the wiki-link resolver.
- **Link transforms**:
  - the split of a text node on `[[...]]` into text and link children, in both versions
    (`ObsidianLinks`);
  - link and embed classification (`LinkProcessing`);
  - the line-number annotator (`LineNumbers`).
- **Publish runs** (`Selection`, `Publisher`):
  - which notes a profile publishes;
  - connected notes;
  - the CloudFront invalidation rule;
  - the queue/commit/upload/cleanup sequence and its error archive;
  - the four entry points.
- **Local publishing** (`Local`): combining staged note JSONs by UID into one file.
- **Maintenance commands of the plugin class** (`Plugin`):
  - the three-hour validation hash;
  - the bulk edit of `cpn-publish-contexts` and its CSV preview;
  - the repair of contexts stored as a string;
  - the URL the copy-link command forms.

The host is modelled by `Host`, whose `App` class holds the vault, the frontmatter of each
note, the resolved-link table and the file adapter, each as a map; `Js` models the
JavaScript values and string built-ins the code relies on. Objects whose fields the code
updates are classes with `modifies` clauses; loops are methods with invariants, each
proved against a function that states the result; the properties are lemmas about those
functions.

## Model

| member | source | states |
|---|---|---|
| AwsCli.CliCommand | src/utils/awsCli.ts:25-33 | the command is never empty: the trimmed custom path when one is set and not blank, `aws` otherwise |
| AwsCli.AwsCliCommand | src/utils/awsCli.ts:17-34 | an unknown profile, or one without AWS settings, runs `aws`; the command is never empty |
| AwsCli.AwsCliCommandFromProfile | src/utils/awsCli.ts:41-51 | the command taken from a profile object is never empty |
| AwsCli.FromProfileAgrees | src/utils/awsCli.ts:17-51 | the lookup by id and the lookup from the profile agree on the profile `find` picks, and both are the trimmed custom path or `aws` |
| ContentIndex.Enqueue | src/utils/contentIndex.ts:56-91 | queuing puts the entry under the profile and uid and leaves other profiles and other uids of the profile as they were |
| ContentIndex.EnqueueOverwrites | src/utils/contentIndex.ts:82-89 | a later update for the same profile and uid replaces the earlier one |
| ContentIndex.AssignStep | src/utils/contentIndex.ts:101-103 | visiting one more uid is one more assignment `index[uid] = entry` |
| ContentIndex.ContentIndexManager.constructor | src/utils/contentIndex.ts:21-26 | the manager starts with no pending updates and no cached index, under `<plugin dir>/content` |
| ContentIndex.ContentIndexManager.LoadIndex | src/utils/contentIndex.ts:36-54 | the cached index when there is one; else the file's, or an empty index where the read or parse fails, which is cached; the directory is ensured only on a cache miss and no file changes |
| ContentIndex.ContentIndexManager.QueueUpdate | src/utils/contentIndex.ts:56-91 | the entry queued has the basename as title, and as content when the plaintext conversion fails; the cache is untouched |
| ContentIndex.ContentIndexManager.ApplyQueuedUpdates | src/utils/contentIndex.ts:93-114 | nothing is written when nothing is queued; otherwise the cached index overlaid with the queued entries is written, and the queue is dropped exactly when the write succeeds |
| ContentIndex.ContentIndexManager.MergeAndSave | src/utils/contentIndex.ts:99-110 | the cached object gains the queued entries even if the write fails; the queue is dropped only after a successful write |
| ContentIndex.ContentIndexManager.AssignAll | src/utils/contentIndex.ts:101-103 | the loop leaves the index overlaid with every queued entry, queued entries winning |
| ContentIndex.ContentIndexManager.SaveIndex | src/utils/contentIndex.ts:116-123 | a successful save writes the index as the profile's document and caches it; a failed one changes nothing |
| Frontmatter.ApplyUpdates | src/utils/frontmatter.ts:40-46 | a key given as `undefined` is deleted, any other given key is set to its value, and keys not given keep theirs |
| Frontmatter.Merge | src/utils/frontmatter.ts:22-23 | `Object.assign` of pending updates: every key of either, later values win |
| Frontmatter.MergeThenApply | src/utils/frontmatter.ts:17-46 | queuing two updates for a file and writing the merged record once is the same as writing them one after the other |
| Frontmatter.ApplyUpdatesIdempotent | src/utils/frontmatter.ts:36-53 | writing the same updates twice changes nothing the first write did not |
| Frontmatter.Processed | src/utils/frontmatter.ts:26-34 | a queued record is applied to its path exactly when the path has been visited and is still a vault file; every other note keeps its frontmatter |
| Frontmatter.ApplyStep | src/utils/frontmatter.ts:40-46 | visiting one more key is one more delete (for `undefined`) or one more assignment |
| Frontmatter.ProcessedStep | src/utils/frontmatter.ts:27-32 | visiting one more queued path applies its record when the path is a file and changes nothing otherwise |
| Frontmatter.FrontmatterManager.constructor | src/utils/frontmatter.ts:5-10 | the queue starts empty |
| Frontmatter.FrontmatterManager.Add | src/utils/frontmatter.ts:17-24 | the path's pending record becomes the old one (or `{}`) merged with the updates; other paths are untouched |
| Frontmatter.FrontmatterManager.UpdateFrontmatter | src/utils/frontmatter.ts:36-53 | the note's frontmatter becomes `ApplyUpdates` of what it was, other notes and the vault's files untouched |
| Frontmatter.FrontmatterManager.Process | src/utils/frontmatter.ts:26-34 | every queued record whose path is still a file is applied, other notes unchanged, and the queue ends empty |
| Frontmatter.FrontmatterManager.HasUpdates | src/utils/frontmatter.ts:56-63 | there are updates exactly when the queue size is positive |
| Frontmatter.FrontmatterManager.Clear | src/utils/frontmatter.ts:66-68 | the queue is emptied without applying anything |
| LineNumbers.Properties.constructor | src/utils/remarkLineNumbers.ts:23 | a fresh `hProperties` object is empty |
| LineNumbers.NodeData.constructor | src/utils/remarkLineNumbers.ts:22 | a fresh `data` object has no `hProperties` |
| LineNumbers.MdNode.constructor | src/utils/remarkLineNumbers.ts:6-15 | a node holds its start line and its data object |
| LineNumbers.Annotated | src/utils/remarkLineNumbers.ts:26-29 | `line` is appended to an existing class array (a fresh `['line']` otherwise), `data-line` is the line, and every other property is kept |
| LineNumbers.AnnotatedTwice | src/utils/remarkLineNumbers.ts:27-29 | annotating twice appends `line` twice: the visitor is not idempotent |
| LineNumbers.Annotate | src/utils/remarkLineNumbers.ts:19-31 | a node without a truthy start line is untouched; one with it gets its properties annotated, reusing its `data` and `hProperties` objects when it has them and allocating new ones when it does not |
| LinkProcessing.ExtnameShape | LinkProcessor.ts:68 | the extension `path.extname` gives is empty or a `.` followed by no `.` or `/`, ending the path, with something before it in its last segment |
| LinkProcessing.ExtnameOfName | LinkProcessor.ts:68 | a file named `stem + ext` in any directory has extension `ext` |
| LinkProcessing.EmbedTypeCases | LinkProcessor.ts:93-108 | each extension list maps to its media type in both directions, and every extension in none of the lists is `other` |
| LinkProcessing.EmbedKindIgnoresCase | LinkProcessor.ts:68-69 | the extension is lower-cased before the lookup, so `Photo.PNG` is an image |
| LinkProcessing.ClassifyCases | LinkProcessor.ts:38-61 | a link is internal exactly when it is resolved and its target file is found, external exactly when it is not resolved and is an absolute URL, and carries its target or URL and its display text |
| LinkProcessing.AtMostOneList | LinkProcessor.ts:38-61 | no cached link lands in both the internal and the external list |
| LinkProcessing.ListsFollowOrder | LinkProcessor.ts:38-61 | both lists keep the cache's order: classifying two runs of links is classifying each in turn |
| LinkProcessing.InternalLinksAre | LinkProcessor.ts:38-52 | an internal link is in the list exactly when some cached link is classified as that internal link |
| LinkProcessing.EmbedsAre | LinkProcessor.ts:64-79 | an embed is in the list exactly when some cached embed's target is found and yields it |
| LinkProcessing.LinkProcessor.constructor | LinkProcessor.ts:24-25 | the processor holds the app it was given |
| LinkProcessing.LinkProcessor.GetLinkData | LinkProcessor.ts:27-82 | the internal, external and embed lists are those the classification gives, each in cache order, all empty without a cache |
| LinkProcessing.LinkProcessor.ProcessLinks | LinkProcessor.ts:38-61 | the loop over the cached links builds exactly the internal and external lists |
| LinkProcessing.LinkProcessor.ProcessEmbeds | LinkProcessor.ts:64-79 | the loop over the cached embeds builds exactly the embed list |
| LinkProcessing.LinkProcessor.PushEmbed | LinkProcessor.ts:66-77 | one pass pushes the embed with its lower-cased media type and slug when its target is found, and nothing otherwise |
| Local.StagedUid | src/publish/local.ts:66-76 | a staged document contributes only when it reads and parses as an object with a non-empty `uid` |
| Local.Contributes | src/publish/local.ts:64-77 | a listed file is combined only when it is a `.json` file other than `index.json` that parses as an object with a UID |
| Local.CombineKeys | src/publish/local.ts:59-80 | the combined object has a key for exactly the UIDs of the listed note artifacts, each holding the document of one file with that UID |
| Local.CombineLastWins | src/publish/local.ts:71-73 | when several listed files share a UID, the document of the last of them is kept |
| Local.CombineListing | src/publish/local.ts:62-80 | combining a directory's listing, in whatever order it comes, combines exactly that directory's staged files |
| Local.CombineNotesData | src/publish/local.ts:54-81 | the loop over the listing builds the combination of the listed files, and the listing is the staging directory's files |
| Local.PublishLocalNotes | src/publish/local.ts:6-52 | succeeds exactly when the first profile with the id publishes locally and the write goes through; the file then holds the combination of the staged notes, and no other file changes |
| Local.PublishLocalAsWritten | src/publish/local.ts:10-23 | as written, the run never reaches the write: it stops at the missing profile, the non-local profile, or the undefined `getCombinedLocalNotesPath` |
| Local.LocalProfileNeverWritten | src/publish/local.ts:17-23 | as written, a profile that publishes locally always stops at `getCombinedLocalNotesPath` |
| Mappings.ToJson | src/utils/mappings.ts:70-80 | a saved table is a JSON object with the table's keys |
| Mappings.FromJson | src/utils/mappings.ts:45-59 | a document gives a table exactly when it is an object whose values are all strings, and the table holds exactly those keys and strings |
| Mappings.FromToJson | src/utils/mappings.ts:45-98 | reading back a saved table gives the table |
| Mappings.LookupNonEmpty | src/utils/mappings.ts:113-119 | a lookup finds a value exactly when the key is present with a non-empty value (`|| null`) |
| Mappings.UpdateIdempotent | src/utils/mappings.ts:100-111 | updating twice with the same arguments is updating once |
| Mappings.MappingManager.constructor | src/utils/mappings.ts:15-19 | the manager starts with no tables, under `<plugin dir>/mapping` |
| Mappings.MappingManager.MappingPathsDistinct | src/utils/mappings.ts:21-23 | the two documents of one profile, and those of two profiles, are different files |
| Mappings.MappingManager.UpdateMappings | src/utils/mappings.ts:100-111 | the profile's tables (fresh ones for a new profile) gain `slug → uid` and `uid → hash`; other profiles are untouched |
| Mappings.MappingManager.GetPriorHash | src/utils/mappings.ts:113-115 | the stored hash of the uid when the profile and uid are known and the hash is not empty, none otherwise |
| Mappings.MappingManager.GetUidFromSlug | src/utils/mappings.ts:117-119 | the stored uid of the slug when the profile and slug are known and the uid is not empty, none otherwise |
| Mappings.MappingManager.SaveProfileMappings | src/utils/mappings.ts:82-98 | the profile's directory is ensured; an unknown profile writes nothing; otherwise it fails exactly when one of its two writes throws, both tables are written as its two documents when none does, a throwing first write leaves both documents as they were and a throwing second one leaves only the first written; no other file changes |
| Mappings.MappingManager.LoadProfileMappings | src/utils/mappings.ts:45-68 | two documents that read and parse become the profile's tables with no write; otherwise the profile gets empty tables, which are written back; only the profile's own two documents and table entry can change |
| Mappings.MappingManager.SaveMappings | src/utils/mappings.ts:70-80 | it succeeds exactly when no profile's write throws, and then every profile's documents hold its tables; whatever happens, each profile's documents are either its tables, as they were, or partly written as for one save, and no file other than a mapping document changes or is removed |
| Mappings.MappingManager.LoadMappings | src/utils/mappings.ts:25-43 | when every load succeeds, each configured profile's tables are what its documents held at the start if both parsed, and otherwise empty tables which its documents now hold; profiles not configured keep their tables, and no file but a configured profile's documents changes |
| Mappings.MappingManager.LoadedReadsBack | src/utils/mappings.ts:45-68 | after a load, the profile's documents read back as exactly the tables it loaded |
| Mappings.MappingManager.SaveThenLoad | src/utils/mappings.ts:45-98 | documents holding a profile's saved tables parse back to those tables |
| Notes.SliceFrom | src/utils/notes.ts:49 | `slice` never lengthens the text |
| Notes.StripFrontmatter | src/utils/notes.ts:45-52 | without a frontmatter block the text is untouched; with one, the text after it is returned trimmed, so it neither starts nor ends with whitespace |
| Notes.StateFor | src/utils/notes.ts:112-138 | the raw text is the note without its frontmatter, the hash is SHA-1 of `uid::raw`, and the prior hash is the stored field unless that already is the current hash (then `null`), so the two never coincide |
| Notes.RequeueUnchanged | src/utils/notes.ts:120-132 | once the field holds the current hash, queuing the unchanged note again records no prior hash and rewrites nothing |
| Notes.KeySelectsProfile | src/utils/notes.ts:140-152 | with profile ids free of `:`, a key starts with `p:` exactly when it was queued for `p`, so a commit takes only its own profile's notes |
| Notes.KeyOfColonProfile | src/utils/notes.ts:140-152 | a profile id holding `:` makes its keys look like a shorter id's: profile `a` takes the notes of profile `a:b` |
| Notes.ResolverCases | src/utils/notes.ts:72-97 | a link resolves exactly when its target is a markdown note with a UID whose contexts list the profile, and shows the alias, or the link when the alias is empty or absent |
| Notes.Backlinks | src/utils/notes.ts:58-64 | there are no more backlinks than connections |
| Notes.BacklinksAre | src/utils/notes.ts:54-65 | a backlink is listed exactly for each connection flagged as one, with its uid, slug and title |
| Notes.ForProfile | src/utils/notes.ts:151-152 | the entries taken are exactly the pending entries whose keys start with `profileId:` |
| Notes.DeleteKeys | src/utils/notes.ts:176 | deleting entries one by one keeps the pending map well formed |
| Notes.DeleteKeysLeaves | src/utils/notes.ts:154-177 | deleting the entries' keys leaves exactly the other entries, with their states |
| Notes.DrainedProfile | src/utils/notes.ts:151-177 | deleting every entry queued for a profile leaves none of its keys pending |
| Notes.MappingsAfterHolds | src/utils/notes.ts:154-161 | after the loop each note's uid maps to its hash, the last note with that uid winning |
| Notes.PriorHashStored | src/utils/notes.ts:123-126 | queuing the field and processing the queue leaves a vault note's field holding the current hash |
| Notes.NoteManager.constructor | src/utils/notes.ts:33-36 | the pending map starts empty |
| Notes.NoteManager.QueueNote | src/utils/notes.ts:106-146 | a note without a UID changes nothing; otherwise its state is kept under `profileId:uid`, replacing any earlier one, and a vault note's prior-hash field then holds the current hash |
| Notes.NoteManager.StorePriorHash | src/utils/notes.ts:122-126 | the field is queued and flushed only when missing or different, and then holds the hash |
| Notes.NoteManager.Queued | src/utils/notes.ts:151-152 | the entries taken are exactly the pending entries of the profile, with their states |
| Notes.NoteManager.StageWriteHolds | src/utils/notes.ts:191-226 | a staged note's artifact holds its JSON, the home note's also as `index.json`, and no other file changes |
| Notes.NoteManager.StagedGrows | src/utils/notes.ts:154-177 | staging only writes files: every file there before is there after |
| Notes.NoteManager.FirstFailure | src/utils/notes.ts:154-177 | the loop stages every note before the first whose write throws, which does throw |
| Notes.NoteManager.GetBacklinks | src/utils/notes.ts:54-65 | the backlinks are those of the note's connections for the profile |
| Notes.NoteManager.WriteNoteToStaging | src/utils/notes.ts:191-226 | the artifact is written as `<staged dir>/<hash>.json`, then for the home note as `index.json`; the result says whether a write threw |
| Notes.NoteManager.StageOne | src/utils/notes.ts:155-176 | one entry's mappings and content-index entry are updated before its staging, and it leaves the pending map only once staged |
| Notes.NoteManager.StageNotes | src/utils/notes.ts:151-177 | the loop stages the profile's entries up to the first failing write; that entry and later ones stay pending, and the mappings, index queue and files are as the loop left them |
| Notes.NoteManager.RecordNote | src/utils/notes.ts:155-170 | the note's mapping is upserted and, when the profile indexes content, its content-index entry queued |
| Notes.NoteManager.StageEach | src/utils/notes.ts:154-177 | the loop over the given entries stops at the first whose write throws, having deleted exactly the entries before it |
| Notes.NoteManager.StageAt | src/utils/notes.ts:155-176 | one pass extends the fold by one entry, or stops at the first failure |
| Notes.NoteManager.FirstFailureAt | src/utils/notes.ts:173 | an entry reached with no earlier failure fails exactly when it is the first failure |
| Notes.NoteManager.FoldStep | src/utils/notes.ts:154-177 | each state of the loop after one more entry is one more step of each of its parts |
| Notes.NoteManager.CommitPendingNotes | src/utils/notes.ts:148-189 | a staging failure leaves the rest pending and skips both saves; a commit that returns has staged every queued note of the profile, so its staging directory holds exactly what writing those notes in turn gives, has saved every profile's tables, and has written the profile's index with the entries the loop queued assigned over it and dropped that queue |
| Notes.NoteManager.SaveAll | src/utils/notes.ts:180-181 | the mappings are saved, then the profile's index queue is applied unless that threw; on success the index file holds the profile's index with the queued entries assigned; only mapping documents and that index file change, so the staging directory is left alone |
| Notes.NoteManager.IndexNotMapping | src/utils/notes.ts:180-181 | the content index file of a profile is neither mapping document of any profile |
| ObsidianLinks.CloseFrom | src/utils/remarkObsidianLinks.ts:21 | the lazy `(.*?)\]\]` ends inside the text, at or after where it started |
| ObsidianLinks.CloseFromIsLazy | src/utils/remarkObsidianLinks.ts:21 | the lazy group ends at the first `]]` not preceded by a line terminator, and fails exactly when there is none |
| ObsidianLinks.MatchFrom | src/utils/remarkObsidianLinks.ts:21 | a match found from a position starts there or later and lies inside the text |
| ObsidianLinks.MatchFromIsLeftmost | src/utils/remarkObsidianLinks.ts:21 | the match found is the leftmost one, and there is none when the search fails |
| ObsidianLinks.MatchesFrom | src/utils/remarkObsidianLinks.ts:21 | the global search's matches are inside the text, left to right, none overlapping |
| ObsidianLinks.MatchesAreLinks | src/utils/remarkObsidianLinks.ts:21 | each match is `[[`, a link text without line terminators or `]]`, then `]]` |
| ObsidianLinks.NoMatches | src/utils/remarkObsidianLinks.ts:21-23 | there are no matches exactly when no `[[…]]` occurs, and the node is then left alone |
| ObsidianLinks.LastIndex | src/utils/remarkObsidianLinks.ts:26-61 | `lastIndex` never passes the next match and stays inside the text |
| ObsidianLinks.BuiltStep | src/utils/remarkObsidianLinks.ts:28-62 | one more match pushes the text before it and its piece, and moves `lastIndex` past it |
| ObsidianLinks.ResolvedLinks | src/utils/remarkObsidianLinks.ts:38-52 | the resolved matches give only link nodes |
| ObsidianLinks.UnresolvedKeepsText | src/utils/remarkObsidianLinks.ts:28-70 | when no match resolves, every child is text and together they spell the original text |
| ObsidianLinks.NoEmptyText | src/utils/remarkObsidianLinks.ts:30-35 | no text child is empty: text before a match and after the last one is pushed only when there is some |
| ObsidianLinks.LinksFollowMatches | src/utils/remarkObsidianLinks.ts:28-70 | each resolved match gives exactly one link, in match order, and nothing else is a link |
| ObsidianLinks.RelativeUrls | src/utils/remarkObsidianLinks.ts:40-52 | with `createRelativePath`, every link's URL starts with `.` and ends with `.html` |
| ObsidianLinks.AbsoluteUrl | remarkObsidianLinks.ts:39-48 | in the root plugin a resolved match links to the base URL, `/` and the resolver's slug |
| ObsidianLinks.SplitText | src/utils/remarkObsidianLinks.ts:25-70 | the `forEach` loop and the remaining text build exactly the children the matches call for |
| ObsidianLinks.PushMatch | src/utils/remarkObsidianLinks.ts:28-62 | one callback pushes the text since `lastIndex` when there is some, then the link or the match verbatim, and moves `lastIndex` to the end of the match |
| ObsidianLinks.Parent.constructor | src/utils/remarkObsidianLinks.ts:18 | a parent holds its children |
| ObsidianLinks.Transform | src/utils/remarkObsidianLinks.ts:18-74 | without a parent, or without a match, nothing changes; otherwise the node alone is replaced by its children and its siblings keep their places |
| ObsidianLinks.RemarkObsidianLinks | src/utils/remarkObsidianLinks.ts:16-76 | the plugin's visitor on one text node, with URLs relative to the current note |
| ObsidianLinks.LegacyRemarkObsidianLinks | remarkObsidianLinks.ts:15-72 | the root plugin's visitor on one text node, with URLs under the base URL |
| PathUtils.SlugSegmentIsPasses | src/utils/path.ts:7-14 | the five global replace passes never feed each other, so they amount to one rewrite per character |
| PathUtils.SlugSegmentAllowed | src/utils/path.ts:7-14 | a rewritten segment holds no whitespace, `?`, `#`, `&` or `%` |
| PathUtils.SlugSegmentFrom | src/utils/path.ts:7-14 | a rewritten segment holds only characters of the segment and of `-`, `-and-` and `-percent` |
| PathUtils.SlugSegmentErased | src/utils/path.ts:7-14 | a segment is erased exactly when it holds nothing but `?` and `#` |
| PathUtils.SlugEach | src/utils/path.ts:6-14 | every segment is rewritten, none added or dropped |
| PathUtils.Sluggify | src/utils/path.ts:4-17 | the slug is the rewritten segments joined by `/`, at most one final `/` shorter; `PathUtils.SluggifyAllowed` and `PathUtils.SluggifyKeepsSegments` state its characters and segments |
| PathUtils.SluggifyAllowed | src/utils/path.ts:4-17 | a slug holds no whitespace, `?`, `#`, `&` or `%` |
| PathUtils.SluggifyKeepsSegments | src/utils/path.ts:4-17 | the slug's segments are exactly the rewritten segments of the input, and the only `/` dropped is one at the end |
| PathUtils.TrimSlashes | src/utils/path.ts:21 | the trimmed path neither starts nor ends with `/`, and it is a contiguous part of the path with only `/` before and after it |
| PathUtils.ExtensionIsTheMatch | src/utils/path.ts:24 | the extension found is the one suffix `\.[A-Za-z0-9]+$` can match, and empty exactly when it matches nothing |
| PathUtils.SlugifyFilePath | src/utils/path.ts:19-34 | the result ends with the kept extension, and what precedes it has no whitespace, `?`, `#`, `&` or `%`; `PathUtils.SlugifyFilePathExtension`, `PathUtils.SlugifyFilePathNoExtension` and `PathUtils.SlugifyFilePathLeadingSlash` state it exactly |
| PathUtils.SlugifyFilePathExtension | src/utils/path.ts:19-34 | a path `stem + ext` slugs to the stem's slug, followed by the extension unless it is `.md` or `.html` or `excludeExt` is set |
| PathUtils.SlugifyFilePathNoExtension | src/utils/path.ts:19-34 | a trimmed path without an extension slugs to `sluggify` of the path |
| PathUtils.SlugifyFilePathLeadingSlash | src/utils/path.ts:19-34 | a file slug starts with `/` only when the first segment of the trimmed path is made of nothing but `?` and `#` |
| PathUtils.SluggifyLeadingSlash | src/utils/path.ts:4-17 | `sluggify` gives a leading `/` only for an input with several segments whose first is made of `?` and `#` |
| PathUtils.SlugifyFilePathLeadingSlashExample | src/utils/path.ts:19-34 | `?/a.md` slugs to `/a` |
| PathUtils.StripSlashes | src/utils/path.ts:36-46 | exactly `s` with its leading `/` removed if it has one and, unless only the prefix is stripped, the trailing `/` of what remains removed if it has one; nothing else changes |
| PathUtils.TrimIndex | src/utils/path.ts:49-52 | a final `index` segment is removed, keeping the `/` before it; anything else is left alone |
| PathUtils.SimplifySlug | src/utils/path.ts:48-56 | the result is never empty: the slug without a trailing `index` segment and without a leading `/`, which is `/` exactly when that is empty or `/` itself |
| PathUtils.SimplifySlugExamples | src/utils/path.ts:48-56 | `index` and `/index` are the root, `a/index` is its folder, and `myindex` is not trimmed |
| PathUtils.ParentDirIsBeforeLastSlash | src/utils/path.ts:61-69 | the folder of a slug is what comes before its last `/`, or empty without one |
| PathUtils.CreateRelativePath | src/utils/path.ts:59-77 | the path from the folder of the source slug to the target slug, prefixed with `./` unless it starts with `.`, and suffixed with `.html`: it always starts with `.` and ends with `.html` |
| Profiles.ProfileManager.constructor | src/utils/profiles.ts:8-13 | the base directory is `<plugin dir>/profiles` |
| Profiles.ProfileManager.AllProfileDirs | src/utils/profiles.ts:15-23 | initialising all profiles ensures four directories per profile |
| Profiles.ProfileManager.ProfileDirInjective | src/utils/profiles.ts:38-40 | different profile ids have different directories |
| Profiles.ProfileManager.ProfilePathsDistinct | src/utils/profiles.ts:42-60 | the five paths of one profile are pairwise distinct |
| Profiles.ProfileManager.ProfilePathsSeparate | src/utils/profiles.ts:38-60 | two profiles never share a staging, error, mapping or content-index path |
| Profiles.ProfileManager.InitializeProfileDirectories | src/utils/profiles.ts:25-36 | the profile's four directories are ensured in order, and no file changes |
| Profiles.ProfileManager.Initialize | src/utils/profiles.ts:15-23 | the base directory, then every configured profile's directories in settings order, are ensured, and no file changes |
| Selection.PublishContexts | src/publish/publisher.ts:40-43 | a note's contexts are its `cpn-publish-contexts` frontmatter value when that is an array, and none otherwise |
| Selection.IsFileExcluded | src/publish/publisher.ts:73-78 | a file is excluded exactly when some excluded directory is a prefix of its path or occurs inside it between slashes |
| Selection.ExcludedBelow | src/publish/publisher.ts:73-78 | every file below an excluded directory is excluded, at the top of the vault or nested |
| Selection.ExcludedByPrefixOfName | src/publish/publisher.ts:75-77 | the prefix test ignores segment boundaries: excluding `Private` also excludes `PrivateNotes/…` |
| Selection.Candidate | src/publish/publisher.ts:92-137 | a path is recorded exactly when it is a vault file outside the excluded directories whose contexts list the profile and which has a UID, with both flags unset |
| Selection.OutgoingDescribes | src/publish/publisher.ts:92-110 | after the outgoing loop every recorded candidate is one the note links to, flagged as such, and every linked candidate is recorded |
| Selection.IncomingDescribes | src/publish/publisher.ts:113-137 | after the backlink loop each candidate's backlink flag says whether some note linking to the note is it, and every candidate linked either way is recorded |
| Selection.IncomingStepDescribes | src/publish/publisher.ts:114-136 | one more entry of `resolvedLinks` keeps the description true |
| Selection.LinkedFromSnoc | src/publish/publisher.ts:113-137 | one more entry of `resolvedLinks` adds at most its own source to those linking to the note |
| Selection.ConnectedNotesAre | src/publish/publisher.ts:81-140 | nothing for an unknown profile; otherwise one connection per path, each a candidate flagged as outgoing exactly when the note links to it and as a backlink exactly when it links to the note, and every candidate linked either way is present |
| Selection.GetConnectedNotes | src/publish/publisher.ts:81-140 | the two loops give exactly the connections the characterisation describes, in insertion order |
| Selection.AddOutgoing | src/publish/publisher.ts:92-110 | the outgoing loop builds exactly the map of linked candidates with their outgoing flag |
| Selection.AddIncoming | src/publish/publisher.ts:113-137 | the backlink loop flags a linking candidate already present and adds a new one with its backlink flag |
| Selection.PublishableAre | src/publish/publisher.ts:242-262 | the publishable notes are exactly the markdown files outside the excluded directories that list the profile |
| Selection.GetAllPublishableNotes | src/publish/publisher.ts:242-262 | nothing for an unknown profile; otherwise the loop keeps the publishable notes, in vault order |
| Selection.ModifiedAfter | src/publish/publisher.ts:270-271 | the files kept are exactly those modified after the given time |
| Selection.GetUpdatedNotes | src/publish/publisher.ts:264-272 | no notes for an unknown profile; every note returned was modified after the last full publish, or after 0 without one; `Selection.UpdatedNotesAre` states the list exactly |
| Selection.UpdatedNotesAre | src/publish/publisher.ts:264-272 | the updated notes are exactly the publishable notes modified after the last full publish, or after 0 without one; none for an unknown profile |
| Selection.ShouldInvalidateCloudFront | src/publish/publisher.ts:274-295 | an invalidation needs a distribution id and a scheme other than manual |
| Selection.InvalidationByLevel | src/publish/publisher.ts:274-295 | a publish invalidates exactly when it is at or above the configured kind, so a wider publish invalidates whenever a narrower one does |
| Selection.PromptForProfile | src/publish/publisher.ts:45-71 | the profile chosen is a configured one among those available; none is chosen when none is offered, and the only one when only one is |
| Selection.Offered | src/publish/publisher.ts:52-54 | the profiles offered are exactly the configured ones whose ids are available (all of them without a list) |
| Publisher.InDirBasename | src/publish/publisher.ts:213-220 | a file directly inside a directory is the directory, `/` and its basename, which is non-empty and has no `/` |
| Publisher.Stamped | src/publish/publisher.ts:175-183 | only the first profile with the id gains the publish time; every other profile, and the ids, are unchanged |
| Publisher.StampedFinds | src/publish/publisher.ts:175-183 | after a full publish the profile found by id is the one it was with the publish time set, and every other id finds what it found before |
| Publisher.UpdatesAfterFullPublish | src/publish/publisher.ts:175-183 | after a full publish at `now`, a since-last publish takes exactly the publishable notes modified after `now` |
| Publisher.InDirPrefix | src/publish/publisher.ts:205-206 | a file inside a directory starts with the directory's path |
| Publisher.ConnectedFiles | src/publish/publisher.ts:331-333 | the notes published are the connections' files in order, followed by the note itself |
| Publisher.Publisher.constructor | src/publish/publisher.ts:33-38 | the publisher holds the app, settings, note manager and profile manager it was given |
| Publisher.Publisher.StagingApart | src/publish/publisher.ts:205-206 | the staging directory and an error session directory hold none of each other's files |
| Publisher.Publisher.QueueAll | src/publish/publisher.ts:150-152 | afterwards exactly the notes with a UID have joined the pending keys, and other profiles' entries are as they were |
| Publisher.Publisher.QueueOne | src/publish/publisher.ts:151 | one note's key joins the pending keys when it has a UID, and only a key of the profile changes |
| Publisher.Publisher.QueuedKeysStep | src/publish/publisher.ts:150-152 | the keys of one more file are the keys so far and that file's |
| Publisher.Publisher.PublishNotes | src/publish/publisher.ts:142-193 | a run removes no file outside the staging directory; the committed batch is every entry of the profile pending after the queue loop; a failed upload keeps the files as they were at upload, whose staging directory holds what staging that batch writes, and the settings; a completed run removes exactly the staging directory from the files at upload and, when asked, records the publish time; a failed commit goes to the error handler |
| Publisher.Publisher.Deliver | src/publish/publisher.ts:155-192 | the commit, the upload and the cleanup with their `catch`: when the upload is reached, the staging directory holds what staging the profile's pending entries writes; a failed upload keeps those files, a completed run removes exactly the staging directory, and the other outcomes are those of the whole run |
| Publisher.Publisher.Commit | src/publish/publisher.ts:156 | a commit removes no file, and one that returns leaves nothing of the profile pending and the staging directory holding what staging the profile's pending entries writes |
| Publisher.Publisher.Finish | src/publish/publisher.ts:159-183 | a failed AWS upload changes nothing; otherwise staging is emptied and, when asked, the profile's publish time recorded |
| Publisher.Publisher.HandlePublishError | src/publish/publisher.ts:200-240 | every staged file is copied into the session directory beside an `error.json`, then staging is emptied; where a step throws nothing is removed; only staging and session files change |
| Publisher.Publisher.Archive | src/publish/publisher.ts:205-230 | the session directory is ensured, each staged file copied under its basename and `error.json` written, and no file outside the session directory changes |
| Publisher.Publisher.PublishSingle | src/publish/publisher.ts:297-314 | nothing happens when the note lists no contexts, no profile is chosen or the profile excludes it; otherwise the note alone is published to a profile it lists, as an individual publish keeping the publish time; after a run, no file outside the profile's staging directory is gone, the run's batch is the profile's entries pending after the queue loop and none of them stays pending unless the commit failed, a failed upload keeps the files at upload with staging holding what staging the batch writes, a completed run removes exactly the staging directory, and an archived failure holds its error.json |
| Publisher.Publisher.PublishConnected | src/publish/publisher.ts:316-337 | as a single publish up to the profile, then the connected notes followed by the note, as a connected publish keeping the publish time; after a run, no file outside the profile's staging directory is gone, the run's batch is the profile's entries pending after the queue loop and none of them stays pending unless the commit failed, a failed upload keeps the files at upload with staging holding what staging the batch writes, a completed run removes exactly the staging directory, and an archived failure holds its error.json |
| Publisher.Publisher.PublishUpdates | src/publish/publisher.ts:339-351 | the chosen profile's notes updated since the last full publish are published, and the publish time recorded when the run completes; nothing happens without a profile or updates; after a run, no file outside the profile's staging directory is gone, the run's batch is the profile's entries pending after the queue loop and none of them stays pending unless the commit failed, a failed upload keeps the files at upload with staging holding what staging the batch writes, a completed run removes exactly the staging directory, and an archived failure holds its error.json |
| Publisher.Publisher.PublishAll | src/publish/publisher.ts:353-365 | all the chosen profile's publishable notes are published, and the publish time recorded when the run completes; nothing happens without a profile or notes; after a run, no file outside the profile's staging directory is gone, the run's batch is the profile's entries pending after the queue loop and none of them stays pending unless the commit failed, a failed upload keeps the files at upload with staging holding what staging the batch writes, a completed run removes exactly the staging directory, and an archived failure holds its error.json |
| Publisher.Publisher.ArchiveOutside | src/publish/publisher.ts:213-220 | an archived copy lies in the session directory and not in the staging directory |
| Publisher.Publisher.ErrorJsonInSession | src/publish/publisher.ts:223-230 | `error.json` lies directly in the session directory |
| Publisher.Publisher.ErrorJsonOutside | src/publish/publisher.ts:223-233 | `error.json` is not in the staging directory, so the cleanup keeps it |
| Publisher.Publisher.CopyAll | src/publish/publisher.ts:213-220 | when no copy throws, every listed staged file has its copy in the session directory; no file outside it changes |
| Publisher.Publisher.CopyOne | src/publish/publisher.ts:215-219 | one copy writes the file to its archive path, which no earlier copy used |
| Plugin.TimeWindowHash | src/main.ts:439-454 | the first eight characters, or all when fewer, of the digest of the window start; `Plugin.SameWindowSameHash` states that it is fixed within a window |
| Js.DecimalStringReadsBack | src/main.ts:445 | the decimal text of a non-negative integer reads back, digit by digit, to that integer, and starts with `0` only for zero |
| Plugin.WindowStart | src/main.ts:441-442 | the window start is the multiple of three hours at or just below `now`, so `now` lies in the three hours from it |
| Plugin.SameWindowSameHash | src/main.ts:439-454 | any two moments of the same three-hour window give the same validation hash |
| Plugin.Dedup | src/main.ts:535 | `Array.from(new Set(...))` keeps exactly the values of the list, each once |
| Plugin.DedupDistinct | src/main.ts:535 | a list without duplicates comes back unchanged |
| Plugin.DedupExtends | src/main.ts:535 | values already in the list keep their places; added values come after them |
| Plugin.RemoveAll | src/main.ts:538 | the filtered list holds exactly the values of the list that are not one of the removed names |
| Plugin.MappingsDecide | src/main.ts:529-540 | after all matching patterns, a context is proposed exactly when the last pattern listing it adds it, or, when none lists it, when it was already there |
| Plugin.MatchingSelects | src/main.ts:523-525 | the matching include patterns are exactly those whose directory holds the path |
| Plugin.FirstExcludeFinds | src/main.ts:501-509 | `find` succeeds exactly when the `some` test holds, and what it finds is an excluded directory holding the path |
| Plugin.PlanFile | src/main.ts:505-553 | a record is for the file at hand and carries its contexts, or `[]` when the field is falsy |
| Plugin.PlanFileMeaning | src/main.ts:501-553 | a file is `Excluded` exactly when an exclude holds it, with no proposed contexts and the first matching exclude; it gets no record exactly when no pattern holds it; otherwise the proposal is what the patterns decide and the action is `Update` exactly when it differs from the current contexts |
| Plugin.BulkStep | src/main.ts:497-563 | one more file extends the run by that file's step, unless the run has thrown |
| Plugin.BulkThrownStays | src/main.ts:497-563 | once a file has thrown, the later files change nothing |
| Plugin.BulkCounts | src/main.ts:494-561 | a dry run writes no frontmatter and counts nothing; otherwise `updateCount` is the number of `Update` records |
| Plugin.StepCounts | src/main.ts:555-561 | one file keeps `updateCount` equal to the number of `Update` records, and a dry run writes nothing |
| Plugin.BulkRecords | src/main.ts:497-553 | every record is for one of the files, and says `Excluded` exactly when that file lies in an excluded directory |
| Plugin.BulkWritesOnlyUpdates | src/main.ts:555-561 | a note's frontmatter changes only where a record for it says `Update`, and never in a dry run |
| Plugin.StepShape | src/main.ts:497-562 | one file changes nothing or pushes one record for itself, and writes only its own contexts, only for an `Update` outside a dry run |
| Plugin.ExcludedNeverWritten | src/main.ts:501-520 | a note in an excluded directory is never written, whatever the includes say |
| Plugin.BulkWritesProposed | src/main.ts:544-561 | with each file listed once, every `Update` record of a run that is not a dry run leaves its note holding exactly the proposed contexts |
| Plugin.CsvFields | src/main.ts:462-469 | a record can be shown if and only if its current contexts are an array; a shown record has the six fields of the header, with its path, action and include and exclude patterns in the first, fourth, fifth and sixth places |
| Plugin.CsvLines | src/main.ts:462-469 | the lines exist exactly when every record can be shown, one per record, in order |
| Plugin.CsvShape | src/main.ts:456-473 | where no field holds a line break, the preview splits into the header and then each record's line, in order |
| Plugin.TrimAll | src/main.ts:408 | every trimmed piece has no whitespace at either end |
| Plugin.NonEmpty | src/main.ts:409 | the filter keeps exactly the non-empty pieces, and leaves a list without empty pieces unchanged |
| Plugin.Normalize | src/main.ts:400-410 | with a delimiter, every resulting context is non-empty and trimmed |
| Plugin.NormalizeJoin | src/main.ts:406-410 | trimmed, non-empty names free of a one-character delimiter, joined with it, normalize back to the same names |
| Plugin.NormalizeUndelimited | src/main.ts:400-410 | a non-blank string without the delimiter gives the same list as wrapping it without splitting |
| Plugin.FixLeavesNoStrings | src/main.ts:391-425 | afterwards no listed vault file holds its contexts as a string |
| Plugin.FixTouchesOnlyStrings | src/main.ts:391-425 | only listed vault files whose contexts were a string change |
| Plugin.FixCount | src/main.ts:386-417 | with each path listed once, `fixedCount` is the number of listed vault files whose contexts were a string |
| Plugin.Utf8 | src/main.ts:220 | a character's UTF-8 encoding is one to four bytes, and an ASCII character is its own code |
| Plugin.EncodeUriComponent | src/main.ts:220 | the encoding holds only unreserved characters, `%` and upper-case hex digits |
| Plugin.EncodeUnreserved | src/main.ts:220 | a string of unreserved characters is its own encoding |
| Plugin.DecodeEncodeAscii | src/main.ts:220 | an ASCII string is recovered by reading back the escapes of its encoding |
| Plugin.WithTrailingSlash | src/main.ts:219 | the base URL ends in `/`, which is added only where it is missing |
| Plugin.CopyNoteUrl | src/main.ts:185-228 | a URL is produced only for an active note with contexts, a chosen profile among them with a base URL, and a non-empty UID, and is the base URL, `#u=` and the encoded UID; a note without contexts gives the notice |
| Plugin.UrlCarriesUid | src/main.ts:219-220 | the URL starts with the base URL and `#u=`; what follows holds no `#` and, for an ASCII UID, reads back as the UID |
| Plugin.NoHashInEncoding | src/main.ts:220 | an encoded UID holds no `#`, so the fragment is not cut short |
| Plugin.ApplyPatterns | src/main.ts:529-540 | the `forEach` over the matching patterns computes the proposal `MappingsDecide` describes |
| Plugin.CommonplaceNotesPlugin.constructor | src/main.ts:185-232 | the plugin holds the app and the frontmatter manager it is given |
| Plugin.CommonplaceNotesPlugin.BulkUpdatePublishContexts | src/main.ts:475-580 | a wrong validation hash changes nothing; otherwise the markdown files are edited as the bulk run says, the run ends at a throw, and the preview is written exactly when the run completes |
| Plugin.CommonplaceNotesPlugin.EditFiles | src/main.ts:491-563 | the loop over the markdown files leaves the records, frontmatter, count and throw the bulk run describes |
| Plugin.CommonplaceNotesPlugin.WritePreviewCsv | src/main.ts:456-473 | it succeeds exactly when every record can be shown and the path can be written, and then the file holds the preview; otherwise nothing changes |
| Plugin.CommonplaceNotesPlugin.ProcessFile | src/main.ts:498-562 | one pass of the loop performs the file's step: its record, its write and its count |
| Plugin.CommonplaceNotesPlugin.FixPublishContextsFormat | src/main.ts:357-432 | an empty list or a dry run changes nothing; otherwise the listed string-valued contexts become lists, as the repair loop describes, and the list is cleared exactly when a file was fixed |
| Plugin.CommonplaceNotesPlugin.FixOne | src/main.ts:391-424 | one pass of the repair loop performs that path's repair step |
| Types.Settings.constructor | src/types.ts:3-4 | the settings hold the given profile list |
| Types.FindProfileIndex | src/publish/publisher.ts:176-177 | the index is -1 or a position in the profile list |
| Types.FindProfileIsFirst | src/publish/publisher.ts:176-178 | `find` gives the profile at the position `findIndex` gives, the first with that id; both report absence exactly when no profile has the id |
| Uid.B64List | src/utils/uid.ts:6 | the alphabet has 64 characters |
| Uid.B64ListIsTheLiteral | src/utils/uid.ts:6 | the alphabet is the literal `A`-`Z`, `a`-`z`, `0`-`9`, `+`, `/` |
| Uid.HexOnly | src/utils/uid.ts:7 | the filtered UUID keeps exactly its hex characters and is no longer than the UUID |
| Uid.HexIndex | src/utils/uid.ts:13-15 | `indexOf` in the hex list gives -1 or a digit value below 16 |
| Uid.HexIndexIsIndexOf | src/utils/uid.ts:5-15 | the digit value is the position of the character in `hexlist`, and -1 means it is absent |
| Uid.Digits | src/utils/uid.ts:7-8 | the digit string is the hex characters and a final `0`, all of them hex digits |
| Uid.DigitAt | src/utils/uid.ts:13-15 | over hex digits, each read gives a value below 16 |
| Uid.GroupValue | src/utils/uid.ts:13-15 | three digits make a 12-bit value |
| Uid.GroupChars | src/utils/uid.ts:17-20 | each group yields two characters |
| Uid.Encoded | src/utils/uid.ts:12-21 | `n` groups yield `2n` characters |
| Uid.ReplaceFirstSlash | src/utils/uid.ts:22 | the replace with a string pattern changes only the first `/`, to `_`, and keeps the length |
| Uid.PackDigits | src/utils/uid.ts:13-15 | shifting three digits into place and or-ing them adds them up |
| Uid.ShiftAndMask | src/utils/uid.ts:17-18 | `a >> 6` and `a & 63` are the quotient and remainder by 64 |
| Uid.GenerateUid | src/utils/uid.ts:3-23 | `generateUID` returns the UID the encoding defines for the UUID |
| Uid.EncodeGroups | src/utils/uid.ts:10-21 | the `while (i < 33)` loop builds the characters of eleven groups |
| Uid.EncodedNext | src/utils/uid.ts:20 | one more group appends its two characters |
| Uid.EncodeGroup | src/utils/uid.ts:13-20 | one pass of the loop yields the group's two characters |
| Uid.UidShape | src/utils/uid.ts:3-23 | every UID has 22 characters from the alphabet or `_`, at most one `_`, and no `/` before it |
| Uid.EncodedAlphabet | src/utils/uid.ts:20 | every character of an encoding is in the alphabet |
| Uid.EncodedInjective | src/utils/uid.ts:12-21 | equal encodings of 33 hex digits come from equal digits |
| Uid.UidInjective | src/utils/uid.ts:3-23 | equal UIDs come only from UUIDs with the same 32 hex digits, up to letter case |
| Uid.LaterSlashesRemain | src/utils/uid.ts:22 | a UUID starting with `fff` gives a UID starting `_/`: the second `/` stays |
| Uid.UrlSafeUid | src/utils/uid.ts:22 | replacing every `/` gives 22 characters with no `/`, still injective on 32-digit UUIDs |

## Left out

- Cryptography: SHA-1 of a note (src/utils/notes.ts:38-43) and the SHA-256 digest of the time window are parameter functions; their hex rendering is taken as given.
- `Date.now()` is a parameter wherever it is read.
- `uuidv4` is random: the UUID is the parameter of `Uid.GenerateUid`.
- The unified/remark/rehype HTML pipeline (src/utils/notes.ts:67-104) and the `unist-util-visit` traversal order: only the per-node split, the resolver callback and the per-node line annotation are modelled.
- Node's `path.relative` inside `createRelativePath` and the `URL` constructor behind `isAbsoluteUrl` are parameters.
- The plaintext renderer of src/utils/formatting.ts is a possibly-failing parameter function of the content index.
- The profile-choice modal of `promptForProfile` is a `pick` parameter.
- `saveSettings`, the clipboard write, notices, logging, command registration and the settings UI produce no state the model tracks.
- The AWS upload and credential refresh run a shell: the upload is a boolean parameter of a publish run.
- Concurrency: the fire-and-forget calls of `publishSingle` and `publishConnected` are modelled as finishing before anything else runs.
- `getNoteUID`, `getFrontmatterValue` and `getMisconfiguredContexts` are called on `FrontmatterManager`, and `ensureDirectory` and `deleteFilesInDirectory` on `PathUtils`, but the classes in src/utils/frontmatter.ts and src/utils/path.ts do not define them, so as written each of those calls would throw. The model assumes they exist, since without them no note could be queued or resolved and no publish run could stage anything: the UID is a per-note attribute of the host, a frontmatter value is a lookup in the host's frontmatter map, and the directory operations are adapter operations. `getCombinedLocalNotesPath` is modelled both as written and as intended, as the Findings table records.
- Local.PublishLocalNotes: the un-awaited `adapter.exists` check in src/publish/local.ts returns a promise, which is always truthy, so the check never fires and is not modelled.
- Local.StagedUid: a truthy UID that is not a string is not combined; only string UIDs are modelled.
- The resolver passed by src/utils/notes.ts is asynchronous, while src/utils/remarkObsidianLinks.ts declares a synchronous one; the model uses the declared, synchronous signature.
- `processFrontMatter` is taken never to fail.
- Frontmatter.FrontmatterManager.UpdateFrontmatter: a frontmatter write changes only the host's frontmatter map, not the note file's text or modification time. In the code `processFrontMatter` rewrites the file, so a note rewritten by the bulk context update, the context-format repair or the prior-hash store counts as updated for the next `getUpdatedNotes`; `Selection.GetUpdatedNotes` in the model does not see those writes.
- ContentIndex.ContentIndexManager.LoadIndex: a document that parses to something other than an object (`null`, an array, a number) is treated like a failed read and gives an empty index. The code caches whatever `JSON.parse` returns, so `null` makes a later `index[uid] = entry` throw and an array loses its entries when written back; the model does not capture these outcomes.
- Mappings.MappingManager.LoadProfileMappings: a mapping document that parses but is not an object of strings is treated like a failed read, so both tables are reset and rewritten. The code keeps whatever `JSON.parse` returns, for instance a number-valued entry.
- Js.Value: numbers are integers (`Num(n: int)`), so a fractional frontmatter value such as `[1.5]` in the contexts field or the CSV preview cannot be represented.
- Comparisons the code makes by `JSON.stringify` are modelled as equality of values. The two differ only for values `JSON.stringify` cannot tell apart.
- `new Set` deduplicates objects by reference; the model deduplicates by value.
- Plugin.CommonplaceNotesPlugin.FixPublishContextsFormat: the scan that fills the misconfigured list when it is empty, and the `try`/`catch` around each repair, are not modelled. The list is a parameter, and a repair is taken never to throw.
- `rebuildContentIndex`, `checkPublishContextsFormat` and the other command wrappers in src/main.ts only call modelled operations, log or show notices.
- Plugin.EncodeUriComponent: characters are Unicode scalar values. JavaScript's UTF-16 code units, lone surrogates and the `URIError` they raise are not modelled.
- Plugin.CsvShape: `writePreviewCSV` does not escape double quotes or line breaks inside fields, so the shape is proved only for fields without line breaks.
- Publisher.Publisher.PublishNotes: the staged contents at upload are stated for a failed upload and for a completed run that records no publish time. When the publish time is recorded, staging is evaluated against the settings as they were before that write, which only `Publisher.Publisher.Deliver` states.
- Publisher.Publisher.PublishNotes: only a staging write or a mapping or content-index save can throw inside the run's `try`. The queue loop (`queueNote`), the `ensureDirectory` calls, the cleanup of the staging directory (`deleteFilesInDirectory`) and `saveSettings` are taken never to throw, so a run that passes the upload always completes and empties staging; in the code a throw in any of them goes to `handlePublishError` instead. The same holds for `Publisher.Publisher.Deliver` and `Publisher.Publisher.Finish`.
- Publisher.Publisher.QueueAll: states which pending keys the loop adds, not the state stored under each key. That state is stated by `Notes.NoteManager.QueueNote` for a single note.
- PathUtils.SlugifyFilePath: the result can start with `/` (for instance for `?/a.md`). `PathUtils.SlugifyFilePathLeadingSlash` states exactly when this happens, instead of a claim that it never does.
- The root copies `main.ts` and `src/convert/html.ts` are superseded converters and are not modelled. Neither are the settings panel, the DOM indicators, the notice timers or the template fetch.

## Findings

| source | as written | input that shows it | evidently intended | confidence | as-written member | corrected member |
|---|---|---|---|---|---|---|
| src/utils/uid.ts:22 | `r.replace('/', '_')` with a string pattern replaces only the first `/` | a UUID whose first three hex digits are `fff` encodes its first group as `//`, so the UID starts `_/` | every `/` replaced, giving a UID that is safe in URLs and file names | not executed | Uid.LaterSlashesRemain | Uid.UrlSafeUid |
| src/publish/local.ts:23 | `publishLocalNotes` calls `getCombinedLocalNotesPath`, which `ProfileManager` (src/utils/profiles.ts) does not define | any profile whose `publishMechanism` is `'Local'`: the call throws, the catch returns false, and the combined file is never written | the combined file is written to the profile's local output path | not executed | Local.LocalProfileNeverWritten | Local.PublishLocalNotes |

=== FILE: aws_cli.dfy ===
/**
 * The AWS CLI command choice of src/utils/awsCli.ts: a profile's non-blank
 * `awsCliPath`, trimmed, or the default `aws`.
 */
module AwsCli {
  import opened Wrappers
  import opened Js
  import opened Types

  /** Every character of `s` is whitespace (so `s.trim()` is empty). */
  predicate Blank(s: string) {
    forall i :: 0 <= i < |s| ==> IsWhitespace(s[i])
  }

  /**
   * `customPath && customPath.trim() ? customPath.trim() : 'aws'`; the empty
   * string, which is falsy, trims to the empty string, so one test covers both.
   */
  function CliCommand(customPath: Option<string>): (r: string)
    ensures r != []
    ensures customPath.Some? && !Blank(customPath.value) ==> r == Trim(customPath.value)
    ensures customPath.None? || Blank(customPath.value) ==> r == "aws"
  {
    if customPath.Some? && Trim(customPath.value) != [] then Trim(customPath.value) else "aws"
  }

  /** `getAwsCliCommand(profileId)` over the configured profiles. */
  function AwsCliCommand(profiles: seq<Profile>, profileId: string): (r: string)
    ensures r != []
    ensures FindProfile(profiles, profileId).None? ==> r == "aws"
    ensures FindProfile(profiles, profileId).Some? && FindProfile(profiles, profileId).value.awsSettings.None? ==> r == "aws"
  {
    match FindProfile(profiles, profileId)
    case None => "aws"
    case Some(profile) =>
      if profile.awsSettings.None? then "aws" else CliCommand(profile.awsSettings.value.awsCliPath)
  }

  /** `getAwsCliCommandFromProfile(profile)` */
  function AwsCliCommandFromProfile(profile: Profile): (r: string)
    ensures r != []
  {
    CliCommand(if profile.awsSettings.Some? then profile.awsSettings.value.awsCliPath else None)
  }

  /**
   * The two lookups agree for the profile `find` would pick: the custom path,
   * trimmed, when it is set and not blank, and `aws` otherwise.
   */
  lemma FromProfileAgrees(profiles: seq<Profile>, profile: Profile)
    ensures FindProfile(profiles, profile.id) == Some(profile) ==>
      AwsCliCommandFromProfile(profile) == AwsCliCommand(profiles, profile.id)
    ensures var path := if profile.awsSettings.Some? then profile.awsSettings.value.awsCliPath else None;
      AwsCliCommandFromProfile(profile) == if path.Some? && !Blank(path.value) then Trim(path.value) else "aws"
  {
  }
}

=== FILE: content_index.dfy ===
/**
 * The per-profile search index of src/utils/contentIndex.ts: entries are
 * queued per profile and uid, then merged into the cached index with
 * overwrite semantics and written as `<plugin dir>/content/<id>/contentIndex.json`.
 * `convertMarkdownToPlaintext` is not part of this model: its outcome is a
 * parameter, `None` where it throws. A document that parses to anything but
 * an object is treated like one that fails to parse.
 */
module ContentIndex {
  import opened Wrappers
  import opened Js
  import Host

  /** `ContentEntry` */
  datatype Entry = Entry(title: string, content: string)

  /** `ContentIndex`: uid to entry, as the parsed document holds it. */
  type Index = map<string, Value>

  /** The JSON object an entry is stored as. */
  function EntryValue(e: Entry): Value {
    Obj(map["title" := Str(e.title), "content" := Str(e.content)])
  }

  /** The index `JSON.parse` gives for a file's content, or `None` where reading or parsing throws. */
  function ParseIndex(c: Option<Host.Content>): Option<Index> {
    if c.Some? && c.value.Json? && c.value.value.Obj? then Some(c.value.value.fields) else None
  }

  /** The entry `queueUpdate` makes for a file: its basename as title, and as content when the plaintext conversion fails. */
  function EntryFor(file: Host.File, plaintext: Option<string>): Entry {
    Entry(file.basename, plaintext.GetOr(file.basename))
  }

  /** The pending updates after queuing `entry` for the profile and uid. */
  function Enqueue(pending: map<string, Index>, profileId: string, uid: string, entry: Entry): (r: map<string, Index>)
    ensures profileId in r && uid in r[profileId] && r[profileId][uid] == EntryValue(entry)
    ensures forall p :: p != profileId ==> (p in r <==> p in pending) && (p in r ==> r[p] == pending[p])
    ensures forall u :: u != uid && profileId in pending && u in pending[profileId] ==> u in r[profileId] && r[profileId][u] == pending[profileId][u]
  {
    pending[profileId := (if profileId in pending then pending[profileId] else map[])[uid := EntryValue(entry)]]
  }

  /** A later update for the same profile and uid replaces the earlier one. */
  lemma EnqueueOverwrites(pending: map<string, Index>, profileId: string, uid: string, first: Entry, second: Entry)
    ensures Enqueue(Enqueue(pending, profileId, uid, first), profileId, uid, second) == Enqueue(pending, profileId, uid, second)
  {
    var once := Enqueue(pending, profileId, uid, first);
    assert once[profileId][uid := EntryValue(second)] == (if profileId in pending then pending[profileId] else map[])[uid := EntryValue(second)];
  }

  /** One more queued entry done is one more assignment `index[uid] = entry`. */
  lemma AssignStep(index: Index, updates: Index, rest: set<string>, uid: string)
    requires uid in rest && uid in updates
    ensures index + Done(updates, rest - {uid}) == (index + Done(updates, rest))[uid := updates[uid]]
  {
    var after := index + Done(updates, rest - {uid});
    var wanted := (index + Done(updates, rest))[uid := updates[uid]];
    forall k ensures (k in after <==> k in wanted) && (k in after ==> after[k] == wanted[k]) {
      if k != uid {
        assert k in Done(updates, rest - {uid}) <==> k in Done(updates, rest);
      }
    }
  }

  class ContentIndexManager {
    /** `pendingUpdates`: per profile, uid to the entry's JSON object. */
    var pending: map<string, Index>
    var loaded: map<string, Index>
    const contentDir: string
    const adapter: Host.Adapter

    constructor (pluginDir: string, adapter: Host.Adapter)
      ensures contentDir == pluginDir + "/content" && pending == map[] && loaded == map[] && this.adapter == adapter
    {
      this.contentDir := pluginDir + "/content";
      this.pending := map[];
      this.loaded := map[];
      this.adapter := adapter;
    }

    function ProfileContentDir(id: string): string {
      contentDir + "/" + id
    }

    function IndexPath(id: string): string {
      ProfileContentDir(id) + "/contentIndex.json"
    }

    /** The index `loadIndex(id)` gives: the cached one, else the file's, else an empty one. */
    function IndexOf(id: string): Index
      reads this, adapter
    {
      if id in loaded then loaded[id] else ParseIndex(adapter.Read(IndexPath(id))).GetOr(map[])
    }

    /** `loadIndex(profileId)`: repeat calls give the cached index; a failed read or parse caches an empty one. */
    method LoadIndex(profileId: string) returns (index: Index)
      modifies this, adapter
      ensures index == old(IndexOf(profileId))
      ensures loaded == old(loaded)[profileId := index] && pending == old(pending)
      ensures profileId in old(loaded) ==> adapter.ensured == old(adapter.ensured)
      ensures profileId !in old(loaded) ==> adapter.ensured == old(adapter.ensured) + [ProfileContentDir(profileId)]
      ensures adapter.files == old(adapter.files)
    {
      if profileId in loaded {
        return loaded[profileId];
      }
      adapter.EnsureDirectory(ProfileContentDir(profileId));
      var parsed := ParseIndex(adapter.Read(IndexPath(profileId)));
      if parsed.Some? {
        index := parsed.value;
      } else {
        index := map[];
      }
      loaded := loaded[profileId := index];
    }

    /**
     * `queueUpdate(profileId, file, uid)`: the entry's title is the file's basename, and so
     * is its content when the plaintext conversion fails; a later call for the same uid wins.
     */
    method QueueUpdate(profileId: string, file: Host.File, uid: string, plaintext: Option<string>)
      modifies this
      ensures pending == Enqueue(old(pending), profileId, uid, EntryFor(file, plaintext))
      ensures loaded == old(loaded)
    {
      var content := if plaintext.Some? then plaintext.value else file.basename;
      var entry := Entry(file.basename, content);
      if profileId !in pending {
        pending := pending[profileId := map[]];
      }
      pending := pending[profileId := pending[profileId][uid := EntryValue(entry)]];
    }

    /**
     * `applyQueuedUpdates(profileId)`. With nothing queued for the profile nothing is
     * written. Otherwise every queued entry is assigned into the cached index object,
     * which is then written; only after the write succeeds is the profile's queue dropped.
     */
    method ApplyQueuedUpdates(profileId: string) returns (ok: bool)
      modifies this, adapter
      ensures profileId !in old(pending) ==>
        && ok && pending == old(pending) && loaded == old(loaded)[profileId := old(IndexOf(profileId))]
        && adapter.files == old(adapter.files)
      ensures profileId in old(pending) ==>
        && loaded == old(loaded)[profileId := old(IndexOf(profileId)) + old(pending)[profileId]]
        && ok == (IndexPath(profileId) !in adapter.failing)
        && (ok ==> pending == old(pending) - {profileId}
                   && adapter.files == old(adapter.files)[IndexPath(profileId) := Host.Json(Obj(old(IndexOf(profileId)) + old(pending)[profileId]))])
        && (!ok ==> pending == old(pending) && adapter.files == old(adapter.files))
    {
      var index := LoadIndex(profileId);
      if profileId !in pending {
        return true;
      }
      ok := MergeAndSave(profileId, index);
    }

    /**
     * The part of `applyQueuedUpdates` after the index is loaded: the queued entries are
     * assigned into the cached index object, which is then written.
     */
    method MergeAndSave(profileId: string, index: Index) returns (ok: bool)
      requires profileId in pending && profileId in loaded && loaded[profileId] == index
      modifies this, adapter
      ensures loaded == old(loaded)[profileId := index + old(pending)[profileId]]
      ensures ok == (IndexPath(profileId) !in adapter.failing)
      ensures ok ==> pending == old(pending) - {profileId}
                     && adapter.files == old(adapter.files)[IndexPath(profileId) := Host.Json(Obj(index + old(pending)[profileId]))]
      ensures !ok ==> pending == old(pending) && adapter.files == old(adapter.files)
    {
      var merged := AssignAll(index, pending[profileId]);
      // the loop assigns into the cached object itself, so the cache holds the entries even if the write fails
      loaded := loaded[profileId := merged];
      ok := SaveIndex(profileId, merged);
      if ok {
        pending := pending - {profileId};
      }
    }

    /** The loop `for (const [uid, entry] of updates) index[uid] = entry`. */
    static method AssignAll(index: Index, updates: Index) returns (r: Index)
      ensures r == index + updates
    {
      r := index;
      var rest := updates.Keys;
      while rest != {}
        invariant rest <= updates.Keys
        invariant r == index + Done(updates, rest)
        decreases rest
      {
        var uid :| uid in rest;
        AssignStep(index, updates, rest, uid);
        r := r[uid := updates[uid]];
        rest := rest - {uid};
      }
      assert Done(updates, rest) == updates;
    }

    /** `saveIndex(profileId, index)`; `ok` is false where the write throws. */
    method SaveIndex(profileId: string, index: Index) returns (ok: bool)
      modifies this, adapter
      ensures ok == (IndexPath(profileId) !in adapter.failing)
      ensures ok ==> adapter.files == old(adapter.files)[IndexPath(profileId) := Host.Json(Obj(index))] && loaded == old(loaded)[profileId := index]
      ensures !ok ==> adapter.files == old(adapter.files) && loaded == old(loaded)
      ensures pending == old(pending) && adapter.ensured == old(adapter.ensured)
    {
      ok := adapter.Write(IndexPath(profileId), Host.Json(Obj(index)));
      if ok {
        loaded := loaded[profileId := index];
      }
    }
  }
}

=== FILE: frontmatter.dfy ===
/**
 * The deferred frontmatter writes of src/utils/frontmatter.ts: `add` merges
 * updates into one pending record per file path, `process` applies every
 * record whose path is still a vault file and empties the queue, and
 * `updateFrontmatter` deletes the keys given as `undefined` and sets the others.
 * `processFrontMatter` is taken never to fail.
 */
module Frontmatter {
  import opened Wrappers
  import opened Js
  import Host

  type Record = map<string, Value>

  /** The frontmatter `processFrontMatter` hands to its callback: the note's, or a fresh `{}`. */
  function Get(fm: map<string, Record>, path: string): Record {
    if path in fm then fm[path] else map[]
  }

  /** The frontmatter after `updateFrontmatter(file, updates)`. */
  function ApplyUpdates(fm: Record, updates: Record): (r: Record)
    ensures forall k :: k in updates && updates[k] == Undefined ==> k !in r
    ensures forall k :: k in updates && updates[k] != Undefined ==> k in r && r[k] == updates[k]
    ensures forall k :: k !in updates ==> (k in r <==> k in fm) && (k in r ==> r[k] == fm[k])
  {
    map k | k in fm.Keys + updates.Keys && !(k in updates && updates[k] == Undefined) ::
      if k in updates then updates[k] else fm[k]
  }

  /** `Object.assign(pending, updates)`: later values win, other keys stay. */
  function Merge(pending: Record, updates: Record): (r: Record)
    ensures forall k :: k in r <==> k in pending || k in updates
    ensures forall k :: k in updates ==> r[k] == updates[k]
    ensures forall k :: k in pending && k !in updates ==> r[k] == pending[k]
  {
    pending + updates
  }

  /**
   * Applying a merged record is applying its parts one after the other: queuing
   * two updates for a file and processing once has the effect of two writes.
   */
  lemma MergeThenApply(fm: Record, first: Record, second: Record)
    ensures ApplyUpdates(fm, Merge(first, second)) == ApplyUpdates(ApplyUpdates(fm, first), second)
  {
    var l := ApplyUpdates(fm, Merge(first, second));
    var r := ApplyUpdates(ApplyUpdates(fm, first), second);
    forall k ensures (k in l <==> k in r) && (k in l ==> l[k] == r[k]) {
      if k in second {
      } else if k in first {
      }
    }
  }

  /** Writing the same updates twice changes nothing the first write did not. */
  lemma ApplyUpdatesIdempotent(fm: Record, updates: Record)
    ensures ApplyUpdates(ApplyUpdates(fm, updates), updates) == ApplyUpdates(fm, updates)
  {
    var once := ApplyUpdates(fm, updates);
    var twice := ApplyUpdates(once, updates);
    forall k ensures (k in twice <==> k in once) && (k in twice ==> twice[k] == once[k]) {
    }
  }

  predicate IsFile(files: seq<Host.File>, path: string) {
    Host.FileByPath(files, path).Some?
  }

  /** The frontmatter after `process()` applied the records of `queue` whose paths are in `done`. */
  function Processed(fm: map<string, Record>, queue: map<string, Record>, done: set<string>, files: seq<Host.File>): (r: map<string, Record>)
    ensures forall p :: p in queue && p in done && IsFile(files, p) ==> p in r && r[p] == ApplyUpdates(Get(fm, p), queue[p])
    ensures forall p :: !(p in queue && p in done && IsFile(files, p)) ==> (p in r <==> p in fm) && (p in r ==> r[p] == fm[p])
  {
    map p | p in fm.Keys + queue.Keys && (p in fm || (p in done && IsFile(files, p))) ::
      if p in queue && p in done && IsFile(files, p) then ApplyUpdates(Get(fm, p), queue[p]) else fm[p]
  }

  /** One more key of `updates` done is one more key deleted or set. */
  lemma ApplyStep(fm: Record, updates: Record, rest: set<string>, key: string)
    requires key in rest && key in updates
    ensures var before := ApplyUpdates(fm, Done(updates, rest));
      ApplyUpdates(fm, Done(updates, rest - {key})) ==
        if updates[key] == Undefined then before - {key} else before[key := updates[key]]
  {
    var before := ApplyUpdates(fm, Done(updates, rest));
    var after := ApplyUpdates(fm, Done(updates, rest - {key}));
    var wanted := if updates[key] == Undefined then before - {key} else before[key := updates[key]];
    forall k ensures (k in after <==> k in wanted) && (k in after ==> after[k] == wanted[k]) {
      if k != key {
        assert k in Done(updates, rest - {key}) <==> k in Done(updates, rest);
      }
    }
  }

  /** One more path of the queue done is one more record applied, when the path is a file. */
  lemma ProcessedStep(fm: map<string, Record>, queue: map<string, Record>, done: set<string>, files: seq<Host.File>, p: string)
    requires p !in done && p in queue
    ensures var before := Processed(fm, queue, done, files);
      Processed(fm, queue, done + {p}, files) ==
        if IsFile(files, p) then before[p := ApplyUpdates(Get(before, p), queue[p])] else before
  {
    var before := Processed(fm, queue, done, files);
    var after := Processed(fm, queue, done + {p}, files);
    var wanted := if IsFile(files, p) then before[p := ApplyUpdates(Get(before, p), queue[p])] else before;
    assert Get(before, p) == Get(fm, p);
    forall q ensures (q in after <==> q in wanted) && (q in after ==> after[q] == wanted[q]) {
    }
  }

  class FrontmatterManager {
    var queue: map<string, Record>
    const app: Host.App

    constructor (app: Host.App)
      ensures this.app == app && queue == map[]
    {
      this.app := app;
      this.queue := map[];
    }

    /** `add(file, updates)` */
    method Add(file: Host.File, updates: Record)
      modifies this
      ensures queue == old(queue)[file.path := Merge(Get(old(queue), file.path), updates)]
    {
      var path := file.path;
      if path !in queue {
        queue := queue[path := map[]];
      }
      queue := queue[path := Merge(queue[path], updates)];
    }

    /** `updateFrontmatter(file, updates)`: the callback's loop over the entries of `updates`. */
    method UpdateFrontmatter(file: Host.File, updates: Record)
      modifies app
      ensures app.frontmatter == old(app.frontmatter)[file.path := ApplyUpdates(Get(old(app.frontmatter), file.path), updates)]
      ensures app.files == old(app.files)
    {
      var fm0 := Get(app.frontmatter, file.path);
      var fm := fm0;
      var rest := updates.Keys;
      while rest != {}
        invariant rest <= updates.Keys
        invariant fm == ApplyUpdates(fm0, Done(updates, rest))
        invariant app.frontmatter == old(app.frontmatter) && app.files == old(app.files)
        decreases rest
      {
        var key :| key in rest;
        ApplyStep(fm0, updates, rest, key);
        if updates[key] == Undefined {
          fm := fm - {key};
        } else {
          fm := fm[key := updates[key]];
        }
        rest := rest - {key};
      }
      assert Done(updates, rest) == updates;
      app.frontmatter := app.frontmatter[file.path := fm];
    }

    /** `process()`: every queued record whose path is still a file is applied; the queue is then empty. */
    method Process()
      modifies this, app
      ensures queue == map[]
      ensures app.frontmatter == Processed(old(app.frontmatter), old(queue), old(queue).Keys, old(app.files))
      ensures app.files == old(app.files)
    {
      var rest := queue.Keys;
      while rest != {}
        invariant rest <= queue.Keys && queue == old(queue)
        invariant app.files == old(app.files)
        invariant app.frontmatter == Processed(old(app.frontmatter), queue, queue.Keys - rest, app.files)
        decreases rest
      {
        var path :| path in rest;
        ProcessedStep(old(app.frontmatter), queue, queue.Keys - rest, app.files, path);
        assert queue.Keys - (rest - {path}) == (queue.Keys - rest) + {path};
        var file := Host.FileByPath(app.files, path);
        if file.Some? {
          UpdateFrontmatter(file.value, queue[path]);
        }
        rest := rest - {path};
      }
      queue := map[];
    }

    /** `hasUpdates()` */
    function HasUpdates(): (r: bool)
      reads this
      ensures r <==> GetQueueSize() > 0
    {
      queue != map[]
    }

    /** `getQueueSize()`: the number of distinct paths with a pending record. */
    function GetQueueSize(): nat
      reads this
    {
      |queue|
    }

    /** `clear()`: the queue is emptied and nothing is applied. */
    method Clear()
      modifies this
      ensures queue == map[]
    {
      queue := map[];
    }
  }
}

=== FILE: host.dfy ===
/**
 * The parts of Obsidian the plugin reads and writes, as plain state.
 *
 * `Adapter` is `app.vault.adapter`: a map from path to file content, the
 * directories `PathUtils.ensureDirectory` was asked for (in call order) and
 * the paths whose writes fail. JSON documents are kept as the values
 * `JSON.stringify` was given, so that `JSON.parse` gives them back; a file
 * holding anything else is text `JSON.parse` rejects.
 *
 * `App` is the vault and its metadata cache: the vault's files in vault
 * order, their text, their frontmatter (the only part the plugin changes),
 * the end offset of each frontmatter block, `resolvedLinks` with its keys in
 * object order, `getFirstLinkpathDest` as a lookup table, and each note's UID.
 * `getNoteUID`, `getFrontmatterValue`, `ensureDirectory` and
 * `deleteFilesInDirectory` are not part of this model: they are called by the
 * plugin but defined outside its source, and are modelled here by what their
 * names and call sites say.
 */
module Host {
  import opened Wrappers
  import opened Js

  /** `TFile`: a vault file. */
  datatype File = File(path: string, basename: string, extension: string, mtime: int)

  /** What a file of the adapter holds. */
  datatype Content = Json(value: Value) | Text(text: string)

  /** `p` names a file directly inside directory `dir`. */
  predicate InDir(p: string, dir: string) {
    |p| > |dir| + 1 && p[..|dir| + 1] == dir + "/" && '/' !in p[|dir| + 1..]
  }

  predicate NoDuplicates<T(==)>(s: seq<T>) {
    forall i, j :: 0 <= i < j < |s| ==> s[i] != s[j]
  }

  /** `k` is in both maps or in neither, with the same value. */
  predicate Same<V(==)>(a: map<string, V>, b: map<string, V>, k: string) {
    (k in a <==> k in b) && (k in a ==> a[k] == b[k])
  }

  /** The files of `files` that are not directly inside `dir`. */
  function Without(files: map<string, Content>, dir: string): (r: map<string, Content>)
    ensures forall p :: p in r <==> p in files && !InDir(p, dir)
    ensures forall p :: p in r ==> r[p] == files[p]
  {
    map p | p in files && !InDir(p, dir) :: files[p]
  }

  class Adapter {
    var files: map<string, Content>
    var ensured: seq<string>
    const failing: set<string>

    constructor (files: map<string, Content>, failing: set<string>)
      ensures this.files == files && ensured == [] && this.failing == failing
    {
      this.files := files;
      this.ensured := [];
      this.failing := failing;
    }

    /** `adapter.read(path)`: the content, or `None` where the read throws. */
    function Read(path: string): Option<Content>
      reads this
    {
      if path in files then Some(files[path]) else None
    }

    /** `PathUtils.ensureDirectory(plugin, dir)` */
    method EnsureDirectory(dir: string)
      modifies this
      ensures ensured == old(ensured) + [dir] && files == old(files)
    {
      ensured := ensured + [dir];
    }

    /** `adapter.write(path, content)`; `ok` is false where the write throws. */
    method Write(path: string, content: Content) returns (ok: bool)
      modifies this
      ensures ok == (path !in failing)
      ensures files == if ok then old(files)[path := content] else old(files)
      ensures ensured == old(ensured)
    {
      ok := path !in failing;
      if ok {
        files := files[path := content];
      }
    }

    /** `adapter.copy(from, to)`; `ok` is false where the copy throws. */
    method Copy(from: string, to: string) returns (ok: bool)
      modifies this
      ensures ok == (from in old(files) && to !in failing)
      ensures files == if ok then old(files)[to := old(files)[from]] else old(files)
      ensures ensured == old(ensured)
    {
      ok := from in files && to !in failing;
      if ok {
        files := files[to := files[from]];
      }
    }

    /** `adapter.list(dir).files`: every file directly inside `dir`, once each, in the adapter's order. */
    method List(dir: string) returns (paths: seq<string>)
      ensures forall p :: p in paths <==> p in files && InDir(p, dir)
      ensures NoDuplicates(paths)
    {
      var rest := files.Keys;
      paths := [];
      while rest != {}
        invariant rest <= files.Keys
        invariant forall p :: p in paths <==> p in files && InDir(p, dir) && p !in rest
        invariant NoDuplicates(paths)
        decreases rest
      {
        var p :| p in rest;
        if InDir(p, dir) {
          paths := paths + [p];
        }
        rest := rest - {p};
      }
    }

    /** `deleteFilesInDirectory(plugin, dir)`: every file directly inside `dir` is removed. */
    method ClearDirectory(dir: string)
      modifies this
      ensures files == Without(old(files), dir) && ensured == old(ensured)
    {
      files := Without(files, dir);
    }
  }

  /** The first vault file with that path (`vault.getAbstractFileByPath(path) instanceof TFile`). */
  function FileByPath(files: seq<File>, path: string): (r: Option<File>)
    ensures r.Some? ==> r.value in files && r.value.path == path
    ensures r.None? ==> forall i :: 0 <= i < |files| ==> files[i].path != path
  {
    if files == [] then None
    else if files[0].path == path then Some(files[0])
    else FileByPath(files[1..], path)
  }

  /** An object's keys in order, each with its value, as `Object.entries` gives them. */
  type Entries<T> = seq<(string, T)>

  /** `obj[key]`, or `None` when the object has no such key. */
  function Lookup<T>(entries: Entries<T>, key: string): Option<T> {
    if entries == [] then None
    else if entries[0].0 == key then Some(entries[0].1)
    else Lookup(entries[1..], key)
  }

  function Keys<T>(entries: Entries<T>): (r: seq<string>)
    ensures |r| == |entries|
    ensures forall i :: 0 <= i < |r| ==> r[i] == entries[i].0
  {
    if entries == [] then [] else [entries[0].0] + Keys(entries[1..])
  }

  /** A JavaScript `Map` with string keys: its entries, and its keys in insertion order. */
  datatype OrderedMap<T> = OrderedMap(entries: map<string, T>, order: seq<string>) {
    ghost predicate Valid() {
      NoDuplicates(order) && forall k :: k in entries <==> k in order
    }

    /** `map.set(key, value)`: a present key keeps its place, a new one goes last. */
    function Set(key: string, value: T): (r: OrderedMap<T>)
      ensures Valid() ==> r.Valid()
      ensures r.entries == entries[key := value]
    {
      OrderedMap(entries[key := value], if key in entries then order else order + [key])
    }

    /** `map.delete(key)` */
    function Delete(key: string): (r: OrderedMap<T>)
      ensures Valid() ==> r.Valid()
      ensures r.entries == entries - {key}
      ensures forall k :: k in r.order <==> k in order && k != key
    {
      OrderedMap(entries - {key}, OmitKey(order, key))
    }

    /** `Array.from(map.entries())` */
    function Items(): (r: seq<(string, T)>)
      requires Valid()
      ensures |r| == |order|
      ensures forall i :: 0 <= i < |r| ==> r[i] == (order[i], entries[order[i]])
    {
      seq(|order|, i requires 0 <= i < |order| => (order[i], entries[order[i]]))
    }

    /** `Array.from(map.values())` */
    function Values(): (r: seq<T>)
      requires Valid()
      ensures |r| == |order|
      ensures forall i :: 0 <= i < |r| ==> r[i] == entries[order[i]]
    {
      seq(|order|, i requires 0 <= i < |order| => entries[order[i]])
    }
  }

  /** `keys` without `key`, in order. */
  function OmitKey(keys: seq<string>, key: string): (r: seq<string>)
    ensures forall k :: k in r <==> k in keys && k != key
    ensures NoDuplicates(keys) ==> NoDuplicates(r)
  {
    if keys == [] then []
    else
      var rest := OmitKey(keys[1..], key);
      assert NoDuplicates(keys) ==> keys[0] !in keys[1..] && NoDuplicates(keys[1..]);
      (if keys[0] == key then [] else [keys[0]]) + rest
  }

  /** `vault.getMarkdownFiles()`: the vault files with extension `md`, in vault order. */
  function MarkdownFiles(files: seq<File>): (r: seq<File>)
    ensures forall f :: f in r <==> f in files && f.extension == "md"
  {
    if files == [] then []
    else (if files[0].extension == "md" then [files[0]] else []) + MarkdownFiles(files[1..])
  }

  class App {
    var files: seq<File>
    var frontmatter: map<string, map<string, Value>>
    const contents: map<string, string>
    const frontmatterEnd: map<string, nat>
    const resolvedLinks: Entries<Entries<int>>
    const linkDest: map<(string, string), string>
    const uids: map<string, string>
    const adapter: Adapter

    constructor (files: seq<File>, frontmatter: map<string, map<string, Value>>, contents: map<string, string>,
                 frontmatterEnd: map<string, nat>, resolvedLinks: Entries<Entries<int>>,
                 linkDest: map<(string, string), string>, uids: map<string, string>, adapter: Adapter)
      ensures this.files == files && this.frontmatter == frontmatter && this.contents == contents
      ensures this.frontmatterEnd == frontmatterEnd && this.resolvedLinks == resolvedLinks
      ensures this.linkDest == linkDest && this.uids == uids && this.adapter == adapter
    {
      this.files := files;
      this.frontmatter := frontmatter;
      this.contents := contents;
      this.frontmatterEnd := frontmatterEnd;
      this.resolvedLinks := resolvedLinks;
      this.linkDest := linkDest;
      this.uids := uids;
      this.adapter := adapter;
    }

    /** `getFrontmatterValue(file, key)`: `undefined` when the note has no frontmatter or no such key. */
    function FrontmatterValue(path: string, key: string): Value
      reads this
    {
      if path in frontmatter && key in frontmatter[path] then frontmatter[path][key] else Undefined
    }

    /** `getNoteUID(file)`: `None` stands for `null`. */
    function NoteUid(path: string): Option<string> {
      if path in uids then Some(uids[path]) else None
    }

    /** `metadataCache.getFirstLinkpathDest(link, sourcePath)`, as the path of the file found. */
    function LinkDest(link: string, sourcePath: string): Option<string> {
      if (link, sourcePath) in linkDest then Some(linkDest[(link, sourcePath)]) else None
    }

    /** `vault.read(file)`; a file the model has no text for reads as empty. */
    function Text(path: string): string {
      if path in contents then contents[path] else ""
    }
  }
}

=== FILE: js.dfy ===
/**
 * The JavaScript values and string operations the plugin relies on, with the
 * semantics of the ECMAScript built-ins they stand for.
 */
module Js {
  import opened Wrappers

  /** A JSON-like JavaScript value, as frontmatter fields and parsed JSON documents hold them. */
  datatype Value =
    | Undefined
    | Null
    | Bool(b: bool)
    | Num(n: int)
    | Str(s: string)
    | Arr(items: seq<Value>)
    | Obj(fields: map<string, Value>)

  /** JavaScript truthiness (`if (v)`, `v || d`, `!v`). */
  predicate Truthy(v: Value) {
    match v
    case Undefined => false
    case Null => false
    case Bool(b) => b
    case Num(n) => n != 0
    case Str(s) => s != []
    case Arr(_) => true
    case Obj(_) => true
  }

  /** `v || d` */
  function Or(v: Value, d: Value): (r: Value)
    ensures Truthy(v) ==> r == v
    ensures !Truthy(v) ==> r == d
  {
    if Truthy(v) then v else d
  }

  /** `String(n)` for a non-negative integer: its decimal digits. */
  function DecimalString(n: nat): (r: string)
    ensures |r| >= 1 && forall i :: 0 <= i < |r| ==> '0' <= r[i] <= '9'
  {
    var digit := "0123456789"[n % 10];
    if n < 10 then [digit] else DecimalString(n / 10) + [digit]
  }

  /** The number a string of decimal digits denotes, most significant digit first. */
  function DigitsValue(s: string): nat
    requires forall i :: 0 <= i < |s| ==> '0' <= s[i] <= '9'
  {
    if s == [] then 0 else DigitsValue(s[..|s| - 1]) * 10 + (s[|s| - 1] as int - '0' as int)
  }

  /** The digit character for `d` lies `d` code points above `'0'`. */
  lemma DigitCharValue(d: nat)
    requires d < 10
    ensures "0123456789"[d] as int - '0' as int == d
  {
    if d < 5 {
      assert d == 0 || d == 1 || d == 2 || d == 3 || d == 4;
    } else {
      assert d == 5 || d == 6 || d == 7 || d == 8 || d == 9;
    }
  }

  /** `DecimalString` reads back to the number it was made from, with no leading zero. */
  lemma {:induction false} DecimalStringReadsBack(n: nat)
    ensures DigitsValue(DecimalString(n)) == n
    ensures DecimalString(n)[0] == '0' <==> n == 0
  {
    var r := DecimalString(n);
    var d := n % 10;
    DigitCharValue(d);
    if n >= 10 {
      DecimalStringReadsBack(n / 10);
      assert r[..|r| - 1] == DecimalString(n / 10);
      assert r[0] == DecimalString(n / 10)[0];
    }
  }

  /** The characters matched by the regular-expression class `\s` and removed by `String.prototype.trim`. */
  predicate IsWhitespace(c: char) {
    || c == '\t' || c == '\n' || c == '\U{B}' || c == '\U{C}' || c == '\r' || c == ' '
    || c == '\U{A0}' || c == '\U{1680}' || ('\U{2000}' <= c <= '\U{200A}')
    || c == '\U{2028}' || c == '\U{2029}' || c == '\U{202F}' || c == '\U{205F}'
    || c == '\U{3000}' || c == '\U{FEFF}'
  }

  /** The line terminators, which the regular-expression wildcard `.` does not match. */
  predicate IsLineTerminator(c: char) {
    c == '\n' || c == '\r' || c == '\U{2028}' || c == '\U{2029}'
  }

  predicate IsAsciiAlnum(c: char) {
    ('A' <= c <= 'Z') || ('a' <= c <= 'z') || ('0' <= c <= '9')
  }

  function LowerChar(c: char): char {
    if 'A' <= c <= 'Z' then (c as int + 32) as char else c
  }

  /** `s.toLowerCase()` on the ASCII letters. */
  function Lower(s: string): (r: string)
    ensures |r| == |s|
    ensures forall i :: 0 <= i < |s| ==> r[i] == LowerChar(s[i])
  {
    seq(|s|, i requires 0 <= i < |s| => LowerChar(s[i]))
  }

  predicate StartsWith(s: string, prefix: string) {
    prefix <= s
  }

  predicate EndsWith(s: string, suffix: string) {
    |suffix| <= |s| && s[|s| - |suffix|..] == suffix
  }

  /** `t` occurs in `s` at position `j`. */
  predicate OccursAt(s: string, t: string, j: nat) {
    j + |t| <= |s| && s[j..j + |t|] == t
  }

  lemma OccursAtChar(s: string, c: char, j: nat)
    ensures OccursAt(s, [c], j) <==> j < |s| && s[j] == c
  {
    if j < |s| { assert s[j..j + 1] == [s[j]]; }
  }

  /** `s.indexOf(t)`: the first position at which `t` occurs in `s`, if any. */
  function IndexOf(s: string, t: string): (r: Option<nat>)
    ensures r.Some? ==> OccursAt(s, t, r.value)
    ensures forall j: nat :: j < (if r.Some? then r.value else |s| + 1) ==> !OccursAt(s, t, j)
    decreases |s|
  {
    if |s| < |t| then None
    else if s[..|t|] == t then Some(0)
    else
      OccursAtShift(s, t);
      match IndexOf(s[1..], t)
      case None => None
      case Some(i) => Some(i + 1)
  }

  /** An occurrence after the first character is an occurrence in the rest of the string. */
  lemma OccursAtShift(s: string, t: string)
    requires |s| >= 1
    ensures forall j: nat :: 1 <= j ==> (OccursAt(s, t, j) <==> OccursAt(s[1..], t, j - 1))
  {
    forall j: nat | 1 <= j ensures OccursAt(s, t, j) <==> OccursAt(s[1..], t, j - 1) {
      if j + |t| <= |s| { assert s[1..][j - 1..j - 1 + |t|] == s[j..j + |t|]; }
    }
  }

  /** `s.includes(t)` */
  predicate Includes(s: string, t: string) {
    IndexOf(s, t).Some?
  }

  /** `s.split(sep)` for a string separator: the pieces between the non-overlapping occurrences of `sep`, left to right. */
  function Split(s: string, sep: string): (r: seq<string>)
    ensures sep != [] ==> |r| >= 1
    decreases |s|
  {
    if sep == [] then seq(|s|, i requires 0 <= i < |s| => [s[i]])
    else match IndexOf(s, sep)
      case None => [s]
      case Some(i) => [s[..i]] + Split(s[i + |sep|..], sep)
  }

  /** `parts.join(sep)` */
  function Join(parts: seq<string>, sep: string): string {
    if |parts| == 0 then []
    else if |parts| == 1 then parts[0]
    else parts[0] + sep + Join(parts[1..], sep)
  }

  /** Splitting on a separator and joining with it gives back the string. */
  lemma {:induction false} JoinSplit(s: string, sep: string)
    requires sep != []
    ensures Join(Split(s, sep), sep) == s
    decreases |s|
  {
    if IndexOf(s, sep).Some? {
      var i := IndexOf(s, sep).value;
      JoinSplit(s[i + |sep|..], sep);
      JoinCons(s[..i], Split(s[i + |sep|..], sep), sep);
      SliceAround(s, sep, i);
    }
  }

  /** A string is the part before an occurrence, the occurrence and the part after. */
  lemma SliceAround(s: string, t: string, i: nat)
    requires OccursAt(s, t, i)
    ensures s == s[..i] + t + s[i + |t|..]
  {
    assert s == s[..i] + s[i..i + |t|] + s[i + |t|..];
  }

  lemma JoinCons(first: string, parts: seq<string>, sep: string)
    requires |parts| >= 1
    ensures Join([first] + parts, sep) == first + sep + Join(parts, sep)
  {
    assert ([first] + parts)[1..] == parts;
  }

  /** A one-character separator occurs nowhere before the position `IndexOf` finds. */
  lemma CharAbsentBefore(s: string, c: char, n: nat)
    requires n <= |s|
    requires forall j: nat :: j < n ==> !OccursAt(s, [c], j)
    ensures c !in s[..n]
  {
    forall j | 0 <= j < n ensures s[j] != c { OccursAtChar(s, c, j); }
  }

  /** No piece of a split on a one-character separator contains that character. */
  lemma {:induction false} SplitPartsAvoid(s: string, c: char)
    ensures forall k :: 0 <= k < |Split(s, [c])| ==> c !in Split(s, [c])[k]
    decreases |s|
  {
    match IndexOf(s, [c])
    case None =>
      CharAbsentBefore(s, c, |s|);
      assert s[..|s|] == s;
    case Some(i) =>
      SplitPartsAvoid(s[i + 1..], c);
      CharAbsentBefore(s, c, i);
      AvoidCons(c, s[..i], Split(s[i + 1..], [c]));
  }

  lemma AvoidCons(c: char, first: string, rest: seq<string>)
    requires c !in first && forall k :: 0 <= k < |rest| ==> c !in rest[k]
    ensures forall k :: 0 <= k < |[first] + rest| ==> c !in ([first] + rest)[k]
  {
  }

  /** Joining pieces that do not contain a one-character separator and splitting again gives back the pieces. */
  lemma {:induction false} SplitJoin(parts: seq<string>, c: char)
    requires |parts| >= 1
    requires forall k :: 0 <= k < |parts| ==> c !in parts[k]
    ensures Split(Join(parts, [c]), [c]) == parts
    decreases |parts|
  {
    var s := Join(parts, [c]);
    var p := parts[0];
    assert c !in p;
    forall j: nat | j < |p| ensures !OccursAt(s, [c], j) {
      OccursAtChar(s, c, j);
      if |parts| > 1 { assert s == p + [c] + Join(parts[1..], [c]); }
      assert s[j] == p[j];
    }
    if |parts| == 1 {
      forall j: nat | |p| <= j ensures !OccursAt(s, [c], j) { }
      assert IndexOf(s, [c]).None?;
    } else {
      var rest := Join(parts[1..], [c]);
      assert s == p + [c] + rest;
      OccursAtChar(s, c, |p|);
      assert IndexOf(s, [c]) == Some(|p|);
      assert s[..|p|] == p;
      assert s[|p| + 1..] == rest;
      SplitJoin(parts[1..], c);
    }
  }

  /** A one-character separator is found first at `i` when it occurs there and nowhere before. */
  lemma IndexOfChar(s: string, c: char, i: nat)
    requires i < |s| && s[i] == c && c !in s[..i]
    ensures IndexOf(s, [c]) == Some(i)
  {
    OccursAtChar(s, c, i);
    forall j: nat | j < i ensures !OccursAt(s, [c], j) {
      OccursAtChar(s, c, j);
      assert s[..i][j] == s[j];
    }
    var r := IndexOf(s, [c]);
    assert r.Some? && r.value <= i;
  }

  /** A string without the separator character splits into itself. */
  lemma SplitNoSeparator(b: string, c: char)
    requires c !in b
    ensures Split(b, [c]) == [b]
  {
    var r := IndexOf(b, [c]);
    if r.Some? {
      OccursAtChar(b, c, r.value);
    }
  }

  /** Splitting `a + c + b`, where `b` has no `c`, gives the pieces of `a` and then `b`. */
  lemma {:induction false} SplitAppendLast(a: string, b: string, c: char)
    requires c !in b
    ensures Split(a + [c] + b, [c]) == Split(a, [c]) + [b]
    decreases |a|
  {
    match IndexOf(a, [c])
    case None =>
      SplitAppendNoSeparator(a, b, c);
    case Some(i) =>
      SplitAppendFirst(a, b, c, i);
      SplitAppendLast(a[i + 1..], b, c);
  }

  /** The case of `SplitAppendLast` where `a` has no `c`. */
  lemma SplitAppendNoSeparator(a: string, b: string, c: char)
    requires c !in b && IndexOf(a, [c]).None?
    ensures Split(a + [c] + b, [c]) == [a, b]
  {
    var s := a + [c] + b;
    SplitNoSeparator(b, c);
    CharAbsentBefore(a, c, |a|);
    assert s[..|a|] == a[..|a|] == a;
    IndexOfChar(s, c, |a|);
    assert s[|a| + 1..] == b;
  }

  /** Where `a` first has a `c` at `i`, both splits start with `a[..i]` and go on from `a[i + 1..]`. */
  lemma SplitAppendFirst(a: string, b: string, c: char, i: nat)
    requires IndexOf(a, [c]) == Some(i)
    ensures i < |a|
    ensures Split(a, [c]) == [a[..i]] + Split(a[i + 1..], [c])
    ensures Split(a + [c] + b, [c]) == [a[..i]] + Split(a[i + 1..] + [c] + b, [c])
  {
    var s := a + [c] + b;
    OccursAtChar(a, c, i);
    CharAbsentBefore(a, c, i);
    assert s[..i] == a[..i];
    IndexOfChar(s, c, i);
    assert s[i + 1..] == a[i + 1..] + [c] + b;
  }

  /** `path.split('/').pop()`: what follows the last `/`. */
  function Basename(path: string): string {
    var parts := Split(path, "/");
    parts[|parts| - 1]
  }

  /** The basename of `dir/name` is `name` when `name` has no `/`. */
  lemma BasenameOf(dir: string, name: string)
    requires '/' !in name
    ensures Basename(dir + "/" + name) == name
  {
    SplitAppendLast(dir, name, '/');
  }

  /** Every character of a join comes from the separator or from one of the pieces. */
  lemma {:induction false} JoinChars(parts: seq<string>, sep: string, allowed: char -> bool)
    requires forall c :: c in sep ==> allowed(c)
    requires forall k, c :: 0 <= k < |parts| && c in parts[k] ==> allowed(c)
    ensures forall c :: c in Join(parts, sep) ==> allowed(c)
    decreases |parts|
  {
    if |parts| > 1 {
      JoinChars(parts[1..], sep, allowed);
      assert forall c :: c in parts[0] ==> allowed(c);
    } else if |parts| == 1 {
      assert forall c :: c in parts[0] ==> allowed(c);
    }
  }

  /** `s.replace(/[class]/g, replacement)` for a regular expression that matches one character of a class. */
  function ReplaceChars(s: string, matches: char -> bool, replacement: string): string {
    if s == [] then []
    else (if matches(s[0]) then replacement else [s[0]]) + ReplaceChars(s[1..], matches, replacement)
  }

  /** Replacing in two pieces and concatenating is replacing in the whole. */
  lemma {:induction false} ReplaceCharsAppend(a: string, b: string, matches: char -> bool, replacement: string)
    ensures ReplaceChars(a + b, matches, replacement) == ReplaceChars(a, matches, replacement) + ReplaceChars(b, matches, replacement)
    decreases |a|
  {
    if a == [] {
      assert a + b == b;
    } else {
      var head := if matches(a[0]) then replacement else [a[0]];
      assert (a + b)[0] == a[0];
      assert (a + b)[1..] == a[1..] + b;
      ReplaceCharsAppend(a[1..], b, matches, replacement);
      calc {
        ReplaceChars(a + b, matches, replacement);
        head + ReplaceChars(a[1..] + b, matches, replacement);
        head + (ReplaceChars(a[1..], matches, replacement) + ReplaceChars(b, matches, replacement));
        (head + ReplaceChars(a[1..], matches, replacement)) + ReplaceChars(b, matches, replacement);
        ReplaceChars(a, matches, replacement) + ReplaceChars(b, matches, replacement);
      }
    }
  }

  /** Every character of the result is an unmatched character of `s` or comes from the replacement. */
  lemma {:induction false} ReplaceCharsFrom(s: string, matches: char -> bool, replacement: string)
    ensures forall c :: c in ReplaceChars(s, matches, replacement) ==> (c in s && !matches(c)) || c in replacement
    decreases |s|
  {
    if s != [] {
      ReplaceCharsFrom(s[1..], matches, replacement);
      assert forall c :: c in s[1..] ==> c in s;
    }
  }

  /** `s.trimStart()` */
  function TrimStart(s: string): (r: string)
    ensures |r| <= |s| && r == s[|s| - |r|..]
    ensures forall i :: 0 <= i < |s| - |r| ==> IsWhitespace(s[i])
    ensures r == [] || !IsWhitespace(r[0])
  {
    if s != [] && IsWhitespace(s[0]) then TrimStart(s[1..]) else s
  }

  /** `s.trimEnd()` */
  function TrimEnd(s: string): (r: string)
    ensures |r| <= |s| && r == s[..|r|]
    ensures forall i :: |r| <= i < |s| ==> IsWhitespace(s[i])
    ensures r == [] || !IsWhitespace(r[|r| - 1])
  {
    if s != [] && IsWhitespace(s[|s| - 1]) then TrimEnd(s[..|s| - 1]) else s
  }

  /** `s.trim()` */
  function Trim(s: string): (r: string)
    ensures |r| <= |s|
    ensures r == [] || (!IsWhitespace(r[0]) && !IsWhitespace(r[|r| - 1]))
    ensures (forall i :: 0 <= i < |s| ==> IsWhitespace(s[i])) <==> r == []
  {
    var t := TrimStart(s);
    var r := TrimEnd(t);
    assert r != [] ==> r[0] == t[0];
    assert r == [] ==> t == [];
    r
  }

  /** The entries of `m` whose keys are not in `rest`: what a loop over the keys of an object has visited. */
  function Done<V>(m: map<string, V>, rest: set<string>): (r: map<string, V>)
    ensures forall k :: k in r <==> k in m && k !in rest
    ensures forall k :: k in r ==> r[k] == m[k]
  {
    map k | k in m && k !in rest :: m[k]
  }
}

=== FILE: line_numbers.dfy ===
/**
 * The node annotation of src/utils/remarkLineNumbers.ts: a node whose position
 * has a truthy start line gets `line` pushed onto its `className` list and its
 * `data-line` property set to that line, reusing the `data` and `hProperties`
 * objects it already has. The tree walk of `unist-util-visit` is not part of
 * this model; `Annotate` is what the visitor does to each node.
 */
module LineNumbers {
  import opened Wrappers
  import opened Js

  /** `node.data.hProperties`: the properties that become HTML attributes. */
  class Properties {
    var fields: map<string, Value>

    constructor ()
      ensures fields == map[]
    {
      fields := map[];
    }
  }

  /** `node.data`: its `hProperties` object, if any, and its other keys. */
  class NodeData {
    var hProperties: Properties?
    var fields: map<string, Value>

    constructor ()
      ensures hProperties == null && fields == map[]
    {
      hProperties := null;
      fields := map[];
    }
  }

  /** A syntax-tree node: `position?.start?.line` (`None` when absent) and its `data` object. */
  class MdNode {
    const startLine: Option<int>
    var data: NodeData?

    constructor (startLine: Option<int>, data: NodeData?)
      ensures this.startLine == startLine && this.data == data
    {
      this.startLine := startLine;
      this.data := data;
    }
  }

  /** `node.position?.start?.line` is truthy: present and not 0. */
  predicate HasLine(startLine: Option<int>) {
    startLine.Some? && startLine.value != 0
  }

  /** The classes a `className` value holds, when it is an array (`Array.isArray`). */
  function ClassList(className: Option<Value>): seq<Value> {
    if className.Some? && className.value.Arr? then className.value.items else []
  }

  /**
   * The properties after the annotation: the existing class array with `line`
   * appended (a fresh `['line']` when there was no array), `data-line` set to
   * the line, and every other key as it was.
   */
  function Annotated(fields: map<string, Value>, line: int): (r: map<string, Value>)
    ensures "className" in r && "data-line" in r && r["data-line"] == Num(line)
    ensures "className" in fields && fields["className"].Arr? ==> r["className"] == Arr(fields["className"].items + [Str("line")])
    ensures !("className" in fields && fields["className"].Arr?) ==> r["className"] == Arr([Str("line")])
    ensures forall k :: k != "className" && k != "data-line" ==> (k in r <==> k in fields) && (k in r ==> r[k] == fields[k])
  {
    var className := ClassList(if "className" in fields then Some(fields["className"]) else None);
    assert "className"[0] != "data-line"[0];
    assert [] + [Str("line")] == [Str("line")];
    fields["className" := Arr(className + [Str("line")])]["data-line" := Num(line)]
  }

  /** Annotating twice appends `line` twice: the annotation is not idempotent, but keeps the classes before it. */
  lemma AnnotatedTwice(fields: map<string, Value>, line: int)
    ensures var twice := Annotated(Annotated(fields, line), line);
      && twice["className"].Arr?
      && twice["className"].items == ClassList(if "className" in fields then Some(fields["className"]) else None) + [Str("line"), Str("line")]
      && twice["data-line"] == Num(line)
  {
    var once := Annotated(fields, line);
    var before := ClassList(if "className" in fields then Some(fields["className"]) else None);
    assert once["className"] == Arr(before + [Str("line")]);
    assert before + [Str("line")] + [Str("line")] == before + [Str("line"), Str("line")];
  }

  /** The fields of the properties object of `data`, `{}` when there is none. */
  function PropsFields(data: NodeData?): map<string, Value>
    reads data, if data != null then {data.hProperties} else {}
  {
    if data != null && data.hProperties != null then data.hProperties.fields else map[]
  }

  /** The visitor's body for one node. */
  method Annotate(node: MdNode)
    modifies node, node.data, if node.data != null then {node.data.hProperties} else {}
    ensures !HasLine(node.startLine) ==> node.data == old(node.data)
    ensures !HasLine(node.startLine) && node.data != null ==>
      node.data.hProperties == old(node.data.hProperties) && node.data.fields == old(node.data.fields)
      && PropsFields(node.data) == old(PropsFields(node.data))
    ensures HasLine(node.startLine) ==> node.data != null && node.data.hProperties != null
    ensures HasLine(node.startLine) ==> PropsFields(node.data) == Annotated(old(PropsFields(node.data)), node.startLine.value)
    ensures HasLine(node.startLine) && old(node.data) != null ==>
      node.data == old(node.data) && node.data.fields == old(node.data.fields)
    ensures HasLine(node.startLine) && old(node.data) != null && old(node.data.hProperties) != null ==>
      node.data.hProperties == old(node.data.hProperties)
    ensures HasLine(node.startLine) && old(node.data) == null ==> fresh(node.data) && node.data.fields == map[]
    ensures HasLine(node.startLine) && (old(node.data) == null || old(node.data.hProperties) == null) ==> fresh(node.data.hProperties)
  {
    if node.startLine.Some? && node.startLine.value != 0 {
      if node.data == null {
        node.data := new NodeData();
      }
      var data := node.data;
      if data.hProperties == null {
        data.hProperties := new Properties();
      }
      var props := data.hProperties;
      var className := if "className" in props.fields && props.fields["className"].Arr? then props.fields["className"].items else [];
      props.fields := props.fields["className" := Arr(className + [Str("line")])];
      props.fields := props.fields["data-line" := Num(node.startLine.value)];
    }
  }
}

=== FILE: link_processor.dfy ===
/**
 * The link and embed classification of LinkProcessor.ts. `getLinkData` walks
 * the metadata cache's links and embeds of one file, in cache order: a link
 * that `resolvedLinks` counts and whose target file is found is internal, one
 * that is not counted but parses as an absolute URL is external, any other is
 * dropped; an embed whose target file is found is kept with the media type of
 * its lower-cased extension. Whether `new URL(url)` accepts a string is not
 * part of this model: it is the parameter `isAbsoluteUrl`.
 */
module LinkProcessing {
  import opened Wrappers
  import opened Js
  import Host
  import PathUtils

  datatype EmbedType = Image | Audio | Video | Pdf | Other

  /** A `LinkCache` entry of the metadata cache: the link text and its display text. */
  datatype LinkCache = LinkCache(link: string, displayText: Option<string>)

  /** An `EmbedCache` entry of the metadata cache. */
  datatype EmbedCache = EmbedCache(link: string)

  /** `CachedMetadata`, reduced to its two lists; a list the cache does not have is `None`. */
  datatype FileCache = FileCache(links: Option<seq<LinkCache>>, embeds: Option<seq<EmbedCache>>)

  datatype InternalLink = InternalLink(path: string, alias: Option<string>, slug: string)
  datatype ExternalLink = ExternalLink(url: string, alias: Option<string>)
  datatype Embed = Embed(path: string, kind: EmbedType, slug: string)

  /** `LinkData` */
  datatype LinkData = LinkData(internal: seq<InternalLink>, external: seq<ExternalLink>, embeds: seq<Embed>)

  // ---------------------------------------------------------------------------
  // Extensions and media types

  /** The last position of `c` in `s`, if any. */
  function LastIndexOf(s: string, c: char): (r: Option<nat>)
    ensures r.Some? ==> r.value < |s| && s[r.value] == c && forall j :: r.value < j < |s| ==> s[j] != c
    ensures r.None? ==> forall j :: 0 <= j < |s| ==> s[j] != c
  {
    if s == [] then None
    else if s[|s| - 1] == c then Some(|s| - 1)
    else LastIndexOf(s[..|s| - 1], c)
  }

  /** The path without its trailing `/` characters, which `path.extname` skips. */
  function StripTrailingSlashes(p: string): (r: string)
    ensures r <= p && (r == [] || r[|r| - 1] != '/')
  {
    if p != [] && p[|p| - 1] == '/' then StripTrailingSlashes(p[..|p| - 1]) else p
  }

  /** The last segment of a path: what follows its last `/`. */
  function LastSegment(p: string): (r: string)
    ensures '/' !in r && EndsWith(p, r)
  {
    match LastIndexOf(p, '/')
    case None => p
    case Some(i) => p[i + 1..]
  }

  /**
   * `path.extname(p)` of Node's POSIX path module: from the last `.` of the last
   * segment to its end, or empty when that segment has no `.`, starts with its
   * only dot-led part (`.gitignore`), or is `..`.
   */
  function Extname(p: string): string {
    var base := LastSegment(StripTrailingSlashes(p));
    match LastIndexOf(base, '.')
    case None => ""
    case Some(i) => if i == 0 || base == ".." then "" else base[i..]
  }

  /** An extension is a `.`, then no other `.` or `/`, ending the path, with something before it in its segment. */
  lemma ExtnameShape(p: string)
    ensures var r := Extname(p); var t := StripTrailingSlashes(p);
      r == [] || (r[0] == '.' && '.' !in r[1..] && '/' !in r && EndsWith(t, r) && |r| < |LastSegment(t)|)
  {
    var t := StripTrailingSlashes(p);
    var base := LastSegment(t);
    var last := LastIndexOf(base, '.');
    if last.Some? && last.value != 0 && base != ".." {
      var i := last.value;
      var r := base[i..];
      assert Extname(p) == r;
      assert forall j :: 0 <= j < |r| - 1 ==> r[1..][j] == base[i + 1 + j];
      EndsWithSlice(t, base, i);
    }
  }

  /** A suffix of a suffix of `t` is a suffix of `t`. */
  lemma EndsWithSlice(t: string, base: string, i: nat)
    requires EndsWith(t, base) && i <= |base|
    ensures EndsWith(t, base[i..])
  {
    assert t[|t| - |base[i..]|..] == t[|t| - |base|..][i..];
  }

  /** The object `mediaTypes`, in the order `Object.entries` gives its keys. */
  function MediaTypes(): seq<(EmbedType, seq<string>)> {
    [ (Image, [".png", ".jpg", ".jpeg", ".gif", ".svg"]),
      (Audio, [".mp3", ".wav", ".ogg"]),
      (Video, [".mp4", ".webm"]),
      (Pdf, [".pdf"]) ]
  }

  /** The loop over `Object.entries(mediaTypes)`: the first type whose list includes the extension, else `other`. */
  function FirstType(table: seq<(EmbedType, seq<string>)>, extension: string): EmbedType {
    if table == [] then Other
    else if extension in table[0].1 then table[0].0
    else FirstType(table[1..], extension)
  }

  /** `getEmbedType(extension)` */
  function GetEmbedType(extension: string): EmbedType {
    FirstType(MediaTypes(), extension)
  }

  /**
   * The media type of each extension: the four lists do not overlap, so the
   * order of the search does not matter, and any other extension is `other`.
   */
  lemma EmbedTypeCases(e: string)
    ensures GetEmbedType(e) == Image <==> e in [".png", ".jpg", ".jpeg", ".gif", ".svg"]
    ensures GetEmbedType(e) == Audio <==> e in [".mp3", ".wav", ".ogg"]
    ensures GetEmbedType(e) == Video <==> e in [".mp4", ".webm"]
    ensures GetEmbedType(e) == Pdf <==> e == ".pdf"
    ensures GetEmbedType(e) == Other <==> e !in [".png", ".jpg", ".jpeg", ".gif", ".svg", ".mp3", ".wav", ".ogg", ".mp4", ".webm", ".pdf"]
  {
    var t := MediaTypes();
    assert t[1..][1..][1..][1..] == [];
    assert FirstType(t[1..][1..][1..], e) == if e in [".pdf"] then Pdf else Other;
    assert FirstType(t[1..][1..], e) == if e in [".mp4", ".webm"] then Video else FirstType(t[1..][1..][1..], e);
    assert FirstType(t[1..], e) == if e in [".mp3", ".wav", ".ogg"] then Audio else FirstType(t[1..][1..], e);
  }

  /** The media type of an embedded file: that of its extension, lower-cased. */
  function EmbedKind(path: string): EmbedType {
    GetEmbedType(Lower(Extname(path)))
  }

  /** The last `c` of `s` is at `i`. */
  lemma LastIndexAt(s: string, c: char, i: nat)
    requires i < |s| && s[i] == c && forall j :: i < j < |s| ==> s[j] != c
    ensures LastIndexOf(s, c) == Some(i)
  {
  }

  /** The extension of a file named `stem + ext` in any directory is `ext`. */
  lemma ExtnameOfName(dir: string, stem: string, ext: string)
    requires stem != [] && '/' !in stem && |ext| >= 2 && ext[0] == '.' && '/' !in ext && '.' !in ext[1..]
    ensures Extname(dir + "/" + stem + ext) == ext
  {
    var base := stem + ext;
    var p := dir + "/" + base;
    assert dir + "/" + stem + ext == p;
    assert forall j :: |stem| < j < |base| ==> base[j] == ext[1..][j - |stem| - 1];
    assert forall j :: 0 <= j < |base| ==> base[j] != '/' by {
      forall j | 0 <= j < |base| ensures base[j] != '/' {
        if j < |stem| { assert base[j] == stem[j]; } else { assert base[j] == ext[j - |stem|]; }
      }
    }
    assert forall j :: |dir| < j < |p| ==> p[j] == base[j - |dir| - 1];
    assert p[|p| - 1] == ext[|ext| - 1];
    assert StripTrailingSlashes(p) == p;
    LastIndexAt(p, '/', |dir|);
    assert p[|dir| + 1..] == base;
    assert LastSegment(p) == base;
    LastIndexAt(base, '.', |stem|);
    assert |base| > 2 && base[|stem|..] == ext;
    ExtnameFrom(p, base, |stem|);
  }

  /** `Extname` read off its parts. */
  lemma ExtnameFrom(p: string, base: string, i: nat)
    requires StripTrailingSlashes(p) == p && LastSegment(p) == base && LastIndexOf(base, '.') == Some(i)
    requires i != 0 && base != ".."
    ensures Extname(p) == base[i..]
  {
  }

  /** Upper-case extensions are classified like lower-case ones: `Photo.PNG` is an image. */
  lemma EmbedKindIgnoresCase(dir: string, stem: string)
    requires stem != [] && '/' !in stem
    ensures EmbedKind(dir + "/" + stem + ".PNG") == Image
  {
    var ext := ".PNG";
    assert '.' !in ext[1..];
    ExtnameOfName(dir, stem, ext);
    UpperPng();
  }

  lemma UpperPng()
    ensures GetEmbedType(Lower(".PNG")) == Image
  {
    assert Lower(".PNG") == ".png";
  }

  // ---------------------------------------------------------------------------
  // Classification

  /** Where one cached link goes. */
  datatype LinkClass = Internal(internal: InternalLink) | External(external: ExternalLink) | Dropped

  /** `resolvedLinks[sourcePath]?.[link]` is truthy: a non-zero count. */
  predicate Resolves(app: Host.App, sourcePath: string, link: string) {
    var counts := Host.Lookup(app.resolvedLinks, sourcePath);
    counts.Some? && var n := Host.Lookup(counts.value, link); n.Some? && n.value != 0
  }

  /** The body of the loop over `cache.links`. */
  function Classify(app: Host.App, sourcePath: string, l: LinkCache, isAbsoluteUrl: string -> bool): LinkClass {
    if Resolves(app, sourcePath, l.link) then
      match app.LinkDest(l.link, sourcePath)
      case Some(target) => Internal(InternalLink(target, l.displayText, PathUtils.SlugifyFilePath(target, false)))
      case None => Dropped
    else if isAbsoluteUrl(l.link) then External(ExternalLink(l.link, l.displayText))
    else Dropped
  }

  /**
   * A link is internal exactly when it is resolved and its target is found, and
   * external exactly when it is not resolved and is an absolute URL.
   */
  lemma ClassifyCases(app: Host.App, sourcePath: string, l: LinkCache, isAbsoluteUrl: string -> bool)
    ensures var c := Classify(app, sourcePath, l, isAbsoluteUrl);
      && (c.Internal? <==> Resolves(app, sourcePath, l.link) && app.LinkDest(l.link, sourcePath).Some?)
      && (c.External? <==> !Resolves(app, sourcePath, l.link) && isAbsoluteUrl(l.link))
      && (c.Internal? ==> c.internal.path == app.LinkDest(l.link, sourcePath).value && c.internal.alias == l.displayText)
      && (c.External? ==> c.external == ExternalLink(l.link, l.displayText))
  {
  }

  /** The values `f` gives for the elements of `xs`, in order, skipping the elements it gives nothing for. */
  function Collect<A, B>(xs: seq<A>, f: A -> Option<B>): seq<B> {
    if xs == [] then []
    else
      var y := f(xs[|xs| - 1]);
      Collect(xs[..|xs| - 1], f) + if y.Some? then [y.value] else []
  }

  /** Collecting over two runs is collecting over each in turn: the order of `xs` is kept. */
  lemma {:induction false} CollectAppend<A, B>(xs: seq<A>, ys: seq<A>, f: A -> Option<B>)
    ensures Collect(xs + ys, f) == Collect(xs, f) + Collect(ys, f)
    decreases |ys|
  {
    if ys != [] {
      var init := ys[..|ys| - 1];
      assert (xs + ys)[..|xs + ys| - 1] == xs + init;
      assert (xs + ys)[|xs + ys| - 1] == ys[|ys| - 1];
      CollectAppend(xs, init, f);
    } else {
      assert xs + ys == xs;
    }
  }

  /** A value is collected exactly when `f` gives it for some element. */
  lemma {:induction false} CollectIn<A, B>(xs: seq<A>, f: A -> Option<B>, y: B)
    ensures y in Collect(xs, f) <==> exists i :: 0 <= i < |xs| && f(xs[i]) == Some(y)
  {
    if xs != [] {
      var init := xs[..|xs| - 1];
      CollectIn(init, f, y);
      assert forall i :: 0 <= i < |init| ==> init[i] == xs[i];
    }
  }

  /** Two collections whose functions never both give a value hold at most one value per element. */
  lemma {:induction false} CollectDisjoint<A, B, C>(xs: seq<A>, f: A -> Option<B>, g: A -> Option<C>)
    requires forall x :: !(f(x).Some? && g(x).Some?)
    ensures |Collect(xs, f)| + |Collect(xs, g)| <= |xs|
  {
    if xs != [] {
      CollectDisjoint(xs[..|xs| - 1], f, g);
    }
  }

  function InternalOf(app: Host.App, sourcePath: string, l: LinkCache, isAbsoluteUrl: string -> bool): Option<InternalLink> {
    var c := Classify(app, sourcePath, l, isAbsoluteUrl);
    if c.Internal? then Some(c.internal) else None
  }

  function ExternalOf(app: Host.App, sourcePath: string, l: LinkCache, isAbsoluteUrl: string -> bool): Option<ExternalLink> {
    var c := Classify(app, sourcePath, l, isAbsoluteUrl);
    if c.External? then Some(c.external) else None
  }

  /** The internal links among `links`, in order. */
  function InternalLinks(app: Host.App, sourcePath: string, links: seq<LinkCache>, isAbsoluteUrl: string -> bool): seq<InternalLink> {
    Collect(links, (l: LinkCache) => InternalOf(app, sourcePath, l, isAbsoluteUrl))
  }

  /** The external links among `links`, in order. */
  function ExternalLinks(app: Host.App, sourcePath: string, links: seq<LinkCache>, isAbsoluteUrl: string -> bool): seq<ExternalLink> {
    Collect(links, (l: LinkCache) => ExternalOf(app, sourcePath, l, isAbsoluteUrl))
  }

  /** The body of the loop over `cache.embeds`: the embed, when its target is found. */
  function EmbedOf(app: Host.App, sourcePath: string, e: EmbedCache): Option<Embed> {
    var target := app.LinkDest(e.link, sourcePath);
    if target.Some? then Some(Embed(target.value, EmbedKind(target.value), PathUtils.SlugifyFilePath(target.value, false))) else None
  }

  /** The embeds among `embeds` whose target is found, in order. */
  function Embeds(app: Host.App, sourcePath: string, embeds: seq<EmbedCache>): seq<Embed> {
    Collect(embeds, (e: EmbedCache) => EmbedOf(app, sourcePath, e))
  }

  /** The links the cache holds, `[]` when there is no cache or no list. */
  function LinksOf(cache: Option<FileCache>): seq<LinkCache> {
    if cache.Some? && cache.value.links.Some? then cache.value.links.value else []
  }

  function EmbedsOf(cache: Option<FileCache>): seq<EmbedCache> {
    if cache.Some? && cache.value.embeds.Some? then cache.value.embeds.value else []
  }

  /** Each link lands in at most one of the two lists. */
  lemma AtMostOneList(app: Host.App, sourcePath: string, links: seq<LinkCache>, isAbsoluteUrl: string -> bool)
    ensures |InternalLinks(app, sourcePath, links, isAbsoluteUrl)| + |ExternalLinks(app, sourcePath, links, isAbsoluteUrl)| <= |links|
  {
    CollectDisjoint(links, (l: LinkCache) => InternalOf(app, sourcePath, l, isAbsoluteUrl), (l: LinkCache) => ExternalOf(app, sourcePath, l, isAbsoluteUrl));
  }

  /** The lists follow the cache's order: classifying two runs of links is classifying each in turn. */
  lemma ListsFollowOrder(app: Host.App, sourcePath: string, a: seq<LinkCache>, b: seq<LinkCache>, isAbsoluteUrl: string -> bool)
    ensures InternalLinks(app, sourcePath, a + b, isAbsoluteUrl) == InternalLinks(app, sourcePath, a, isAbsoluteUrl) + InternalLinks(app, sourcePath, b, isAbsoluteUrl)
    ensures ExternalLinks(app, sourcePath, a + b, isAbsoluteUrl) == ExternalLinks(app, sourcePath, a, isAbsoluteUrl) + ExternalLinks(app, sourcePath, b, isAbsoluteUrl)
  {
    CollectAppend(a, b, (l: LinkCache) => InternalOf(app, sourcePath, l, isAbsoluteUrl));
    CollectAppend(a, b, (l: LinkCache) => ExternalOf(app, sourcePath, l, isAbsoluteUrl));
  }

  /** Every internal link comes from a cached link classified internal, and every such link yields one. */
  lemma InternalLinksAre(app: Host.App, sourcePath: string, links: seq<LinkCache>, isAbsoluteUrl: string -> bool, x: InternalLink)
    ensures x in InternalLinks(app, sourcePath, links, isAbsoluteUrl) <==>
      exists i :: 0 <= i < |links| && Classify(app, sourcePath, links[i], isAbsoluteUrl) == Internal(x)
  {
    CollectIn(links, (l: LinkCache) => InternalOf(app, sourcePath, l, isAbsoluteUrl), x);
  }

  /** An embed whose target is not found is dropped; one whose target is found is kept. */
  lemma EmbedsAre(app: Host.App, sourcePath: string, embeds: seq<EmbedCache>, x: Embed)
    ensures x in Embeds(app, sourcePath, embeds) <==>
      exists i :: 0 <= i < |embeds| && EmbedOf(app, sourcePath, embeds[i]) == Some(x)
  {
    CollectIn(embeds, (e: EmbedCache) => EmbedOf(app, sourcePath, e), x);
  }

  class LinkProcessor {
    const app: Host.App

    constructor (app: Host.App)
      ensures this.app == app
    {
      this.app := app;
    }

    /**
     * `getLinkData(file)`, given what `getFileCache(file)` returns: the internal,
     * external and embed lists, each in cache order; all empty without a cache.
     */
    method GetLinkData(file: Host.File, cache: Option<FileCache>, isAbsoluteUrl: string -> bool) returns (data: LinkData)
      ensures data.internal == InternalLinks(app, file.path, LinksOf(cache), isAbsoluteUrl)
      ensures data.external == ExternalLinks(app, file.path, LinksOf(cache), isAbsoluteUrl)
      ensures data.embeds == Embeds(app, file.path, EmbedsOf(cache))
    {
      var internal, external := ProcessLinks(file, LinksOf(cache), isAbsoluteUrl);
      var embeds := ProcessEmbeds(file, EmbedsOf(cache));
      data := LinkData(internal, external, embeds);
    }

    /** The loop over `cache.links`. */
    method ProcessLinks(file: Host.File, links: seq<LinkCache>, isAbsoluteUrl: string -> bool) returns (internal: seq<InternalLink>, external: seq<ExternalLink>)
      ensures internal == InternalLinks(app, file.path, links, isAbsoluteUrl)
      ensures external == ExternalLinks(app, file.path, links, isAbsoluteUrl)
    {
      internal, external := [], [];
      var k := 0;
      while k < |links|
        invariant 0 <= k <= |links|
        invariant internal == InternalLinks(app, file.path, links[..k], isAbsoluteUrl)
        invariant external == ExternalLinks(app, file.path, links[..k], isAbsoluteUrl)
      {
        assert links[..k + 1][..k] == links[..k];
        var link := links[k];
        if Resolves(app, file.path, link.link) {
          var targetFile := app.LinkDest(link.link, file.path);
          if targetFile.Some? {
            var slug := PathUtils.SlugifyFilePath(targetFile.value, false);
            internal := internal + [InternalLink(targetFile.value, link.displayText, slug)];
          }
        } else if isAbsoluteUrl(link.link) {
          external := external + [ExternalLink(link.link, link.displayText)];
        }
        k := k + 1;
      }
      assert links[..k] == links;
    }

    /** The loop over `cache.embeds`. */
    method ProcessEmbeds(file: Host.File, cached: seq<EmbedCache>) returns (embeds: seq<Embed>)
      ensures embeds == Embeds(app, file.path, cached)
    {
      embeds := [];
      var k := 0;
      while k < |cached|
        invariant 0 <= k <= |cached|
        invariant embeds == Embeds(app, file.path, cached[..k])
      {
        assert cached[..k + 1][..k] == cached[..k];
        embeds := PushEmbed(embeds, file, cached[k]);
        k := k + 1;
      }
      assert cached[..k] == cached;
    }

    /** One pass of the loop over `cache.embeds`: the embed is pushed when its target file is found. */
    method PushEmbed(embeds: seq<Embed>, file: Host.File, embed: EmbedCache) returns (pushed: seq<Embed>)
      ensures var e := EmbedOf(app, file.path, embed); pushed == embeds + if e.Some? then [e.value] else []
    {
      pushed := embeds;
      var targetFile := app.LinkDest(embed.link, file.path);
      if targetFile.Some? {
        var kind := EmbedKind(targetFile.value);
        var slug := PathUtils.SlugifyFilePath(targetFile.value, false);
        pushed := pushed + [Embed(targetFile.value, kind, slug)];
      }
    }
  }
}

=== FILE: local.dfy ===
/**
 * Local publishing of src/publish/local.ts: the staged note artifacts of a
 * profile are combined into one JSON object keyed by note UID and written to a
 * single file. Where the profile is missing or does not publish locally, or a
 * step throws, the result is false and nothing is written.
 */
module Local {
  import opened Wrappers
  import opened Js
  import opened Types
  import Host
  import Profiles

  /** A staged note artifact: a `.json` file other than the home note's `index.json`. */
  predicate IsNoteArtifact(path: string) {
    EndsWith(path, ".json") && Basename(path) != "index.json"
  }

  /** `adapter.read(path)` against a given set of files. */
  function ReadIn(files: map<string, Host.Content>, path: string): Option<Host.Content> {
    if path in files then Some(files[path]) else None
  }

  /**
   * The UID `noteData.uid` gives for a read: present when the parsed document is an
   * object whose `uid` is a non-empty string; absent where the read or the parse
   * throws (the file is skipped) or the UID is missing or empty.
   */
  function StagedUid(c: Option<Host.Content>): (r: Option<string>)
    ensures r.Some? ==> r.value != [] && c.Some? && c.value.Json? && c.value.value.Obj?
  {
    if c.Some? && c.value.Json? && c.value.value.Obj? && "uid" in c.value.value.fields
       && c.value.value.fields["uid"].Str? && c.value.value.fields["uid"].s != []
    then Some(c.value.value.fields["uid"].s)
    else None
  }

  /** The UID a listed file is combined under, if it is combined at all. */
  function Contributes(files: map<string, Host.Content>, path: string): (r: Option<string>)
    ensures r.Some? ==> IsNoteArtifact(path) && path in files && files[path].Json? && files[path].value.Obj?
  {
    if IsNoteArtifact(path) then StagedUid(ReadIn(files, path)) else None
  }

  /** The object `combineNotesData` builds from the files listed in `paths`, in that order. */
  function Combine(files: map<string, Host.Content>, paths: seq<string>): map<string, Value> {
    if paths == [] then map[]
    else
      var p := paths[|paths| - 1];
      var rest := Combine(files, paths[..|paths| - 1]);
      match Contributes(files, p)
      case None => rest
      case Some(uid) => rest[uid := files[p].value]
  }

  /**
   * The combined object has a key for exactly the UIDs of the listed note artifacts,
   * and each key holds the parsed document of one of the files with that UID.
   */
  lemma {:induction false} CombineKeys(files: map<string, Host.Content>, paths: seq<string>)
    ensures forall k :: k in Combine(files, paths) <==> exists i :: 0 <= i < |paths| && Contributes(files, paths[i]) == Some(k)
    ensures forall k :: k in Combine(files, paths) ==>
      exists i :: 0 <= i < |paths| && Contributes(files, paths[i]) == Some(k) && Combine(files, paths)[k] == files[paths[i]].value
    decreases |paths|
  {
    if paths != [] {
      var init := paths[..|paths| - 1];
      CombineKeys(files, init);
      assert forall i :: 0 <= i < |init| ==> init[i] == paths[i];
      var n := |paths| - 1;
      forall k | exists i :: 0 <= i < |paths| && Contributes(files, paths[i]) == Some(k)
        ensures k in Combine(files, paths)
      {
        var i :| 0 <= i < |paths| && Contributes(files, paths[i]) == Some(k);
        if i < n {
          assert Contributes(files, init[i]) == Some(k);
        }
      }
    }
  }

  /** When several listed files have the same UID, the last of them wins. */
  lemma {:induction false} CombineLastWins(files: map<string, Host.Content>, paths: seq<string>, i: nat, k: string)
    requires i < |paths| && Contributes(files, paths[i]) == Some(k)
    requires forall j :: i < j < |paths| ==> Contributes(files, paths[j]) != Some(k)
    ensures k in Combine(files, paths) && Combine(files, paths)[k] == files[paths[i]].value
    decreases |paths|
  {
    if i < |paths| - 1 {
      var init := paths[..|paths| - 1];
      assert init[i] == paths[i];
      CombineLastWins(files, init, i, k);
    }
  }

  /** The files of `dir` are combined into `c`: its keys are their UIDs, each holding one such file's document. */
  ghost predicate CombinesStaged(files: map<string, Host.Content>, dir: string, c: map<string, Value>) {
    && (forall k :: k in c <==> exists p :: p in files && Host.InDir(p, dir) && Contributes(files, p) == Some(k))
    && (forall k :: k in c ==> exists p :: p in files && Host.InDir(p, dir) && Contributes(files, p) == Some(k) && c[k] == files[p].value)
  }

  /** Combining the listing of a directory, in any order, combines that directory's files. */
  lemma CombineListing(files: map<string, Host.Content>, dir: string, listed: seq<string>)
    requires forall p :: p in listed <==> p in files && Host.InDir(p, dir)
    ensures CombinesStaged(files, dir, Combine(files, listed))
  {
    CombineKeys(files, listed);
    var c := Combine(files, listed);
    forall k | k in c
      ensures exists p :: p in files && Host.InDir(p, dir) && Contributes(files, p) == Some(k) && c[k] == files[p].value
    {
      var i :| 0 <= i < |listed| && Contributes(files, listed[i]) == Some(k) && c[k] == files[listed[i]].value;
      assert listed[i] in listed;
    }
    forall k | exists p :: p in files && Host.InDir(p, dir) && Contributes(files, p) == Some(k)
      ensures k in c
    {
      var p :| p in files && Host.InDir(p, dir) && Contributes(files, p) == Some(k);
      var i :| 0 <= i < |listed| && listed[i] == p;
    }
  }

  /** `combineNotesData(plugin, profileId, stagedNotesDir)`, also giving the listing it went through. */
  method CombineNotesData(adapter: Host.Adapter, stagedDir: string) returns (combined: map<string, Value>, listed: seq<string>)
    ensures forall p :: p in listed <==> p in adapter.files && Host.InDir(p, stagedDir)
    ensures combined == Combine(adapter.files, listed)
  {
    listed := adapter.List(stagedDir);
    combined := map[];
    var i := 0;
    while i < |listed|
      invariant 0 <= i <= |listed|
      invariant combined == Combine(adapter.files, listed[..i])
    {
      assert listed[..i + 1][..i] == listed[..i];
      var file := listed[i];
      if EndsWith(file, ".json") && Basename(file) != "index.json" {
        var content := adapter.Read(file);
        var uid := StagedUid(content);
        if uid.Some? {
          combined := combined[uid.value := content.value.value];
        }
      }
      i := i + 1;
    }
    assert listed[..i] == listed;
  }

  /**
   * `publishLocalNotes(plugin, profileId)`, writing to `combinedPath`. It succeeds exactly
   * when the first profile with the id publishes locally and the write goes through; the
   * file then holds the combination of the profile's staged notes, and nothing else changes.
   */
  method PublishLocalNotes(profiles: seq<Profile>, manager: Profiles.ProfileManager, profileId: string, combinedPath: string)
    returns (ok: bool)
    modifies manager.adapter
    ensures ok <==> FindProfile(profiles, profileId).Some? && FindProfile(profiles, profileId).value.mechanism == Local
                    && combinedPath !in manager.adapter.failing
    ensures manager.adapter.ensured == old(manager.adapter.ensured)
    ensures forall p :: p != combinedPath ==>
      (p in manager.adapter.files <==> p in old(manager.adapter.files)) && (p in manager.adapter.files ==> manager.adapter.files[p] == old(manager.adapter.files)[p])
    ensures !ok ==> manager.adapter.files == old(manager.adapter.files)
    ensures ok ==> combinedPath in manager.adapter.files && manager.adapter.files[combinedPath].Json?
                   && manager.adapter.files[combinedPath].value.Obj?
                   && CombinesStaged(old(manager.adapter.files), manager.StagedNotesDir(profileId), manager.adapter.files[combinedPath].value.fields)
  {
    var profile := FindProfile(profiles, profileId);
    if profile.None? || profile.value.mechanism != Local {
      return false;
    }
    var combined, listed := CombineNotesData(manager.adapter, manager.StagedNotesDir(profileId));
    CombineListing(manager.adapter.files, manager.StagedNotesDir(profileId), listed);
    ok := manager.adapter.Write(combinedPath, Host.Json(Obj(combined)));
  }

  /** Where `publishLocalNotes` as written ends: it returns true only after the write of the combined file. */
  datatype LocalStop = NoProfile | NotLocal | NoCombinedPath | Written

  /**
   * `publishLocalNotes` as written: past the two profile checks it calls
   * `getCombinedLocalNotesPath`, which the profile manager does not define, so the call
   * throws and the function returns false before anything is combined or written.
   */
  function PublishLocalAsWritten(profiles: seq<Profile>, profileId: string): (stop: LocalStop)
    ensures stop != Written
  {
    match FindProfile(profiles, profileId)
    case None => NoProfile
    case Some(profile) => if profile.mechanism != Local then NotLocal else NoCombinedPath
  }

  /** As written, a profile that publishes locally never gets its combined file. */
  lemma LocalProfileNeverWritten(profiles: seq<Profile>, profileId: string)
    requires FindProfile(profiles, profileId).Some? && FindProfile(profiles, profileId).value.mechanism == Local
    ensures PublishLocalAsWritten(profiles, profileId) == NoCombinedPath
  {
  }
}

=== FILE: mappings.dfy ===
/**
 * The per-profile slug→uid and uid→hash tables of src/utils/mappings.ts, kept
 * in memory and written as two JSON documents under `<plugin dir>/mapping/<id>`.
 * A document that `JSON.parse` reads as anything but an object of strings is
 * treated like one that fails to parse.
 */
module Mappings {
  import opened Wrappers
  import opened Js
  import opened Types
  import Host
  import Profiles

  datatype MappingData = MappingData(slugToUid: map<string, string>, uidToHash: map<string, string>)

  const Empty := MappingData(map[], map[])

  /** `JSON.stringify` of a table: an object of strings. */
  function ToJson(m: map<string, string>): (v: Value)
    ensures v.Obj? && v.fields.Keys == m.Keys
  {
    Obj(map k | k in m :: Str(m[k]))
  }

  /** The table a parsed document holds, if it is an object of strings. */
  function FromJson(v: Value): (r: Option<map<string, string>>)
    ensures r.Some? <==> v.Obj? && forall k :: k in v.fields ==> v.fields[k].Str?
    ensures r.Some? ==> r.value.Keys == v.fields.Keys && forall k :: k in r.value ==> v.fields[k] == Str(r.value[k])
  {
    if v.Obj? && forall k :: k in v.fields ==> v.fields[k].Str? then
      Some(map k | k in v.fields :: v.fields[k].s)
    else None
  }

  /** Reading back a saved table gives the table. */
  lemma FromToJson(m: map<string, string>)
    ensures FromJson(ToJson(m)) == Some(m)
  {
    var v := ToJson(m);
    assert forall k :: k in v.fields ==> v.fields[k] == Str(m[k]);
    var back := map k | k in v.fields :: v.fields[k].s;
    assert back.Keys == m.Keys;
    assert forall k :: k in back ==> back[k] == m[k];
    assert back == m;
  }

  /** The table a file holds: `JSON.parse(adapter.read(path))`, or `None` where either throws. */
  function Parse(c: Option<Host.Content>): Option<map<string, string>> {
    if c.Some? && c.value.Json? then FromJson(c.value.value) else None
  }

  /** `mappingData[profileId]?.<table>[key] || null` */
  function LookupNonEmpty(table: map<string, string>, key: string): (r: Option<string>)
    ensures r.Some? <==> key in table && table[key] != ""
    ensures r.Some? ==> r.value == table[key]
  {
    if key in table && table[key] != "" then Some(table[key]) else None
  }

  /** The tables after `updateMappings(profileId, slug, uid, hash)`. */
  function Upsert(data: map<string, MappingData>, profileId: string, slug: string, uid: string, hash: string): map<string, MappingData> {
    var d := if profileId in data then data[profileId] else Empty;
    data[profileId := MappingData(d.slugToUid[slug := uid], d.uidToHash[uid := hash])]
  }

  class MappingManager {
    var data: map<string, MappingData>
    const mappingDir: string
    const adapter: Host.Adapter

    constructor (pluginDir: string, adapter: Host.Adapter)
      ensures mappingDir == pluginDir + "/mapping" && data == map[] && this.adapter == adapter
    {
      this.mappingDir := pluginDir + "/mapping";
      this.data := map[];
      this.adapter := adapter;
    }

    function ProfileMappingDir(id: string): string {
      mappingDir + "/" + id
    }

    function SlugPath(id: string): string {
      ProfileMappingDir(id) + "/slug-to-uid.json"
    }

    function HashPath(id: string): string {
      ProfileMappingDir(id) + "/uid-to-hash.json"
    }

    /** The two documents of different profiles, and the two of one profile, are four different files. */
    lemma MappingPathsDistinct(a: string, b: string)
      ensures SlugPath(a) != HashPath(b)
      ensures a != b ==> SlugPath(a) != SlugPath(b) && HashPath(a) != HashPath(b)
    {
      var sa, hb := SlugPath(a), HashPath(b);
      if |sa| == |hb| {
        assert sa[|sa| - 16] == 's' && hb[|hb| - 16] == 'u';
      }
      Profiles.AppendDistinct(mappingDir + "/", a, b);
      Profiles.PrefixDistinct(ProfileMappingDir(a), ProfileMappingDir(b), "/slug-to-uid.json");
      Profiles.PrefixDistinct(ProfileMappingDir(a), ProfileMappingDir(b), "/uid-to-hash.json");
    }

    /** The profile's documents hold its tables. */
    predicate Saved(files: map<string, Host.Content>, id: string, d: MappingData) {
      && SlugPath(id) in files && files[SlugPath(id)] == Host.Json(ToJson(d.slugToUid))
      && HashPath(id) in files && files[HashPath(id)] == Host.Json(ToJson(d.uidToHash))
    }

    /** The profile's two documents are the same in both sets of files. */
    predicate SameDocs(a: map<string, Host.Content>, b: map<string, Host.Content>, id: string) {
      Host.Same(a, b, SlugPath(id)) && Host.Same(a, b, HashPath(id))
    }

    /** The tables the profile's two documents hold, where both read and parse. */
    function TablesIn(files: map<string, Host.Content>, id: string): Option<MappingData> {
      var slugs := Parse(if SlugPath(id) in files then Some(files[SlugPath(id)]) else None);
      var hashes := Parse(if HashPath(id) in files then Some(files[HashPath(id)]) else None);
      if slugs.Some? && hashes.Some? then Some(MappingData(slugs.value, hashes.value)) else None
    }

    /**
     * The profile was loaded from the documents in `before`: its tables are the ones they
     * hold, still there in `after`, or, where they fail to read or parse, empty tables
     * written back in `after`.
     */
    predicate Loaded(before: map<string, Host.Content>, after: map<string, Host.Content>, id: string, d: MappingData) {
      match TablesIn(before, id)
      case Some(t) => d == t && TablesIn(after, id) == Some(t)
      case None => d == Empty && Saved(after, id, Empty)
    }

    /** A loaded profile reads back as its tables. */
    lemma LoadedReadsBack(before: map<string, Host.Content>, after: map<string, Host.Content>, id: string, d: MappingData)
      requires Loaded(before, after, id, d)
      ensures TablesIn(after, id) == Some(d)
    {
      if TablesIn(before, id).None? {
        SaveThenLoad(after, id, Empty);
      }
    }

    /** One outcome of saving a profile: both documents written, neither, or the first only, because the second write threw. */
    predicate SaveOutcome(before: map<string, Host.Content>, after: map<string, Host.Content>, id: string, d: MappingData) {
      || Saved(after, id, d)
      || SameDocs(before, after, id)
      || (&& SlugPath(id) in after && after[SlugPath(id)] == Host.Json(ToJson(d.slugToUid))
          && Host.Same(before, after, HashPath(id)) && HashPath(id) in adapter.failing)
    }

    /** A write of one of the profile's documents throws. */
    predicate SaveFails(id: string) {
      SlugPath(id) in adapter.failing || HashPath(id) in adapter.failing
    }

    lemma OutcomeAfterSame(o: map<string, Host.Content>, b: map<string, Host.Content>, a: map<string, Host.Content>, id: string, d: MappingData)
      requires SameDocs(o, b, id) && SaveOutcome(b, a, id, d)
      ensures SaveOutcome(o, a, id, d)
    {
    }

    lemma OutcomeThenSame(o: map<string, Host.Content>, b: map<string, Host.Content>, a: map<string, Host.Content>, id: string, d: MappingData)
      requires SaveOutcome(o, b, id, d) && SameDocs(b, a, id)
      ensures SaveOutcome(o, a, id, d)
    {
    }

    /** `updateMappings(profileId, slug, uid, hash)` */
    method UpdateMappings(profileId: string, slug: string, uid: string, hash: string)
      modifies this
      ensures data == Upsert(old(data), profileId, slug, uid, hash)
      ensures profileId in data
      ensures data[profileId].slugToUid == (if profileId in old(data) then old(data)[profileId].slugToUid else map[])[slug := uid]
      ensures data[profileId].uidToHash == (if profileId in old(data) then old(data)[profileId].uidToHash else map[])[uid := hash]
      ensures forall p :: p != profileId ==> (p in data <==> p in old(data)) && (p in data ==> data[p] == old(data)[p])
    {
      if profileId !in data {
        data := data[profileId := Empty];
      }
      var d := data[profileId];
      data := data[profileId := MappingData(d.slugToUid[slug := uid], d.uidToHash[uid := hash])];
    }

    /** `getPriorHash(profileId, uid)`: `None` for an unknown profile or uid, and for a stored empty string. */
    function GetPriorHash(profileId: string, uid: string): (r: Option<string>)
      reads this
      ensures r.Some? <==> profileId in data && uid in data[profileId].uidToHash && data[profileId].uidToHash[uid] != ""
      ensures r.Some? ==> r.value == data[profileId].uidToHash[uid]
    {
      if profileId in data then LookupNonEmpty(data[profileId].uidToHash, uid) else None
    }

    /** `getUidFromSlug(profileId, slug)`: `None` for an unknown profile or slug, and for a stored empty string. */
    function GetUidFromSlug(profileId: string, slug: string): (r: Option<string>)
      reads this
      ensures r.Some? <==> profileId in data && slug in data[profileId].slugToUid && data[profileId].slugToUid[slug] != ""
      ensures r.Some? ==> r.value == data[profileId].slugToUid[slug]
    {
      if profileId in data then LookupNonEmpty(data[profileId].slugToUid, slug) else None
    }

    /** `saveProfileMappings(profileId)`; `ok` is false where a write throws. */
    method SaveProfileMappings(profileId: string) returns (ok: bool)
      modifies adapter
      ensures adapter.ensured == old(adapter.ensured) + [ProfileMappingDir(profileId)]
      ensures ok <==> profileId !in data || !SaveFails(profileId)
      ensures profileId !in data ==> adapter.files == old(adapter.files)
      ensures old(adapter.files).Keys <= adapter.files.Keys
      ensures profileId in data ==> SaveOutcome(old(adapter.files), adapter.files, profileId, data[profileId])
      ensures profileId in data && ok ==>
        adapter.files == old(adapter.files)[SlugPath(profileId) := Host.Json(ToJson(data[profileId].slugToUid))]
                                           [HashPath(profileId) := Host.Json(ToJson(data[profileId].uidToHash))]
      ensures forall p :: p != SlugPath(profileId) && p != HashPath(profileId) ==>
        (p in adapter.files <==> p in old(adapter.files)) && (p in adapter.files ==> adapter.files[p] == old(adapter.files)[p])
    {
      adapter.EnsureDirectory(ProfileMappingDir(profileId));
      if profileId !in data {
        return true;
      }
      MappingPathsDistinct(profileId, profileId);
      var d := data[profileId];
      ok := adapter.Write(SlugPath(profileId), Host.Json(ToJson(d.slugToUid)));
      if ok {
        ok := adapter.Write(HashPath(profileId), Host.Json(ToJson(d.uidToHash)));
      }
    }

    /** `loadProfileMappings(profileId)`; `ok` is false where the rewrite after a failed read throws. */
    method LoadProfileMappings(profileId: string) returns (ok: bool)
      modifies this, adapter
      ensures match TablesIn(old(adapter.files), profileId)
        case Some(t) => ok && data == old(data)[profileId := t] && adapter.files == old(adapter.files)
        case None =>
          && data == old(data)[profileId := Empty]
          && (ok ==> Saved(adapter.files, profileId, Empty))
      ensures forall p :: p != SlugPath(profileId) && p != HashPath(profileId) ==> Host.Same(old(adapter.files), adapter.files, p)
    {
      adapter.EnsureDirectory(ProfileMappingDir(profileId));
      var slugs := Parse(adapter.Read(SlugPath(profileId)));
      var hashes := Parse(adapter.Read(HashPath(profileId)));
      if slugs.Some? && hashes.Some? {
        data := data[profileId := MappingData(slugs.value, hashes.value)];
        ok := true;
      } else {
        data := data[profileId := Empty];
        ok := SaveProfileMappings(profileId);
      }
    }

    /** `saveMappings()`: every profile held in memory, in some order; `ok` is false once a write throws. */
    method SaveMappings() returns (ok: bool)
      modifies adapter
      ensures ok <==> forall id :: id in data ==> !SaveFails(id)
      ensures ok ==> forall id :: id in data ==> Saved(adapter.files, id, data[id])
      ensures forall id :: id in data ==> SaveOutcome(old(adapter.files), adapter.files, id, data[id])
      ensures forall p :: (forall id :: id in data ==> p != SlugPath(id) && p != HashPath(id)) ==> Host.Same(old(adapter.files), adapter.files, p)
      ensures old(adapter.files).Keys <= adapter.files.Keys
    {
      var rest := data.Keys;
      ok := true;
      while rest != {} && ok
        invariant rest <= data.Keys
        invariant old(adapter.files).Keys <= adapter.files.Keys
        invariant ok ==> forall id :: id in data && id !in rest ==> !SaveFails(id) && Saved(adapter.files, id, data[id])
        invariant !ok ==> exists id :: id in data && SaveFails(id)
        invariant forall id :: id in data ==> SaveOutcome(old(adapter.files), adapter.files, id, data[id])
        invariant forall id :: id in rest ==> SameDocs(old(adapter.files), adapter.files, id)
        invariant forall p :: (forall id :: id in data ==> p != SlugPath(id) && p != HashPath(id)) ==> Host.Same(old(adapter.files), adapter.files, p)
        decreases rest
      {
        var id :| id in rest;
        ghost var before := adapter.files;
        ok := SaveProfileMappings(id);
        SaveLoopStep(old(adapter.files), before, adapter.files, id, rest, ok);
        rest := rest - {id};
      }
    }

    /** One pass of the `saveMappings` loop keeps its invariants, with `id` saved. */
    lemma SaveLoopStep(o: map<string, Host.Content>, b: map<string, Host.Content>, a: map<string, Host.Content>,
                       id: string, rest: set<string>, ok: bool)
      requires id in rest && rest <= data.Keys
      requires forall x :: x in data && x !in rest ==> !SaveFails(x) && Saved(b, x, data[x])
      requires forall x :: x in data ==> SaveOutcome(o, b, x, data[x])
      requires forall x :: x in rest ==> SameDocs(o, b, x)
      requires forall p :: (forall x :: x in data ==> p != SlugPath(x) && p != HashPath(x)) ==> Host.Same(o, b, p)
      requires ok <==> !SaveFails(id)
      requires SaveOutcome(b, a, id, data[id])
      requires ok ==> a == b[SlugPath(id) := Host.Json(ToJson(data[id].slugToUid))][HashPath(id) := Host.Json(ToJson(data[id].uidToHash))]
      requires forall p :: p != SlugPath(id) && p != HashPath(id) ==> (p in a <==> p in b) && (p in a ==> a[p] == b[p])
      ensures ok ==> forall x :: x in data && x !in rest - {id} ==> !SaveFails(x) && Saved(a, x, data[x])
      ensures forall x :: x in data ==> SaveOutcome(o, a, x, data[x])
      ensures forall x :: x in rest - {id} ==> SameDocs(o, a, x)
      ensures forall p :: (forall x :: x in data ==> p != SlugPath(x) && p != HashPath(x)) ==> Host.Same(o, a, p)
    {
      SaveStep(b, a, id);
      MappingPathsDistinct(id, id);
      OutcomeAfterSame(o, b, a, id, data[id]);
      forall other | other in data && other != id
        ensures SaveOutcome(o, a, other, data[other])
        ensures other in rest ==> SameDocs(o, a, other)
        ensures ok && other !in rest ==> Saved(a, other, data[other])
      {
        OutcomeThenSame(o, b, a, other, data[other]);
      }
      forall p | forall x :: x in data ==> p != SlugPath(x) && p != HashPath(x)
        ensures Host.Same(o, a, p)
      {
        assert p != SlugPath(id) && p != HashPath(id);
        assert Host.Same(o, b, p);
        assert Host.Same(b, a, p);
      }
    }

    /** Saving one profile leaves the documents of every other profile as they were. */
    lemma SaveStep(before: map<string, Host.Content>, after: map<string, Host.Content>, id: string)
      requires forall p :: p != SlugPath(id) && p != HashPath(id) ==> Host.Same(before, after, p)
      ensures forall other :: other != id ==> SameDocs(before, after, other)
    {
      forall other | other != id ensures SameDocs(before, after, other) {
        MappingPathsDistinct(other, id);
        MappingPathsDistinct(id, other);
      }
    }

    /** `loadMappings()`: the base directory, then each configured profile's directory and tables. */
    method LoadMappings(profiles: seq<Profile>) returns (ok: bool)
      modifies this, adapter
      ensures ok ==> forall i :: 0 <= i < |profiles| ==>
        profiles[i].id in data && Loaded(old(adapter.files), adapter.files, profiles[i].id, data[profiles[i].id])
      ensures forall x :: (forall i :: 0 <= i < |profiles| ==> profiles[i].id != x) ==> Host.Same(old(data), data, x)
      ensures forall p :: (forall i :: 0 <= i < |profiles| ==> p != SlugPath(profiles[i].id) && p != HashPath(profiles[i].id)) ==>
        Host.Same(old(adapter.files), adapter.files, p)
    {
      adapter.EnsureDirectory(mappingDir);
      var k := 0;
      ok := true;
      while k < |profiles| && ok
        invariant 0 <= k <= |profiles|
        invariant ok ==> forall i :: 0 <= i < k ==>
          profiles[i].id in data && Loaded(old(adapter.files), adapter.files, profiles[i].id, data[profiles[i].id])
        invariant forall x :: (forall i :: 0 <= i < k ==> profiles[i].id != x) ==> Host.Same(old(data), data, x)
        invariant forall p :: (forall i :: 0 <= i < k ==> p != SlugPath(profiles[i].id) && p != HashPath(profiles[i].id)) ==>
          Host.Same(old(adapter.files), adapter.files, p)
      {
        var id := profiles[k].id;
        adapter.EnsureDirectory(ProfileMappingDir(id));
        ghost var before, data0 := adapter.files, data;
        ghost var seen := exists j :: 0 <= j < k && profiles[j].id == id;
        if !seen {
          LoadFresh(old(adapter.files), before, profiles[..k], id);
        }
        ok := LoadProfileMappings(id);
        LoadStep(old(adapter.files), before, adapter.files, profiles, k, ok, seen, data0, data);
        LoadFrames(old(adapter.files), before, adapter.files, profiles, k, old(data), data0, data);
        k := k + 1;
      }
    }

    /** A profile not loaded yet still has the documents it had at the start. */
    lemma LoadFresh(o: map<string, Host.Content>, b: map<string, Host.Content>, done: seq<Profile>, id: string)
      requires forall p :: (forall i :: 0 <= i < |done| ==> p != SlugPath(done[i].id) && p != HashPath(done[i].id)) ==> Host.Same(o, b, p)
      requires forall j :: 0 <= j < |done| ==> done[j].id != id
      ensures SameDocs(o, b, id)
    {
      forall i | 0 <= i < |done| ensures SlugPath(id) != SlugPath(done[i].id) && SlugPath(id) != HashPath(done[i].id)
        && HashPath(id) != SlugPath(done[i].id) && HashPath(id) != HashPath(done[i].id)
      {
        MappingPathsDistinct(id, done[i].id);
        MappingPathsDistinct(done[i].id, id);
      }
      assert Host.Same(o, b, SlugPath(id));
      assert Host.Same(o, b, HashPath(id));
    }

    /** Loading the `k`-th profile keeps the loop's invariant on the profiles loaded so far. */
    lemma LoadStep(o: map<string, Host.Content>, b: map<string, Host.Content>, a: map<string, Host.Content>,
                   profiles: seq<Profile>, k: nat, ok: bool, seen: bool, d0: map<string, MappingData>, d1: map<string, MappingData>)
      requires k < |profiles|
      requires seen <==> exists j :: 0 <= j < k && profiles[j].id == profiles[k].id
      requires forall i :: 0 <= i < k ==> profiles[i].id in d0 && Loaded(o, b, profiles[i].id, d0[profiles[i].id])
      requires !seen ==> SameDocs(o, b, profiles[k].id)
      requires forall p :: (forall i :: 0 <= i < k ==> p != SlugPath(profiles[i].id) && p != HashPath(profiles[i].id)) ==> Host.Same(o, b, p)
      requires match TablesIn(b, profiles[k].id)
        case Some(t) => ok && d1 == d0[profiles[k].id := t] && a == b
        case None => d1 == d0[profiles[k].id := Empty] && (ok ==> Saved(a, profiles[k].id, Empty))
      requires forall p :: p != SlugPath(profiles[k].id) && p != HashPath(profiles[k].id) ==> Host.Same(b, a, p)
      ensures ok ==> forall i :: 0 <= i < k + 1 ==> profiles[i].id in d1 && Loaded(o, a, profiles[i].id, d1[profiles[i].id])
    {
      var id := profiles[k].id;
      if seen {
        var j :| 0 <= j < k && profiles[j].id == id;
        LoadedReadsBack(o, b, id, d0[id]);
      }
      if ok {
        forall i | 0 <= i < k + 1 ensures profiles[i].id in d1 && Loaded(o, a, profiles[i].id, d1[profiles[i].id]) {
          var x := profiles[i].id;
          if x != id {
            MappingPathsDistinct(x, id);
            MappingPathsDistinct(id, x);
            assert SameDocs(b, a, x);
          }
        }
      }
    }

    /** Loading the `k`-th profile touches only that profile's documents and tables. */
    lemma LoadFrames(o: map<string, Host.Content>, b: map<string, Host.Content>, a: map<string, Host.Content>,
                     profiles: seq<Profile>, k: nat, od: map<string, MappingData>, d0: map<string, MappingData>, d1: map<string, MappingData>)
      requires k < |profiles|
      requires forall p :: (forall i :: 0 <= i < k ==> p != SlugPath(profiles[i].id) && p != HashPath(profiles[i].id)) ==> Host.Same(o, b, p)
      requires forall p :: p != SlugPath(profiles[k].id) && p != HashPath(profiles[k].id) ==> Host.Same(b, a, p)
      requires forall x :: (forall i :: 0 <= i < k ==> profiles[i].id != x) ==> Host.Same(od, d0, x)
      requires profiles[k].id in d1 && d1 == d0[profiles[k].id := d1[profiles[k].id]]
      ensures forall p :: (forall i :: 0 <= i < k + 1 ==> p != SlugPath(profiles[i].id) && p != HashPath(profiles[i].id)) ==> Host.Same(o, a, p)
      ensures forall x :: (forall i :: 0 <= i < k + 1 ==> profiles[i].id != x) ==> Host.Same(od, d1, x)
    {
      forall p | forall i :: 0 <= i < k + 1 ==> p != SlugPath(profiles[i].id) && p != HashPath(profiles[i].id)
        ensures Host.Same(o, a, p)
      {
        assert forall i :: 0 <= i < k ==> p != SlugPath(profiles[i].id) && p != HashPath(profiles[i].id);
        assert Host.Same(o, b, p);
        assert Host.Same(b, a, p);
      }
      forall x | forall i :: 0 <= i < k + 1 ==> profiles[i].id != x
        ensures Host.Same(od, d1, x)
      {
        assert forall i :: 0 <= i < k ==> profiles[i].id != x;
        assert Host.Same(od, d0, x);
        assert x != profiles[k].id;
      }
    }

    /** Saving a profile's tables and loading them again gives back the same tables. */
    lemma SaveThenLoad(files: map<string, Host.Content>, id: string, d: MappingData)
      requires Saved(files, id, d)
      ensures Parse(Some(files[SlugPath(id)])) == Some(d.slugToUid)
      ensures Parse(Some(files[HashPath(id)])) == Some(d.uidToHash)
    {
      FromToJson(d.slugToUid);
      FromToJson(d.uidToHash);
    }
  }

  /** Updating twice with the same arguments is updating once. */
  lemma UpdateIdempotent(data: map<string, MappingData>, profileId: string, slug: string, uid: string, hash: string)
    ensures Upsert(Upsert(data, profileId, slug, uid, hash), profileId, slug, uid, hash) == Upsert(data, profileId, slug, uid, hash)
  {
    var once := Upsert(data, profileId, slug, uid, hash);
    var d := once[profileId];
    assert d.slugToUid[slug := uid] == d.slugToUid;
    assert d.uidToHash[uid := hash] == d.uidToHash;
  }
}

=== FILE: notes.dfy ===
/**
 * The note pipeline of src/utils/notes.ts. `queueNote` computes a note's state
 * (its text without the frontmatter block, the SHA-1 of `uid::text`, and the
 * prior hash read from the `cpn-prior-hash` field, which it then brings up to
 * date) and keeps it in the pending map under `profileId:uid`.
 * `commitPendingNotes` stages each note queued for a profile as
 * `<staged dir>/<hash>.json` (the profile's home note also as `index.json`),
 * upserting its mappings and queuing its content-index entry on the way, and
 * saves the mappings and the content index at the end.
 *
 * SHA-1 is a function parameter, and so are the HTML the remark pipeline
 * produces and the plaintext the content index derives from a file. The
 * pipeline itself is not part of this model, only the link resolver it is
 * given.
 */
module Notes {
  import opened Wrappers
  import opened Js
  import opened Types
  import Host
  import PathUtils
  import Frontmatter
  import Mappings
  import ContentIndex
  import Profiles
  import Selection

  const PriorHashKey := "cpn-prior-hash"

  /** `NoteState`; the prior hash is whatever the frontmatter field held, `Null` when it was the current hash. */
  datatype NoteState = NoteState(
    file: Host.File,
    uid: string,
    currentHash: string,
    priorHash: Value,
    slug: string,
    title: string,
    content: string,
    raw: string,
    lastModified: int)

  /** `BacklinkInfo` */
  datatype BacklinkInfo = BacklinkInfo(uid: string, slug: string, title: string)

  /** The `ResolvedNoteInfo` the resolver gives back. */
  datatype ResolvedNoteInfo = ResolvedNoteInfo(uid: string, title: string, displayText: string, published: bool)

  /** `s.slice(start)` */
  function SliceFrom(s: string, start: nat): (r: string)
    ensures |r| <= |s|
  {
    if start <= |s| then s[start..] else []
  }

  /** The metadata cache has a frontmatter block, with its position, for the note. */
  predicate HasFrontmatter(app: Host.App, path: string)
    reads app
  {
    path in app.frontmatter && path in app.frontmatterEnd
  }

  /**
   * `stripFrontmatter(file, content)`: with a frontmatter block, the text after it,
   * trimmed; without one, the text untouched.
   */
  function StripFrontmatter(app: Host.App, path: string, content: string): (r: string)
    reads app
    ensures |r| <= |content|
    ensures !HasFrontmatter(app, path) ==> r == content
    ensures HasFrontmatter(app, path) ==> r == [] || (!IsWhitespace(r[0]) && !IsWhitespace(r[|r| - 1]))
  {
    if HasFrontmatter(app, path) then Trim(SliceFrom(content, app.frontmatterEnd[path])) else content
  }

  /** `!priorHash || priorHash !== currentHash`: the frontmatter field is rewritten. */
  predicate NeedsUpdate(prior: Value, hash: string) {
    !Truthy(prior) || prior != Str(hash)
  }

  /** The pending-map key of a note queued for a profile. */
  function Key(profileId: string, uid: string): string {
    profileId + ":" + uid
  }

  /** `getNoteUID(file)` is truthy: the note has a non-empty UID. */
  predicate HasUid(app: Host.App, path: string) {
    app.NoteUid(path).Some? && app.NoteUid(path).value != ""
  }

  /**
   * The state `queueNote` records for a note with UID `uid`: the hash is SHA-1 of
   * `uid::raw`, and the prior hash is the stored field unless that already is the
   * current hash, so the two never coincide.
   */
  function StateFor(app: Host.App, file: Host.File, uid: string, html: string, sha1: string -> string): (r: NoteState)
    reads app
    ensures r.raw == StripFrontmatter(app, file.path, app.Text(file.path))
    ensures r.currentHash == sha1(uid + "::" + r.raw)
    ensures r.priorHash != Str(r.currentHash)
    ensures app.FrontmatterValue(file.path, PriorHashKey) != Str(r.currentHash) ==> r.priorHash == app.FrontmatterValue(file.path, PriorHashKey)
    ensures r.priorHash == Null || r.priorHash == app.FrontmatterValue(file.path, PriorHashKey)
  {
    var raw := StripFrontmatter(app, file.path, app.Text(file.path));
    var hash := sha1(uid + "::" + raw);
    var prior := app.FrontmatterValue(file.path, PriorHashKey);
    NoteState(file, uid, hash, if prior == Str(hash) then Null else prior,
              PathUtils.SlugifyFilePath(file.path, false), file.basename, html, raw, file.mtime)
  }

  /** Once the field holds the current hash, queuing the unchanged note again records no prior hash and writes nothing. */
  lemma RequeueUnchanged(app: Host.App, file: Host.File, uid: string, html: string, sha1: string -> string)
    requires app.FrontmatterValue(file.path, PriorHashKey) == Str(StateFor(app, file, uid, html, sha1).currentHash)
    ensures StateFor(app, file, uid, html, sha1).priorHash == Null
    ensures StateFor(app, file, uid, html, sha1).currentHash != "" ==>
      !NeedsUpdate(app.FrontmatterValue(file.path, PriorHashKey), StateFor(app, file, uid, html, sha1).currentHash)
  {
  }

  /**
   * With profile ids free of `:`, a note's key starts with `p:` exactly when it was
   * queued for profile `p`, so a commit takes only its own profile's notes.
   */
  lemma KeySelectsProfile(p: string, q: string, uid: string)
    requires ':' !in p && ':' !in q
    ensures StartsWith(Key(q, uid), p + ":") <==> p == q
  {
    var key := Key(q, uid);
    assert StartsWith(key, q + ":");
    if StartsWith(key, p + ":") {
      ColonAfter(p, key);
      ColonAfter(q, key);
      assert p == key[..|p|] == q;
    }
  }

  /** In a text starting with `a:`, where `a` has no colon, the first colon is at `|a|`. */
  lemma ColonAfter(a: string, s: string)
    requires ':' !in a && StartsWith(s, a + ":")
    ensures |a| < |s| && s[|a|] == ':'
    ensures forall i :: 0 <= i < |a| ==> s[i] != ':'
  {
    assert s[..|a| + 1] == a + ":";
    forall i | 0 <= i < |a| ensures s[i] != ':' {
      assert s[i] == a[i];
    }
  }

  /** A profile id holding `:` makes its keys look like those of a shorter id: `a` takes the notes of `a:b`. */
  lemma KeyOfColonProfile(uid: string)
    ensures StartsWith(Key("a:b", uid), "a" + ":")
  {
    assert Key("a:b", uid)[..2] == "a:";
  }

  /** `linkText.split('|')`: the link part, and the alias part or `""` when there is none. */
  function LinkAndAlias(linkText: string): (string, string) {
    var parts := Split(linkText, "|");
    (parts[0], if |parts| > 1 then parts[1] else "")
  }

  /**
   * The `resolveInternalLinks` callback `markdownToHtml` gives the link plugin:
   * the link's target must be a markdown file with a UID whose contexts list the
   * profile; the display text is the alias, or the link when there is none.
   */
  function ResolveInternalLink(app: Host.App, profileId: string, currentPath: string, linkText: string): (r: Option<ResolvedNoteInfo>)
    reads app
  {
    var (link, alias) := LinkAndAlias(linkText);
    match app.LinkDest(link, currentPath)
    case None => None
    case Some(dest) =>
      match Host.FileByPath(app.files, dest)
      case None => None
      case Some(target) =>
        if target.extension != "md" then None
        else match app.NoteUid(target.path)
          case None => None
          case Some(uid) =>
            if Selection.Lists(Selection.PublishContexts(app, target.path), profileId)
            then Some(ResolvedNoteInfo(uid, target.basename, if alias != "" then alias else link, true))
            else None
  }

  /**
   * For `[[link|alias]]` and `[[link]]` with no `|` inside the parts: the link resolves
   * exactly when its target is a markdown note with a UID whose contexts list the profile,
   * and it then shows the alias, or the link when the alias is empty or absent.
   */
  lemma ResolverCases(app: Host.App, profileId: string, currentPath: string, link: string, alias: Option<string>)
    requires '|' !in link && (alias.Some? ==> '|' !in alias.value)
    ensures var r := ResolveInternalLink(app, profileId, currentPath, if alias.Some? then link + "|" + alias.value else link);
      var target := if app.LinkDest(link, currentPath).Some? then Host.FileByPath(app.files, app.LinkDest(link, currentPath).value) else None;
      && (r.Some? <==>
            && target.Some? && target.value.extension == "md"
            && app.NoteUid(target.value.path).Some?
            && Selection.Lists(Selection.PublishContexts(app, target.value.path), profileId))
      && (r.Some? ==> r.value.uid == app.NoteUid(target.value.path).value && r.value.title == target.value.basename)
      && (r.Some? ==> r.value.displayText == if alias.Some? && alias.value != "" then alias.value else link)
  {
    if alias.Some? {
      SplitJoin([link, alias.value], '|');
      assert Join([link, alias.value], "|") == link + "|" + alias.value;
    } else {
      SplitJoin([link], '|');
    }
  }

  /** `getBacklinks`: the connections flagged as backlinks, in order, as uid, slug and title. */
  function Backlinks(connections: seq<Selection.Connection>): (r: seq<BacklinkInfo>)
    ensures |r| <= |connections|
  {
    if connections == [] then []
    else
      var c := connections[0];
      (if c.isBacklink then [BacklinkInfo(c.uid, c.slug, c.title)] else []) + Backlinks(connections[1..])
  }

  /** A backlink is listed exactly for each connection flagged as one. */
  lemma {:induction false} BacklinksAre(connections: seq<Selection.Connection>)
    ensures forall b :: b in Backlinks(connections) <==>
      exists i :: 0 <= i < |connections| && connections[i].isBacklink && b == BacklinkInfo(connections[i].uid, connections[i].slug, connections[i].title)
    decreases |connections|
  {
    if connections != [] {
      BacklinksAre(connections[1..]);
      forall b | b in Backlinks(connections[1..])
        ensures exists i :: 0 <= i < |connections| && connections[i].isBacklink && b == BacklinkInfo(connections[i].uid, connections[i].slug, connections[i].title)
      {
        var i :| 0 <= i < |connections[1..]| && connections[1..][i].isBacklink
          && b == BacklinkInfo(connections[1..][i].uid, connections[1..][i].slug, connections[1..][i].title);
        assert connections[i + 1] == connections[1..][i];
      }
      forall i | 1 <= i < |connections| ensures connections[i] == connections[1..][i - 1] {
      }
    }
  }

  function BacklinkValue(b: BacklinkInfo): Value {
    Obj(map["uid" := Str(b.uid), "slug" := Str(b.slug), "title" := Str(b.title)])
  }

  /** `JSON.stringify(noteJson)`, as the value stringified: a prior hash left `undefined` is omitted. */
  function NoteJson(state: NoteState, backlinks: seq<BacklinkInfo>): Value {
    var fields := map[
      "uid" := Str(state.uid), "slug" := Str(state.slug), "title" := Str(state.title),
      "content" := Str(state.content), "raw" := Str(state.raw),
      "backlinks" := Arr(seq(|backlinks|, i requires 0 <= i < |backlinks| => BacklinkValue(backlinks[i]))),
      "hash" := Str(state.currentHash), "lastUpdated" := Num(state.lastModified)];
    Obj(if state.priorHash == Undefined then fields else fields["priorHash" := state.priorHash])
  }

  /** The pending entries whose keys start with `profileId:`, in the map's order. */
  function ForProfile(items: seq<(string, NoteState)>, profileId: string): (r: seq<(string, NoteState)>)
    ensures forall e :: e in r <==> e in items && StartsWith(e.0, profileId + ":")
  {
    if items == [] then []
    else (if StartsWith(items[0].0, profileId + ":") then [items[0]] else []) + ForProfile(items[1..], profileId)
  }

  /** The pending map after the entries of `notes` were deleted one by one. */
  function DeleteKeys(m: Host.OrderedMap<NoteState>, notes: seq<(string, NoteState)>): (r: Host.OrderedMap<NoteState>)
    ensures m.Valid() ==> r.Valid()
  {
    if notes == [] then m else DeleteKeys(m, notes[..|notes| - 1]).Delete(notes[|notes| - 1].0)
  }

  /**
   * Deleting the keys of every entry queued for a profile leaves exactly the entries
   * of the other profiles, with their states.
   */
  lemma {:induction false} DeleteKeysLeaves(m: Host.OrderedMap<NoteState>, notes: seq<(string, NoteState)>)
    ensures DeleteKeys(m, notes).entries == map k | k in m.entries && (forall i :: 0 <= i < |notes| ==> notes[i].0 != k) :: m.entries[k]
    decreases |notes|
  {
    if notes != [] {
      DeleteKeysLeaves(m, notes[..|notes| - 1]);
    }
  }

  /** Deleting every entry queued for a profile leaves none of its keys pending. */
  lemma DrainedProfile(m: Host.OrderedMap<NoteState>, profileId: string)
    requires m.Valid()
    ensures forall k :: k in DeleteKeys(m, ForProfile(m.Items(), profileId)).entries ==> !StartsWith(k, profileId + ":")
  {
    var notes := ForProfile(m.Items(), profileId);
    DeleteKeysLeaves(m, notes);
    forall k | k in DeleteKeys(m, notes).entries ensures !StartsWith(k, profileId + ":") {
      assert forall i :: 0 <= i < |notes| ==> notes[i].0 != k;
      var i :| 0 <= i < |m.order| && m.order[i] == k;
      assert m.Items()[i] == (k, m.entries[k]);
      assert (k, m.entries[k]) !in notes;
    }
  }

  /** The mapping tables after `updateMappings` for each of `notes` in turn. */
  function MappingsAfter(data: map<string, Mappings.MappingData>, profileId: string, notes: seq<(string, NoteState)>): map<string, Mappings.MappingData> {
    if notes == [] then data
    else
      var s := notes[|notes| - 1].1;
      Mappings.Upsert(MappingsAfter(data, profileId, notes[..|notes| - 1]), profileId, s.slug, s.uid, s.currentHash)
  }

  /** After committing, each note's slug maps to its uid and its uid to its hash, the last note winning. */
  lemma {:induction false} MappingsAfterHolds(data: map<string, Mappings.MappingData>, profileId: string, notes: seq<(string, NoteState)>, i: nat)
    requires i < |notes|
    requires forall j :: i < j < |notes| ==> notes[j].1.uid != notes[i].1.uid
    ensures var r := MappingsAfter(data, profileId, notes);
      profileId in r && notes[i].1.uid in r[profileId].uidToHash && r[profileId].uidToHash[notes[i].1.uid] == notes[i].1.currentHash
    decreases |notes|
  {
    if i < |notes| - 1 {
      MappingsAfterHolds(data, profileId, notes[..|notes| - 1], i);
    }
  }

  /** The content-index queue after each of `notes` was queued, when the profile indexes content. */
  function IndexQueueAfter(pending: map<string, ContentIndex.Index>, profileId: string, enabled: bool,
                           notes: seq<(string, NoteState)>, plaintext: Host.File -> Option<string>): map<string, ContentIndex.Index> {
    if notes == [] || !enabled then pending
    else
      var s := notes[|notes| - 1].1;
      ContentIndex.Enqueue(IndexQueueAfter(pending, profileId, enabled, notes[..|notes| - 1], plaintext),
                           profileId, s.uid, ContentIndex.EntryFor(s.file, plaintext(s.file)))
  }

  class NoteManager {
    /** `pendingNotes` */
    var pending: Host.OrderedMap<NoteState>
    const app: Host.App
    const settings: Settings
    const frontmatter: Frontmatter.FrontmatterManager
    const mappings: Mappings.MappingManager
    const contentIndex: ContentIndex.ContentIndexManager
    const profiles: Profiles.ProfileManager

    constructor (app: Host.App, settings: Settings, frontmatter: Frontmatter.FrontmatterManager, mappings: Mappings.MappingManager,
                 contentIndex: ContentIndex.ContentIndexManager, profiles: Profiles.ProfileManager)
      ensures this.app == app && this.settings == settings && this.frontmatter == frontmatter
      ensures this.mappings == mappings && this.contentIndex == contentIndex && this.profiles == profiles
      ensures pending == Host.OrderedMap(map[], []) && pending.Valid()
    {
      this.app := app;
      this.settings := settings;
      this.frontmatter := frontmatter;
      this.mappings := mappings;
      this.contentIndex := contentIndex;
      this.profiles := profiles;
      this.pending := Host.OrderedMap(map[], []);
    }

    /** The managers share the plugin's app and its adapter, under one plugin directory. */
    predicate Wired() {
      && frontmatter.app == app
      && mappings.adapter == app.adapter && contentIndex.adapter == app.adapter && profiles.adapter == app.adapter
      && mappings.mappingDir == profiles.pluginDir + "/mapping" && contentIndex.contentDir == profiles.pluginDir + "/content"
      && profiles.baseDir == profiles.pluginDir + "/profiles"
    }

    /**
     * `queueNote(file, profileId)`. A note without a UID changes nothing. Otherwise its
     * state is kept under `profileId:uid`, replacing any earlier one; the prior-hash field
     * is queued and flushed when it is missing or differs, so afterwards a vault note's
     * field holds the current hash.
     */
    method QueueNote(file: Host.File, profileId: string, html: string, sha1: string -> string)
      requires Wired() && pending.Valid()
      modifies this, frontmatter, app
      ensures pending.Valid() && app.files == old(app.files)
      ensures !HasUid(app, file.path) ==>
        pending == old(pending) && app.frontmatter == old(app.frontmatter) && frontmatter.queue == old(frontmatter.queue)
      ensures HasUid(app, file.path) ==>
        var state := old(StateFor(app, file, app.uids[file.path], html, sha1));
        && pending == old(pending).Set(Key(profileId, state.uid), state)
        && (Frontmatter.IsFile(app.files, file.path) ==> app.FrontmatterValue(file.path, PriorHashKey) == Str(state.currentHash))
      ensures HasUid(app, file.path) ==>
        var state := old(StateFor(app, file, app.uids[file.path], html, sha1));
        var prior := old(app.FrontmatterValue(file.path, PriorHashKey));
        if NeedsUpdate(prior, state.currentHash) then
          var queue := old(frontmatter.queue)[file.path := Frontmatter.Merge(Frontmatter.Get(old(frontmatter.queue), file.path), map[PriorHashKey := Str(state.currentHash)])];
          frontmatter.queue == map[] && app.frontmatter == Frontmatter.Processed(old(app.frontmatter), queue, queue.Keys, app.files)
        else
          frontmatter.queue == old(frontmatter.queue) && app.frontmatter == old(app.frontmatter)
    {
      var uid := app.NoteUid(file.path);
      if uid.None? || uid.value == "" {
        return;
      }
      var state := StateFor(app, file, uid.value, html, sha1);
      StorePriorHash(file, state.currentHash);
      pending := pending.Set(Key(profileId, uid.value), state);
    }

    /**
     * The part of `queueNote` that brings the prior-hash field up to date: it is queued
     * and flushed when missing or different, so a vault note's field then holds the hash.
     */
    method StorePriorHash(file: Host.File, hash: string)
      requires Wired()
      modifies frontmatter, app
      ensures app.files == old(app.files)
      ensures Frontmatter.IsFile(app.files, file.path) ==> app.FrontmatterValue(file.path, PriorHashKey) == Str(hash)
      ensures
        if NeedsUpdate(old(app.FrontmatterValue(file.path, PriorHashKey)), hash) then
          var queue := old(frontmatter.queue)[file.path := Frontmatter.Merge(Frontmatter.Get(old(frontmatter.queue), file.path), map[PriorHashKey := Str(hash)])];
          frontmatter.queue == map[] && app.frontmatter == Frontmatter.Processed(old(app.frontmatter), queue, queue.Keys, app.files)
        else
          frontmatter.queue == old(frontmatter.queue) && app.frontmatter == old(app.frontmatter)
    {
      var prior := app.FrontmatterValue(file.path, PriorHashKey);
      if !Truthy(prior) || prior != Str(hash) {
        frontmatter.Add(file, map[PriorHashKey := Str(hash)]);
        frontmatter.Process();
        PriorHashStored(old(app.frontmatter), old(frontmatter.queue), file.path, hash, app.files);
      }
    }

    /** The pending entries queued for the profile, in the order they were first queued. */
    function Queued(profileId: string): (r: seq<(string, NoteState)>)
      requires pending.Valid()
      reads this
      ensures forall e :: e in r <==> e.0 in pending.entries && e.1 == pending.entries[e.0] && StartsWith(e.0, profileId + ":")
    {
      ForProfile(pending.Items(), profileId)
    }

    /** Path of a note's staged artifact: `<staged dir>/<hash>.json`. */
    function StagedPath(profileId: string, hash: string): string {
      profiles.StagedNotesDir(profileId) + "/" + hash + ".json"
    }

    function HomeIndexPath(profileId: string): string {
      profiles.StagedNotesDir(profileId) + "/index.json"
    }

    /** The note is the profile's home note. */
    predicate IsHome(profileId: string, state: NoteState)
      reads settings
    {
      var profile := FindProfile(settings.profiles, profileId);
      profile.Some? && profile.value.homeNotePath == state.file.path
    }

    /** The profile stores a content index. */
    predicate IndexEnabled(profileId: string)
      reads settings
    {
      var profile := FindProfile(settings.profiles, profileId);
      profile.Some? && profile.value.publishContentIndex
    }

    /** The JSON a note is staged as, with its backlinks as the vault has them now. */
    function StagedJson(profileId: string, state: NoteState): Value
      reads app, settings
    {
      NoteJson(state, Backlinks(Selection.Connected(app, settings.profiles, state.file, profileId)))
    }

    /** One of the note's staging writes throws. */
    predicate WriteFails(profileId: string, state: NoteState)
      reads settings
    {
      StagedPath(profileId, state.currentHash) in app.adapter.failing
      || (IsHome(profileId, state) && HomeIndexPath(profileId) in app.adapter.failing)
    }

    /**
     * The files after `writeNoteToStaging`: the artifact, then for the home note the same
     * payload as `index.json`; a write that throws ends it.
     */
    function StageWrite(files: map<string, Host.Content>, profileId: string, state: NoteState): map<string, Host.Content>
      reads app, settings
    {
      var json := Host.Json(StagedJson(profileId, state));
      if StagedPath(profileId, state.currentHash) in app.adapter.failing then files
      else
        var written := files[StagedPath(profileId, state.currentHash) := json];
        if IsHome(profileId, state) && HomeIndexPath(profileId) !in app.adapter.failing then written[HomeIndexPath(profileId) := json]
        else written
    }

    /** A staged note's artifact holds its JSON; the home note's is also in `index.json`. */
    lemma StageWriteHolds(files: map<string, Host.Content>, profileId: string, state: NoteState)
      requires !WriteFails(profileId, state)
      ensures var r := StageWrite(files, profileId, state);
        && StagedPath(profileId, state.currentHash) in r
        && r[StagedPath(profileId, state.currentHash)] == Host.Json(StagedJson(profileId, state))
        && (IsHome(profileId, state) ==> HomeIndexPath(profileId) in r && r[HomeIndexPath(profileId)] == Host.Json(StagedJson(profileId, state)))
        && (forall p :: p != StagedPath(profileId, state.currentHash) && p != HomeIndexPath(profileId) ==>
              (p in r <==> p in files) && (p in r ==> r[p] == files[p]))
    {
    }

    /** The files after each of `notes` was staged in turn. */
    function Staged(files: map<string, Host.Content>, profileId: string, notes: seq<(string, NoteState)>): map<string, Host.Content>
      reads app, settings
    {
      if notes == [] then files
      else StageWrite(Staged(files, profileId, notes[..|notes| - 1]), profileId, notes[|notes| - 1].1)
    }

    /** Staging only writes files: every file there before is there after. */
    lemma {:induction false} StagedGrows(files: map<string, Host.Content>, profileId: string, notes: seq<(string, NoteState)>)
      ensures files.Keys <= Staged(files, profileId, notes).Keys
      decreases |notes|
    {
      if notes != [] {
        StagedGrows(files, profileId, notes[..|notes| - 1]);
      }
    }

    /** Staging reads only the vault and the settings, so it gives the same files while neither changes. */
    twostate lemma {:induction false} StagedFrame(new files: map<string, Host.Content>, new profileId: string, notes: seq<(string, NoteState)>)
      requires unchanged(app, settings)
      ensures old(Staged(files, profileId, notes)) == Staged(files, profileId, notes)
      decreases |notes|
    {
      if notes != [] {
        StagedFrame(files, profileId, notes[..|notes| - 1]);
      }
    }

    /** How many of `notes` stage before the first whose write throws. */
    function FirstFailure(profileId: string, notes: seq<(string, NoteState)>): (n: nat)
      reads settings
      ensures n <= |notes|
      ensures forall i :: 0 <= i < n ==> !WriteFails(profileId, notes[i].1)
      ensures n < |notes| ==> WriteFails(profileId, notes[n].1)
    {
      if notes == [] then 0
      else if WriteFails(profileId, notes[0].1) then 0
      else
        var n := FirstFailure(profileId, notes[1..]);
        assert forall i :: 1 <= i < n + 1 ==> notes[i] == notes[1..][i - 1];
        1 + n
    }

    /** `getBacklinks(targetFile, profileId)` */
    method GetBacklinks(target: Host.File, profileId: string) returns (r: seq<BacklinkInfo>)
      ensures r == Backlinks(Selection.Connected(app, settings.profiles, target, profileId))
    {
      var connections := Selection.GetConnectedNotes(app, settings.profiles, target, profileId);
      r := Backlinks(connections);
    }

    /** `writeNoteToStaging(profileId, noteState)`; `ok` is false where a write throws. */
    method WriteNoteToStaging(profileId: string, state: NoteState) returns (ok: bool)
      modifies app.adapter
      ensures ok == !WriteFails(profileId, state)
      ensures app.adapter.files == StageWrite(old(app.adapter.files), profileId, state)
      ensures app.adapter.ensured == old(app.adapter.ensured)
    {
      var backlinks := GetBacklinks(state.file, profileId);
      var json := NoteJson(state, backlinks);
      ok := app.adapter.Write(StagedPath(profileId, state.currentHash), Host.Json(json));
      if !ok {
        return;
      }
      var profile := FindProfile(settings.profiles, profileId);
      if profile.Some? && profile.value.homeNotePath == state.file.path {
        ok := app.adapter.Write(HomeIndexPath(profileId), Host.Json(json));
      }
    }

    /** The body of the commit loop for one entry: mappings, content index, staging, then deletion. */
    method StageOne(profileId: string, key: string, state: NoteState, plaintext: Host.File -> Option<string>) returns (ok: bool)
      requires Wired()
      modifies this, mappings, contentIndex, app.adapter
      ensures mappings.data == Mappings.Upsert(old(mappings.data), profileId, state.slug, state.uid, state.currentHash)
      ensures contentIndex.pending == if IndexEnabled(profileId)
        then ContentIndex.Enqueue(old(contentIndex.pending), profileId, state.uid, ContentIndex.EntryFor(state.file, plaintext(state.file)))
        else old(contentIndex.pending)
      ensures app.adapter.files == StageWrite(old(app.adapter.files), profileId, state)
      ensures ok == !WriteFails(profileId, state)
      ensures pending == if ok then old(pending).Delete(key) else old(pending)
      ensures contentIndex.loaded == old(contentIndex.loaded)
    {
      RecordNote(profileId, state, plaintext);
      ok := WriteNoteToStaging(profileId, state);
      if ok {
        pending := pending.Delete(key);
      }
    }

    /**
     * The loop of `commitPendingNotes` over the entries queued for the profile. Each
     * entry's mappings and content-index entry are updated before it is staged, and it
     * leaves the pending map only once staged; the first write that throws ends the loop,
     * leaving that entry and the later ones pending.
     */
    method StageNotes(profileId: string, plaintext: Host.File -> Option<string>, ghost notes: seq<(string, NoteState)>) returns (ok: bool)
      requires Wired() && pending.Valid() && notes == Queued(profileId)
      modifies this, mappings, contentIndex, app.adapter
      ensures pending.Valid()
      ensures var n := FirstFailure(profileId, notes);
        var m := if n < |notes| then n + 1 else n;
        && ok == (n == |notes|)
        && pending == DeleteKeys(old(pending), notes[..n])
        && mappings.data == MappingsAfter(old(mappings.data), profileId, notes[..m])
        && contentIndex.pending == IndexQueueAfter(old(contentIndex.pending), profileId, IndexEnabled(profileId), notes[..m], plaintext)
        && app.adapter.files == Staged(old(app.adapter.files), profileId, notes[..m])
      ensures old(app.adapter.files).Keys <= app.adapter.files.Keys
      ensures contentIndex.loaded == old(contentIndex.loaded)
      ensures Host.Same(old(app.adapter.files), app.adapter.files, contentIndex.IndexPath(profileId))
    {
      var entries := Queued(profileId);
      ok := StageEach(profileId, entries, plaintext);
      ghost var n := FirstFailure(profileId, notes);
      StagedGrows(old(app.adapter.files), profileId, notes[..if n < |notes| then n + 1 else n]);
      StagedKeepsIndex(old(app.adapter.files), profileId, notes[..if n < |notes| then n + 1 else n]);
    }

    /** The index `loadIndex` gives is the same while the cache and the index file are. */
    twostate lemma IndexOfKept(new profileId: string)
      requires Wired() && contentIndex.loaded == old(contentIndex.loaded)
      requires Host.Same(old(app.adapter.files), app.adapter.files, contentIndex.IndexPath(profileId))
      ensures contentIndex.IndexOf(profileId) == old(contentIndex.IndexOf(profileId))
    {
    }

    /** The note's mapping update and, when the profile indexes content, its content-index entry. */
    method RecordNote(profileId: string, state: NoteState, plaintext: Host.File -> Option<string>)
      modifies mappings, contentIndex
      ensures mappings.data == Mappings.Upsert(old(mappings.data), profileId, state.slug, state.uid, state.currentHash)
      ensures contentIndex.pending == if IndexEnabled(profileId)
        then ContentIndex.Enqueue(old(contentIndex.pending), profileId, state.uid, ContentIndex.EntryFor(state.file, plaintext(state.file)))
        else old(contentIndex.pending)
      ensures contentIndex.loaded == old(contentIndex.loaded)
    {
      mappings.UpdateMappings(profileId, state.slug, state.uid, state.currentHash);
      var profile := FindProfile(settings.profiles, profileId);
      if profile.Some? && profile.value.publishContentIndex {
        contentIndex.QueueUpdate(profileId, state.file, state.uid, plaintext(state.file));
      }
    }

    /**
     * The state after the commit loop has deleted the first `k` entries from the pending
     * map and run the updates and staging writes of the first `j`.
     */
    ghost predicate Folded(profileId: string, notes: seq<(string, NoteState)>, k: nat, j: nat, plaintext: Host.File -> Option<string>,
                           pending0: Host.OrderedMap<NoteState>, data0: map<string, Mappings.MappingData>,
                           queue0: map<string, ContentIndex.Index>, files0: map<string, Host.Content>)
      requires k <= j <= |notes|
      reads this, mappings, contentIndex, app, app.adapter, settings
    {
      && pending == DeleteKeys(pending0, notes[..k])
      && mappings.data == MappingsAfter(data0, profileId, notes[..j])
      && contentIndex.pending == IndexQueueAfter(queue0, profileId, IndexEnabled(profileId), notes[..j], plaintext)
      && app.adapter.files == Staged(files0, profileId, notes[..j])
    }

    /** The commit loop over the given entries, stopping at the first whose write throws. */
    method StageEach(profileId: string, notes: seq<(string, NoteState)>, plaintext: Host.File -> Option<string>) returns (ok: bool)
      requires Wired() && pending.Valid()
      modifies this, mappings, contentIndex, app.adapter
      ensures pending.Valid()
      ensures var n := FirstFailure(profileId, notes);
        var m := if n < |notes| then n + 1 else n;
        && ok == (n == |notes|)
        && pending == DeleteKeys(old(pending), notes[..n])
        && mappings.data == MappingsAfter(old(mappings.data), profileId, notes[..m])
        && contentIndex.pending == IndexQueueAfter(old(contentIndex.pending), profileId, IndexEnabled(profileId), notes[..m], plaintext)
        && app.adapter.files == Staged(old(app.adapter.files), profileId, notes[..m])
      ensures contentIndex.loaded == old(contentIndex.loaded)
    {
      ghost var pending0, data0, queue0, files0 := pending, mappings.data, contentIndex.pending, app.adapter.files;
      var k := 0;
      while k < |notes|
        invariant 0 <= k <= FirstFailure(profileId, notes)
        invariant Folded(profileId, notes, k, k, plaintext, pending0, data0, queue0, files0)
        invariant contentIndex.loaded == old(contentIndex.loaded)
      {
        ok := StageAt(profileId, notes, k, plaintext, pending0, data0, queue0, files0);
        if !ok {
          return;
        }
        k := k + 1;
      }
      assert notes[..k] == notes;
      ok := true;
    }

    /** One pass of the commit loop, at entry `k`. */
    method StageAt(profileId: string, notes: seq<(string, NoteState)>, k: nat, plaintext: Host.File -> Option<string>,
                   ghost pending0: Host.OrderedMap<NoteState>, ghost data0: map<string, Mappings.MappingData>,
                   ghost queue0: map<string, ContentIndex.Index>, ghost files0: map<string, Host.Content>) returns (ok: bool)
      requires Wired() && k < |notes| && k <= FirstFailure(profileId, notes)
      requires Folded(profileId, notes, k, k, plaintext, pending0, data0, queue0, files0)
      modifies this, mappings, contentIndex, app.adapter
      ensures ok ==> k + 1 <= FirstFailure(profileId, notes) && Folded(profileId, notes, k + 1, k + 1, plaintext, pending0, data0, queue0, files0)
      ensures !ok ==> k == FirstFailure(profileId, notes) && Folded(profileId, notes, k, k + 1, plaintext, pending0, data0, queue0, files0)
      ensures contentIndex.loaded == old(contentIndex.loaded)
    {
      FirstFailureAt(profileId, notes, k);
      ok := StageOne(profileId, notes[k].0, notes[k].1, plaintext);
      FoldStep(profileId, notes, k, plaintext, pending0, data0, queue0, files0);
      assert mappings.data == MappingsAfter(data0, profileId, notes[..k + 1]);
      assert contentIndex.pending == IndexQueueAfter(queue0, profileId, IndexEnabled(profileId), notes[..k + 1], plaintext);
      assert app.adapter.files == Staged(files0, profileId, notes[..k + 1]);
    }

    /** The entry at `k`, reached with no failure before it, fails exactly when it is the first failure. */
    lemma FirstFailureAt(profileId: string, notes: seq<(string, NoteState)>, k: nat)
      requires k <= FirstFailure(profileId, notes) && k < |notes|
      ensures WriteFails(profileId, notes[k].1) <==> k == FirstFailure(profileId, notes)
    {
    }

    /** Each fold over the first `k + 1` entries is one more step of the fold over the first `k`. */
    lemma FoldStep(profileId: string, notes: seq<(string, NoteState)>, k: nat, plaintext: Host.File -> Option<string>,
                   pending0: Host.OrderedMap<NoteState>, data0: map<string, Mappings.MappingData>,
                   queue0: map<string, ContentIndex.Index>, files0: map<string, Host.Content>)
      requires k < |notes|
      ensures DeleteKeys(pending0, notes[..k + 1]) == DeleteKeys(pending0, notes[..k]).Delete(notes[k].0)
      ensures MappingsAfter(data0, profileId, notes[..k + 1])
        == Mappings.Upsert(MappingsAfter(data0, profileId, notes[..k]), profileId, notes[k].1.slug, notes[k].1.uid, notes[k].1.currentHash)
      ensures IndexQueueAfter(queue0, profileId, IndexEnabled(profileId), notes[..k + 1], plaintext)
        == if IndexEnabled(profileId)
           then ContentIndex.Enqueue(IndexQueueAfter(queue0, profileId, true, notes[..k], plaintext), profileId, notes[k].1.uid,
                                     ContentIndex.EntryFor(notes[k].1.file, plaintext(notes[k].1.file)))
           else IndexQueueAfter(queue0, profileId, false, notes[..k], plaintext)
      ensures Staged(files0, profileId, notes[..k + 1]) == StageWrite(Staged(files0, profileId, notes[..k]), profileId, notes[k].1)
    {
      assert notes[..k + 1][..k] == notes[..k];
    }

    /**
     * `commitPendingNotes(profileId)`; `ok` is false where it rethrows. The pending map,
     * mappings and content-index queue change as the loop leaves them; a staging failure
     * skips both saves. On success every queued note of the profile is staged, so the
     * staging directory holds what staging them in turn writes, every profile's tables
     * are saved, and the profile's content-index queue has been written and dropped.
     */
    method CommitPendingNotes(profileId: string, plaintext: Host.File -> Option<string>, ghost batch: seq<(string, NoteState)>) returns (ok: bool)
      requires Wired() && pending.Valid() && batch == Queued(profileId)
      modifies this, mappings, contentIndex, app.adapter
      ensures pending.Valid()
      ensures var n := FirstFailure(profileId, batch);
        var m := if n < |batch| then n + 1 else n;
        && pending == DeleteKeys(old(pending), batch[..n])
        && mappings.data == MappingsAfter(old(mappings.data), profileId, batch[..m])
        && (ok ==> n == |batch| && profileId !in contentIndex.pending && MappingsSaved())
        && (n < |batch| ==> contentIndex.pending == IndexQueueAfter(old(contentIndex.pending), profileId, IndexEnabled(profileId), batch[..m], plaintext))
        && (n < |batch| ==> app.adapter.files == Staged(old(app.adapter.files), profileId, batch[..m]))
      ensures ok ==> SameStaging(old(Staged(app.adapter.files, profileId, batch)), app.adapter.files, profileId)
      ensures var queue := IndexQueueAfter(old(contentIndex.pending), profileId, IndexEnabled(profileId), batch, plaintext);
        ok && profileId in queue ==>
        && contentIndex.IndexPath(profileId) in app.adapter.files
        && app.adapter.files[contentIndex.IndexPath(profileId)] == Host.Json(Obj(old(contentIndex.IndexOf(profileId)) + queue[profileId]))
      ensures old(app.adapter.files).Keys <= app.adapter.files.Keys
    {
      ok := StageNotes(profileId, plaintext, batch);
      if !ok {
        return;
      }
      assert FirstFailure(profileId, batch) == |batch|;
      assert batch[..|batch|] == batch;
      StagedFrame(old(app.adapter.files), profileId, batch);
      IndexOfKept(profileId);
      ok := SaveAll(profileId);
    }

    /** Staging writes nothing to the profile's content index file, so the index it loads is the same. */
    lemma {:induction false} StagedKeepsIndex(files: map<string, Host.Content>, profileId: string, notes: seq<(string, NoteState)>)
      requires Wired()
      ensures Host.Same(files, Staged(files, profileId, notes), contentIndex.IndexPath(profileId))
      decreases |notes|
    {
      if notes != [] {
        StagedKeepsIndex(files, profileId, notes[..|notes| - 1]);
        var i := |profiles.pluginDir| + 1;
        assert contentIndex.IndexPath(profileId)[i] == 'c';
        assert StagedPath(profileId, notes[|notes| - 1].1.currentHash)[i] == 'p';
        assert HomeIndexPath(profileId)[i] == 'p';
      }
    }

    /** Saving the tables and the content index leaves the profile's staging directory alone. */
    lemma StagingKept(profileId: string, before: map<string, Host.Content>, after: map<string, Host.Content>)
      requires Wired()
      requires forall p :: SavedElsewhere(profileId, p) ==> Host.Same(before, after, p)
      ensures SameStaging(before, after, profileId)
    {
      forall p | Host.InDir(p, profiles.StagedNotesDir(profileId)) ensures Host.Same(before, after, p) {
        forall id | id in mappings.data ensures p != mappings.SlugPath(id) && p != mappings.HashPath(id) {
          StagedApart(profileId, p, profileId, id);
        }
        StagedApart(profileId, p, profileId, profileId);
        assert SavedElsewhere(profileId, p);
      }
    }

    /** `p` is none of the files `SaveAll` writes: no mapping document and not the profile's content index. */
    predicate SavedElsewhere(profileId: string, p: string)
      reads mappings
    {
      && (forall id :: id in mappings.data ==> p != mappings.SlugPath(id) && p != mappings.HashPath(id))
      && p != contentIndex.IndexPath(profileId)
    }

    /** The profile's staging directory holds the same files in `a` and in `b`. */
    ghost predicate SameStaging(a: map<string, Host.Content>, b: map<string, Host.Content>, profileId: string) {
      forall p :: Host.InDir(p, profiles.StagedNotesDir(profileId)) ==> Host.Same(a, b, p)
    }

    /** Every profile's mapping tables in memory are what its files hold. */
    ghost predicate MappingsSaved()
      reads mappings, app.adapter
    {
      forall id :: id in mappings.data ==> mappings.Saved(app.adapter.files, id, mappings.data[id])
    }

    /**
     * The end of `commitPendingNotes`: `saveMappings`, then `applyQueuedUpdates` unless that
     * threw. Only mapping documents and the profile's content index file change; once both
     * return, the index file holds the profile's index with its queued entries assigned.
     */
    method SaveAll(profileId: string) returns (ok: bool)
      requires Wired()
      modifies mappings, contentIndex, app.adapter
      ensures mappings.data == old(mappings.data)
      ensures ok ==> profileId !in contentIndex.pending && MappingsSaved()
      ensures ok && profileId in old(contentIndex.pending) ==>
        && contentIndex.IndexPath(profileId) in app.adapter.files
        && app.adapter.files[contentIndex.IndexPath(profileId)]
           == Host.Json(Obj(old(contentIndex.IndexOf(profileId)) + old(contentIndex.pending)[profileId]))
      ensures forall p :: SavedElsewhere(profileId, p) ==> Host.Same(old(app.adapter.files), app.adapter.files, p)
      ensures SameStaging(old(app.adapter.files), app.adapter.files, profileId)
      ensures old(app.adapter.files).Keys <= app.adapter.files.Keys
    {
      ok := mappings.SaveMappings();
      ghost var saved := app.adapter.files;
      if ok {
        forall id | id in mappings.data
          ensures contentIndex.IndexPath(profileId) != mappings.SlugPath(id) && contentIndex.IndexPath(profileId) != mappings.HashPath(id)
        {
          IndexNotMapping(profiles.pluginDir, profileId, id);
        }
        assert Host.Same(old(app.adapter.files), app.adapter.files, contentIndex.IndexPath(profileId));
        assert contentIndex.IndexOf(profileId) == old(contentIndex.IndexOf(profileId));
        ok := contentIndex.ApplyQueuedUpdates(profileId);
        if ok {
          forall id | id in mappings.data ensures mappings.Saved(app.adapter.files, id, mappings.data[id]) {
            IndexNotMapping(profiles.pluginDir, profileId, id);
          }
        }
      }
      forall p | SavedElsewhere(profileId, p)
        ensures Host.Same(old(app.adapter.files), app.adapter.files, p)
      {
        assert Host.Same(old(app.adapter.files), saved, p);
        assert Host.Same(saved, app.adapter.files, p);
      }
      StagingKept(profileId, old(app.adapter.files), app.adapter.files);
    }

    /** The content index file of a profile is neither mapping document of any profile. */
    lemma IndexNotMapping(pluginDir: string, a: string, b: string)
      requires Wired() && profiles.pluginDir == pluginDir
      ensures contentIndex.IndexPath(a) != mappings.SlugPath(b) && contentIndex.IndexPath(a) != mappings.HashPath(b)
    {
      var i := |pluginDir| + 1;
      assert contentIndex.IndexPath(a)[i] == 'c';
      assert mappings.SlugPath(b)[i] == 'm';
      assert mappings.HashPath(b)[i] == 'm';
    }

    /** A file in a profile's staging directory is no mapping document and no content index file. */
    lemma StagedApart(profileId: string, p: string, a: string, b: string)
      requires Wired() && Host.InDir(p, profiles.StagedNotesDir(profileId))
      ensures p != mappings.SlugPath(b) && p != mappings.HashPath(b) && p != contentIndex.IndexPath(a)
    {
      var i := |profiles.pluginDir| + 1;
      var dir := profiles.StagedNotesDir(profileId);
      assert p[..|dir| + 1] == dir + "/";
      assert p[i] == dir[i] == 'p';
      assert contentIndex.IndexPath(a)[i] == 'c';
      assert mappings.SlugPath(b)[i] == 'm';
      assert mappings.HashPath(b)[i] == 'm';
    }
  }

  /** After `add` and `process`, a vault note's prior-hash field holds the hash. */
  lemma PriorHashStored(fm: map<string, Frontmatter.Record>, before: map<string, Frontmatter.Record>, path: string, hash: string, files: seq<Host.File>)
    ensures var queue := before[path := Frontmatter.Merge(Frontmatter.Get(before, path), map[PriorHashKey := Str(hash)])];
      var r := Frontmatter.Processed(fm, queue, queue.Keys, files);
      Frontmatter.IsFile(files, path) ==> path in r && PriorHashKey in r[path] && r[path][PriorHashKey] == Str(hash)
  {
  }
}

=== FILE: obsidian_links.dfy ===
/**
 * The wiki-link transform of src/utils/remarkObsidianLinks.ts: a text node is
 * split on the matches of the global regular expression `\[\[(.*?)\]\]` into
 * text and link children, which replace the node inside its parent. The
 * tree walk of `unist-util-visit` is not part of this model: the transform is
 * stated for one text node and its parent. Node's `path.relative` is the
 * parameter `relative`.
 */
module ObsidianLinks {
  import opened Wrappers
  import opened Js
  import PathUtils

  /** The mdast nodes the transform produces or meets as siblings. */
  datatype Node =
    | Text(value: string)
    | Link(url: string, children: seq<Node>)
    | Other(kind: string, children: seq<Node>)

  /** What the resolver callback gives for a link text. */
  datatype Resolved = Resolved(slug: string, displayText: Option<string>)

  /** How a resolved slug becomes a URL: relative to the current note, or under a base URL. */
  datatype UrlForm =
    | Relative(currentSlug: string, relative: (string, string) -> string)
    | Absolute(baseUrl: string)

  function Url(form: UrlForm, slug: string): string {
    match form
    case Relative(currentSlug, relative) => PathUtils.CreateRelativePath(currentSlug, slug, relative)
    case Absolute(baseUrl) => baseUrl + "/" + slug
  }

  // ---------------------------------------------------------------------------
  // The matches of /\[\[(.*?)\]\]/g

  /** One match: `[[` at `start`, `]]` at `close`; the link text lies between. */
  datatype Match = Match(start: nat, close: nat)

  predicate OpensAt(s: string, i: nat) {
    i + 1 < |s| && s[i] == '[' && s[i + 1] == '['
  }

  predicate ClosesAt(s: string, k: nat) {
    k + 1 < |s| && s[k] == ']' && s[k + 1] == ']'
  }

  /**
   * Where the lazy `.*?` followed by `]]` ends when it starts at `k`: the first
   * `]]` at or after `k`, provided no line terminator (which `.` does not match)
   * comes before it.
   */
  function CloseFrom(s: string, k: nat): (r: Option<nat>)
    requires k <= |s|
    ensures r.Some? ==> k <= r.value && r.value + 2 <= |s|
    decreases |s| - k
  {
    if k >= |s| then None
    else if ClosesAt(s, k) then Some(k)
    else if IsLineTerminator(s[k]) then None
    else CloseFrom(s, k + 1)
  }

  /** `CloseFrom` finds the shortest run without line terminators that ends before a `]]`, and there is none when it fails. */
  lemma {:induction false} CloseFromIsLazy(s: string, k: nat)
    requires k <= |s|
    ensures var r := CloseFrom(s, k);
      && (r.Some? ==> ClosesAt(s, r.value) && forall t :: k <= t < r.value ==> !IsLineTerminator(s[t]) && !ClosesAt(s, t))
      && (r.None? ==> forall j :: k <= j && ClosesAt(s, j) ==> exists t :: k <= t < j && IsLineTerminator(s[t]))
    decreases |s| - k
  {
    if k < |s| && !ClosesAt(s, k) && !IsLineTerminator(s[k]) {
      CloseFromIsLazy(s, k + 1);
      var r := CloseFrom(s, k);
      if r.None? {
        forall j | k <= j && ClosesAt(s, j) ensures exists t :: k <= t < j && IsLineTerminator(s[t]) {
          assert j != k;
          var t :| k + 1 <= t < j && IsLineTerminator(s[t]);
        }
      }
    }
  }

  /** A match starts at `i`. */
  predicate MatchesAt(s: string, i: nat) {
    OpensAt(s, i) && CloseFrom(s, i + 2).Some?
  }

  /** The leftmost match starting at or after `p`. */
  function MatchFrom(s: string, p: nat): (r: Option<Match>)
    requires p <= |s|
    ensures r.Some? ==> p <= r.value.start && r.value.start + 2 <= r.value.close && r.value.close + 2 <= |s|
    decreases |s| - p
  {
    if p >= |s| then None
    else if MatchesAt(s, p) then Some(Match(p, CloseFrom(s, p + 2).value))
    else MatchFrom(s, p + 1)
  }

  /** `MatchFrom` finds the leftmost position where a match starts, and there is none when it fails. */
  lemma {:induction false} MatchFromIsLeftmost(s: string, p: nat)
    requires p <= |s|
    ensures var r := MatchFrom(s, p);
      && (r.Some? ==> MatchesAt(s, r.value.start) && r.value.close == CloseFrom(s, r.value.start + 2).value)
      && (r.Some? ==> forall i :: p <= i < r.value.start ==> !MatchesAt(s, i))
      && (r.None? ==> forall i :: p <= i <= |s| ==> !MatchesAt(s, i))
    decreases |s| - p
  {
    if p < |s| && !MatchesAt(s, p) {
      MatchFromIsLeftmost(s, p + 1);
    }
    if p >= |s| {
      assert forall i :: p <= i <= |s| ==> !OpensAt(s, i);
    }
  }

  /** A `[[`, a link text without line terminators and without `]]`, and a `]]`. */
  predicate LinkShaped(s: string, m: Match) {
    && OpensAt(s, m.start) && ClosesAt(s, m.close) && m.start + 2 <= m.close
    && forall t :: m.start + 2 <= t < m.close ==> !IsLineTerminator(s[t]) && !ClosesAt(s, t)
  }

  /** The matches lie inside `s`, left to right, none overlapping. */
  predicate Ordered(s: string, ms: seq<Match>) {
    && (forall i :: 0 <= i < |ms| ==> ms[i].start + 2 <= ms[i].close && ms[i].close + 2 <= |s|)
    && (forall i, j :: 0 <= i < j < |ms| ==> ms[i].close + 2 <= ms[j].start)
  }

  /** `Array.from(s.matchAll(/\[\[(.*?)\]\]/g))` from position `p`: each search resumes after the previous match. */
  function MatchesFrom(s: string, p: nat): (ms: seq<Match>)
    requires p <= |s|
    ensures Ordered(s, ms) && forall i :: 0 <= i < |ms| ==> p <= ms[i].start
    decreases |s| - p
  {
    match MatchFrom(s, p)
    case None => []
    case Some(m) =>
      var tail := MatchesFrom(s, m.close + 2);
      assert forall i :: 0 < i <= |tail| ==> ([m] + tail)[i] == tail[i - 1];
      [m] + tail
  }

  /** Each match is a `[[`, a link text without line terminators and without `]]`, and a `]]`. */
  lemma {:induction false} MatchesAreLinks(s: string, p: nat)
    requires p <= |s|
    ensures forall i :: 0 <= i < |MatchesFrom(s, p)| ==> LinkShaped(s, MatchesFrom(s, p)[i])
    decreases |s| - p
  {
    MatchFromIsLeftmost(s, p);
    match MatchFrom(s, p)
    case None =>
    case Some(m) =>
      CloseFromIsLazy(s, m.start + 2);
      MatchesAreLinks(s, m.close + 2);
      var ms := MatchesFrom(s, p);
      var tail := MatchesFrom(s, m.close + 2);
      assert ms == [m] + tail;
      assert LinkShaped(s, m);
      forall i | 0 <= i < |ms| ensures LinkShaped(s, ms[i]) {
        if i > 0 {
          assert ms[i] == tail[i - 1];
        }
      }
  }

  /** There are no matches exactly when no `[[...]]` occurs: the text node is then left as it is. */
  lemma NoMatches(s: string, p: nat)
    requires p <= |s|
    ensures MatchesFrom(s, p) == [] <==> forall i :: p <= i <= |s| ==> !MatchesAt(s, i)
  {
    MatchFromIsLeftmost(s, p);
  }

  // ---------------------------------------------------------------------------
  // The children that replace a text node

  /** `resolved.displayText || linkText` */
  function DisplayText(r: Resolved, linkText: string): (t: string)
    ensures r.displayText.Some? && r.displayText.value != [] ==> t == r.displayText.value
    ensures r.displayText.None? || r.displayText.value == [] ==> t == linkText
  {
    if r.displayText.Some? && r.displayText.value != [] then r.displayText.value else linkText
  }

  function LinkText(s: string, m: Match): string
    requires m.start + 2 <= m.close <= |s|
  {
    s[m.start + 2..m.close]
  }

  /** The child a match becomes: a link when it resolves, else its full text verbatim. */
  function Piece(s: string, m: Match, resolve: string -> Option<Resolved>, form: UrlForm): Node
    requires m.start + 2 <= m.close && m.close + 2 <= |s|
  {
    var linkText := LinkText(s, m);
    match resolve(linkText)
    case None => Text(s[m.start..m.close + 2])
    case Some(r) => Link(Url(form, r.slug), [Text(DisplayText(r, linkText))])
  }

  /** The text between the previous match (or the start) and the next match, when there is any. */
  function Before(s: string, last: nat, start: nat): seq<Node>
    requires last <= start <= |s|
  {
    if start > last then [Text(s[last..start])] else []
  }

  /** The text after the last match, when there is any. */
  function Remaining(s: string, last: nat): seq<Node>
    requires last <= |s|
  {
    if last < |s| then [Text(s[last..])] else []
  }

  /** `lastIndex` once the first `k` matches are done: where the first `k` matches end. */
  function LastIndex(s: string, ms: seq<Match>, k: nat): (r: nat)
    requires Ordered(s, ms) && k <= |ms|
    ensures r <= |s| && (k < |ms| ==> r <= ms[k].start)
  {
    if k == 0 then 0 else ms[k - 1].close + 2
  }

  /** The children pushed for the first `k` matches: for each, the text before it and its piece. */
  function Built(s: string, ms: seq<Match>, k: nat, resolve: string -> Option<Resolved>, form: UrlForm): seq<Node>
    requires Ordered(s, ms) && k <= |ms|
    decreases k
  {
    if k == 0 then []
    else Built(s, ms, k - 1, resolve, form) + Before(s, LastIndex(s, ms, k - 1), ms[k - 1].start) + [Piece(s, ms[k - 1], resolve, form)]
  }

  /** One more match done: its text before and its piece are pushed, and `lastIndex` moves past it. */
  lemma BuiltStep(s: string, ms: seq<Match>, k: nat, resolve: string -> Option<Resolved>, form: UrlForm)
    requires Ordered(s, ms) && k < |ms|
    ensures LastIndex(s, ms, k + 1) == ms[k].close + 2
    ensures Built(s, ms, k + 1, resolve, form) ==
      Built(s, ms, k, resolve, form) + Before(s, LastIndex(s, ms, k), ms[k].start) + [Piece(s, ms[k], resolve, form)]
  {
  }

  /** The children that replace a text node with matches `ms`. */
  function Children(s: string, ms: seq<Match>, resolve: string -> Option<Resolved>, form: UrlForm): seq<Node>
    requires Ordered(s, ms)
  {
    Built(s, ms, |ms|, resolve, form) + Remaining(s, LastIndex(s, ms, |ms|))
  }

  predicate AllText(nodes: seq<Node>) {
    forall i :: 0 <= i < |nodes| ==> nodes[i].Text?
  }

  predicate NoEmptyTexts(nodes: seq<Node>) {
    forall i :: 0 <= i < |nodes| && nodes[i].Text? ==> nodes[i].value != []
  }

  /** The text of the text children, concatenated. */
  function TextOf(nodes: seq<Node>): string
    decreases |nodes|
  {
    if nodes == [] then [] else (if nodes[0].Text? then nodes[0].value else []) + TextOf(nodes[1..])
  }

  lemma {:induction false} TextOfAppend(a: seq<Node>, b: seq<Node>)
    ensures TextOf(a + b) == TextOf(a) + TextOf(b)
    decreases |a|
  {
    if a == [] {
      assert a + b == b;
    } else {
      TextOfAppend(a[1..], b);
      assert (a + b)[0] == a[0];
      assert (a + b)[1..] == a[1..] + b;
    }
  }

  lemma BeforeText(s: string, last: nat, start: nat)
    requires last <= start <= |s|
    ensures AllText(Before(s, last, start)) && NoEmptyTexts(Before(s, last, start))
    ensures TextOf(Before(s, last, start)) == s[last..start]
  {
    if start > last {
      assert TextOf([Text(s[last..start])]) == s[last..start];
    }
  }

  lemma RemainingText(s: string, last: nat)
    requires last <= |s|
    ensures AllText(Remaining(s, last)) && NoEmptyTexts(Remaining(s, last))
    ensures TextOf(Remaining(s, last)) == s[last..]
  {
    if last < |s| {
      assert TextOf([Text(s[last..])]) == s[last..];
    }
  }

  lemma AllTextThree(a: seq<Node>, b: seq<Node>, c: seq<Node>)
    requires AllText(a) && AllText(b) && AllText(c)
    ensures AllText(a + b + c)
  {
    forall i | 0 <= i < |a + b + c|
      ensures (a + b + c)[i] == if i < |a| then a[i] else if i < |a| + |b| then b[i - |a|] else c[i - |a| - |b|]
    {
    }
  }

  lemma NoEmptyThree(a: seq<Node>, b: seq<Node>, c: seq<Node>)
    requires NoEmptyTexts(a) && NoEmptyTexts(b) && NoEmptyTexts(c)
    ensures NoEmptyTexts(a + b + c)
  {
    forall i | 0 <= i < |a + b + c|
      ensures (a + b + c)[i] == if i < |a| then a[i] else if i < |a| + |b| then b[i - |a|] else c[i - |a| - |b|]
    {
    }
  }

  /** None of the matches resolves. */
  predicate NoneResolve(s: string, ms: seq<Match>, resolve: string -> Option<Resolved>) {
    forall i :: 0 <= i < |ms| && ms[i].start + 2 <= ms[i].close <= |s| ==> resolve(LinkText(s, ms[i])).None?
  }

  /** When no match resolves, the children pushed so far are text spelling the text up to `lastIndex`. */
  lemma {:induction false} UnresolvedBuilt(s: string, ms: seq<Match>, k: nat, resolve: string -> Option<Resolved>, form: UrlForm)
    requires Ordered(s, ms) && k <= |ms| && NoneResolve(s, ms, resolve)
    ensures AllText(Built(s, ms, k, resolve, form))
    ensures TextOf(Built(s, ms, k, resolve, form)) == s[..LastIndex(s, ms, k)]
    decreases k
  {
    if k > 0 {
      var m := ms[k - 1];
      var last := LastIndex(s, ms, k - 1);
      UnresolvedBuilt(s, ms, k - 1, resolve, form);
      var piece := Piece(s, m, resolve, form);
      UnresolvedPiece(s, m, resolve, form);
      BeforeText(s, last, m.start);
      Glue(Built(s, ms, k, resolve, form), Built(s, ms, k - 1, resolve, form), Before(s, last, m.start), [piece],
           s, last, m.start, m.close + 2);
    }
  }

  lemma UnresolvedPiece(s: string, m: Match, resolve: string -> Option<Resolved>, form: UrlForm)
    requires m.start + 2 <= m.close && m.close + 2 <= |s| && resolve(LinkText(s, m)).None?
    ensures AllText([Piece(s, m, resolve, form)]) && TextOf([Piece(s, m, resolve, form)]) == s[m.start..m.close + 2]
  {
    assert [Piece(s, m, resolve, form)][1..] == [];
  }

  /** When no match resolves, every child is text and together they spell the original text. */
  lemma UnresolvedKeepsText(s: string, ms: seq<Match>, resolve: string -> Option<Resolved>, form: UrlForm)
    requires Ordered(s, ms) && NoneResolve(s, ms, resolve)
    ensures AllText(Children(s, ms, resolve, form))
    ensures TextOf(Children(s, ms, resolve, form)) == s
  {
    var built := Built(s, ms, |ms|, resolve, form);
    var last := LastIndex(s, ms, |ms|);
    UnresolvedBuilt(s, ms, |ms|, resolve, form);
    RemainingText(s, last);
    AllTextThree(built, Remaining(s, last), []);
    assert Children(s, ms, resolve, form) == built + Remaining(s, last) + [];
    TextOfAppend(built, Remaining(s, last));
    assert s[..last] + s[last..] == s;
  }

  /** Three runs of children that spell three adjacent slices spell the prefix they make up. */
  lemma Glue(children: seq<Node>, x: seq<Node>, y: seq<Node>, z: seq<Node>, s: string, a: nat, b: nat, c: nat)
    requires a <= b <= c <= |s| && children == x + y + z
    requires TextOf(x) == s[..a] && TextOf(y) == s[a..b] && TextOf(z) == s[b..c]
    requires AllText(x) && AllText(y) && AllText(z)
    ensures AllText(children) && TextOf(children) == s[..c]
  {
    AllTextThree(x, y, z);
    TextOfAppend(x + y, z);
    TextOfAppend(x, y);
    Slices3(s, a, b, c);
  }

  lemma Slices3(s: string, a: nat, b: nat, c: nat)
    requires a <= b <= c <= |s|
    ensures s[..a] + s[a..b] + s[b..c] == s[..c]
  {
    assert s[..b] == s[..a] + s[a..b];
    assert s[..c] == s[..b] + s[b..c];
  }

  /** No text child pushed so far is empty. */
  lemma {:induction false} NoEmptyBuilt(s: string, ms: seq<Match>, k: nat, resolve: string -> Option<Resolved>, form: UrlForm)
    requires Ordered(s, ms) && k <= |ms|
    ensures NoEmptyTexts(Built(s, ms, k, resolve, form))
    decreases k
  {
    if k > 0 {
      var m := ms[k - 1];
      var last := LastIndex(s, ms, k - 1);
      NoEmptyBuilt(s, ms, k - 1, resolve, form);
      BeforeText(s, last, m.start);
      PieceNotEmpty(s, m, resolve, form);
      NoEmptyThree(Built(s, ms, k - 1, resolve, form), Before(s, last, m.start), [Piece(s, m, resolve, form)]);
    }
  }

  /** No text child is empty. */
  lemma NoEmptyText(s: string, ms: seq<Match>, resolve: string -> Option<Resolved>, form: UrlForm)
    requires Ordered(s, ms)
    ensures NoEmptyTexts(Children(s, ms, resolve, form))
  {
    var last := LastIndex(s, ms, |ms|);
    NoEmptyBuilt(s, ms, |ms|, resolve, form);
    RemainingText(s, last);
    NoEmptyThree(Built(s, ms, |ms|, resolve, form), Remaining(s, last), []);
    assert Children(s, ms, resolve, form) == Built(s, ms, |ms|, resolve, form) + Remaining(s, last) + [];
  }

  lemma PieceNotEmpty(s: string, m: Match, resolve: string -> Option<Resolved>, form: UrlForm)
    requires m.start + 2 <= m.close && m.close + 2 <= |s|
    ensures NoEmptyTexts([Piece(s, m, resolve, form)])
  {
    var piece := Piece(s, m, resolve, form);
    if piece.Text? {
      assert |piece.value| == m.close + 2 - m.start;
    }
  }

  /** The links among some nodes, in order. */
  function Links(nodes: seq<Node>): seq<Node>
    decreases |nodes|
  {
    if nodes == [] then [] else (if nodes[0].Link? then [nodes[0]] else []) + Links(nodes[1..])
  }

  lemma {:induction false} LinksAppend(a: seq<Node>, b: seq<Node>)
    ensures Links(a + b) == Links(a) + Links(b)
    decreases |a|
  {
    if a == [] {
      assert a + b == b;
    } else {
      LinksAppend(a[1..], b);
      var h: seq<Node> := if a[0].Link? then [a[0]] else [];
      assert (a + b)[0] == a[0];
      assert (a + b)[1..] == a[1..] + b;
      calc {
        Links(a + b);
        h + Links(a[1..] + b);
        h + (Links(a[1..]) + Links(b));
        (h + Links(a[1..])) + Links(b);
        Links(a) + Links(b);
      }
    }
  }

  lemma BeforeNoLinks(s: string, last: nat, start: nat)
    requires last <= start <= |s|
    ensures Links(Before(s, last, start)) == []
  {
    if start > last {
      assert Links([Text(s[last..start])]) == [];
    }
  }

  lemma RemainingNoLinks(s: string, last: nat)
    requires last <= |s|
    ensures Links(Remaining(s, last)) == []
  {
    if last < |s| {
      assert Links([Text(s[last..])]) == [];
    }
  }

  lemma PieceLinks(s: string, m: Match, resolve: string -> Option<Resolved>, form: UrlForm)
    requires m.start + 2 <= m.close && m.close + 2 <= |s|
    ensures Links([Piece(s, m, resolve, form)]) == if resolve(LinkText(s, m)).Some? then [Piece(s, m, resolve, form)] else []
  {
    assert [Piece(s, m, resolve, form)][1..] == [];
  }

  lemma LinksGlue(children: seq<Node>, x: seq<Node>, y: seq<Node>, z: seq<Node>, links: seq<Node>, head: seq<Node>)
    requires children == x + y + z && Links(y) == [] && links == Links(x) + head && Links(z) == head
    ensures Links(children) == links
  {
    LinksAppend(x, y);
    assert Links(x + y) == Links(x) by {
      assert Links(x) + [] == Links(x);
    }
    LinksAppend(x + y, z);
  }

  /** For each of the first `k` matches that resolves, in match order, the link it becomes. */
  function ResolvedLinks(s: string, ms: seq<Match>, k: nat, resolve: string -> Option<Resolved>, form: UrlForm): (r: seq<Node>)
    requires Ordered(s, ms) && k <= |ms|
    ensures forall i :: 0 <= i < |r| ==> r[i].Link?
    decreases k
  {
    if k == 0 then []
    else
      ResolvedLinks(s, ms, k - 1, resolve, form)
      + (if resolve(LinkText(s, ms[k - 1])).Some? then [Piece(s, ms[k - 1], resolve, form)] else [])
  }

  /** The links among the children pushed so far are those of the resolved matches. */
  lemma {:induction false} LinksBuilt(s: string, ms: seq<Match>, k: nat, resolve: string -> Option<Resolved>, form: UrlForm)
    requires Ordered(s, ms) && k <= |ms|
    ensures Links(Built(s, ms, k, resolve, form)) == ResolvedLinks(s, ms, k, resolve, form)
    decreases k
  {
    if k > 0 {
      var m := ms[k - 1];
      var last := LastIndex(s, ms, k - 1);
      LinksBuilt(s, ms, k - 1, resolve, form);
      BeforeNoLinks(s, last, m.start);
      PieceLinks(s, m, resolve, form);
      LinksGlue(Built(s, ms, k, resolve, form), Built(s, ms, k - 1, resolve, form), Before(s, last, m.start),
                [Piece(s, m, resolve, form)], ResolvedLinks(s, ms, k, resolve, form),
                if resolve(LinkText(s, m)).Some? then [Piece(s, m, resolve, form)] else []);
    } else {
      assert Built(s, ms, k, resolve, form) == [];
    }
  }

  /** Each resolved match gives exactly one link, in the order of the matches, and nothing else is a link. */
  lemma LinksFollowMatches(s: string, ms: seq<Match>, resolve: string -> Option<Resolved>, form: UrlForm)
    requires Ordered(s, ms)
    ensures Links(Children(s, ms, resolve, form)) == ResolvedLinks(s, ms, |ms|, resolve, form)
  {
    var built := Built(s, ms, |ms|, resolve, form);
    var rest := Remaining(s, LastIndex(s, ms, |ms|));
    LinksBuilt(s, ms, |ms|, resolve, form);
    RemainingNoLinks(s, LastIndex(s, ms, |ms|));
    LinksAppend(built, rest);
    assert Links(built) + [] == Links(built);
  }

  /** Every link's URL starts with `.` and ends with `.html`. */
  predicate RelativeLinks(nodes: seq<Node>) {
    forall i :: 0 <= i < |nodes| && nodes[i].Link? ==> nodes[i].url != [] && nodes[i].url[0] == '.' && EndsWith(nodes[i].url, ".html")
  }

  lemma RelativeLinksThree(x: seq<Node>, y: seq<Node>, z: seq<Node>)
    requires RelativeLinks(x) && RelativeLinks(y) && RelativeLinks(z)
    ensures RelativeLinks(x + y + z)
  {
    forall i | 0 <= i < |x + y + z|
      ensures (x + y + z)[i] == if i < |x| then x[i] else if i < |x| + |y| then y[i - |x|] else z[i - |x| - |y|]
    {
    }
  }

  lemma {:induction false} RelativeBuilt(s: string, ms: seq<Match>, k: nat, resolve: string -> Option<Resolved>,
                                         currentSlug: string, relative: (string, string) -> string)
    requires Ordered(s, ms) && k <= |ms|
    ensures RelativeLinks(Built(s, ms, k, resolve, Relative(currentSlug, relative)))
    decreases k
  {
    var form := Relative(currentSlug, relative);
    if k > 0 {
      var m := ms[k - 1];
      var last := LastIndex(s, ms, k - 1);
      RelativeBuilt(s, ms, k - 1, resolve, currentSlug, relative);
      var piece := Piece(s, m, resolve, form);
      assert RelativeLinks(Before(s, last, m.start));
      assert RelativeLinks([piece]) by {
        if piece.Link? {
          var r := resolve(LinkText(s, m)).value;
          assert piece.url == PathUtils.CreateRelativePath(currentSlug, r.slug, relative);
        }
      }
      RelativeLinksThree(Built(s, ms, k - 1, resolve, form), Before(s, last, m.start), [piece]);
    }
  }

  /** Under `createRelativePath`, every link's URL starts with `.` and ends with `.html`. */
  lemma RelativeUrls(s: string, ms: seq<Match>, resolve: string -> Option<Resolved>,
                     currentSlug: string, relative: (string, string) -> string)
    requires Ordered(s, ms)
    ensures RelativeLinks(Children(s, ms, resolve, Relative(currentSlug, relative)))
  {
    var form := Relative(currentSlug, relative);
    var last := LastIndex(s, ms, |ms|);
    RelativeBuilt(s, ms, |ms|, resolve, currentSlug, relative);
    assert RelativeLinks(Remaining(s, last));
    RelativeLinksThree(Built(s, ms, |ms|, resolve, form), Remaining(s, last), []);
    assert Children(s, ms, resolve, form) == Built(s, ms, |ms|, resolve, form) + Remaining(s, last) + [];
  }

  /** Under a base URL, a resolved match links to the base URL, a `/` and the slug the resolver gave. */
  lemma AbsoluteUrl(s: string, m: Match, resolve: string -> Option<Resolved>, baseUrl: string)
    requires m.start + 2 <= m.close && m.close + 2 <= |s| && resolve(LinkText(s, m)).Some?
    ensures var url := Piece(s, m, resolve, Absolute(baseUrl)).url;
      url == baseUrl + "/" + resolve(LinkText(s, m)).value.slug && url[..|baseUrl|] == baseUrl
  {
  }

  // ---------------------------------------------------------------------------
  // The visitor

  /** The children `forEach` over the matches builds, pushing onto `children` and advancing `lastIndex`. */
  method SplitText(value: string, matches: seq<Match>, resolve: string -> Option<Resolved>, form: UrlForm) returns (children: seq<Node>)
    requires Ordered(value, matches)
    ensures children == Children(value, matches, resolve, form)
  {
    children := [];
    var lastIndex: nat := 0;
    var k: nat := 0;
    while k < |matches|
      invariant k <= |matches| && lastIndex == LastIndex(value, matches, k)
      invariant children == Built(value, matches, k, resolve, form)
      decreases |matches| - k
    {
      var m := matches[k];
      children, lastIndex := PushMatch(children, value, lastIndex, m, resolve, form);
      BuiltStep(value, matches, k, resolve, form);
      k := k + 1;
    }
    if lastIndex < |value| {
      children := children + [Text(value[lastIndex..])];
    }
  }

  /** The `forEach` callback for one match: the text since `lastIndex`, if any, then the link or the match verbatim. */
  method PushMatch(children: seq<Node>, value: string, lastIndex: nat, m: Match,
                   resolve: string -> Option<Resolved>, form: UrlForm) returns (pushed: seq<Node>, next: nat)
    requires lastIndex <= m.start && m.start + 2 <= m.close && m.close + 2 <= |value|
    ensures pushed == children + Before(value, lastIndex, m.start) + [Piece(value, m, resolve, form)]
    ensures next == m.close + 2
  {
    pushed := children;
    if m.start > lastIndex {
      pushed := pushed + [Text(value[lastIndex..m.start])];
    }
    var fullMatch := value[m.start..m.close + 2];
    var linkText := value[m.start + 2..m.close];
    var resolved := resolve(linkText);
    if resolved.Some? {
      pushed := pushed + [Link(Url(form, resolved.value.slug), [Text(DisplayText(resolved.value, linkText))])];
    } else {
      pushed := pushed + [Text(fullMatch)];
    }
    next := m.start + |fullMatch|;
  }

  /** A node with children, whose `children` array the transform splices. */
  class Parent {
    var children: seq<Node>

    constructor (children: seq<Node>)
      ensures this.children == children
    {
      this.children := children;
    }
  }

  /**
   * The visitor for the text node at `index` of `parent`: without a parent, or
   * without a match, nothing changes; otherwise the node alone is replaced by its
   * children and its siblings stay where they were.
   */
  method Transform(value: string, index: nat, parent: Parent?, resolve: string -> Option<Resolved>, form: UrlForm)
    requires parent != null ==> index < |parent.children| && parent.children[index] == Text(value)
    modifies parent
    ensures parent != null ==>
      var matches := MatchesFrom(value, 0);
      parent.children ==
        if matches == [] then old(parent.children)
        else old(parent.children[..index]) + Children(value, matches, resolve, form) + old(parent.children[index + 1..])
  {
    if parent == null {
      return;
    }
    var matches := MatchesFrom(value, 0);
    if matches == [] {
      return;
    }
    var children := SplitText(value, matches, resolve, form);
    parent.children := parent.children[..index] + children + parent.children[index + 1..];
  }

  /** The plugin of src/utils/remarkObsidianLinks.ts: URLs relative to the current note. */
  method RemarkObsidianLinks(value: string, index: nat, parent: Parent?, currentSlug: string,
                             resolve: string -> Option<Resolved>, relative: (string, string) -> string)
    requires parent != null ==> index < |parent.children| && parent.children[index] == Text(value)
    modifies parent
    ensures parent != null ==>
      var matches := MatchesFrom(value, 0);
      parent.children ==
        if matches == [] then old(parent.children)
        else old(parent.children[..index]) + Children(value, matches, resolve, Relative(currentSlug, relative)) + old(parent.children[index + 1..])
  {
    Transform(value, index, parent, resolve, Relative(currentSlug, relative));
  }

  /** The older plugin of remarkObsidianLinks.ts at the repository root: URLs under `baseUrl`. */
  method LegacyRemarkObsidianLinks(value: string, index: nat, parent: Parent?, baseUrl: string,
                                   resolve: string -> Option<Resolved>)
    requires parent != null ==> index < |parent.children| && parent.children[index] == Text(value)
    modifies parent
    ensures parent != null ==>
      var matches := MatchesFrom(value, 0);
      parent.children ==
        if matches == [] then old(parent.children)
        else old(parent.children[..index]) + Children(value, matches, resolve, Absolute(baseUrl)) + old(parent.children[index + 1..])
  {
    Transform(value, index, parent, resolve, Absolute(baseUrl));
  }
}

=== FILE: path.dfy ===
/**
 * Slugs and relative paths (`PathUtils` in src/utils/path.ts).
 * Node's `path.relative` is not part of this model: `CreateRelativePath`
 * takes it as a function parameter.
 */
module PathUtils {
  import opened Wrappers
  import opened Js

  /** The characters a slug never contains. */
  predicate SlugForbidden(c: char) {
    IsWhitespace(c) || c == '?' || c == '#' || c == '&' || c == '%'
  }

  predicate IsAmpersand(c: char) { c == '&' }
  predicate IsPercent(c: char) { c == '%' }
  predicate IsQuestionMark(c: char) { c == '?' }
  predicate IsHash(c: char) { c == '#' }

  /** What one character of a segment becomes under `sluggify`'s rewrite. */
  function SlugChar(c: char): string {
    if IsWhitespace(c) then "-"
    else if c == '&' then "-and-"
    else if c == '%' then "-percent"
    else if c == '?' || c == '#' then ""
    else [c]
  }

  /** The rewrite `sluggify` applies to one `/`-separated segment, character by character. */
  function SlugSegment(segment: string): string {
    if segment == [] then [] else SlugChar(segment[0]) + SlugSegment(segment[1..])
  }

  /** The same rewrite as the source writes it: five global replace passes, in order. */
  function SlugSegmentPasses(segment: string): string {
    var s1 := ReplaceChars(segment, IsWhitespace, "-");
    var s2 := ReplaceChars(s1, IsAmpersand, "-and-");
    var s3 := ReplaceChars(s2, IsPercent, "-percent");
    var s4 := ReplaceChars(s3, IsQuestionMark, "");
    ReplaceChars(s4, IsHash, "")
  }

  /**
   * The five passes never feed each other: no replacement text holds a character
   * a later pass matches, so they amount to one rewrite per character.
   */
  lemma {:induction false} SlugSegmentIsPasses(segment: string)
    ensures SlugSegment(segment) == SlugSegmentPasses(segment)
    decreases |segment|
  {
    if segment != [] {
      var c := segment[0];
      var rest := segment[1..];
      assert segment == [c] + rest;
      PassesAppend([c], rest);
      PassesOneChar(c);
      SlugSegmentIsPasses(rest);
    }
  }

  lemma PassesAppend(a: string, b: string)
    ensures SlugSegmentPasses(a + b) == SlugSegmentPasses(a) + SlugSegmentPasses(b)
  {
    ReplaceCharsAppend(a, b, IsWhitespace, "-");
    var a1, b1 := ReplaceChars(a, IsWhitespace, "-"), ReplaceChars(b, IsWhitespace, "-");
    ReplaceCharsAppend(a1, b1, IsAmpersand, "-and-");
    var a2, b2 := ReplaceChars(a1, IsAmpersand, "-and-"), ReplaceChars(b1, IsAmpersand, "-and-");
    ReplaceCharsAppend(a2, b2, IsPercent, "-percent");
    var a3, b3 := ReplaceChars(a2, IsPercent, "-percent"), ReplaceChars(b2, IsPercent, "-percent");
    ReplaceCharsAppend(a3, b3, IsQuestionMark, "");
    var a4, b4 := ReplaceChars(a3, IsQuestionMark, ""), ReplaceChars(b3, IsQuestionMark, "");
    ReplaceCharsAppend(a4, b4, IsHash, "");
  }

  lemma PassesOneChar(c: char)
    ensures SlugSegmentPasses([c]) == SlugChar(c)
  {
    ReplaceOne(c, IsWhitespace, "-");
    if IsWhitespace(c) {
      PassesLeave("-");
    } else {
      ReplaceOne(c, IsAmpersand, "-and-");
      if c == '&' {
        PassesLeave("-and-");
      } else {
        ReplaceOne(c, IsPercent, "-percent");
        if c == '%' {
          PassesLeave("-percent");
        } else {
          ReplaceOne(c, IsQuestionMark, "");
          ReplaceOne(c, IsHash, "");
        }
      }
    }
  }

  /** Text made of `-` and letters passes the later passes unchanged. */
  lemma PassesLeave(w: string)
    requires forall i :: 0 <= i < |w| ==> w[i] == '-' || 'a' <= w[i] <= 'z'
    ensures ReplaceChars(w, IsAmpersand, "-and-") == w
    ensures ReplaceChars(w, IsPercent, "-percent") == w
    ensures ReplaceChars(w, IsQuestionMark, "") == w
    ensures ReplaceChars(w, IsHash, "") == w
  {
    assert forall i :: 0 <= i < |w| ==> !IsAmpersand(w[i]) && !IsPercent(w[i]) && !IsQuestionMark(w[i]) && !IsHash(w[i]);
    ReplaceNone(w, IsAmpersand, "-and-");
    ReplaceNone(w, IsPercent, "-percent");
    ReplaceNone(w, IsQuestionMark, "");
    ReplaceNone(w, IsHash, "");
  }

  lemma ReplaceOne(c: char, matches: char -> bool, replacement: string)
    ensures ReplaceChars([c], matches, replacement) == if matches(c) then replacement else [c]
  {
    assert [c][1..] == [];
  }

  lemma {:induction false} ReplaceNone(s: string, matches: char -> bool, replacement: string)
    ensures (forall i :: 0 <= i < |s| ==> !matches(s[i])) ==> ReplaceChars(s, matches, replacement) == s
    decreases |s|
  {
    if s != [] && forall i :: 0 <= i < |s| ==> !matches(s[i]) {
      assert forall i :: 0 <= i < |s| - 1 ==> s[1..][i] == s[i + 1];
      ReplaceNone(s[1..], matches, replacement);
    }
  }

  /** A rewritten segment holds no whitespace, `?`, `#`, `&` or `%`. */
  lemma {:induction false} SlugSegmentAllowed(segment: string)
    ensures forall c :: c in SlugSegment(segment) ==> !SlugForbidden(c)
    decreases |segment|
  {
    if segment != [] {
      SlugSegmentAllowed(segment[1..]);
      var h := SlugChar(segment[0]);
      assert forall c :: c in h ==> !SlugForbidden(c);
    }
  }

  /** The characters the rewrite writes into a segment: those of `-`, `-and-` and `-percent`. */
  predicate SlugWordChar(c: char) {
    c == '-' || c == 'a' || c == 'n' || c == 'd' || c == 'p' || c == 'e' || c == 'r' || c == 'c' || c == 't'
  }

  /** A rewritten segment holds nothing but characters of the segment and of the inserted words. */
  lemma {:induction false} SlugSegmentFrom(segment: string)
    ensures forall c :: c in SlugSegment(segment) ==> c in segment || SlugWordChar(c)
    decreases |segment|
  {
    if segment != [] {
      SlugSegmentFrom(segment[1..]);
      var h := SlugChar(segment[0]);
      assert forall c :: c in h ==> c == segment[0] || SlugWordChar(c);
    }
  }

  /** A segment is erased exactly when it holds nothing but `?` and `#`. */
  lemma {:induction false} SlugSegmentErased(segment: string)
    ensures SlugSegment(segment) == [] <==> forall c :: c in segment ==> c == '?' || c == '#'
    decreases |segment|
  {
    if segment != [] {
      var rest := segment[1..];
      var head := SlugChar(segment[0]);
      SlugSegmentErased(rest);
      assert SlugSegment(segment) == head + SlugSegment(rest);
      assert head == [] <==> segment[0] == '?' || segment[0] == '#';
      assert |SlugSegment(segment)| == |head| + |SlugSegment(rest)|;
      forall c | c in rest ensures c in segment {
        var j :| 0 <= j < |rest| && rest[j] == c;
        assert segment[j + 1] == c;
      }
      if SlugSegment(segment) == [] {
        assert head == [] && SlugSegment(rest) == [];
        assert forall c :: c in rest ==> c == '?' || c == '#';
        assert segment[0] == '?' || segment[0] == '#';
        forall c | c in segment ensures c == '?' || c == '#' {
          var j :| 0 <= j < |segment| && segment[j] == c;
          if j > 0 {
            assert rest[j - 1] == c;
            assert c in rest;
          } else {
            assert c == segment[0];
          }
        }
      }
      if forall c :: c in segment ==> c == '?' || c == '#' {
        assert segment[0] in segment;
        assert SlugSegment(segment) == [] + [];
      }
    }
  }

  /** `parts.map(slugSegment)` */
  function SlugEach(parts: seq<string>): (r: seq<string>)
    ensures |r| == |parts|
    ensures forall i :: 0 <= i < |parts| ==> r[i] == SlugSegment(parts[i])
  {
    if parts == [] then [] else [SlugSegment(parts[0])] + SlugEach(parts[1..])
  }

  /** The character test `sluggify`'s output passes. */
  predicate SlugAllowed(c: char) {
    !SlugForbidden(c)
  }

  /** The segments of `s`, each rewritten, joined again with `/`. */
  function SlugSegments(s: string): string {
    Join(SlugEach(Split(s, "/")), "/")
  }

  /** `sluggify`: rewrite every segment and drop one trailing `/`. */
  function Sluggify(s: string): (r: string)
    ensures |SlugSegments(s)| - 1 <= |r| <= |SlugSegments(s)| && r == SlugSegments(s)[..|r|]
  {
    var t := SlugSegments(s);
    if EndsWith(t, "/") then t[..|t| - 1] else t
  }

  /** A slug holds no whitespace, `?`, `#`, `&` or `%`. */
  lemma SluggifyAllowed(s: string)
    ensures forall c :: c in Sluggify(s) ==> !SlugForbidden(c)
  {
    var t := SlugSegments(s);
    var parts := Split(s, "/");
    var slugged := SlugEach(parts);
    forall k | 0 <= k < |slugged| ensures forall c :: c in slugged[k] ==> !SlugForbidden(c) {
      SlugSegmentAllowed(parts[k]);
    }
    JoinChars(slugged, "/", SlugAllowed);
    assert forall c :: c in t ==> !SlugForbidden(c);
    if EndsWith(t, "/") {
      assert forall c :: c in t[..|t| - 1] ==> c in t;
    }
  }

  /**
   * `sluggify` neither adds nor moves a `/`: the slug's segments are exactly the
   * rewritten segments of the input, and the only `/` it drops is one at the end.
   */
  lemma SluggifyKeepsSegments(s: string)
    ensures Split(SlugSegments(s), "/") == SlugEach(Split(s, "/"))
    ensures Sluggify(s) == SlugSegments(s) || Sluggify(s) + "/" == SlugSegments(s)
  {
    var parts := Split(s, "/");
    var slugged := SlugEach(parts);
    SplitPartsAvoid(s, '/');
    forall k | 0 <= k < |slugged| ensures '/' !in slugged[k] {
      assert '/' !in parts[k];
      SlugSegmentFrom(parts[k]);
    }
    SplitJoin(slugged, '/');
    var t := SlugSegments(s);
    if EndsWith(t, "/") { assert t == t[..|t| - 1] + "/"; }
  }

  /** `fp.replace(/^\/+|\/+$/g, "")`: every leading and every trailing `/` removed. */
  function TrimSlashes(fp: string): (r: string)
    ensures r == [] || (r[0] != '/' && r[|r| - 1] != '/')
    ensures var i := |fp| - |TrimLeadingSlashes(fp)|;
      && i + |r| <= |fp| && r == fp[i..i + |r|]
      && (forall k :: 0 <= k < i ==> fp[k] == '/')
      && (forall k :: i + |r| <= k < |fp| ==> fp[k] == '/')
  {
    LeadingSlashesRemoved(fp);
    TrailingSlashesRemoved(TrimLeadingSlashes(fp));
    TrimTrailingSlashes(TrimLeadingSlashes(fp))
  }

  /** What `TrimLeadingSlashes` removes is all `/`. */
  lemma {:induction false} LeadingSlashesRemoved(s: string)
    ensures forall k :: 0 <= k < |s| - |TrimLeadingSlashes(s)| ==> s[k] == '/'
    decreases |s|
  {
    if s != [] && s[0] == '/' {
      LeadingSlashesRemoved(s[1..]);
      forall k | 1 <= k < |s| - |TrimLeadingSlashes(s)| ensures s[k] == '/' {
        assert s[k] == s[1..][k - 1];
      }
    }
  }

  /** What `TrimTrailingSlashes` removes is all `/`. */
  lemma {:induction false} TrailingSlashesRemoved(s: string)
    ensures forall k :: |TrimTrailingSlashes(s)| <= k < |s| ==> s[k] == '/'
    decreases |s|
  {
    if s != [] && s[|s| - 1] == '/' {
      TrailingSlashesRemoved(s[..|s| - 1]);
      forall k | |TrimTrailingSlashes(s)| <= k < |s| - 1 ensures s[k] == '/' {
        assert s[k] == s[..|s| - 1][k];
      }
    }
  }

  function TrimLeadingSlashes(s: string): (r: string)
    ensures |r| <= |s| && r == s[|s| - |r|..]
    ensures r == [] || r[0] != '/'
  {
    if s != [] && s[0] == '/' then TrimLeadingSlashes(s[1..]) else s
  }

  function TrimTrailingSlashes(s: string): (r: string)
    ensures |r| <= |s| && r == s[..|r|]
    ensures r == [] || r[|r| - 1] != '/'
    ensures s == [] || s[0] != '/' ==> r == [] || r[0] != '/'
  {
    if s != [] && s[|s| - 1] == '/' then TrimTrailingSlashes(s[..|s| - 1]) else s
  }

  /** The length of the longest suffix of `s` made of ASCII letters and digits. */
  function AlnumSuffixLength(s: string): (n: nat)
    ensures n <= |s|
    ensures forall i :: |s| - n <= i < |s| ==> IsAsciiAlnum(s[i])
    ensures n < |s| ==> !IsAsciiAlnum(s[|s| - n - 1])
  {
    if s != [] && IsAsciiAlnum(s[|s| - 1]) then AlnumSuffixLength(s[..|s| - 1]) + 1 else 0
  }

  /** `ext` has the shape `/\.[A-Za-z0-9]+/`. */
  predicate IsExtension(ext: string) {
    |ext| >= 2 && ext[0] == '.' && AllAlnum(ext[1..])
  }

  /** Every character of `s` is an ASCII letter or digit. */
  predicate AllAlnum(s: string) {
    s == [] || (IsAsciiAlnum(s[0]) && AllAlnum(s[1..]))
  }

  lemma {:induction false} AllAlnumAt(s: string)
    ensures AllAlnum(s) <==> forall i :: 0 <= i < |s| ==> IsAsciiAlnum(s[i])
    decreases |s|
  {
    if s != [] {
      AllAlnumAt(s[1..]);
      assert forall i :: 1 <= i < |s| ==> s[1..][i - 1] == s[i];
    }
  }

  /** `fp.match(/\.[A-Za-z0-9]+$/)?.[0] ?? ""` */
  function Extension(fp: string): string {
    var n := AlnumSuffixLength(fp);
    if 0 < n < |fp| && fp[|fp| - n - 1] == '.' then fp[|fp| - n - 1..] else []
  }

  /** `Extension` is the one suffix the regular expression can match, and "" exactly when it matches nothing. */
  lemma ExtensionIsTheMatch(fp: string)
    ensures Extension(fp) != [] ==> IsExtension(Extension(fp)) && EndsWith(fp, Extension(fp))
    ensures forall ext :: IsExtension(ext) && EndsWith(fp, ext) ==> ext == Extension(fp)
  {
    var e := Extension(fp);
    if e != [] {
      AllAlnumAt(e[1..]);
      assert forall i :: 0 <= i < |e| - 1 ==> e[1..][i] == fp[|fp| - |e| + 1 + i];
    }
    forall ext | IsExtension(ext) && EndsWith(fp, ext) ensures ext == Extension(fp) {
      ExtensionUnique(fp, ext);
    }
  }

  lemma ExtensionUnique(fp: string, ext: string)
    requires IsExtension(ext) && EndsWith(fp, ext)
    ensures Extension(fp) == ext
  {
    var n := AlnumSuffixLength(fp);
    var k := |fp| - |ext|;
    assert fp[k] == '.';
    AllAlnumAt(ext[1..]);
    assert forall i :: k < i < |fp| ==> IsAsciiAlnum(fp[i]) by {
      forall i | k < i < |fp| ensures IsAsciiAlnum(fp[i]) { assert fp[i] == ext[1..][i - k - 1]; }
    }
    assert n == |ext| - 1;
  }

  /** `slugifyFilePath`: trim the slashes, slug the stem, then keep the extension unless it is `.md`/`.html` or `excludeExt` is set. */
  function SlugifyFilePath(fp: string, excludeExt: bool): (r: string)
    ensures var kept := KeptExtension(Extension(TrimSlashes(fp)), excludeExt);
      && EndsWith(r, kept)
      && forall c :: c in r[..|r| - |kept|] ==> !SlugForbidden(c)
  {
    var t := TrimSlashes(fp);
    var ext := Extension(t);
    var stem := t[..|t| - |ext|];
    SluggifyAllowed(stem);
    assert (Sluggify(stem) + KeptExtension(ext, excludeExt))[..|Sluggify(stem)|] == Sluggify(stem);
    Sluggify(stem) + KeptExtension(ext, excludeExt)
  }

  /** The extension `slugifyFilePath` puts back: none for `.md`, `.html` or when `excludeExt` is set. */
  function KeptExtension(ext: string, excludeExt: bool): string {
    if excludeExt || ext == ".md" || ext == ".html" then [] else ext
  }

  /**
   * For a path `stem + ext` with an extension: `.md` and `.html` are dropped,
   * any other extension is kept verbatim, and `excludeExt` drops every extension.
   */
  lemma SlugifyFilePathExtension(stem: string, ext: string, excludeExt: bool)
    requires IsExtension(ext)
    requires stem == [] || stem[0] != '/'
    ensures SlugifyFilePath(stem + ext, excludeExt)
         == Sluggify(stem) + KeptExtension(ext, excludeExt)
  {
    StemAndExtension(stem, ext);
  }

  lemma StemAndExtension(stem: string, ext: string)
    ensures IsExtension(ext) && (stem == [] || stem[0] != '/') ==>
      && TrimSlashes(stem + ext) == stem + ext
      && Extension(stem + ext) == ext
      && (stem + ext)[..|stem + ext| - |ext|] == stem
  {
    if !IsExtension(ext) || (stem != [] && stem[0] == '/') { return; }
    var t := stem + ext;
    AllAlnumAt(ext[1..]);
    assert ext[|ext| - 1] == ext[1..][|ext| - 2];
    assert t[0] != '/' && t[|t| - 1] != '/';
    TrimSlashesNoop(t);
    assert t[|t| - |ext|..] == ext;
    ExtensionUnique(t, ext);
  }

  /** A path with no slash at either end is left alone by the trim. */
  lemma TrimSlashesNoop(t: string)
    requires t == [] || (t[0] != '/' && t[|t| - 1] != '/')
    ensures TrimSlashes(t) == t
  {
    assert TrimLeadingSlashes(t) == t;
  }

  /** What `Extension` finds starts with its `.`. */
  lemma ExtensionDot(fp: string)
    ensures Extension(fp) == [] || Extension(fp)[0] == '.'
  {
  }

  /** A path in which `Extension` finds nothing (no `.[A-Za-z0-9]+` suffix, by `ExtensionIsTheMatch`) is slugged whole. */
  lemma SlugifyFilePathNoExtension(fp: string, excludeExt: bool)
    requires fp == [] || (fp[0] != '/' && fp[|fp| - 1] != '/')
    requires Extension(fp) == []
    ensures SlugifyFilePath(fp, excludeExt) == Sluggify(fp)
  {
    NoExtensionParts(fp, excludeExt);
  }

  lemma NoExtensionParts(fp: string, excludeExt: bool)
    ensures fp == [] || (fp[0] != '/' && fp[|fp| - 1] != '/') ==> TrimSlashes(fp) == fp
    ensures fp[..|fp|] == fp
    ensures KeptExtension([], excludeExt) == []
  {
    assert [] != ".md" && [] != ".html" by {
      assert |".md"| == 3 && |".html"| == 5;
    }
    if fp == [] || (fp[0] != '/' && fp[|fp| - 1] != '/') {
      assert TrimLeadingSlashes(fp) == fp;
    }
  }

  /**
   * The slug starts with `/` only when the first segment of the trimmed path is
   * made of nothing but `?` and `#`, which `sluggify` erases.
   */
  lemma SlugifyFilePathLeadingSlash(fp: string, excludeExt: bool)
    ensures var r := SlugifyFilePath(fp, excludeExt);
      r != [] && r[0] == '/' ==>
        var first := Split(TrimSlashes(fp), "/")[0];
        first != [] && forall c :: c in first ==> c == '?' || c == '#'
  {
    var t := TrimSlashes(fp);
    var ext := Extension(t);
    var r := SlugifyFilePath(fp, excludeExt);
    if r != [] && r[0] == '/' {
      ExtensionDot(t);
      LeadingSlashOfParts(t, t[..|t| - |ext|], ext, excludeExt);
    }
  }

  /** `SlugifyFilePathLeadingSlash` for a trimmed path `t`, split into a stem and what `Extension` found. */
  lemma LeadingSlashOfParts(t: string, stem: string, ext: string, excludeExt: bool)
    requires stem <= t && (ext == [] || ext[0] == '.') && (t == [] || t[0] != '/')
    requires var r := Sluggify(stem) + KeptExtension(ext, excludeExt); r != [] && r[0] == '/'
    ensures Split(t, "/")[0] != [] && forall c :: c in Split(t, "/")[0] ==> c == '?' || c == '#'
  {
    SlashFromSlug(Sluggify(stem), ext, excludeExt);
    SluggifyLeadingSlash(stem);
    StemFirstSegment(stem, t);
  }

  /** A stem holding a `/` has the same non-empty first segment as the path it starts. */
  lemma StemFirstSegment(stem: string, t: string)
    requires stem <= t && stem != [] && |Split(stem, "/")| > 1
    requires t[0] != '/'
    ensures Split(t, "/")[0] == Split(stem, "/")[0] != []
  {
    IndexOfPrefix(stem, t, '/');
    FirstSegmentNonEmpty(t);
  }

  /** An extension never starts with `/`, so a leading `/` comes from the slugged stem. */
  lemma SlashFromSlug(slug: string, ext: string, excludeExt: bool)
    requires ext == [] || ext[0] == '.'
    requires var r := slug + KeptExtension(ext, excludeExt); r != [] && r[0] == '/'
    ensures slug != [] && slug[0] == '/'
  {
  }

  /** A slug starts with `/` only when the first segment of its input is all `?` and `#`. */
  lemma SluggifyLeadingSlash(s: string)
    requires Sluggify(s) != [] && Sluggify(s)[0] == '/'
    ensures |Split(s, "/")| > 1 && s != []
    ensures forall c :: c in Split(s, "/")[0] ==> c == '?' || c == '#'
  {
    SluggifyKeepsSegments(s);
    var seg := SlugSegments(s);
    assert seg[0] == '/';
    var parts := Split(s, "/");
    IndexOfFirst(seg, '/');
    assert Split(seg, "/")[0] == [];
    assert SlugSegment(parts[0]) == [];
    SlugSegmentErased(parts[0]);
    assert |Split(seg, "/")| > 1 by {
      assert Includes(seg, "/") by { OccursAtChar(seg, '/', 0); }
    }
  }

  /** A string that starts with the separator has an empty first piece. */
  lemma IndexOfFirst(s: string, c: char)
    requires s != [] && s[0] == c
    ensures Split(s, [c])[0] == []
  {
    assert s[..1] == [c];
  }

  /** When the separator occurs in `stem`, `stem` and any extension of it have the same first piece. */
  lemma IndexOfPrefix(stem: string, t: string, c: char)
    requires stem <= t
    requires |Split(stem, [c])| > 1
    ensures Split(stem, [c])[0] == Split(t, [c])[0]
  {
    var i := IndexOf(stem, [c]).value;
    assert OccursAt(t, [c], i) by {
      assert t[i..i + 1] == stem[i..i + 1];
    }
    forall j: nat | j < i ensures !OccursAt(t, [c], j) {
      assert !OccursAt(stem, [c], j);
      assert t[j..j + 1] == stem[j..j + 1];
    }
    assert IndexOf(t, [c]) == Some(i);
  }

  /** The first piece of a non-empty string that does not start with `/` is non-empty. */
  lemma FirstSegmentNonEmpty(t: string)
    requires t != [] && t[0] != '/'
    ensures Split(t, "/")[0] != []
  {
    assert !OccursAt(t, "/", 0);
  }

  /** A path whose first segment is erased gives a slug that starts with `/`. */
  lemma SlugifyFilePathLeadingSlashExample()
    ensures SlugifyFilePath("?/a.md", false) == "/a"
  {
    assert "?/a" + ".md" == "?/a.md";
    SlugifyFilePathExtension("?/a", ".md", false);
    ExampleSluggify();
  }

  lemma ExampleSluggify()
    ensures Sluggify("?/a") == "/a"
  {
    ExampleSlugSegments();
    assert !EndsWith("/a", "/");
  }

  lemma ExampleSplit()
    ensures Split("?/a", "/") == ["?", "a"]
  {
    var stem := "?/a";
    assert OccursAt(stem, "/", 1);
    assert stem[0..1] == "?";
    assert !OccursAt(stem, "/", 0);
    assert IndexOf(stem, "/") == Some(1);
    assert "a"[..1] != "/" && "a"[1..] == [];
    assert IndexOf("a", "/") == None;
    assert Split("a", "/") == ["a"];
    assert stem[..1] == "?" && stem[2..] == "a";
  }

  lemma ExampleSlugSegmentErased()
    ensures SlugSegment("?") == []
  {
    assert "?"[1..] == [];
  }

  lemma ExampleSlugSegmentKept()
    ensures SlugSegment("a") == "a"
  {
    assert "a"[1..] == [];
  }

  lemma ExampleSlugSegments()
    ensures SlugSegments("?/a") == "/a"
  {
    ExampleSplit();
    ExampleSlugSegmentErased();
    ExampleSlugSegmentKept();
    var slugged := SlugEach(["?", "a"]);
    assert slugged == ["", "a"];
    assert Join(slugged, "/") == "/a";
  }

  /** `stripSlashes`: drop one leading `/` and, unless `onlyStripPrefix`, one trailing `/`. */
  function StripSlashes(s: string, onlyStripPrefix: bool): (r: string)
    ensures var lead := if StartsWith(s, "/") then 1 else 0;
      var trail := if !onlyStripPrefix && |s| > lead && s[|s| - 1] == '/' then 1 else 0;
      r == s[lead..|s| - trail]
    ensures r != s ==> s[0] == '/' || (!onlyStripPrefix && s[|s| - 1] == '/')
    ensures onlyStripPrefix ==> r == (if StartsWith(s, "/") then s[1..] else s)
    ensures |s| - 2 <= |r| <= |s|
  {
    var t := if StartsWith(s, "/") then s[1..] else s;
    if !onlyStripPrefix && EndsWith(t, "/") then t[..|t| - 1] else t
  }

  /** `trimSuffix(s, "index")` inside `simplifySlug`: a final `index` segment is dropped, its `/` kept. */
  function TrimIndex(s: string): (r: string)
    ensures r == s || (r + "index" == s && (r == [] || r[|r| - 1] == '/'))
    ensures r != s <==> s == "index" || EndsWith(s, "/index")
  {
    if s == "index" || EndsWith(s, "/index") then
      assert s == s[..|s| - 5] + "index";
      s[..|s| - 5]
    else s
  }

  /** `simplifySlug`: drop a trailing `index` segment and a leading `/`; the empty result is `/`. */
  function SimplifySlug(fp: string): (r: string)
    ensures r != []
    ensures var slug := StripSlashes(TrimIndex(fp), true);
      && (r == "/" <==> slug == [] || slug == "/")
      && (slug != [] ==> r == slug)
  {
    var slug := StripSlashes(TrimIndex(fp), true);
    if |slug| == 0 then "/" else slug
  }

  /** `index` and `/index` are the root, `a/index` is its folder, and `myindex` is not trimmed. */
  lemma SimplifySlugExamples()
    ensures SimplifySlug("index") == "/"
    ensures SimplifySlug("/index") == "/"
    ensures SimplifySlug("a/index") == "a/"
    ensures SimplifySlug("myindex") == "myindex"
  {
    assert TrimIndex("index") == [];
    assert TrimIndex("/index") == "/" && StripSlashes("/", true) == [];
    assert TrimIndex("a/index") == "a/" && StripSlashes("a/", true) == "a/";
    assert "myindex"[2..] != "/index";
    assert TrimIndex("myindex") == "myindex" && StripSlashes("myindex", true) == "myindex";
  }

  /** The folder part of a slug: everything before its last `/`, or "" when it has none. */
  function ParentDir(slug: string): string {
    var parts := Split(slug, "/");
    Join(parts[..|parts| - 1], "/")
  }

  /** `ParentDir` is the part before the last `/`: the slug is that, a `/`, and a last segment without `/`. */
  lemma ParentDirIsBeforeLastSlash(slug: string)
    ensures '/' !in slug ==> ParentDir(slug) == []
    ensures '/' in slug ==> exists last :: '/' !in last && slug == ParentDir(slug) + "/" + last
  {
    var parts := Split(slug, "/");
    JoinSplit(slug, "/");
    SplitPartsAvoid(slug, '/');
    if |parts| == 1 {
      assert slug == parts[0];
    } else {
      var last := parts[|parts| - 1];
      JoinSnoc(parts[..|parts| - 1], last, "/");
      assert parts[..|parts| - 1] + [last] == parts;
      assert '/' !in last;
      assert slug == ParentDir(slug) + "/" + last;
    }
  }

  lemma {:induction false} JoinSnoc(parts: seq<string>, last: string, sep: string)
    requires |parts| >= 1
    ensures Join(parts + [last], sep) == Join(parts, sep) + sep + last
    decreases |parts|
  {
    if |parts| == 1 {
      assert (parts + [last])[1..] == [last];
    } else {
      assert (parts + [last])[1..] == parts[1..] + [last];
      JoinSnoc(parts[1..], last, sep);
    }
  }

  /**
   * `createRelativePath`: the relative path from the folder of `fromSlug` to `toSlug`
   * (computed by `relative`, Node's `path.relative`), prefixed with `./` unless it
   * already starts with `.`, and suffixed with `.html`.
   */
  function CreateRelativePath(fromSlug: string, toSlug: string, relative: (string, string) -> string): (r: string)
    ensures r != [] && r[0] == '.' && EndsWith(r, ".html")
    ensures var rel := relative(ParentDir(fromSlug), toSlug);
      r == (if StartsWith(rel, ".") then rel else "./" + rel) + ".html"
  {
    var fromParts := Split(fromSlug, "/");
    var toParts := Split(toSlug, "/");
    JoinSplit(toSlug, "/");
    var rel := relative(Join(fromParts[..|fromParts| - 1], "/"), Join(toParts, "/"));
    if StartsWith(rel, ".") then rel + ".html" else "./" + rel + ".html"
  }
}

=== FILE: plugin.dfy ===
/**
 * The maintenance operations of the plugin class in src/main.ts: the bulk edit
 * of the `cpn-publish-contexts` field over the vault with its CSV preview, the
 * repair of contexts stored as a string instead of a list, and the URL the
 * copy-link command forms for a note.
 *
 * The SHA-256 digest is a parameter function from text to its hex digest and
 * `Date.now()` is a parameter; the URL is returned instead of being put on the
 * clipboard.
 */
module Plugin {
  import opened Wrappers
  import opened Js
  import opened Types
  import Host
  import Frontmatter
  import Selection

  const ContextsKey := Selection.ContextsKey

  // ---------------------------------------------------------------------------
  // The validation hash

  /** Three hours in milliseconds. */
  const ThreeHours := 3 * 60 * 60 * 1000

  /** `Math.floor(now / threeHours) * threeHours`: the start of the three-hour window holding `now`. */
  function WindowStart(now: int): (r: int)
    ensures r <= now < r + ThreeHours
  {
    now / ThreeHours * ThreeHours
  }

  /** `n.toString()` for an integer. */
  function NumberText(n: int): string {
    if n < 0 then "-" + DecimalString(-n) else DecimalString(n)
  }

  /** `getTimeWindowHash()`: the first eight characters of the hex digest of the window start's decimal text. */
  function TimeWindowHash(now: int, sha256Hex: string -> string): (r: string)
    ensures var h := sha256Hex(NumberText(WindowStart(now)));
      |r| == (if |h| <= 8 then |h| else 8) && r == h[..|r|]
  {
    var h := sha256Hex(NumberText(WindowStart(now)));
    if |h| <= 8 then h else h[..8]
  }

  /** Any two moments of the same three-hour window give the same validation hash. */
  lemma SameWindowSameHash(k: int, a: int, b: int, sha256Hex: string -> string)
    requires k * ThreeHours <= a < (k + 1) * ThreeHours
    requires k * ThreeHours <= b < (k + 1) * ThreeHours
    ensures TimeWindowHash(a, sha256Hex) == TimeWindowHash(b, sha256Hex)
  {
    WindowIndex(k, a);
    WindowIndex(k, b);
  }

  lemma WindowIndex(k: int, t: int)
    requires k * ThreeHours <= t < (k + 1) * ThreeHours
    ensures t / ThreeHours == k
  {
    var q, r := t / ThreeHours, t % ThreeHours;
    assert t == q * ThreeHours + r && 0 <= r < ThreeHours;
  }

  // ---------------------------------------------------------------------------
  // Computing the proposed contexts

  /** Context names as frontmatter values. */
  function Strs(names: seq<string>): seq<Value> {
    seq(|names|, i requires 0 <= i < |names| => Str(names[i]))
  }

  /** `[...v]`: an array's items, or a string's characters one by one; any other value is not iterable and throws. */
  function Spread(v: Value): Option<seq<Value>> {
    match v
    case Arr(items) => Some(items)
    case Str(s) => Some(seq(|s|, i requires 0 <= i < |s| => Str([s[i]])))
    case _ => None
  }

  /** `Array.from(new Set(xs))`: each value once, in the order of its first occurrence. */
  function Dedup(xs: seq<Value>): (r: seq<Value>)
    ensures forall x :: x in r <==> x in xs
    ensures Host.NoDuplicates(r)
  {
    if xs == [] then []
    else
      var init := xs[..|xs| - 1];
      var last := xs[|xs| - 1];
      assert xs == init + [last];
      var rest := Dedup(init);
      if last in rest then rest else rest + [last]
  }

  /** A list without duplicates is its own set's array. */
  lemma {:induction false} DedupDistinct(xs: seq<Value>)
    requires Host.NoDuplicates(xs)
    ensures Dedup(xs) == xs
  {
    if xs != [] {
      var init := xs[..|xs| - 1];
      assert xs == init + [xs[|xs| - 1]];
      DedupDistinct(init);
    }
  }

  /** What is already in the set keeps its place; new values come after it. */
  lemma {:induction false} DedupExtends(xs: seq<Value>, ys: seq<Value>)
    ensures Dedup(xs) <= Dedup(xs + ys)
    decreases |ys|
  {
    if ys == [] {
      assert xs + ys == xs;
    } else {
      var init := ys[..|ys| - 1];
      assert (xs + ys)[..|xs + ys| - 1] == xs + init;
      DedupExtends(xs, init);
    }
  }

  /** `list.filter(ctx => !names.includes(ctx))` */
  function RemoveAll(xs: seq<Value>, names: seq<string>): (r: seq<Value>)
    ensures forall x :: x in r <==> x in xs && !(x.Str? && x.s in names)
  {
    if xs == [] then []
    else
      assert forall x :: x in xs <==> x == xs[0] || x in xs[1..];
      (if xs[0].Str? && xs[0].s in names then [] else [xs[0]]) + RemoveAll(xs[1..], names)
  }

  /** The contexts after one matching pattern: an `add` unions its contexts in, a `remove` filters them out. */
  function ApplyMapping(xs: seq<Value>, m: BulkMapping): seq<Value> {
    match m.action
    case Add => Dedup(xs + Strs(m.contexts))
    case Remove => RemoveAll(xs, m.contexts)
  }

  /** The contexts after every matching pattern, in configuration order. */
  function ApplyMappings(xs: seq<Value>, ms: seq<BulkMapping>): seq<Value> {
    if ms == [] then xs else ApplyMapping(ApplyMappings(xs, ms[..|ms| - 1]), ms[|ms| - 1])
  }

  /** The action of the last pattern that lists `name`, if any does. */
  function LastMention(ms: seq<BulkMapping>, name: string): Option<BulkAction> {
    if ms == [] then None
    else if name in ms[|ms| - 1].contexts then Some(ms[|ms| - 1].action)
    else LastMention(ms[..|ms| - 1], name)
  }

  /** Whether `x` is in the proposed list, as the patterns decide it. */
  predicate Decided(xs: seq<Value>, ms: seq<BulkMapping>, x: Value) {
    if x.Str? && LastMention(ms, x.s).Some? then LastMention(ms, x.s) == Some(Add) else x in xs
  }

  /**
   * A context is proposed exactly when the last pattern listing it adds it, or, when no
   * pattern lists it, when it was there before; any other value stays exactly when it was there.
   */
  lemma {:induction false} MappingsDecide(xs: seq<Value>, ms: seq<BulkMapping>)
    ensures forall x :: x in ApplyMappings(xs, ms) <==> Decided(xs, ms, x)
    decreases |ms|
  {
    if ms != [] {
      var init := ms[..|ms| - 1];
      var m := ms[|ms| - 1];
      MappingsDecide(xs, init);
      forall x ensures x in ApplyMappings(xs, ms) <==> Decided(xs, ms, x) {
        assert x in Strs(m.contexts) <==> x.Str? && x.s in m.contexts by {
          if x.Str? && x.s in m.contexts {
            var i :| 0 <= i < |m.contexts| && m.contexts[i] == x.s;
            assert Strs(m.contexts)[i] == x;
          }
        }
      }
    }
  }

  /** The patterns that apply to a path: the same directory test as for exclusion, in configuration order. */
  function Matching(includes: seq<BulkMapping>, path: string): seq<BulkMapping> {
    if includes == [] then []
    else (if Selection.ExcludedBy(path, includes[0].directory) then [includes[0]] else []) + Matching(includes[1..], path)
  }

  /** The patterns that apply are those whose directory holds the path. */
  lemma {:induction false} MatchingSelects(includes: seq<BulkMapping>, path: string)
    ensures forall m :: m in Matching(includes, path) <==> m in includes && Selection.ExcludedBy(path, m.directory)
    decreases |includes|
  {
    if includes != [] {
      MatchingSelects(includes[1..], path);
      assert forall m :: m in includes <==> m == includes[0] || m in includes[1..];
    }
  }

  /** `config.exclude.find(...)`: the first excluded directory the path is in. */
  function FirstExclude(excludes: seq<string>, path: string): Option<string> {
    if excludes == [] then None
    else if Selection.ExcludedBy(path, excludes[0]) then Some(excludes[0])
    else FirstExclude(excludes[1..], path)
  }

  /** The search finds a directory exactly when the `some` test holds, and what it finds holds the path. */
  lemma {:induction false} FirstExcludeFinds(excludes: seq<string>, path: string)
    ensures FirstExclude(excludes, path).Some? <==> exists d :: d in excludes && Selection.ExcludedBy(path, d)
    ensures FirstExclude(excludes, path).Some? ==>
      FirstExclude(excludes, path).value in excludes && Selection.ExcludedBy(path, FirstExclude(excludes, path).value)
    decreases |excludes|
  {
    if excludes != [] && !Selection.ExcludedBy(path, excludes[0]) {
      FirstExcludeFinds(excludes[1..], path);
      assert forall d :: d in excludes <==> d == excludes[0] || d in excludes[1..];
    }
  }

  // ---------------------------------------------------------------------------
  // The bulk edit, file by file

  const ActionUpdate := "Update"
  const ActionNoChange := "No Change"
  const ActionExcluded := "Excluded"

  function ActionName(a: BulkAction): string {
    match a
    case Add => "add"
    case Remove => "remove"
  }

  /** How a pattern is described in the preview: `<directory> (<action> <contexts>)`. */
  function PatternText(m: BulkMapping): string {
    m.directory + " (" + ActionName(m.action) + " " + Join(m.contexts, ",") + ")"
  }

  function IncludePattern(ms: seq<BulkMapping>): string {
    Join(seq(|ms|, i requires 0 <= i < |ms| => PatternText(ms[i])), ", ")
  }

  /** What the bulk edit does with one file: no record, a record, or a throw because the contexts are not iterable. */
  datatype Plan = Untouched | Planned(change: ContextChange) | NotIterable

  /** The record for a file at `path` whose contexts field holds `raw`. */
  function PlanFile(includes: seq<BulkMapping>, excludes: seq<string>, path: string, raw: Value): (r: Plan)
    ensures r.Planned? ==> r.change.filePath == path && r.change.currentContexts == Or(raw, Arr([]))
  {
    var current := Or(raw, Arr([]));
    match FirstExclude(excludes, path)
    case Some(dir) => Planned(ContextChange(path, current, [], ActionExcluded, "", dir))
    case None =>
      var matching := Matching(includes, path);
      if matching == [] then Untouched
      else
        match Spread(current)
        case None => Plan.NotIterable
        case Some(items) =>
          var proposed := ApplyMappings(items, matching);
          var action := if current != Arr(proposed) then ActionUpdate else ActionNoChange;
          Planned(ContextChange(path, current, proposed, action, IncludePattern(matching), ""))
  }

  /**
   * An excluded file is recorded as excluded, with no proposed contexts and the first
   * matching exclude, even where an include also matches; a file matched by no pattern gets
   * no record; otherwise the patterns decide the proposed contexts, and the action is
   * `Update` exactly when they differ from the current ones, else `No Change`.
   */
  lemma PlanFileMeaning(includes: seq<BulkMapping>, excludes: seq<string>, path: string, raw: Value)
    ensures var r := PlanFile(includes, excludes, path, raw);
      && ((r.Planned? && r.change.action == ActionExcluded) <==> exists d :: d in excludes && Selection.ExcludedBy(path, d))
      && (r.Planned? && r.change.action == ActionExcluded ==>
            && r.change.proposedContexts == [] && r.change.includePattern == ""
            && r.change.excludePattern in excludes && Selection.ExcludedBy(path, r.change.excludePattern))
      && (r.Untouched? <==> (forall d :: d in excludes ==> !Selection.ExcludedBy(path, d))
                            && (forall m :: m in includes ==> !Selection.ExcludedBy(path, m.directory)))
      && (r.Planned? && r.change.action != ActionExcluded ==>
            && Spread(r.change.currentContexts).Some?
            && (forall x :: x in r.change.proposedContexts <==> Decided(Spread(r.change.currentContexts).value, Matching(includes, path), x))
            && (r.change.action == ActionUpdate <==> r.change.currentContexts != Arr(r.change.proposedContexts))
            && (r.change.action == ActionNoChange <==> r.change.currentContexts == Arr(r.change.proposedContexts)))
  {
    var matching := Matching(includes, path);
    FirstExcludeFinds(excludes, path);
    MatchingSelects(includes, path);
    if FirstExclude(excludes, path).None? {
      if matching == [] {
        forall m | m in includes ensures !Selection.ExcludedBy(path, m.directory) {
          assert m !in matching;
        }
      } else {
        assert matching[0] in matching;
        var current := Or(raw, Arr([]));
        if Spread(current).Some? {
          MappingsDecide(Spread(current).value, matching);
        }
      }
    }
  }

  /** The contexts field of a note in a frontmatter snapshot (`getFrontmatterValue`). */
  function ValueIn(fm: map<string, Frontmatter.Record>, path: string): Value {
    if path in fm && ContextsKey in fm[path] then fm[path][ContextsKey] else Undefined
  }

  /** The frontmatter after `updateFrontmatter(file, {'cpn-publish-contexts': contexts})`. */
  function WriteContexts(fm: map<string, Frontmatter.Record>, path: string, contexts: seq<Value>): map<string, Frontmatter.Record> {
    fm[path := Frontmatter.ApplyUpdates(Frontmatter.Get(fm, path), map[ContextsKey := Arr(contexts)])]
  }

  /** Writing a note's contexts sets them for that note and leaves every other note's as they were. */
  lemma WrittenValue(fm: map<string, Frontmatter.Record>, path: string, contexts: seq<Value>, q: string)
    ensures ValueIn(WriteContexts(fm, path, contexts), q) == if q == path then Arr(contexts) else ValueIn(fm, q)
  {
  }

  /** The state of a bulk edit: the records so far, the frontmatter, the number of writes, and whether it threw. */
  datatype BulkState = BulkState(changes: seq<ContextChange>, frontmatter: map<string, Frontmatter.Record>, updateCount: nat, thrown: bool)

  /** One file of the bulk edit: its record is pushed, and written when not a dry run and it changes. */
  function StepFile(s: BulkState, config: BulkConfig, dryRun: bool, path: string): BulkState {
    match PlanFile(config.includes, config.excludes, path, ValueIn(s.frontmatter, path))
    case Untouched => s
    case NotIterable => s.(thrown := true)
    case Planned(c) =>
      if !dryRun && c.action == ActionUpdate then
        BulkState(s.changes + [c], WriteContexts(s.frontmatter, path, c.proposedContexts), s.updateCount + 1, false)
      else s.(changes := s.changes + [c])
  }

  /** The bulk edit over `files` in order, from the frontmatter `fm`; after a throw nothing further happens. */
  function Bulk(config: BulkConfig, dryRun: bool, files: seq<Host.File>, fm: map<string, Frontmatter.Record>): BulkState
    decreases |files|
  {
    if files == [] then BulkState([], fm, 0, false)
    else
      var s := Bulk(config, dryRun, files[..|files| - 1], fm);
      if s.thrown then s else StepFile(s, config, dryRun, files[|files| - 1].path)
  }

  lemma BulkStep(config: BulkConfig, dryRun: bool, files: seq<Host.File>, i: nat, fm: map<string, Frontmatter.Record>)
    requires i < |files|
    ensures var s := Bulk(config, dryRun, files[..i], fm);
      Bulk(config, dryRun, files[..i + 1], fm) == if s.thrown then s else StepFile(s, config, dryRun, files[i].path)
  {
    assert files[..i + 1][..i] == files[..i];
  }

  /** After a throw, the remaining files change nothing. */
  lemma {:induction false} BulkThrownStays(config: BulkConfig, dryRun: bool, files: seq<Host.File>, k: nat, fm: map<string, Frontmatter.Record>)
    requires k <= |files| && Bulk(config, dryRun, files[..k], fm).thrown
    ensures Bulk(config, dryRun, files, fm) == Bulk(config, dryRun, files[..k], fm)
    decreases |files|
  {
    if k < |files| {
      var init := files[..|files| - 1];
      assert init[..k] == files[..k];
      BulkThrownStays(config, dryRun, init, k, fm);
    } else {
      assert files[..k] == files;
    }
  }

  /** The number of records with the given action. */
  function Count(changes: seq<ContextChange>, action: string): nat {
    if changes == [] then 0
    else Count(changes[..|changes| - 1], action) + (if changes[|changes| - 1].action == action then 1 else 0)
  }

  /** A dry run writes nothing; otherwise `updateCount` is the number of `Update` records. */
  lemma {:induction false} BulkCounts(config: BulkConfig, dryRun: bool, files: seq<Host.File>, fm: map<string, Frontmatter.Record>)
    ensures var s := Bulk(config, dryRun, files, fm);
      && (dryRun ==> s.frontmatter == fm && s.updateCount == 0)
      && (!dryRun ==> s.updateCount == Count(s.changes, ActionUpdate))
    decreases |files|
  {
    if files != [] {
      var init := files[..|files| - 1];
      BulkCounts(config, dryRun, init, fm);
      var s := Bulk(config, dryRun, init, fm);
      if !s.thrown {
        StepCounts(s, config, dryRun, files[|files| - 1].path);
      }
    }
  }

  /** One file's step keeps the count of `Update` records in step with `updateCount`, and a dry run writes nothing. */
  lemma StepCounts(s: BulkState, config: BulkConfig, dryRun: bool, path: string)
    ensures var t := StepFile(s, config, dryRun, path);
      && (dryRun ==> t.frontmatter == s.frontmatter && t.updateCount == s.updateCount)
      && (!dryRun && s.updateCount == Count(s.changes, ActionUpdate) ==> t.updateCount == Count(t.changes, ActionUpdate))
  {
    match PlanFile(config.includes, config.excludes, path, ValueIn(s.frontmatter, path))
    case Planned(c) =>
      assert (s.changes + [c])[..|s.changes|] == s.changes;
    case _ =>
  }

  /** A record is for one of the files, and is `Excluded` exactly when that file lies in an excluded directory. */
  predicate RecordFor(c: ContextChange, files: seq<Host.File>, excludes: seq<string>) {
    && (exists j :: 0 <= j < |files| && files[j].path == c.filePath)
    && (c.action == ActionExcluded <==> FirstExclude(excludes, c.filePath).Some?)
  }

  lemma RecordForLonger(c: ContextChange, files: seq<Host.File>, excludes: seq<string>)
    requires files != [] && RecordFor(c, files[..|files| - 1], excludes)
    ensures RecordFor(c, files, excludes)
  {
    var j :| 0 <= j < |files| - 1 && files[..|files| - 1][j].path == c.filePath;
    assert files[j].path == c.filePath;
  }

  /** Every record of a bulk edit is for one of its files, and is `Excluded` exactly when that file is excluded. */
  lemma {:induction false} BulkRecords(config: BulkConfig, dryRun: bool, files: seq<Host.File>, fm: map<string, Frontmatter.Record>)
    ensures forall c :: c in Bulk(config, dryRun, files, fm).changes ==> RecordFor(c, files, config.excludes)
    decreases |files|
  {
    if files != [] {
      var init := files[..|files| - 1];
      BulkRecords(config, dryRun, init, fm);
      var s := Bulk(config, dryRun, init, fm);
      forall c | c in s.changes ensures RecordFor(c, files, config.excludes) {
        RecordForLonger(c, files, config.excludes);
      }
      var last := files[|files| - 1];
      PlanFileMeaning(config.includes, config.excludes, last.path, ValueIn(s.frontmatter, last.path));
      FirstExcludeFinds(config.excludes, last.path);
    }
  }

  /** A note's frontmatter changes only where a record says `Update`, and never in a dry run. */
  lemma {:induction false} BulkWritesOnlyUpdates(config: BulkConfig, dryRun: bool, files: seq<Host.File>, fm: map<string, Frontmatter.Record>)
    ensures var s := Bulk(config, dryRun, files, fm);
      forall p :: Frontmatter.Get(s.frontmatter, p) != Frontmatter.Get(fm, p) ==>
        !dryRun && exists i :: 0 <= i < |s.changes| && s.changes[i].filePath == p && s.changes[i].action == ActionUpdate
    decreases |files|
  {
    if files != [] {
      var init := files[..|files| - 1];
      BulkWritesOnlyUpdates(config, dryRun, init, fm);
      var s := Bulk(config, dryRun, init, fm);
      if !s.thrown {
        var s' := StepFile(s, config, dryRun, files[|files| - 1].path);
        StepShape(s, config, dryRun, files[|files| - 1].path);
        forall p | Frontmatter.Get(s'.frontmatter, p) != Frontmatter.Get(fm, p)
          ensures !dryRun && exists i :: 0 <= i < |s'.changes| && s'.changes[i].filePath == p && s'.changes[i].action == ActionUpdate
        {
          if Frontmatter.Get(s.frontmatter, p) != Frontmatter.Get(fm, p) {
            var i :| 0 <= i < |s.changes| && s.changes[i].filePath == p && s.changes[i].action == ActionUpdate;
            assert s'.changes[i] == s.changes[i];
          } else {
            assert s'.changes[|s'.changes| - 1].filePath == p;
          }
        }
      }
    }
  }

  /**
   * One file's step either changes nothing, or pushes one record for that file; the
   * frontmatter changes only when that record is an `Update` of a run that is not a dry
   * run, and then only that note's contexts change.
   */
  lemma StepShape(s: BulkState, config: BulkConfig, dryRun: bool, path: string)
    ensures var t := StepFile(s, config, dryRun, path);
      || (t.changes == s.changes && t.frontmatter == s.frontmatter)
      || (&& |t.changes| == |s.changes| + 1 && t.changes[..|s.changes|] == s.changes
          && t.changes[|s.changes|].filePath == path
          && (|| t.frontmatter == s.frontmatter
              || (&& !dryRun && t.changes[|s.changes|].action == ActionUpdate
                  && t.frontmatter == WriteContexts(s.frontmatter, path, t.changes[|s.changes|].proposedContexts))))
  {
    match PlanFile(config.includes, config.excludes, path, ValueIn(s.frontmatter, path))
    case Planned(c) =>
      assert (s.changes + [c])[..|s.changes|] == s.changes;
    case _ =>
  }

  /** A note in an excluded directory is never written, whatever the includes say. */
  lemma ExcludedNeverWritten(config: BulkConfig, dryRun: bool, files: seq<Host.File>, fm: map<string, Frontmatter.Record>, p: string)
    requires exists d :: d in config.excludes && Selection.ExcludedBy(p, d)
    ensures Frontmatter.Get(Bulk(config, dryRun, files, fm).frontmatter, p) == Frontmatter.Get(fm, p)
  {
    BulkRecords(config, dryRun, files, fm);
    BulkWritesOnlyUpdates(config, dryRun, files, fm);
    FirstExcludeFinds(config.excludes, p);
  }

  /**
   * With each file listed once, every `Update` record of a run that is not a dry run
   * leaves its note with exactly the proposed contexts.
   */
  lemma {:induction false} BulkWritesProposed(config: BulkConfig, dryRun: bool, files: seq<Host.File>, fm: map<string, Frontmatter.Record>)
    requires !dryRun && forall i, j :: 0 <= i < j < |files| ==> files[i].path != files[j].path
    ensures forall c :: c in Bulk(config, dryRun, files, fm).changes && c.action == ActionUpdate ==>
      ValueIn(Bulk(config, dryRun, files, fm).frontmatter, c.filePath) == Arr(c.proposedContexts)
    decreases |files|
  {
    if files != [] {
      var init := files[..|files| - 1];
      var last := files[|files| - 1].path;
      BulkWritesProposed(config, dryRun, init, fm);
      BulkRecords(config, dryRun, init, fm);
      var s := Bulk(config, dryRun, init, fm);
      if !s.thrown {
        var s' := StepFile(s, config, dryRun, last);
        StepShape(s, config, dryRun, last);
        forall c | c in s'.changes && c.action == ActionUpdate
          ensures ValueIn(s'.frontmatter, c.filePath) == Arr(c.proposedContexts)
        {
          if c in s.changes {
            assert RecordFor(c, init, config.excludes);
            var j :| 0 <= j < |init| && init[j].path == c.filePath;
            assert files[j] == init[j];
            WrittenValue(s.frontmatter, last, s'.changes[|s'.changes| - 1].proposedContexts, c.filePath);
          } else {
            assert s'.changes == s.changes + [s'.changes[|s.changes|]];
            WrittenValue(s.frontmatter, last, c.proposedContexts, c.filePath);
          }
        }
      }
    }
  }

  // ---------------------------------------------------------------------------
  // The CSV preview

  /** The text `Array.prototype.join` gives an element: nothing for `null` and `undefined`, `String(v)` otherwise. */
  function ElementText(v: Value): string
    decreases v
  {
    match v
    case Undefined => ""
    case Null => ""
    case Bool(b) => if b then "true" else "false"
    case Num(n) => NumberText(n)
    case Str(s) => s
    case Arr(items) => Join(seq(|items|, i requires 0 <= i < |items| => ElementText(items[i])), ",")
    case Obj(_) => "[object Object]"
  }

  /** An item as `stringifyArray` shows it: a string between single quotes, anything else as `join` shows it. */
  function ItemText(v: Value): string {
    if v.Str? then "'" + v.s + "'" else ElementText(v)
  }

  /** `stringifyArray(arr)`: the items, shown one by one, separated by `, ` between brackets. */
  function StringifyArray(items: seq<Value>): string {
    "[" + Join(seq(|items|, i requires 0 <= i < |items| => ItemText(items[i])), ", ") + "]"
  }

  const CsvColumns := ["File Path", "Current Contexts", "Proposed Contexts", "Action", "Include Pattern", "Exclude Pattern"]

  function CsvHeader(): string {
    Join(CsvColumns, ",")
  }

  /** The six fields of a record's line; `None` where the current contexts are not an array and `.map` throws. */
  function CsvFields(c: ContextChange): (r: Option<seq<string>>)
    ensures r.Some? <==> c.currentContexts.Arr?
    ensures r.Some? ==> && |r.value| == |CsvColumns|
                        && r.value[0] == c.filePath && r.value[3] == c.action
                        && r.value[4] == c.includePattern && r.value[5] == c.excludePattern
  {
    if c.currentContexts.Arr? then
      Some([c.filePath, StringifyArray(c.currentContexts.items), StringifyArray(c.proposedContexts),
            c.action, c.includePattern, c.excludePattern])
    else None
  }

  function Quote(field: string): string {
    "\"" + field + "\""
  }

  /** A record's line: its fields, each between double quotes, separated by commas. */
  function CsvLine(c: ContextChange): Option<string> {
    match CsvFields(c)
    case None => None
    case Some(fields) => Some(Join(seq(|fields|, i requires 0 <= i < |fields| => Quote(fields[i])), ","))
  }

  /** The lines of the records, in order, if every one of them can be shown. */
  function CsvLines(changes: seq<ContextChange>): (r: Option<seq<string>>)
    ensures r.Some? <==> forall i :: 0 <= i < |changes| ==> CsvLine(changes[i]).Some?
    ensures r.Some? ==> |r.value| == |changes| && forall i :: 0 <= i < |changes| ==> r.value[i] == CsvLine(changes[i]).value
  {
    if forall i :: 0 <= i < |changes| ==> CsvLine(changes[i]).Some? then
      Some(seq(|changes|, i requires 0 <= i < |changes| => CsvLine(changes[i]).value))
    else None
  }

  /** The content `writePreviewCSV` writes: the header line, then one line per record. */
  function Csv(changes: seq<ContextChange>): Option<string> {
    match CsvLines(changes)
    case None => None
    case Some(lines) => Some(Join([CsvHeader()] + lines, "\n"))
  }

  /** A line without line breaks in its fields has none. */
  lemma LineUnbroken(c: ContextChange)
    requires CsvFields(c).Some? && forall k :: 0 <= k < |CsvFields(c).value| ==> '\n' !in CsvFields(c).value[k]
    ensures CsvLine(c).Some? && '\n' !in CsvLine(c).value
  {
    var fields := CsvFields(c).value;
    var quoted := seq(|fields|, k requires 0 <= k < |fields| => Quote(fields[k]));
    assert forall k, ch :: 0 <= k < |quoted| && ch in quoted[k] ==> ch == '"' || ch in fields[k];
    JoinChars(quoted, ",", (ch: char) => ch != '\n');
  }

  lemma HeaderUnbroken()
    ensures '\n' !in CsvHeader()
  {
    JoinChars(CsvColumns, ",", (ch: char) => ch != '\n');
  }

  /**
   * Where no field holds a line break, the preview splits back into the header and then,
   * in order, the line of each record.
   */
  lemma CsvShape(changes: seq<ContextChange>)
    requires Csv(changes).Some?
    requires forall i, k :: 0 <= i < |changes| && 0 <= k < |CsvFields(changes[i]).value| ==> '\n' !in CsvFields(changes[i]).value[k]
    ensures var rows := Split(Csv(changes).value, "\n");
      && |rows| == |changes| + 1 && rows[0] == CsvHeader()
      && forall i :: 0 <= i < |changes| ==> rows[i + 1] == CsvLine(changes[i]).value
  {
    var lines := CsvLines(changes).value;
    var rows := [CsvHeader()] + lines;
    HeaderUnbroken();
    forall i | 0 <= i < |changes| ensures '\n' !in lines[i] {
      LineUnbroken(changes[i]);
    }
    assert forall k :: 0 <= k < |rows| ==> '\n' !in rows[k] by {
      forall k | 0 <= k < |rows| ensures '\n' !in rows[k] {
        if k > 0 { assert rows[k] == lines[k - 1]; }
      }
    }
    SplitJoin(rows, '\n');
  }

  // ---------------------------------------------------------------------------
  // Repairing contexts stored as a string

  /** No whitespace at either end: what `trim` leaves. */
  predicate Trimmed(s: string) {
    s == [] || (!IsWhitespace(s[0]) && !IsWhitespace(s[|s| - 1]))
  }

  lemma TrimTrimmed(s: string)
    requires Trimmed(s)
    ensures Trim(s) == s
  {
    assert TrimStart(s) == s;
  }

  function TrimAll(parts: seq<string>): (r: seq<string>)
    ensures forall x :: x in r ==> Trimmed(x)
  {
    var r := seq(|parts|, k requires 0 <= k < |parts| => Trim(parts[k]));
    assert forall x :: x in r ==> Trimmed(x) by {
      forall x | x in r ensures Trimmed(x) {
        var k :| 0 <= k < |r| && r[k] == x;
      }
    }
    r
  }

  lemma TrimAllTrimmed(parts: seq<string>)
    requires forall k :: 0 <= k < |parts| ==> Trimmed(parts[k])
    ensures TrimAll(parts) == parts
  {
    forall k | 0 <= k < |parts| ensures Trim(parts[k]) == parts[k] {
      TrimTrimmed(parts[k]);
    }
  }

  /** `parts.filter(s => s.length > 0)` */
  function NonEmpty(parts: seq<string>): (r: seq<string>)
    ensures forall x :: x in r <==> x in parts && x != []
    ensures (forall k :: 0 <= k < |parts| ==> parts[k] != []) ==> r == parts
  {
    if parts == [] then []
    else
      assert forall x :: x in parts <==> x == parts[0] || x in parts[1..];
      (if parts[0] == [] then [] else [parts[0]]) + NonEmpty(parts[1..])
  }

  /**
   * The list a string-valued contexts field becomes: with a delimiter, the pieces between
   * delimiters, trimmed, without the empty ones; with none, the trimmed string alone.
   */
  function Normalize(raw: string, delimiter: Option<string>): (r: seq<string>)
    ensures delimiter.Some? ==> forall k :: 0 <= k < |r| ==> r[k] != [] && Trimmed(r[k])
  {
    match delimiter
    case None => [Trim(raw)]
    case Some(d) =>
      var r := NonEmpty(TrimAll(Split(raw, d)));
      assert forall k :: 0 <= k < |r| ==> r[k] in r;
      r
  }

  /** Names that are trimmed, non-empty and free of a one-character delimiter survive being joined with it and normalized. */
  lemma NormalizeJoin(names: seq<string>, c: char)
    requires forall k :: 0 <= k < |names| ==> names[k] != [] && Trimmed(names[k]) && c !in names[k]
    ensures Normalize(Join(names, [c]), Some([c])) == names
  {
    if names == [] {
      NormalizeBlank(c);
    } else {
      var joined := Join(names, [c]);
      calc {
        Normalize(joined, Some([c]));
        NonEmpty(TrimAll(Split(joined, [c])));
        { SplitJoin(names, c); }
        NonEmpty(TrimAll(names));
        { TrimAllTrimmed(names); }
        NonEmpty(names);
        names;
      }
    }
  }

  lemma NormalizeBlank(c: char)
    ensures Normalize([], Some([c])) == []
  {
    assert Split([], [c]) == [[]];
    assert TrimAll([[]]) == [[]];
  }

  /** A string without the delimiter is normalized as if there were no delimiter, unless it is blank. */
  lemma NormalizeUndelimited(raw: string, c: char)
    requires c !in raw && Trim(raw) != []
    ensures Normalize(raw, Some([c])) == Normalize(raw, None)
  {
    calc {
      Normalize(raw, Some([c]));
      NonEmpty(TrimAll(Split(raw, [c])));
      { SplitNoSeparator(raw, c); }
      NonEmpty(TrimAll([raw]));
      { assert TrimAll([raw]) == [Trim(raw)]; }
      NonEmpty([Trim(raw)]);
      [Trim(raw)];
    }
  }

  /** The frontmatter after the repair loop, and the number of files it fixed. */
  datatype FixState = FixState(frontmatter: map<string, Frontmatter.Record>, fixedCount: nat)

  /** The repair loop over `paths`: each listed vault file whose contexts are still a string gets them as a list. */
  function FixAll(fm: map<string, Frontmatter.Record>, files: seq<Host.File>, paths: seq<string>, delimiter: Option<string>): FixState
    decreases |paths|
  {
    if paths == [] then FixState(fm, 0)
    else FixStep(FixAll(fm, files, paths[..|paths| - 1], delimiter), files, paths[|paths| - 1], delimiter)
  }

  /** One listed path of the repair loop. */
  function FixStep(s: FixState, files: seq<Host.File>, p: string, delimiter: Option<string>): FixState {
    var raw := ValueIn(s.frontmatter, p);
    if Host.FileByPath(files, p).Some? && raw.Str? then
      FixState(WriteContexts(s.frontmatter, p, Strs(Normalize(raw.s, delimiter))), s.fixedCount + 1)
    else s
  }

  /** Afterwards no listed vault file holds its contexts as a string. */
  lemma {:induction false} FixLeavesNoStrings(fm: map<string, Frontmatter.Record>, files: seq<Host.File>, paths: seq<string>, delimiter: Option<string>)
    ensures forall p :: p in paths && Host.FileByPath(files, p).Some? ==> !ValueIn(FixAll(fm, files, paths, delimiter).frontmatter, p).Str?
    decreases |paths|
  {
    if paths != [] {
      var init := paths[..|paths| - 1];
      FixLeavesNoStrings(fm, files, init, delimiter);
      assert forall p :: p in paths ==> p in init || p == paths[|paths| - 1];
    }
  }

  /** Only listed vault files whose contexts were a string are changed. */
  lemma {:induction false} FixTouchesOnlyStrings(fm: map<string, Frontmatter.Record>, files: seq<Host.File>, paths: seq<string>, delimiter: Option<string>)
    ensures forall p :: Frontmatter.Get(FixAll(fm, files, paths, delimiter).frontmatter, p) != Frontmatter.Get(fm, p) ==>
      p in paths && Host.FileByPath(files, p).Some? && ValueIn(fm, p).Str?
    decreases |paths|
  {
    if paths != [] {
      var init := paths[..|paths| - 1];
      FixTouchesOnlyStrings(fm, files, init, delimiter);
      assert forall p :: p in init ==> p in paths;
    }
  }

  /** The number of listed vault files whose contexts are a string in `fm`. */
  function StringsListed(fm: map<string, Frontmatter.Record>, files: seq<Host.File>, paths: seq<string>): nat {
    if paths == [] then 0
    else
      var p := paths[|paths| - 1];
      StringsListed(fm, files, paths[..|paths| - 1]) + (if Host.FileByPath(files, p).Some? && ValueIn(fm, p).Str? then 1 else 0)
  }

  /** With each path listed once, the count is the number of listed vault files whose contexts were a string. */
  lemma {:induction false} FixCount(fm: map<string, Frontmatter.Record>, files: seq<Host.File>, paths: seq<string>, delimiter: Option<string>)
    requires Host.NoDuplicates(paths)
    ensures FixAll(fm, files, paths, delimiter).fixedCount == StringsListed(fm, files, paths)
    decreases |paths|
  {
    if paths != [] {
      var init := paths[..|paths| - 1];
      var p := paths[|paths| - 1];
      FixCount(fm, files, init, delimiter);
      FixTouchesOnlyStrings(fm, files, init, delimiter);
      assert p !in init;
      assert Frontmatter.Get(FixAll(fm, files, init, delimiter).frontmatter, p) == Frontmatter.Get(fm, p);
    }
  }

  // ---------------------------------------------------------------------------
  // The note URL

  /** The characters `encodeURIComponent` leaves as they are. */
  predicate IsUnreserved(c: char) {
    IsAsciiAlnum(c) || c in "-_.!~*'()"
  }

  function HexDigit(d: nat): (c: char)
    requires d < 16
  {
    if d < 10 then ('0' as int + d) as char else ('A' as int + d - 10) as char
  }

  predicate IsUpperHex(c: char) {
    ('0' <= c <= '9') || ('A' <= c <= 'F')
  }

  function HexValue(c: char): Option<nat> {
    if '0' <= c <= '9' then Some(c as int - '0' as int)
    else if 'A' <= c <= 'F' then Some(c as int - 'A' as int + 10)
    else if 'a' <= c <= 'f' then Some(c as int - 'a' as int + 10)
    else None
  }

  lemma HexDigitValue(d: nat)
    requires d < 16
    ensures IsUpperHex(HexDigit(d)) && HexValue(HexDigit(d)) == Some(d)
  {
  }

  /** The UTF-8 encoding of a character. */
  function Utf8(c: char): (r: seq<nat>)
    ensures 1 <= |r| <= 4 && forall k :: 0 <= k < |r| ==> r[k] < 256
    ensures c as int < 0x80 ==> r == [c as int]
  {
    var n := c as int;
    if n < 0x80 then [n]
    else if n < 0x800 then [0xC0 + n / 0x40, 0x80 + n % 0x40]
    else if n < 0x10000 then [0xE0 + n / 0x1000, 0x80 + n / 0x40 % 0x40, 0x80 + n % 0x40]
    else [0xF0 + n / 0x40000, 0x80 + n / 0x1000 % 0x40, 0x80 + n / 0x40 % 0x40, 0x80 + n % 0x40]
  }

  /** Each byte as `%` and two upper-case hex digits. */
  function Escape(bytes: seq<nat>): (r: string)
    requires forall k :: 0 <= k < |bytes| ==> bytes[k] < 256
    ensures forall c :: c in r ==> c == '%' || IsUpperHex(c)
  {
    if bytes == [] then []
    else
      HexDigitValue(bytes[0] / 16);
      HexDigitValue(bytes[0] % 16);
      ['%', HexDigit(bytes[0] / 16), HexDigit(bytes[0] % 16)] + Escape(bytes[1..])
  }

  function EncodeChar(c: char): string {
    if IsUnreserved(c) then [c] else Escape(Utf8(c))
  }

  /** `encodeURIComponent(s)`: only unreserved characters, `%` and upper-case hex digits remain, so no `#`, `&` or `/`. */
  function EncodeUriComponent(s: string): (r: string)
    ensures forall c :: c in r ==> IsUnreserved(c) || c == '%' || IsUpperHex(c)
  {
    if s == [] then [] else EncodeChar(s[0]) + EncodeUriComponent(s[1..])
  }

  /** A string of unreserved characters is its own encoding. */
  lemma {:induction false} EncodeUnreserved(s: string)
    requires forall c :: c in s ==> IsUnreserved(c)
    ensures EncodeUriComponent(s) == s
  {
    if s != [] {
      assert forall c :: c in s[1..] ==> c in s;
      EncodeUnreserved(s[1..]);
    }
  }

  /** Reading back the escapes of ASCII characters: `%` and two hex digits below `80` stand for that character. */
  function DecodeAsciiEscapes(t: string): string
    decreases |t|
  {
    if t == [] then []
    else if t[0] == '%' && |t| >= 3 && HexValue(t[1]).Some? && HexValue(t[2]).Some?
            && HexValue(t[1]).value * 16 + HexValue(t[2]).value < 0x80
    then [(HexValue(t[1]).value * 16 + HexValue(t[2]).value) as char] + DecodeAsciiEscapes(t[3..])
    else [t[0]] + DecodeAsciiEscapes(t[1..])
  }

  lemma DecodePlain(c: char, rest: string)
    requires c != '%'
    ensures DecodeAsciiEscapes([c] + rest) == [c] + DecodeAsciiEscapes(rest)
  {
    assert ([c] + rest)[1..] == rest;
  }

  lemma DecodeEscape(n: nat, rest: string)
    requires n < 0x80
    ensures DecodeAsciiEscapes(['%', HexDigit(n / 16), HexDigit(n % 16)] + rest) == [n as char] + DecodeAsciiEscapes(rest)
  {
    var t := ['%', HexDigit(n / 16), HexDigit(n % 16)] + rest;
    HexDigitValue(n / 16);
    HexDigitValue(n % 16);
    assert t[1] == HexDigit(n / 16) && t[2] == HexDigit(n % 16);
    assert t[3..] == rest;
  }

  /** The encoding of an ASCII character: itself where unreserved, else `%` and its two hex digits. */
  lemma EncodeAsciiChar(c: char)
    requires c as int < 0x80
    ensures !IsUnreserved(c) ==> EncodeChar(c) == ['%', HexDigit(c as int / 16), HexDigit(c as int % 16)]
    ensures IsUnreserved(c) ==> EncodeChar(c) == [c] && c != '%'
  {
    if !IsUnreserved(c) {
      assert Utf8(c) == [c as int];
      assert Escape([c as int]) == ['%', HexDigit(c as int / 16), HexDigit(c as int % 16)] + Escape([]);
    }
  }

  /** An ASCII string is recovered from its encoding. */
  lemma {:induction false} DecodeEncodeAscii(s: string)
    requires forall c :: c in s ==> c as int < 0x80
    ensures DecodeAsciiEscapes(EncodeUriComponent(s)) == s
  {
    if s != [] {
      var c := s[0];
      assert c in s;
      var rest := EncodeUriComponent(s[1..]);
      assert forall x :: x in s[1..] ==> x in s;
      DecodeEncodeAscii(s[1..]);
      EncodeAsciiChar(c);
      if IsUnreserved(c) {
        DecodePlain(c, rest);
      } else {
        DecodeEscape(c as int, rest);
      }
      assert s == [c] + s[1..];
    }
  }

  /** `profile.baseUrl.replace(/\/?$/, '/')`: the base URL ending in one `/`, added only where it is missing. */
  function WithTrailingSlash(baseUrl: string): (r: string)
    ensures EndsWith(r, "/")
    ensures EndsWith(baseUrl, "/") ==> r == baseUrl
    ensures !EndsWith(baseUrl, "/") ==> r == baseUrl + "/"
  {
    if EndsWith(baseUrl, "/") then baseUrl else baseUrl + "/"
  }

  /** How the copy-link command ends: one of its notices, or the URL it copies. */
  datatype UrlOutcome = NoActiveFile | NoContexts | NoProfile | NoBaseUrl | NoUid | Copied(url: string)

  /**
   * The copy-link command for the active note: it needs publishing contexts, a profile
   * among them (chosen when several are offered), a base URL and a UID. The URL is the
   * base URL with its trailing slash, then `#u=` and the encoded UID.
   */
  function CopyNoteUrl(app: Host.App, profiles: seq<Profile>, active: Option<Host.File>, pick: Option<nat>): (r: UrlOutcome)
    reads app
    ensures r.Copied? ==>
      && active.Some? && app.NoteUid(active.value.path).Some? && app.NoteUid(active.value.path).value != ""
      && var profile := Selection.PromptForProfile(profiles, Some(Selection.PublishContexts(app, active.value.path)), pick);
         && profile.Some? && Selection.Lists(Selection.PublishContexts(app, active.value.path), profile.value.id)
         && profile.value.baseUrl != ""
         && r.url == WithTrailingSlash(profile.value.baseUrl) + "#u=" + EncodeUriComponent(app.NoteUid(active.value.path).value)
    ensures active.Some? && Selection.PublishContexts(app, active.value.path) == [] ==> r == NoContexts
  {
    match active
    case None => NoActiveFile
    case Some(file) =>
      var contexts := Selection.PublishContexts(app, file.path);
      if contexts == [] then NoContexts
      else match Selection.PromptForProfile(profiles, Some(contexts), pick)
        case None => NoProfile
        case Some(profile) =>
          if profile.baseUrl == "" then NoBaseUrl
          else match app.NoteUid(file.path)
            case None => NoUid
            case Some(uid) =>
              if uid == "" then NoUid
              else Copied(WithTrailingSlash(profile.baseUrl) + "#u=" + EncodeUriComponent(uid))
  }

  /**
   * A note URL holds the UID after the base URL and `#u=`: what follows has no `#`, and
   * for an ASCII UID reads back as the UID.
   */
  lemma UrlCarriesUid(baseUrl: string, uid: string)
    ensures var base := WithTrailingSlash(baseUrl);
      var url := base + "#u=" + EncodeUriComponent(uid);
      && url[..|base|] == base && url[|base|..|base| + 3] == "#u="
      && '#' !in url[|base| + 3..]
      && ((forall c :: c in uid ==> c as int < 0x80) ==> DecodeAsciiEscapes(url[|base| + 3..]) == uid)
  {
    var base := WithTrailingSlash(baseUrl);
    var encoded := EncodeUriComponent(uid);
    var url := base + "#u=" + encoded;
    assert url[..|base|] == base && url[|base|..|base| + 3] == "#u=";
    assert url[|base| + 3..] == encoded;
    NoHashInEncoding(uid);
    if forall c :: c in uid ==> c as int < 0x80 {
      DecodeEncodeAscii(uid);
    }
  }

  lemma NoHashInEncoding(s: string)
    ensures '#' !in EncodeUriComponent(s)
  {
    assert !IsUnreserved('#') && !IsUpperHex('#');
  }

  // ---------------------------------------------------------------------------
  // The plugin's methods

  /** How `bulkUpdatePublishContexts` ends. */
  datatype BulkOutcome =
    | InvalidHash
    | Threw
    | PreviewFailed
    | Completed(changes: seq<ContextChange>, updateCount: nat)

  /** The ending of a bulk edit that got past the hash check, given its preview and whether the preview path can be written. */
  function Ending(s: BulkState, csv: Option<string>, writable: bool): BulkOutcome {
    if s.thrown then Threw
    else if csv.None? || !writable then PreviewFailed
    else Completed(s.changes, s.updateCount)
  }

  /** The `forEach` over the matching patterns, reassigning the proposed list. */
  method ApplyPatterns(items: seq<Value>, matching: seq<BulkMapping>) returns (proposed: seq<Value>)
    ensures proposed == ApplyMappings(items, matching)
  {
    proposed := items;
    for k := 0 to |matching|
      invariant proposed == ApplyMappings(items, matching[..k])
    {
      assert matching[..k + 1][..k] == matching[..k];
      var inc := matching[k];
      if inc.action == Add {
        proposed := Dedup(proposed + Strs(inc.contexts));
      } else {
        proposed := RemoveAll(proposed, inc.contexts);
      }
    }
    assert matching[..|matching|] == matching;
  }

  class CommonplaceNotesPlugin {
    const app: Host.App
    const frontmatterManager: Frontmatter.FrontmatterManager

    constructor (app: Host.App, frontmatterManager: Frontmatter.FrontmatterManager)
      ensures this.app == app && this.frontmatterManager == frontmatterManager
    {
      this.app := app;
      this.frontmatterManager := frontmatterManager;
    }

    /** The frontmatter manager works on the plugin's vault. */
    predicate Wired() {
      frontmatterManager.app == app
    }

    /**
     * `bulkUpdatePublishContexts(config, validationHash, dryRun)` at time `now`. With a
     * wrong hash nothing is examined. Otherwise the markdown files are edited in vault order
     * as `Bulk` says, stopping at the first whose contexts are not iterable, and the preview
     * is written when every record can be shown.
     */
    method BulkUpdatePublishContexts(config: BulkConfig, validationHash: Option<string>, dryRun: bool, now: int, sha256Hex: string -> string)
      returns (outcome: BulkOutcome)
      requires Wired()
      modifies app, app.adapter
      ensures app.files == old(app.files)
      ensures validationHash != Some(TimeWindowHash(now, sha256Hex)) ==>
        outcome == InvalidHash && app.frontmatter == old(app.frontmatter) && app.adapter.files == old(app.adapter.files)
      ensures validationHash == Some(TimeWindowHash(now, sha256Hex)) ==>
        var s := Bulk(config, dryRun, Host.MarkdownFiles(old(app.files)), old(app.frontmatter));
        && app.frontmatter == s.frontmatter
        && outcome == Ending(s, Csv(s.changes), config.previewPath !in app.adapter.failing)
        && app.adapter.files == if outcome.Completed? then old(app.adapter.files)[config.previewPath := Host.Text(Csv(s.changes).value)]
                                else old(app.adapter.files)
    {
      var expectedHash := TimeWindowHash(now, sha256Hex);
      if validationHash != Some(expectedHash) {
        return InvalidHash;
      }
      var changes, updateCount, thrown := EditFiles(config, dryRun);
      if thrown {
        return Threw;
      }
      var ok := WritePreviewCsv(config.previewPath, changes);
      if !ok {
        return PreviewFailed;
      }
      outcome := Completed(changes, updateCount);
    }

    /** The loop over the markdown files, in vault order, until one throws. */
    method EditFiles(config: BulkConfig, dryRun: bool) returns (changes: seq<ContextChange>, updateCount: nat, thrown: bool)
      requires Wired()
      modifies app
      ensures app.files == old(app.files)
      ensures Bulk(config, dryRun, Host.MarkdownFiles(old(app.files)), old(app.frontmatter)) == BulkState(changes, app.frontmatter, updateCount, thrown)
    {
      var files := Host.MarkdownFiles(app.files);
      ghost var fm0 := app.frontmatter;
      changes, updateCount, thrown := [], 0, false;
      for i := 0 to |files|
        invariant app.files == old(app.files)
        invariant Bulk(config, dryRun, files[..i], fm0) == BulkState(changes, app.frontmatter, updateCount, false)
      {
        BulkStep(config, dryRun, files, i, fm0);
        changes, updateCount, thrown := ProcessFile(config, dryRun, files[i], changes, updateCount);
        if thrown {
          BulkThrownStays(config, dryRun, files, i + 1, fm0);
          return;
        }
      }
      assert files[..|files|] == files;
    }

    /** `writePreviewCSV(filePath, changes)`; `ok` is false where showing a record or the write throws. */
    method WritePreviewCsv(filePath: string, changes: seq<ContextChange>) returns (ok: bool)
      modifies app.adapter
      ensures ok == (Csv(changes).Some? && filePath !in app.adapter.failing)
      ensures app.adapter.files == if ok then old(app.adapter.files)[filePath := Host.Text(Csv(changes).value)] else old(app.adapter.files)
    {
      var csv := Csv(changes);
      if csv.None? {
        return false;
      }
      ok := app.adapter.Write(filePath, Host.Text(csv.value));
    }

    /** One iteration of the loop over the markdown files. */
    method ProcessFile(config: BulkConfig, dryRun: bool, file: Host.File, changes: seq<ContextChange>, updateCount: nat)
      returns (changes': seq<ContextChange>, updateCount': nat, thrown: bool)
      requires Wired()
      modifies app
      ensures app.files == old(app.files)
      ensures StepFile(BulkState(changes, old(app.frontmatter), updateCount, false), config, dryRun, file.path)
              == BulkState(changes', app.frontmatter, updateCount', thrown)
    {
      var filePath := file.path;
      changes', updateCount', thrown := changes, updateCount, false;
      var excludePattern := FirstExclude(config.excludes, filePath);
      if excludePattern.Some? {
        var current := Or(app.FrontmatterValue(filePath, ContextsKey), Arr([]));
        changes' := changes + [ContextChange(filePath, current, [], ActionExcluded, "", excludePattern.value)];
        return;
      }
      var matching := Matching(config.includes, filePath);
      if |matching| > 0 {
        var current := Or(app.FrontmatterValue(filePath, ContextsKey), Arr([]));
        var spread := Spread(current);
        if spread.None? {
          thrown := true;
          return;
        }
        var proposed := ApplyPatterns(spread.value, matching);
        var hasChanges := current != Arr(proposed);
        var action := if hasChanges then ActionUpdate else ActionNoChange;
        changes' := changes + [ContextChange(filePath, current, proposed, action, IncludePattern(matching), "")];
        if !dryRun && hasChanges {
          frontmatterManager.UpdateFrontmatter(file, map[ContextsKey := Arr(proposed)]);
          updateCount' := updateCount + 1;
        }
      }
    }

    /**
     * `fixPublishContextsFormat(delimiter, dryRun)` over the list of misconfigured paths it
     * finds. A dry run or an empty list changes nothing; otherwise each listed vault file whose
     * contexts are a string gets them as a list, as `FixAll` says, and the list is cleared when
     * a file was fixed.
     */
    method FixPublishContextsFormat(delimiter: Option<string>, dryRun: bool, problematic: seq<string>)
      returns (fixedCount: nat, cleared: bool)
      requires Wired()
      modifies app
      ensures app.files == old(app.files)
      ensures problematic == [] || dryRun ==> app.frontmatter == old(app.frontmatter) && fixedCount == 0 && !cleared
      ensures problematic != [] && !dryRun ==>
        && FixAll(old(app.frontmatter), old(app.files), problematic, delimiter) == FixState(app.frontmatter, fixedCount)
        && cleared == (fixedCount > 0)
    {
      if |problematic| == 0 || dryRun {
        return 0, false;
      }
      fixedCount := 0;
      for k := 0 to |problematic|
        invariant app.files == old(app.files)
        invariant FixAll(old(app.frontmatter), old(app.files), problematic[..k], delimiter) == FixState(app.frontmatter, fixedCount)
      {
        assert problematic[..k + 1][..k] == problematic[..k];
        fixedCount := FixOne(problematic[k], delimiter, fixedCount);
      }
      assert problematic[..|problematic|] == problematic;
      cleared := fixedCount > 0;
    }

    /** One iteration of the repair loop. */
    method FixOne(filePath: string, delimiter: Option<string>, fixedCount: nat) returns (fixedCount': nat)
      requires Wired()
      modifies app
      ensures app.files == old(app.files)
      ensures FixStep(FixState(old(app.frontmatter), fixedCount), app.files, filePath, delimiter) == FixState(app.frontmatter, fixedCount')
    {
      fixedCount' := fixedCount;
      var file := Host.FileByPath(app.files, filePath);
      if file.Some? {
        var raw := app.FrontmatterValue(file.value.path, ContextsKey);
        if raw.Str? {
          var normalized := Normalize(raw.s, delimiter);
          frontmatterManager.UpdateFrontmatter(file.value, map[ContextsKey := Arr(Strs(normalized))]);
          fixedCount' := fixedCount + 1;
        }
      }
    }
  }
}

=== FILE: profiles.dfy ===
/**
 * The per-profile directory layout of src/utils/profiles.ts: every path of a
 * profile hangs off `<plugin dir>/profiles/<id>`, and initialisation ensures
 * the directories the publisher writes to.
 */
module Profiles {
  import opened Types
  import Host

  /** `p + a` and `p + b` differ whenever `a` and `b` do. */
  lemma AppendDistinct(p: string, a: string, b: string)
    ensures p + a == p + b ==> a == b
  {
    if p + a == p + b {
      assert (p + a)[|p|..] == a;
      assert (p + b)[|p|..] == b;
    }
  }

  class ProfileManager {
    const pluginDir: string
    const baseDir: string
    const adapter: Host.Adapter

    constructor (pluginDir: string, adapter: Host.Adapter)
      ensures this.pluginDir == pluginDir && this.adapter == adapter
      ensures baseDir == pluginDir + "/profiles"
    {
      this.pluginDir := pluginDir;
      this.baseDir := pluginDir + "/profiles";
      this.adapter := adapter;
    }

    function ProfileDir(id: string): string {
      baseDir + "/" + id
    }

    function MappingDir(id: string): string {
      ProfileDir(id) + "/mapping"
    }

    function ContentIndexPath(id: string): string {
      ProfileDir(id) + "/contentIndex.json"
    }

    function PublishHistoryPath(id: string): string {
      ProfileDir(id) + "/publish-history.json"
    }

    function StagedNotesDir(id: string): string {
      ProfileDir(id) + "/staged-notes"
    }

    function StagedErrorDir(id: string): string {
      ProfileDir(id) + "/staged-error"
    }

    /** The directories `initializeProfileDirectories` ensures, in its order. */
    function ProfileDirs(id: string): (r: seq<string>)
      ensures |r| == 4 && r[0] == ProfileDir(id) && r[1] == MappingDir(id)
      ensures r[2] == StagedNotesDir(id) && r[3] == StagedErrorDir(id)
    {
      [ProfileDir(id), MappingDir(id), StagedNotesDir(id), StagedErrorDir(id)]
    }

    /** The directories `initialize` ensures for the profiles, after the base directory. */
    function AllProfileDirs(profiles: seq<Profile>): (r: seq<string>)
      ensures |r| == 4 * |profiles|
    {
      if profiles == [] then [] else AllProfileDirs(profiles[..|profiles| - 1]) + ProfileDirs(profiles[|profiles| - 1].id)
    }

    /** Directories of different profiles are different. */
    lemma ProfileDirInjective(a: string, b: string)
      ensures ProfileDir(a) == ProfileDir(b) ==> a == b
    {
      AppendDistinct(baseDir + "/", a, b);
    }

    /** The five per-profile paths of one profile are pairwise distinct. */
    lemma ProfilePathsDistinct(id: string)
      ensures var paths := [MappingDir(id), StagedNotesDir(id), StagedErrorDir(id), ContentIndexPath(id), PublishHistoryPath(id)];
        forall i, j :: 0 <= i < j < 5 ==> paths[i] != paths[j]
    {
      var d := ProfileDir(id);
      var suffixes := ["/mapping", "/staged-notes", "/staged-error", "/contentIndex.json", "/publish-history.json"];
      assert suffixes[1][8] != suffixes[2][8];
      forall i, j | 0 <= i < j < 5 ensures d + suffixes[i] != d + suffixes[j] {
        AppendDistinct(d, suffixes[i], suffixes[j]);
      }
    }

    /** Every path of a profile lies inside its directory, so different profiles never share one. */
    lemma ProfilePathsSeparate(a: string, b: string)
      ensures a != b ==> StagedNotesDir(a) != StagedNotesDir(b) && MappingDir(a) != MappingDir(b)
      ensures a != b ==> StagedErrorDir(a) != StagedErrorDir(b) && ContentIndexPath(a) != ContentIndexPath(b)
    {
      ProfileDirInjective(a, b);
      if a != b {
        PrefixDistinct(ProfileDir(a), ProfileDir(b), "/staged-notes");
        PrefixDistinct(ProfileDir(a), ProfileDir(b), "/mapping");
        PrefixDistinct(ProfileDir(a), ProfileDir(b), "/staged-error");
        PrefixDistinct(ProfileDir(a), ProfileDir(b), "/contentIndex.json");
      }
    }

    /** `initializeProfileDirectories(id)` */
    method InitializeProfileDirectories(id: string)
      modifies adapter
      ensures adapter.ensured == old(adapter.ensured) + ProfileDirs(id)
      ensures adapter.files == old(adapter.files)
    {
      var dirs := [ProfileDir(id), MappingDir(id), StagedNotesDir(id), StagedErrorDir(id)];
      var k := 0;
      while k < |dirs|
        invariant 0 <= k <= |dirs|
        invariant adapter.ensured == old(adapter.ensured) + dirs[..k]
        invariant adapter.files == old(adapter.files)
      {
        adapter.EnsureDirectory(dirs[k]);
        k := k + 1;
      }
    }

    /** `initialize()`: the base directory, then each configured profile's directories in order. */
    method Initialize(profiles: seq<Profile>)
      modifies adapter
      ensures adapter.ensured == old(adapter.ensured) + [baseDir] + AllProfileDirs(profiles)
      ensures adapter.files == old(adapter.files)
    {
      adapter.EnsureDirectory(baseDir);
      var k := 0;
      while k < |profiles|
        invariant 0 <= k <= |profiles|
        invariant adapter.ensured == old(adapter.ensured) + [baseDir] + AllProfileDirs(profiles[..k])
        invariant adapter.files == old(adapter.files)
      {
        assert profiles[..k + 1][..k] == profiles[..k];
        InitializeProfileDirectories(profiles[k].id);
        k := k + 1;
      }
      assert profiles[..|profiles|] == profiles;
    }
  }

  /** Two different directories followed by the same suffix are different. */
  lemma PrefixDistinct(p: string, q: string, suffix: string)
    ensures p != q ==> p + suffix != q + suffix
  {
    if p + suffix == q + suffix {
      assert |p| == |q|;
      assert (p + suffix)[..|p|] == p;
      assert (q + suffix)[..|q|] == q;
    }
  }
}

=== FILE: publisher.dfy ===
/**
 * The publish run of src/publish/publisher.ts: `publishNotes` queues every
 * note, commits the profile's pending notes to its staged-notes directory,
 * uploads them when the profile publishes through the AWS CLI, then empties
 * the staging directory and, for a full publish, records the publish time in
 * the profile. A commit that throws sends the run to `handlePublishError`,
 * which copies the staged files into `<staged-error dir>/<timestamp>/`
 * beside an `error.json`, then empties the staging directory.
 *
 * What comes from outside the plugin is an `External` value: the HTML the
 * remark pipeline renders for each note, SHA-1, the plaintext the content
 * index derives from a note, the upload's boolean result, `Date.now()` at the
 * two places it is read, the message and stack of the error a commit throws,
 * and the choice made in the profile modal. `saveSettings` is not part of
 * this model.
 */
module Publisher {
  import opened Wrappers
  import opened Js
  import opened Types
  import Host
  import Profiles
  import Notes
  import Selection

  /** Results of code outside the plugin that a run consumes. */
  datatype External = External(
    html: Host.File -> string,
    sha1: string -> string,
    plaintext: Host.File -> Option<string>,
    uploaded: bool,
    now: int,
    errorTime: nat,
    message: string,
    stack: Option<string>,
    pick: Option<nat>)

  /** How a `publishNotes` run ends: cleaned up, stopped by a failed upload, or sent to the error handler (which may itself fail). */
  datatype Outcome = Published | UploadFailed | Failed(archived: bool)

  /** A run an entry point starts: the profile, the notes, the two flags it passes, and how the run ends. */
  datatype Run = Run(profile: Profile, files: seq<Host.File>, updateTimestamp: bool, invalidate: bool, outcome: Outcome)

  /** A file directly inside `dir` is `dir/` followed by its basename, which is non-empty and has no `/`. */
  lemma InDirBasename(p: string, dir: string)
    requires Host.InDir(p, dir)
    ensures p == dir + "/" + Basename(p)
    ensures Basename(p) != [] && '/' !in Basename(p)
  {
    var name := p[|dir| + 1..];
    assert p == dir + "/" + name;
    BasenameOf(dir, name);
  }

  /** `JSON.stringify({timestamp, error: error.message, stack: error.stack})`, an absent stack omitted. */
  function ErrorJson(timestamp: nat, message: string, stack: Option<string>): Value {
    var fields := map["timestamp" := Num(timestamp), "error" := Str(message)];
    Obj(if stack.Some? then fields["stack" := Str(stack.value)] else fields)
  }

  /**
   * The profiles after a full publish at `now`: the first profile with the id
   * (`findIndex`) has its publish time set; nothing changes when there is none.
   */
  function Stamped(profiles: seq<Profile>, id: string, now: int): (r: seq<Profile>)
    ensures |r| == |profiles|
    ensures forall i :: 0 <= i < |r| ==> r[i].id == profiles[i].id
    ensures forall i :: 0 <= i < |r| && i != FindProfileIndex(profiles, id) ==> r[i] == profiles[i]
    ensures FindProfileIndex(profiles, id) >= 0 ==>
      r[FindProfileIndex(profiles, id)] == profiles[FindProfileIndex(profiles, id)].(lastFullPublishTimestamp := Some(now))
  {
    var k := FindProfileIndex(profiles, id);
    if k < 0 then profiles else profiles[k := profiles[k].(lastFullPublishTimestamp := Some(now))]
  }

  /**
   * After a full publish the profile found by id is the one it was with the publish time
   * set, and every other id finds what it found before.
   */
  lemma StampedFinds(profiles: seq<Profile>, id: string, other: string, now: int)
    ensures FindProfile(Stamped(profiles, id, now), id) ==
      if FindProfile(profiles, id).Some? then Some(FindProfile(profiles, id).value.(lastFullPublishTimestamp := Some(now))) else None
    ensures other != id ==> FindProfile(Stamped(profiles, id, now), other) == FindProfile(profiles, other)
  {
    var r := Stamped(profiles, id, now);
    FindProfileIsFirst(profiles, id);
    FindProfileIsFirst(r, id);
    FindProfileIsFirst(profiles, other);
    FindProfileIsFirst(r, other);
  }

  /**
   * After a full publish at `now`, the notes a since-last publish takes are the
   * publishable notes modified after `now`.
   */
  lemma UpdatesAfterFullPublish(app: Host.App, profiles: seq<Profile>, id: string, now: int)
    requires FindProfile(profiles, id).Some?
    ensures var profile := FindProfile(profiles, id).value;
      forall f :: f in Selection.GetUpdatedNotes(app, Stamped(profiles, id, now), id) <==>
        && f in Selection.Publishable(app, profile, id, Host.MarkdownFiles(app.files))
        && f.mtime > now
  {
    var profile := FindProfile(profiles, id).value;
    StampedFinds(profiles, id, id, now);
    Selection.UpdatedNotesAre(app, Stamped(profiles, id, now), id);
    Selection.PublishableAre(app, profile, id, Host.MarkdownFiles(app.files));
  }

  /** A file inside a directory starts with the directory's path. */
  lemma InDirPrefix(p: string, dir: string)
    ensures Host.InDir(p, dir) ==> forall i :: 0 <= i < |dir| ==> p[i] == dir[i]
  {
    if Host.InDir(p, dir) {
      assert forall i :: 0 <= i < |dir| ==> p[i] == p[..|dir| + 1][i];
    }
  }

  /** `connections.map(conn => conn.file)` followed by the note itself. */
  function ConnectedFiles(connections: seq<Selection.Connection>, file: Host.File): (r: seq<Host.File>)
    ensures |r| == |connections| + 1 && r[|connections|] == file
    ensures forall i :: 0 <= i < |connections| ==> r[i] == connections[i].file
  {
    seq(|connections|, i requires 0 <= i < |connections| => connections[i].file) + [file]
  }

  /** The notes `getAllPublishableNotes(profileId)` returns: those of the first profile with the id. */
  function AllPublishable(app: Host.App, profiles: seq<Profile>, profileId: string): seq<Host.File>
    reads app
  {
    match FindProfile(profiles, profileId)
    case None => []
    case Some(profile) => Selection.Publishable(app, profile, profileId, Host.MarkdownFiles(app.files))
  }

  /** The keys the notes among `files` that have a UID are pending under. */
  function QueuedKeys(app: Host.App, files: seq<Host.File>, profileId: string): set<string> {
    set f | f in files && Notes.HasUid(app, f.path) :: Notes.Key(profileId, app.uids[f.path])
  }

  /** The keys of a batch of pending entries. */
  function BatchKeys(batch: seq<(string, Notes.NoteState)>): set<string> {
    set e | e in batch :: e.0
  }

  /** Every key a publish queues for a profile is one of that profile's. */
  lemma QueuedKeysOfProfile(app: Host.App, files: seq<Host.File>, profileId: string)
    ensures forall k :: k in QueuedKeys(app, files, profileId) ==> StartsWith(k, profileId + ":")
  {
    forall f | f in files && Notes.HasUid(app, f.path) ensures StartsWith(Notes.Key(profileId, app.uids[f.path]), profileId + ":") {
      assert Notes.Key(profileId, app.uids[f.path])[..|profileId + ":"|] == profileId + ":";
    }
  }

  /**
   * The entries of a profile taken from a pending map whose keys are the earlier keys and
   * the newly queued ones of the profile: their keys are the profile's among those.
   */
  lemma BatchKeysAre(pending: Host.OrderedMap<Notes.NoteState>, batch: seq<(string, Notes.NoteState)>, profileId: string,
                     before: set<string>, queued: set<string>)
    requires forall e :: e in batch <==> e.0 in pending.entries && e.1 == pending.entries[e.0] && StartsWith(e.0, profileId + ":")
    requires pending.entries.Keys == before + queued
    requires forall k :: k in queued ==> StartsWith(k, profileId + ":")
    ensures forall k :: k in BatchKeys(batch) <==> StartsWith(k, profileId + ":") && (k in before || k in queued)
  {
    forall k | StartsWith(k, profileId + ":") && k in pending.entries ensures k in BatchKeys(batch) {
      assert (k, pending.entries[k]) in batch;
    }
  }

  class Publisher {
    const app: Host.App
    const settings: Settings
    const notes: Notes.NoteManager
    const profiles: Profiles.ProfileManager

    constructor (app: Host.App, settings: Settings, notes: Notes.NoteManager, profiles: Profiles.ProfileManager)
      ensures this.app == app && this.settings == settings && this.notes == notes && this.profiles == profiles
    {
      this.app := app;
      this.settings := settings;
      this.notes := notes;
      this.profiles := profiles;
    }

    /** The publisher and the note manager share the app, the settings and the directory layout. */
    predicate Wired() {
      notes.Wired() && notes.app == app && notes.settings == settings && notes.profiles == profiles
    }

    function StagedDir(profileId: string): string {
      profiles.StagedNotesDir(profileId)
    }

    /** `errorSessionDir`: `<staged-error dir>/<timestamp>`. */
    function SessionDir(profileId: string, timestamp: nat): string {
      profiles.StagedErrorDir(profileId) + "/" + DecimalString(timestamp)
    }

    /** Where a staged file is archived: the session directory and its basename. */
    function ArchivePath(profileId: string, timestamp: nat, path: string): string {
      SessionDir(profileId, timestamp) + "/" + Basename(path)
    }

    /** The staging directory and an error session directory hold none of each other's files. */
    lemma StagingApart(profileId: string, timestamp: nat, p: string)
      ensures Host.InDir(p, StagedDir(profileId)) ==> !Host.InDir(p, SessionDir(profileId, timestamp))
    {
      var i := |profiles.ProfileDir(profileId)| + 8;
      InDirPrefix(p, StagedDir(profileId));
      InDirPrefix(p, SessionDir(profileId, timestamp));
      assert StagedDir(profileId)[i] == 'n';
      assert SessionDir(profileId, timestamp)[i] == 'e';
    }

    /**
     * The publish loop `for (const file of files) queueNote(file, profileId)`: afterwards
     * exactly the notes with a UID have been added to the pending keys, and entries
     * of other profiles are as they were.
     */
    method QueueAll(files: seq<Host.File>, profileId: string, html: Host.File -> string, sha1: string -> string)
      requires Wired() && notes.pending.Valid()
      modifies notes, notes.frontmatter, app
      ensures notes.pending.Valid() && app.files == old(app.files)
      ensures notes.pending.entries.Keys == old(notes.pending.entries.Keys) + QueuedKeys(app, files, profileId)
      ensures forall k :: k in old(notes.pending.entries) && !StartsWith(k, profileId + ":") ==>
        k in notes.pending.entries && notes.pending.entries[k] == old(notes.pending.entries[k])
    {
      var i := 0;
      while i < |files|
        invariant 0 <= i <= |files|
        invariant notes.pending.Valid() && app.files == old(app.files)
        invariant notes.pending.entries.Keys == old(notes.pending.entries.Keys) + QueuedKeys(app, files[..i], profileId)
        invariant forall k :: k in old(notes.pending.entries) && !StartsWith(k, profileId + ":") ==>
          k in notes.pending.entries && notes.pending.entries[k] == old(notes.pending.entries[k])
      {
        QueuedKeysStep(app, files, i, profileId);
        QueueOne(files[i], profileId, html(files[i]), sha1);
        i := i + 1;
      }
      assert files[..i] == files;
    }

    /** One pass of the queue loop: the note's key is added when it has a UID, and only a key of the profile changes. */
    method QueueOne(file: Host.File, profileId: string, html: string, sha1: string -> string)
      requires Wired() && notes.pending.Valid()
      modifies notes, notes.frontmatter, app
      ensures notes.pending.Valid() && app.files == old(app.files)
      ensures notes.pending.entries.Keys == old(notes.pending.entries.Keys) + QueuedKeys(app, [file], profileId)
      ensures forall k :: k in old(notes.pending.entries) && !StartsWith(k, profileId + ":") ==>
        k in notes.pending.entries && notes.pending.entries[k] == old(notes.pending.entries[k])
    {
      if file.path in app.uids {
        assert StartsWith(Notes.Key(profileId, app.uids[file.path]), profileId + ":");
      }
      notes.QueueNote(file, profileId, html, sha1);
    }

    /** The keys of one more file are the keys so far and that file's. */
    lemma QueuedKeysStep(app: Host.App, files: seq<Host.File>, i: nat, profileId: string)
      requires i < |files|
      ensures QueuedKeys(app, files[..i + 1], profileId) == QueuedKeys(app, files[..i], profileId) + QueuedKeys(app, [files[i]], profileId)
    {
      assert files[..i + 1] == files[..i] + [files[i]];
    }

    /**
     * `publishNotes(files, profile, updatePublishTimestamp, triggerCloudFrontInvalidation)`;
     * the invalidation flag goes only to the upload. A run never removes a file outside
     * the profile's staging directory. The commit takes `batch`, every entry of the profile
     * pending after the queue loop, and `atUpload` is the files when the upload starts: the
     * staging directory then holds what staging the batch writes. A failed upload stops
     * with those files kept and the settings as they were; a completed run empties the
     * staging directory and, when asked to, records `now` as the profile's last full
     * publish; a commit that throws is handed to the error handler.
     */
    method PublishNotes(files: seq<Host.File>, profile: Profile, updateTimestamp: bool, triggerInvalidation: bool, ext: External)
      returns (outcome: Outcome, ghost batch: seq<(string, Notes.NoteState)>, ghost atUpload: map<string, Host.Content>)
      requires Wired() && notes.pending.Valid()
      modifies notes, notes.frontmatter, app, notes.mappings, notes.contentIndex, app.adapter, settings
      ensures notes.pending.Valid() && app.files == old(app.files)
      ensures forall p :: p in old(app.adapter.files) && !Host.InDir(p, StagedDir(profile.id)) ==> p in app.adapter.files
      ensures settings.profiles == if outcome == Published && updateTimestamp then Stamped(old(settings.profiles), profile.id, ext.now) else old(settings.profiles)
      ensures outcome == UploadFailed ==> profile.mechanism == AwsCli && !ext.uploaded && old(app.adapter.files).Keys <= app.adapter.files.Keys
      ensures outcome == Published ==> (profile.mechanism == Local || ext.uploaded) && forall p :: p in app.adapter.files ==> !Host.InDir(p, StagedDir(profile.id))
      ensures !outcome.Failed? ==> forall k :: k in notes.pending.entries ==> !StartsWith(k, profile.id + ":")
      ensures outcome.Failed? && !outcome.archived ==> old(app.adapter.files).Keys <= app.adapter.files.Keys
      ensures outcome.Failed? && outcome.archived ==>
        && SessionDir(profile.id, ext.errorTime) + "/error.json" in app.adapter.files
        && app.adapter.files[SessionDir(profile.id, ext.errorTime) + "/error.json"] == Host.Json(ErrorJson(ext.errorTime, ext.message, ext.stack))
        && forall p :: p in app.adapter.files ==> !Host.InDir(p, StagedDir(profile.id))
      ensures forall k :: k in BatchKeys(batch) <==>
        StartsWith(k, profile.id + ":") && (k in old(notes.pending.entries) || k in QueuedKeys(app, files, profile.id))
      ensures outcome == UploadFailed ==> app.adapter.files == atUpload
      ensures outcome == Published ==> app.adapter.files == Host.Without(atUpload, StagedDir(profile.id))
      ensures outcome == UploadFailed || (outcome == Published && !updateTimestamp) ==>
        notes.SameStaging(notes.Staged(old(app.adapter.files), profile.id, batch), atUpload, profile.id)
    {
      QueueAll(files, profile.id, ext.html, ext.sha1);
      batch := notes.Queued(profile.id);
      QueuedKeysOfProfile(app, files, profile.id);
      BatchKeysAre(notes.pending, batch, profile.id, old(notes.pending.entries.Keys), QueuedKeys(app, files, profile.id));
      outcome, atUpload := Deliver(profile, updateTimestamp, ext, batch);
    }

    /**
     * The `try` block of `publishNotes` after the queue loop, with its `catch`; `atUpload` is
     * the files when the upload starts, whose staging directory holds what staging the
     * profile's pending entries writes.
     */
    method Deliver(profile: Profile, updateTimestamp: bool, ext: External, ghost batch: seq<(string, Notes.NoteState)>)
      returns (outcome: Outcome, ghost atUpload: map<string, Host.Content>)
      requires Wired() && notes.pending.Valid() && batch == notes.Queued(profile.id)
      modifies notes, notes.mappings, notes.contentIndex, app.adapter, settings
      ensures notes.pending.Valid()
      ensures forall p :: p in old(app.adapter.files) && !Host.InDir(p, StagedDir(profile.id)) ==> p in app.adapter.files
      ensures settings.profiles == if outcome == Published && updateTimestamp then Stamped(old(settings.profiles), profile.id, ext.now) else old(settings.profiles)
      ensures outcome == UploadFailed ==> profile.mechanism == AwsCli && !ext.uploaded && old(app.adapter.files).Keys <= app.adapter.files.Keys
      ensures outcome == Published ==> (profile.mechanism == Local || ext.uploaded) && forall p :: p in app.adapter.files ==> !Host.InDir(p, StagedDir(profile.id))
      ensures !outcome.Failed? ==> forall k :: k in notes.pending.entries ==> !StartsWith(k, profile.id + ":")
      ensures outcome.Failed? && !outcome.archived ==> old(app.adapter.files).Keys <= app.adapter.files.Keys
      ensures outcome.Failed? && outcome.archived ==>
        && SessionDir(profile.id, ext.errorTime) + "/error.json" in app.adapter.files
        && app.adapter.files[SessionDir(profile.id, ext.errorTime) + "/error.json"] == Host.Json(ErrorJson(ext.errorTime, ext.message, ext.stack))
        && forall p :: p in app.adapter.files ==> !Host.InDir(p, StagedDir(profile.id))
      ensures !outcome.Failed? ==> notes.SameStaging(old(notes.Staged(app.adapter.files, profile.id, batch)), atUpload, profile.id)
      ensures outcome == UploadFailed || (outcome == Published && !updateTimestamp) ==>
        notes.SameStaging(notes.Staged(old(app.adapter.files), profile.id, batch), atUpload, profile.id)
      ensures outcome == UploadFailed ==> app.adapter.files == atUpload
      ensures outcome == Published ==> app.adapter.files == Host.Without(atUpload, StagedDir(profile.id))
    {
      var ok := Commit(profile.id, ext.plaintext, batch);
      atUpload := app.adapter.files;
      if !ok {
        var archived := HandlePublishError(profile.id, ext.errorTime, ext.message, ext.stack);
        return Failed(archived), atUpload;
      }
      outcome := Finish(profile, updateTimestamp, ext);
      if outcome == UploadFailed || (outcome == Published && !updateTimestamp) {
        notes.StagedFrame(old(app.adapter.files), profile.id, batch);
      }
    }

    /**
     * `commitPendingNotes` as the publish run sees it: no file is removed, and a commit that
     * returns leaves nothing of the profile pending and its staging directory holding what
     * staging the profile's pending entries writes.
     */
    method Commit(profileId: string, plaintext: Host.File -> Option<string>, ghost batch: seq<(string, Notes.NoteState)>) returns (ok: bool)
      requires Wired() && notes.pending.Valid() && batch == notes.Queued(profileId)
      modifies notes, notes.mappings, notes.contentIndex, app.adapter
      ensures notes.pending.Valid()
      ensures old(app.adapter.files).Keys <= app.adapter.files.Keys
      ensures ok ==> forall k :: k in notes.pending.entries ==> !StartsWith(k, profileId + ":")
      ensures ok ==> notes.SameStaging(old(notes.Staged(app.adapter.files, profileId, batch)), app.adapter.files, profileId)
    {
      ghost var queued := notes.pending;
      assert batch == Notes.ForProfile(queued.Items(), profileId);
      ok := notes.CommitPendingNotes(profileId, plaintext, batch);
      if ok {
        assert batch[..|batch|] == batch;
        assert notes.pending == Notes.DeleteKeys(queued, batch);
        Notes.DrainedProfile(queued, profileId);
      }
    }

    /** The part of `publishNotes` after the commit: upload, cleanup, then the publish time. */
    method Finish(profile: Profile, updateTimestamp: bool, ext: External) returns (outcome: Outcome)
      modifies app.adapter, settings
      ensures outcome != Failed(true) && outcome != Failed(false)
      ensures settings.profiles == if outcome == Published && updateTimestamp then Stamped(old(settings.profiles), profile.id, ext.now) else old(settings.profiles)
      ensures outcome == UploadFailed ==> profile.mechanism == AwsCli && !ext.uploaded && app.adapter.files == old(app.adapter.files)
      ensures outcome == Published ==> (profile.mechanism == Local || ext.uploaded) && app.adapter.files == Host.Without(old(app.adapter.files), StagedDir(profile.id))
      ensures outcome == UploadFailed || !updateTimestamp ==> unchanged(settings)
    {
      if profile.mechanism == AwsCli && !ext.uploaded {
        return UploadFailed;
      }
      app.adapter.ClearDirectory(StagedDir(profile.id));
      if updateTimestamp {
        var k := FindProfileIndex(settings.profiles, profile.id);
        if k != -1 {
          settings.profiles := settings.profiles[k := settings.profiles[k].(lastFullPublishTimestamp := Some(ext.now))];
        }
      }
      outcome := Published;
    }

    /**
     * `handlePublishError(profileId, error)`. It ensures the session directory, copies every
     * staged file into it under its basename, writes `error.json`, then empties the staging
     * directory; `archived` is false where a step throws, and nothing is removed then. Only
     * staged files are removed, and only files in the staging and session directories change.
     */
    method HandlePublishError(profileId: string, timestamp: nat, message: string, stack: Option<string>) returns (archived: bool)
      requires Wired()
      modifies app.adapter
      ensures app.adapter.ensured == old(app.adapter.ensured) + [SessionDir(profileId, timestamp)]
      ensures forall p :: p in old(app.adapter.files) && !Host.InDir(p, StagedDir(profileId)) ==> p in app.adapter.files
      ensures forall p :: p in old(app.adapter.files) && !Host.InDir(p, StagedDir(profileId)) && !Host.InDir(p, SessionDir(profileId, timestamp)) ==>
        app.adapter.files[p] == old(app.adapter.files)[p]
      ensures !archived ==> old(app.adapter.files).Keys <= app.adapter.files.Keys
      ensures archived ==>
        && (forall p :: p in old(app.adapter.files) && Host.InDir(p, StagedDir(profileId)) && Basename(p) != "error.json" ==>
              ArchivePath(profileId, timestamp, p) in app.adapter.files
              && app.adapter.files[ArchivePath(profileId, timestamp, p)] == old(app.adapter.files)[p])
        && SessionDir(profileId, timestamp) + "/error.json" in app.adapter.files
        && app.adapter.files[SessionDir(profileId, timestamp) + "/error.json"] == Host.Json(ErrorJson(timestamp, message, stack))
        && forall p :: p in app.adapter.files ==> !Host.InDir(p, StagedDir(profileId))
    {
      archived := Archive(profileId, timestamp, message, stack);
      if !archived {
        return;
      }
      app.adapter.ClearDirectory(StagedDir(profileId));
      forall p | p in old(app.adapter.files) && Host.InDir(p, StagedDir(profileId)) && Basename(p) != "error.json"
        ensures !Host.InDir(ArchivePath(profileId, timestamp, p), StagedDir(profileId))
      {
        ArchiveOutside(profileId, timestamp, p);
      }
      ErrorJsonOutside(profileId, timestamp);
    }

    /** The steps of `handlePublishError` before the cleanup: the session directory, the copies and `error.json`. */
    method Archive(profileId: string, timestamp: nat, message: string, stack: Option<string>) returns (archived: bool)
      modifies app.adapter
      ensures app.adapter.ensured == old(app.adapter.ensured) + [SessionDir(profileId, timestamp)]
      ensures old(app.adapter.files).Keys <= app.adapter.files.Keys
      ensures forall p :: p in old(app.adapter.files) && !Host.InDir(p, SessionDir(profileId, timestamp)) ==> app.adapter.files[p] == old(app.adapter.files)[p]
      ensures archived ==>
        && (forall p :: p in old(app.adapter.files) && Host.InDir(p, StagedDir(profileId)) && Basename(p) != "error.json" ==>
              ArchivePath(profileId, timestamp, p) in app.adapter.files
              && app.adapter.files[ArchivePath(profileId, timestamp, p)] == old(app.adapter.files)[p])
        && SessionDir(profileId, timestamp) + "/error.json" in app.adapter.files
        && app.adapter.files[SessionDir(profileId, timestamp) + "/error.json"] == Host.Json(ErrorJson(timestamp, message, stack))
    {
      var session := SessionDir(profileId, timestamp);
      app.adapter.EnsureDirectory(session);
      var staged := app.adapter.List(StagedDir(profileId));
      archived := CopyAll(profileId, timestamp, staged);
      if !archived {
        return;
      }
      ErrorJsonInSession(profileId, timestamp);
      archived := app.adapter.Write(session + "/error.json", Host.Json(ErrorJson(timestamp, message, stack)));
      if archived {
        forall p | p in old(app.adapter.files) && Host.InDir(p, StagedDir(profileId)) && Basename(p) != "error.json"
          ensures ArchivePath(profileId, timestamp, p) in app.adapter.files
          ensures app.adapter.files[ArchivePath(profileId, timestamp, p)] == old(app.adapter.files)[p]
        {
          assert p in staged;
          Profiles.AppendDistinct(session + "/", Basename(p), "error.json");
        }
      }
    }

    /**
     * What a run publishing `files` to `profile` leaves behind: no file outside the staging
     * directory is gone; the batch is the profile's entries pending after the queue loop, and
     * unless the commit failed none of them is pending any more; a failed upload keeps the files
     * at upload, whose staging directory holds what staging the batch writes; a completed run
     * removes exactly the staging directory; a failed commit is archived with its error.json.
     */
    twostate predicate Leaves(new profile: Profile, new files: seq<Host.File>, updateTimestamp: bool, new ext: External, outcome: Outcome,
                              new batch: seq<(string, Notes.NoteState)>, new atUpload: map<string, Host.Content>)
      reads this, notes, notes.app, notes.settings, app, app.adapter, settings
    {
      && (forall p :: p in old(app.adapter.files) && !Host.InDir(p, StagedDir(profile.id)) ==> p in app.adapter.files)
      && (forall k :: k in BatchKeys(batch) <==>
            StartsWith(k, profile.id + ":") && (k in old(notes.pending.entries) || k in QueuedKeys(app, files, profile.id)))
      && (!outcome.Failed? ==> forall k :: k in notes.pending.entries ==> !StartsWith(k, profile.id + ":"))
      && (outcome == UploadFailed ==>
            && app.adapter.files == atUpload
            && notes.SameStaging(notes.Staged(old(app.adapter.files), profile.id, batch), atUpload, profile.id))
      && (outcome == Published ==>
            && app.adapter.files == Host.Without(atUpload, StagedDir(profile.id))
            && (forall p :: p in app.adapter.files ==> !Host.InDir(p, StagedDir(profile.id)))
            && (!updateTimestamp ==> notes.SameStaging(notes.Staged(old(app.adapter.files), profile.id, batch), atUpload, profile.id)))
      && (outcome.Failed? && outcome.archived ==>
            && SessionDir(profile.id, ext.errorTime) + "/error.json" in app.adapter.files
            && app.adapter.files[SessionDir(profile.id, ext.errorTime) + "/error.json"] == Host.Json(ErrorJson(ext.errorTime, ext.message, ext.stack)))
    }

    /**
     * `publishSingle(file)`: the note's own contexts are offered; nothing happens when it lists
     * none, no profile is chosen, or the chosen profile excludes it. Otherwise the note alone is
     * published to a profile it lists, as an individual publish that keeps the publish time.
     */
    method PublishSingle(file: Host.File, ext: External)
      returns (run: Option<Run>, ghost batch: seq<(string, Notes.NoteState)>, ghost atUpload: map<string, Host.Content>)
      requires Wired() && notes.pending.Valid()
      modifies notes, notes.frontmatter, app, notes.mappings, notes.contentIndex, app.adapter, settings
      ensures var contexts := old(Selection.PublishContexts(app, file.path));
        var chosen := Selection.PromptForProfile(old(settings.profiles), Some(contexts), ext.pick);
        run.None? <==> contexts == [] || chosen.None? || Selection.IsFileExcluded(file.path, chosen.value.excludedDirectories)
      ensures run.None? ==> Unchanged()
      ensures run.Some? ==> Leaves(run.value.profile, run.value.files, run.value.updateTimestamp, ext, run.value.outcome, batch, atUpload)
      ensures run.Some? ==>
        && run.value.profile == Selection.PromptForProfile(old(settings.profiles), Some(old(Selection.PublishContexts(app, file.path))), ext.pick).value
        && run.value.profile in old(settings.profiles)
        && Selection.Lists(old(Selection.PublishContexts(app, file.path)), run.value.profile.id)
        && run.value.files == [file] && !run.value.updateTimestamp
        && run.value.invalidate == Selection.ShouldInvalidateCloudFront(run.value.profile, Individual)
        && settings.profiles == old(settings.profiles)
    {
      var contexts := Selection.PublishContexts(app, file.path);
      if |contexts| == 0 {
        return None, [], map[];
      }
      var chosen := Selection.PromptForProfile(settings.profiles, Some(contexts), ext.pick);
      if chosen.None? {
        return None, [], map[];
      }
      var profile := chosen.value;
      if Selection.IsFileExcluded(file.path, profile.excludedDirectories) {
        return None, [], map[];
      }
      var invalidate := Selection.ShouldInvalidateCloudFront(profile, Individual);
      var outcome;
      outcome, batch, atUpload := PublishNotes([file], profile, false, invalidate, ext);
      run := Some(Run(profile, [file], false, invalidate, outcome));
    }

    /**
     * `publishConnected(file)`: as `publishSingle` up to the profile, then the notes connected
     * to the note for that profile, followed by the note itself, as a connected publish that
     * keeps the publish time.
     */
    method PublishConnected(file: Host.File, ext: External)
      returns (run: Option<Run>, ghost batch: seq<(string, Notes.NoteState)>, ghost atUpload: map<string, Host.Content>)
      requires Wired() && notes.pending.Valid()
      modifies notes, notes.frontmatter, app, notes.mappings, notes.contentIndex, app.adapter, settings
      ensures var contexts := old(Selection.PublishContexts(app, file.path));
        var chosen := Selection.PromptForProfile(old(settings.profiles), Some(contexts), ext.pick);
        run.None? <==> contexts == [] || chosen.None? || Selection.IsFileExcluded(file.path, chosen.value.excludedDirectories)
      ensures run.None? ==> Unchanged()
      ensures run.Some? ==> Leaves(run.value.profile, run.value.files, run.value.updateTimestamp, ext, run.value.outcome, batch, atUpload)
      ensures run.Some? ==>
        && run.value.profile == Selection.PromptForProfile(old(settings.profiles), Some(old(Selection.PublishContexts(app, file.path))), ext.pick).value
        && Selection.Lists(old(Selection.PublishContexts(app, file.path)), run.value.profile.id)
        && run.value.files == ConnectedFiles(old(Selection.Connected(app, settings.profiles, file, run.value.profile.id)), file)
        && !run.value.updateTimestamp
        && run.value.invalidate == Selection.ShouldInvalidateCloudFront(run.value.profile, Connected)
        && settings.profiles == old(settings.profiles)
    {
      var contexts := Selection.PublishContexts(app, file.path);
      if |contexts| == 0 {
        return None, [], map[];
      }
      var chosen := Selection.PromptForProfile(settings.profiles, Some(contexts), ext.pick);
      if chosen.None? {
        return None, [], map[];
      }
      var profile := chosen.value;
      if Selection.IsFileExcluded(file.path, profile.excludedDirectories) {
        return None, [], map[];
      }
      var connections := Selection.GetConnectedNotes(app, settings.profiles, file, profile.id);
      var files := ConnectedFiles(connections, file);
      var invalidate := Selection.ShouldInvalidateCloudFront(profile, Connected);
      var outcome;
      outcome, batch, atUpload := PublishNotes(files, profile, false, invalidate, ext);
      run := Some(Run(profile, files, false, invalidate, outcome));
    }

    /**
     * `publishUpdates()`: any configured profile may be chosen; its notes updated since the last
     * full publish are published as a since-last publish, which records the publish time.
     */
    method PublishUpdates(ext: External)
      returns (run: Option<Run>, ghost batch: seq<(string, Notes.NoteState)>, ghost atUpload: map<string, Host.Content>)
      requires Wired() && notes.pending.Valid()
      modifies notes, notes.frontmatter, app, notes.mappings, notes.contentIndex, app.adapter, settings
      ensures var chosen := Selection.PromptForProfile(old(settings.profiles), None, ext.pick);
        run.None? <==> chosen.None? || old(Selection.GetUpdatedNotes(app, settings.profiles, chosen.value.id)) == []
      ensures run.None? ==> Unchanged()
      ensures run.Some? ==> Leaves(run.value.profile, run.value.files, run.value.updateTimestamp, ext, run.value.outcome, batch, atUpload)
      ensures run.Some? ==>
        && run.value.profile == Selection.PromptForProfile(old(settings.profiles), None, ext.pick).value
        && run.value.files == old(Selection.GetUpdatedNotes(app, settings.profiles, run.value.profile.id))
        && run.value.updateTimestamp
        && run.value.invalidate == Selection.ShouldInvalidateCloudFront(run.value.profile, SinceLast)
        && settings.profiles == if run.value.outcome == Published then Stamped(old(settings.profiles), run.value.profile.id, ext.now) else old(settings.profiles)
    {
      var chosen := Selection.PromptForProfile(settings.profiles, None, ext.pick);
      if chosen.None? {
        return None, [], map[];
      }
      var profile := chosen.value;
      var files := Selection.GetUpdatedNotes(app, settings.profiles, profile.id);
      if |files| == 0 {
        return None, [], map[];
      }
      var invalidate := Selection.ShouldInvalidateCloudFront(profile, SinceLast);
      var outcome;
      outcome, batch, atUpload := PublishNotes(files, profile, true, invalidate, ext);
      run := Some(Run(profile, files, true, invalidate, outcome));
    }

    /**
     * `publishAll()`: any configured profile may be chosen; all its publishable notes are
     * published as a full publish, which records the publish time.
     */
    method PublishAll(ext: External)
      returns (run: Option<Run>, ghost batch: seq<(string, Notes.NoteState)>, ghost atUpload: map<string, Host.Content>)
      requires Wired() && notes.pending.Valid()
      modifies notes, notes.frontmatter, app, notes.mappings, notes.contentIndex, app.adapter, settings
      ensures var chosen := Selection.PromptForProfile(old(settings.profiles), None, ext.pick);
        run.None? <==> chosen.None? || old(AllPublishable(app, settings.profiles, chosen.value.id)) == []
      ensures run.None? ==> Unchanged()
      ensures run.Some? ==> Leaves(run.value.profile, run.value.files, run.value.updateTimestamp, ext, run.value.outcome, batch, atUpload)
      ensures run.Some? ==>
        && run.value.profile == Selection.PromptForProfile(old(settings.profiles), None, ext.pick).value
        && run.value.files == old(AllPublishable(app, settings.profiles, run.value.profile.id))
        && run.value.updateTimestamp
        && run.value.invalidate == Selection.ShouldInvalidateCloudFront(run.value.profile, All)
        && settings.profiles == if run.value.outcome == Published then Stamped(old(settings.profiles), run.value.profile.id, ext.now) else old(settings.profiles)
    {
      var chosen := Selection.PromptForProfile(settings.profiles, None, ext.pick);
      if chosen.None? {
        return None, [], map[];
      }
      var profile := chosen.value;
      var files := Selection.GetAllPublishableNotes(app, settings.profiles, profile.id);
      if |files| == 0 {
        return None, [], map[];
      }
      var invalidate := Selection.ShouldInvalidateCloudFront(profile, All);
      var outcome;
      outcome, batch, atUpload := PublishNotes(files, profile, true, invalidate, ext);
      run := Some(Run(profile, files, true, invalidate, outcome));
    }

    /** Nothing the publish run touches has changed. */
    twostate predicate Unchanged()
      reads this, notes, app, app.adapter, settings
    {
      && settings.profiles == old(settings.profiles) && app.adapter.files == old(app.adapter.files)
      && notes.pending == old(notes.pending) && app.frontmatter == old(app.frontmatter)
    }

    /** An archived copy is not in the staging directory. */
    lemma ArchiveOutside(profileId: string, timestamp: nat, p: string)
      requires Host.InDir(p, StagedDir(profileId))
      ensures Host.InDir(ArchivePath(profileId, timestamp, p), SessionDir(profileId, timestamp))
      ensures !Host.InDir(ArchivePath(profileId, timestamp, p), StagedDir(profileId))
    {
      InDirBasename(p, StagedDir(profileId));
      var q := ArchivePath(profileId, timestamp, p);
      assert q[|SessionDir(profileId, timestamp)| + 1..] == Basename(p);
      StagingApart(profileId, timestamp, q);
    }

    lemma ErrorJsonInSession(profileId: string, timestamp: nat)
      ensures Host.InDir(SessionDir(profileId, timestamp) + "/error.json", SessionDir(profileId, timestamp))
    {
      var q := SessionDir(profileId, timestamp) + "/error.json";
      assert q[|SessionDir(profileId, timestamp)| + 1..] == "error.json";
    }

    lemma ErrorJsonOutside(profileId: string, timestamp: nat)
      ensures !Host.InDir(SessionDir(profileId, timestamp) + "/error.json", StagedDir(profileId))
    {
      var q := SessionDir(profileId, timestamp) + "/error.json";
      assert q[|SessionDir(profileId, timestamp)| + 1..] == "error.json";
      StagingApart(profileId, timestamp, q);
    }

    /** The copy loop of `handlePublishError` over the listed staged files; `ok` is false once a copy throws. */
    method CopyAll(profileId: string, timestamp: nat, staged: seq<string>) returns (ok: bool)
      requires forall p :: p in staged ==> p in app.adapter.files && Host.InDir(p, StagedDir(profileId))
      requires Host.NoDuplicates(staged)
      modifies app.adapter
      ensures app.adapter.ensured == old(app.adapter.ensured)
      ensures old(app.adapter.files).Keys <= app.adapter.files.Keys
      ensures forall q :: !Host.InDir(q, SessionDir(profileId, timestamp)) && q in old(app.adapter.files) ==> app.adapter.files[q] == old(app.adapter.files)[q]
      ensures ok ==> forall p :: p in staged ==>
        ArchivePath(profileId, timestamp, p) in app.adapter.files && app.adapter.files[ArchivePath(profileId, timestamp, p)] == old(app.adapter.files)[p]
    {
      ok := true;
      var i := 0;
      while i < |staged|
        invariant 0 <= i <= |staged|
        invariant app.adapter.ensured == old(app.adapter.ensured)
        invariant old(app.adapter.files).Keys <= app.adapter.files.Keys
        invariant forall q :: !Host.InDir(q, SessionDir(profileId, timestamp)) && q in old(app.adapter.files) ==> app.adapter.files[q] == old(app.adapter.files)[q]
        invariant forall j :: 0 <= j < i ==>
          ArchivePath(profileId, timestamp, staged[j]) in app.adapter.files
          && app.adapter.files[ArchivePath(profileId, timestamp, staged[j])] == old(app.adapter.files)[staged[j]]
      {
        ok := CopyOne(profileId, timestamp, staged, i, old(app.adapter.files));
        if !ok {
          return;
        }
        i := i + 1;
      }
    }

    /** One copy of the loop: `staged[i]` to its archive path, which no earlier copy used. */
    method CopyOne(profileId: string, timestamp: nat, staged: seq<string>, i: nat, ghost before: map<string, Host.Content>) returns (ok: bool)
      requires i < |staged| && Host.NoDuplicates(staged)
      requires forall p :: p in staged ==> p in before && Host.InDir(p, StagedDir(profileId))
      requires before.Keys <= app.adapter.files.Keys
      requires forall q :: !Host.InDir(q, SessionDir(profileId, timestamp)) && q in before ==> app.adapter.files[q] == before[q]
      modifies app.adapter
      ensures ok == (ArchivePath(profileId, timestamp, staged[i]) !in app.adapter.failing)
      ensures app.adapter.ensured == old(app.adapter.ensured)
      ensures app.adapter.files == if ok then old(app.adapter.files)[ArchivePath(profileId, timestamp, staged[i]) := before[staged[i]]] else old(app.adapter.files)
      ensures ok ==> forall j :: 0 <= j < i ==> ArchivePath(profileId, timestamp, staged[j]) != ArchivePath(profileId, timestamp, staged[i])
      ensures Host.InDir(ArchivePath(profileId, timestamp, staged[i]), SessionDir(profileId, timestamp))
    {
      ArchiveOutside(profileId, timestamp, staged[i]);
      StagingApart(profileId, timestamp, staged[i]);
      ok := app.adapter.Copy(staged[i], ArchivePath(profileId, timestamp, staged[i]));
      forall j | 0 <= j < i ensures ArchivePath(profileId, timestamp, staged[j]) != ArchivePath(profileId, timestamp, staged[i]) {
        InDirBasename(staged[j], StagedDir(profileId));
        InDirBasename(staged[i], StagedDir(profileId));
        Profiles.AppendDistinct(SessionDir(profileId, timestamp) + "/", Basename(staged[j]), Basename(staged[i]));
      }
    }
  }
}

=== FILE: selection.dfy ===
/**
 * The note selection of src/publish/publisher.ts: a note belongs to a profile
 * when its `cpn-publish-contexts` array lists the profile id and it lies
 * outside the profile's excluded directories; a note's connections are the
 * eligible notes it links to and those that link to it; and each kind of
 * publish invalidates the CloudFront cache from a configured level upwards.
 * The profile-choice modal is not part of this model: the profile it would
 * return is a parameter.
 */
module Selection {
  import opened Wrappers
  import opened Js
  import opened Types
  import Host
  import PathUtils

  const ContextsKey := "cpn-publish-contexts"

  /** `getPublishContextsForFile(file)`: the frontmatter value when it is an array, else no contexts. */
  function PublishContexts(app: Host.App, path: string): (r: seq<Value>)
    reads app
    ensures app.FrontmatterValue(path, ContextsKey).Arr? ==> r == app.FrontmatterValue(path, ContextsKey).items
    ensures !app.FrontmatterValue(path, ContextsKey).Arr? ==> r == []
  {
    ContextsIn(app.frontmatter, path)
  }

  /** The contexts array of `path` in a frontmatter snapshot. */
  function ContextsIn(frontmatter: map<string, map<string, Value>>, path: string): seq<Value> {
    if path in frontmatter && ContextsKey in frontmatter[path] && frontmatter[path][ContextsKey].Arr?
    then frontmatter[path][ContextsKey].items else []
  }

  /** `contexts.includes(profileId)` */
  predicate Lists(contexts: seq<Value>, profileId: string) {
    Str(profileId) in contexts
  }

  /** The test `isFileExcluded` applies to one excluded directory. */
  predicate ExcludedBy(path: string, dir: string) {
    StartsWith(path, dir) || Includes(path, "/" + dir + "/")
  }

  /**
   * `isFileExcluded(file, profile)`: the `some` scan over the excluded directories,
   * which holds exactly when one of them is a prefix of the path or occurs inside it
   * between slashes.
   */
  function IsFileExcluded(path: string, dirs: seq<string>): (r: bool)
    ensures r <==> exists i :: 0 <= i < |dirs| && ExcludedBy(path, dirs[i])
  {
    if dirs == [] then false
    else if ExcludedBy(path, dirs[0]) then true
    else
      var rest := IsFileExcluded(path, dirs[1..]);
      assert forall i :: 1 <= i < |dirs| ==> dirs[i] == dirs[1..][i - 1];
      rest
  }

  /** Every file below an excluded directory is excluded, at the top of the vault or nested. */
  lemma ExcludedBelow(dirs: seq<string>, i: nat, above: string, below: string)
    requires i < |dirs|
    ensures IsFileExcluded(dirs[i] + "/" + below, dirs)
    ensures IsFileExcluded(above + "/" + dirs[i] + "/" + below, dirs)
  {
    var dir := dirs[i];
    assert StartsWith(dir + "/" + below, dir) by {
      assert (dir + "/" + below)[..|dir|] == dir;
    }
    var p := above + "/" + dir + "/" + below;
    assert p == above + ("/" + dir + "/") + below;
    assert OccursAt(p, "/" + dir + "/", |above|) by {
      assert p[|above|..|above| + |"/" + dir + "/"|] == "/" + dir + "/";
    }
  }

  /** The prefix test is not aware of path segments: excluding `Private` also excludes `PrivateNotes/`. */
  lemma ExcludedByPrefixOfName(stem: string, rest: string)
    ensures IsFileExcluded("Private" + stem + "/" + rest, ["Private"])
  {
    var p := "Private" + stem + "/" + rest;
    assert p[..|"Private"|] == "Private";
    assert ExcludedBy(p, ["Private"][0]);
  }

  /** `NoteConnection` */
  datatype Connection = Connection(
    file: Host.File,
    isBacklink: bool,
    isOutgoingLink: bool,
    uid: string,
    slug: string,
    title: string)

  /**
   * The connection `getConnectedNotes` records for `path`, both flags still unset, when
   * the path is a vault file outside the excluded directories whose contexts list the
   * profile and which has a UID; `None` for any other path. The vault is given by its
   * files, frontmatter and UIDs.
   */
  function Candidate(files: seq<Host.File>, frontmatter: map<string, map<string, Value>>, uids: map<string, string>,
                     profile: Profile, profileId: string, path: string): (r: Option<Connection>)
    ensures r.Some? <==>
      && Host.FileByPath(files, path).Some?
      && !IsFileExcluded(path, profile.excludedDirectories)
      && Lists(ContextsIn(frontmatter, path), profileId)
      && path in uids
    ensures r.Some? ==>
      r.value.file.path == path && r.value.uid == uids[path] && !r.value.isBacklink && !r.value.isOutgoingLink
  {
    var file := Host.FileByPath(files, path);
    if file.Some? && !IsFileExcluded(path, profile.excludedDirectories) && Lists(ContextsIn(frontmatter, path), profileId) && path in uids
    then Some(Connection(file.value, false, false, uids[path], PathUtils.SlugifyFilePath(path, false), file.value.basename))
    else None
  }

  /** `Candidate` for the vault as it is now. */
  function Candidates(app: Host.App, profile: Profile, profileId: string): string -> Option<Connection>
    reads app
  {
    var files, frontmatter, uids := app.files, app.frontmatter, app.uids;
    path => Candidate(files, frontmatter, uids, profile, profileId, path)
  }

  /** `links[target]` is truthy: the source links to the target at least once. */
  predicate LinksTo(links: Host.Entries<int>, target: string) {
    var n := Host.Lookup(links, target);
    n.Some? && n.value != 0
  }

  /** Some entry of `resolvedLinks` for `source` links to `target`. */
  predicate LinkedFrom(sources: Host.Entries<Host.Entries<int>>, source: string, target: string) {
    exists j :: 0 <= j < |sources| && sources[j].0 == source && LinksTo(sources[j].1, target)
  }

  /** The paths `file` links to: the keys of `resolvedLinks[file.path] || {}`. */
  function OutgoingPaths(app: Host.App, path: string): seq<string> {
    Host.Keys(Host.Lookup(app.resolvedLinks, path).GetOr([]))
  }

  /** The connections map after the outgoing loop has visited `paths`. */
  function Outgoing(cand: string -> Option<Connection>, paths: seq<string>): Host.OrderedMap<Connection> {
    if paths == [] then Host.OrderedMap(map[], [])
    else
      var before := Outgoing(cand, paths[..|paths| - 1]);
      var path := paths[|paths| - 1];
      match cand(path)
      case None => before
      case Some(c) => before.Set(path, c.(isOutgoingLink := true))
  }

  /** The connections map after the backlink loop has visited `sources`, starting from `start`. */
  function Incoming(cand: string -> Option<Connection>, target: string,
                    start: Host.OrderedMap<Connection>, sources: Host.Entries<Host.Entries<int>>): Host.OrderedMap<Connection>
  {
    if sources == [] then start
    else
      IncomingStep(cand, target, Incoming(cand, target, start, sources[..|sources| - 1]), sources[|sources| - 1])
  }

  /** One entry `(source, links)` of the backlink loop: a candidate source linking to the target is flagged. */
  function IncomingStep(cand: string -> Option<Connection>, target: string,
                        before: Host.OrderedMap<Connection>, entry: (string, Host.Entries<int>)): Host.OrderedMap<Connection>
  {
    var (source, links) := entry;
    if !LinksTo(links, target) then before
    else match cand(source)
      case None => before
      case Some(c) =>
        if source in before.entries then before.Set(source, before.entries[source].(isBacklink := true))
        else before.Set(source, c.(isBacklink := true))
  }

  /** The map `getConnectedNotes` builds from the candidates `cand`. */
  function ConnectionMap(cand: string -> Option<Connection>, out: seq<string>, sources: Host.Entries<Host.Entries<int>>, target: string): Host.OrderedMap<Connection> {
    Incoming(cand, target, Outgoing(cand, out), sources)
  }

  /** The connections `getConnectedNotes(file, profileId)` returns, in the map's insertion order. */
  function Connected(app: Host.App, profiles: seq<Profile>, file: Host.File, profileId: string): seq<Connection>
    reads app
  {
    match FindProfile(profiles, profileId)
    case None => []
    case Some(profile) =>
      var m := ConnectionMap(Candidates(app, profile, profileId), OutgoingPaths(app, file.path), app.resolvedLinks, file.path);
      IncomingDescribes(Candidates(app, profile, profileId), file.path, OutgoingPaths(app, file.path), app.resolvedLinks);
      m.Values()
  }

  /**
   * `m` holds, for every candidate the loops have met, its connection with the
   * outgoing flag set exactly when it is among `out` and the backlink flag set
   * exactly when one of `sources` links from it to `target`, and nothing else.
   */
  ghost predicate Describes(cand: string -> Option<Connection>, m: Host.OrderedMap<Connection>,
                            out: seq<string>, sources: Host.Entries<Host.Entries<int>>, target: string)
  {
    && m.Valid()
    && (forall p :: p in m.entries ==>
          && cand(p).Some?
          && m.entries[p] == cand(p).value.(isBacklink := LinkedFrom(sources, p, target), isOutgoingLink := p in out))
    && (forall p :: cand(p).Some? && (p in out || LinkedFrom(sources, p, target)) ==> p in m.entries)
  }

  lemma {:induction false} OutgoingDescribes(cand: string -> Option<Connection>, paths: seq<string>, target: string)
    requires forall p :: cand(p).Some? ==> !cand(p).value.isBacklink && !cand(p).value.isOutgoingLink
    ensures Describes(cand, Outgoing(cand, paths), paths, [], target)
    decreases |paths|
  {
    if paths != [] {
      var init := paths[..|paths| - 1];
      OutgoingDescribes(cand, init, target);
      var path := paths[|paths| - 1];
      assert forall p :: p in paths <==> p in init || p == path;
    }
  }

  lemma {:induction false} IncomingDescribes(cand: string -> Option<Connection>, target: string,
                                             out: seq<string>, sources: Host.Entries<Host.Entries<int>>)
    requires forall p :: cand(p).Some? ==> !cand(p).value.isBacklink && !cand(p).value.isOutgoingLink
    ensures Describes(cand, ConnectionMap(cand, out, sources, target), out, sources, target)
    decreases |sources|
  {
    if sources == [] {
      OutgoingDescribes(cand, out, target);
    } else {
      var init := sources[..|sources| - 1];
      IncomingDescribes(cand, target, out, init);
      var before := ConnectionMap(cand, out, init, target);
      assert ConnectionMap(cand, out, sources, target) == IncomingStep(cand, target, before, sources[|sources| - 1]);
      IncomingStepDescribes(cand, target, out, sources, before);
    }
  }

  /** The step for the last entry of `sources` takes a description of the loop over the others to one over all. */
  lemma IncomingStepDescribes(cand: string -> Option<Connection>, target: string, out: seq<string>,
                              sources: Host.Entries<Host.Entries<int>>, before: Host.OrderedMap<Connection>)
    requires forall p :: cand(p).Some? ==> !cand(p).value.isBacklink && !cand(p).value.isOutgoingLink
    requires sources != []
    requires Describes(cand, before, out, sources[..|sources| - 1], target)
    ensures Describes(cand, IncomingStep(cand, target, before, sources[|sources| - 1]), out, sources, target)
  {
    var init := sources[..|sources| - 1];
    var (source, links) := sources[|sources| - 1];
    forall p ensures LinkedFrom(sources, p, target) <==> LinkedFrom(init, p, target) || (p == source && LinksTo(links, target))
    {
      LinkedFromSnoc(sources, p, target);
    }
    var after := IncomingStep(cand, target, before, (source, links));
    if LinksTo(links, target) && cand(source).Some? {
      assert after.entries == before.entries[source := cand(source).value.(isBacklink := true, isOutgoingLink := source in out)];
      assert after.Valid();
    } else {
      assert after == before;
    }
  }

  /** One more entry of `resolvedLinks` adds at most its own source to those linking to the target. */
  lemma LinkedFromSnoc(sources: Host.Entries<Host.Entries<int>>, p: string, target: string)
    requires sources != []
    ensures var init, last := sources[..|sources| - 1], sources[|sources| - 1];
      LinkedFrom(sources, p, target) <==> LinkedFrom(init, p, target) || (p == last.0 && LinksTo(last.1, target))
  {
    var init := sources[..|sources| - 1];
    if LinkedFrom(init, p, target) {
      var j :| 0 <= j < |init| && init[j].0 == p && LinksTo(init[j].1, target);
      assert sources[j] == init[j];
    }
    if LinkedFrom(sources, p, target) {
      var j :| 0 <= j < |sources| && sources[j].0 == p && LinksTo(sources[j].1, target);
      if j < |init| {
        assert init[j] == sources[j];
      }
    }
  }

  /**
   * `getConnectedNotes` gives nothing for an unknown profile. Otherwise it gives one
   * connection per path, each for a candidate (a vault file outside the excluded
   * directories, listing the profile, with a UID), flagged as an outgoing link exactly
   * when the note links to it and as a backlink exactly when it links to the note; and
   * every candidate linked either way is there, so one linked both ways has both flags.
   */
  lemma ConnectedNotesAre(app: Host.App, profiles: seq<Profile>, file: Host.File, profileId: string)
    ensures FindProfile(profiles, profileId).None? ==> Connected(app, profiles, file, profileId) == []
    ensures FindProfile(profiles, profileId).Some? ==>
      var profile := FindProfile(profiles, profileId).value;
      var cand := Candidates(app, profile, profileId);
      var r := Connected(app, profiles, file, profileId);
      var out := OutgoingPaths(app, file.path);
      && (forall i, j :: 0 <= i < j < |r| ==> r[i].file.path != r[j].file.path)
      && (forall i :: 0 <= i < |r| ==>
            && cand(r[i].file.path).Some?
            && r[i] == cand(r[i].file.path).value.(
                 isBacklink := LinkedFrom(app.resolvedLinks, r[i].file.path, file.path), isOutgoingLink := r[i].file.path in out))
      && (forall p :: cand(p).Some? && (p in out || LinkedFrom(app.resolvedLinks, p, file.path)) ==>
            exists i :: 0 <= i < |r| && r[i].file.path == p)
  {
    if FindProfile(profiles, profileId).Some? {
      var profile := FindProfile(profiles, profileId).value;
      var cand := Candidates(app, profile, profileId);
      var out := OutgoingPaths(app, file.path);
      var m := ConnectionMap(cand, out, app.resolvedLinks, file.path);
      IncomingDescribes(cand, file.path, out, app.resolvedLinks);
      var r := m.Values();
      assert r == Connected(app, profiles, file, profileId);
      forall i | 0 <= i < |r| ensures r[i].file.path == m.order[i] {
        assert m.order[i] in m.entries;
      }
      forall p | cand(p).Some? && (p in out || LinkedFrom(app.resolvedLinks, p, file.path))
        ensures exists i :: 0 <= i < |r| && r[i].file.path == p
      {
        var i :| 0 <= i < |m.order| && m.order[i] == p;
        assert r[i].file.path == p;
      }
    }
  }

  /** `getConnectedNotes(file, profileId)`: the two loops over `resolvedLinks` filling a map by path. */
  method GetConnectedNotes(app: Host.App, profiles: seq<Profile>, file: Host.File, profileId: string) returns (r: seq<Connection>)
    ensures r == Connected(app, profiles, file, profileId)
  {
    var found := FindProfile(profiles, profileId);
    if found.None? {
      return [];
    }
    var cand := Candidates(app, found.value, profileId);
    var outgoing := OutgoingPaths(app, file.path);
    var connections := AddOutgoing(cand, outgoing);
    connections := AddIncoming(cand, file.path, connections, app.resolvedLinks);
    IncomingDescribes(cand, file.path, outgoing, app.resolvedLinks);
    r := connections.Values();
  }

  /** The outgoing loop: each linked candidate is set with its outgoing flag. */
  method AddOutgoing(cand: string -> Option<Connection>, outgoing: seq<string>) returns (connections: Host.OrderedMap<Connection>)
    ensures connections == Outgoing(cand, outgoing)
  {
    connections := Host.OrderedMap(map[], []);
    var k := 0;
    while k < |outgoing|
      invariant 0 <= k <= |outgoing|
      invariant connections == Outgoing(cand, outgoing[..k])
    {
      assert outgoing[..k + 1][..k] == outgoing[..k];
      var path := outgoing[k];
      var connected := cand(path);
      if connected.Some? {
        connections := connections.Set(path, connected.value.(isOutgoingLink := true));
      }
      k := k + 1;
    }
    assert outgoing[..k] == outgoing;
  }

  /** The backlink loop: a linking candidate already present gains its backlink flag, a new one is set with it. */
  method AddIncoming(cand: string -> Option<Connection>, target: string, start: Host.OrderedMap<Connection>,
                     sources: Host.Entries<Host.Entries<int>>) returns (connections: Host.OrderedMap<Connection>)
    ensures connections == Incoming(cand, target, start, sources)
  {
    connections := start;
    var k := 0;
    while k < |sources|
      invariant 0 <= k <= |sources|
      invariant connections == Incoming(cand, target, start, sources[..k])
    {
      assert sources[..k + 1][..k] == sources[..k];
      var source := sources[k].0;
      if LinksTo(sources[k].1, target) {
        var connected := cand(source);
        if connected.Some? {
          if source in connections.entries {
            connections := connections.Set(source, connections.entries[source].(isBacklink := true));
          } else {
            connections := connections.Set(source, connected.value.(isBacklink := true));
          }
        }
      }
      k := k + 1;
    }
    assert sources[..k] == sources;
  }

  /** The files `getAllPublishableNotes` keeps among `files`: markdown, not excluded, listing the profile. */
  function Publishable(app: Host.App, profile: Profile, profileId: string, files: seq<Host.File>): seq<Host.File>
    reads app
  {
    if files == [] then []
    else
      var f := files[|files| - 1];
      Publishable(app, profile, profileId, files[..|files| - 1])
      + (if f.extension == "md" && !IsFileExcluded(f.path, profile.excludedDirectories) && Lists(PublishContexts(app, f.path), profileId)
         then [f] else [])
  }

  /** The publishable files are exactly the markdown files outside the excluded directories that list the profile. */
  lemma {:induction false} PublishableAre(app: Host.App, profile: Profile, profileId: string, files: seq<Host.File>)
    ensures forall f :: f in Publishable(app, profile, profileId, files) <==>
      f in files && f.extension == "md" && !IsFileExcluded(f.path, profile.excludedDirectories) && Lists(PublishContexts(app, f.path), profileId)
    decreases |files|
  {
    if files != [] {
      PublishableAre(app, profile, profileId, files[..|files| - 1]);
      assert files == files[..|files| - 1] + [files[|files| - 1]];
    }
  }

  /** `getAllPublishableNotes(profileId)`: the vault's markdown files kept by the loop, in vault order. */
  method GetAllPublishableNotes(app: Host.App, profiles: seq<Profile>, profileId: string) returns (files: seq<Host.File>)
    ensures FindProfile(profiles, profileId).None? ==> files == []
    ensures FindProfile(profiles, profileId).Some? ==>
      files == Publishable(app, FindProfile(profiles, profileId).value, profileId, Host.MarkdownFiles(app.files))
  {
    files := [];
    var found := FindProfile(profiles, profileId);
    if found.None? {
      return;
    }
    var profile := found.value;
    var all := Host.MarkdownFiles(app.files);
    var k := 0;
    while k < |all|
      invariant 0 <= k <= |all|
      invariant files == Publishable(app, profile, profileId, all[..k])
    {
      assert all[..k + 1][..k] == all[..k];
      var file := all[k];
      if file.extension == "md" && !IsFileExcluded(file.path, profile.excludedDirectories) {
        var contexts := PublishContexts(app, file.path);
        if Lists(contexts, profileId) {
          files := files + [file];
        }
      }
      k := k + 1;
    }
    assert all[..k] == all;
  }

  /** `profile.lastFullPublishTimestamp || 0` */
  function Since(profile: Profile): int {
    profile.lastFullPublishTimestamp.GetOr(0)
  }

  /** The files modified after `since`, in order. */
  function ModifiedAfter(files: seq<Host.File>, since: int): (r: seq<Host.File>)
    ensures forall f :: f in r <==> f in files && f.mtime > since
  {
    if files == [] then []
    else (if files[0].mtime > since then [files[0]] else []) + ModifiedAfter(files[1..], since)
  }

  /**
   * `getUpdatedNotes(profileId)`: the publishable notes modified after the last full
   * publish, nothing for an unknown profile.
   */
  function GetUpdatedNotes(app: Host.App, profiles: seq<Profile>, profileId: string): (r: seq<Host.File>)
    reads app
    ensures FindProfile(profiles, profileId).None? ==> r == []
    ensures FindProfile(profiles, profileId).Some? ==> forall f :: f in r ==> f.mtime > Since(FindProfile(profiles, profileId).value)
  {
    match FindProfile(profiles, profileId)
    case None => []
    case Some(profile) => ModifiedAfter(Publishable(app, profile, profileId, Host.MarkdownFiles(app.files)), Since(profile))
  }

  /**
   * The updated notes are exactly the vault's publishable markdown notes whose
   * modification time is after the last full publish, or after 0 if there was none.
   */
  lemma UpdatedNotesAre(app: Host.App, profiles: seq<Profile>, profileId: string)
    ensures FindProfile(profiles, profileId).None? ==> GetUpdatedNotes(app, profiles, profileId) == []
    ensures FindProfile(profiles, profileId).Some? ==>
      var profile := FindProfile(profiles, profileId).value;
      forall f :: f in GetUpdatedNotes(app, profiles, profileId) <==>
        && f in app.files && f.extension == "md"
        && !IsFileExcluded(f.path, profile.excludedDirectories) && Lists(PublishContexts(app, f.path), profileId)
        && f.mtime > (if profile.lastFullPublishTimestamp.Some? then profile.lastFullPublishTimestamp.value else 0)
  {
    if FindProfile(profiles, profileId).Some? {
      PublishableAre(app, FindProfile(profiles, profileId).value, profileId, Host.MarkdownFiles(app.files));
    }
  }

  /** The hierarchy of publish kinds: individual 1, connected 2, since-last 3, all 4, manual 5. */
  function Level(s: Scheme): nat {
    match s
    case Individual => 1
    case Connected => 2
    case SinceLast => 3
    case All => 4
    case Manual => 5
  }

  /** `!profile.awsSettings?.cloudFrontDistributionId` is false: a non-empty distribution id is set. */
  predicate HasDistribution(profile: Profile) {
    profile.awsSettings.Some? && profile.awsSettings.value.distributionId.Some? && profile.awsSettings.value.distributionId.value != ""
  }

  /** `shouldInvalidateCloudFront(profile, publishType)` */
  function ShouldInvalidateCloudFront(profile: Profile, publishType: Scheme): (r: bool)
    ensures r ==> HasDistribution(profile) && profile.awsSettings.value.invalidationScheme != Manual
  {
    if !HasDistribution(profile) then false
    else if profile.awsSettings.value.invalidationScheme == Manual then false
    else Level(publishType) >= Level(profile.awsSettings.value.invalidationScheme)
  }

  /**
   * With a distribution and a scheme other than manual, a publish invalidates exactly
   * when it is at or above the configured kind, so a wider publish invalidates whenever
   * a narrower one does, and a full publish whenever any does.
   */
  lemma InvalidationByLevel(profile: Profile, publishType: Scheme, wider: Scheme)
    requires Level(publishType) <= Level(wider)
    ensures HasDistribution(profile) && profile.awsSettings.value.invalidationScheme != Manual ==>
      (ShouldInvalidateCloudFront(profile, publishType) <==> Level(publishType) >= Level(profile.awsSettings.value.invalidationScheme))
    ensures ShouldInvalidateCloudFront(profile, publishType) && wider != Manual ==> ShouldInvalidateCloudFront(profile, wider)
    ensures ShouldInvalidateCloudFront(profile, Individual) <==>
      HasDistribution(profile) && profile.awsSettings.value.invalidationScheme == Individual
  {
  }

  /**
   * `promptForProfile(availableProfiles)` without its modal: the configured profiles
   * whose ids are available (all of them when no list is given); none when there is
   * no such profile, the one when there is one, and otherwise the one picked from
   * the list, none if the modal is dismissed.
   */
  function PromptForProfile(profiles: seq<Profile>, available: Option<seq<Value>>, pick: Option<nat>): (r: Option<Profile>)
    ensures r.Some? ==> r.value in profiles && (available.Some? ==> Str(r.value.id) in available.value)
    ensures |Offered(profiles, available)| == 1 ==> r == Some(Offered(profiles, available)[0])
    ensures Offered(profiles, available) == [] ==> r.None?
  {
    var offered := Offered(profiles, available);
    if |offered| == 0 then None
    else if |offered| == 1 then Some(offered[0])
    else if pick.Some? && pick.value < |offered| then Some(offered[pick.value])
    else None
  }

  /** The profiles the prompt offers, in settings order. */
  function Offered(profiles: seq<Profile>, available: Option<seq<Value>>): (r: seq<Profile>)
    ensures forall p :: p in r <==> p in profiles && (available.Some? ==> Str(p.id) in available.value)
  {
    if profiles == [] then []
    else (if available.None? || Str(profiles[0].id) in available.value then [profiles[0]] else [])
         + Offered(profiles[1..], available)
  }
}

=== FILE: types.dfy ===
/**
 * The settings and record shapes of src/types.ts: publishing profiles with their
 * AWS and local settings, the settings object that holds them and the
 * bulk-context configuration.
 * The publishing indicator (a UI colour or emoji) is not part of this model.
 */
module Types {
  import opened Wrappers
  import opened Js

  datatype Mechanism = AwsCli | Local

  /** `CloudFrontInvalidationScheme` */
  datatype Scheme = Individual | Connected | SinceLast | All | Manual

  datatype AwsSettings = AwsSettings(
    awsAccountId: string,
    awsProfile: string,
    region: string,
    bucketName: string,
    s3Prefix: Option<string>,
    invalidationScheme: Scheme,
    distributionId: Option<string>,
    credentialRefreshCommands: string,
    awsCliPath: Option<string>)

  datatype LocalSettings = LocalSettings(outputPath: string)

  /** `PublishingProfile`; a timestamp that was never set is `None`. */
  datatype Profile = Profile(
    name: string,
    id: string,
    lastFullPublishTimestamp: Option<int>,
    excludedDirectories: seq<string>,
    baseUrl: string,
    homeNotePath: string,
    isPublic: bool,
    publishContentIndex: bool,
    mechanism: Mechanism,
    awsSettings: Option<AwsSettings>,
    localSettings: Option<LocalSettings>)

  /** The plugin's settings object: its profile list is updated in place by a full publish. */
  class Settings {
    var profiles: seq<Profile>

    constructor (profiles: seq<Profile>)
      ensures this.profiles == profiles
    {
      this.profiles := profiles;
    }
  }

  datatype BulkAction = Add | Remove

  /** `BulkPublishContextMapping` */
  datatype BulkMapping = BulkMapping(directory: string, contexts: seq<string>, action: BulkAction)

  /** `BulkPublishContextConfig` */
  datatype BulkConfig = BulkConfig(includes: seq<BulkMapping>, excludes: seq<string>, previewPath: string)

  /**
   * `PublishContextChange`. The current contexts are declared a string array but hold
   * whatever the frontmatter field held (or `[]` when it was falsy).
   */
  datatype ContextChange = ContextChange(
    filePath: string,
    currentContexts: Value,
    proposedContexts: seq<Value>,
    action: string,
    includePattern: string,
    excludePattern: string)

  /** `profiles.find(p => p.id === id)`: the first profile with that id. */
  function FindProfile(profiles: seq<Profile>, id: string): (r: Option<Profile>) {
    if profiles == [] then None
    else if profiles[0].id == id then Some(profiles[0])
    else FindProfile(profiles[1..], id)
  }

  /** `profiles.findIndex(p => p.id === id)`, with -1 when no profile has that id. */
  function FindProfileIndex(profiles: seq<Profile>, id: string): (r: int)
    ensures -1 <= r < |profiles|
  {
    if profiles == [] then -1
    else if profiles[0].id == id then 0
    else var k := FindProfileIndex(profiles[1..], id); if k < 0 then -1 else k + 1
  }

  /**
   * `find` returns the profile at the position `findIndex` gives, which is the
   * first with that id, and nothing exactly when no profile has it.
   */
  lemma {:induction false} FindProfileIsFirst(profiles: seq<Profile>, id: string)
    ensures var k := FindProfileIndex(profiles, id);
      && (k < 0 <==> forall i :: 0 <= i < |profiles| ==> profiles[i].id != id)
      && (k < 0 <==> FindProfile(profiles, id).None?)
      && (k >= 0 ==> FindProfile(profiles, id) == Some(profiles[k]) && profiles[k].id == id)
      && (k >= 0 ==> forall i :: 0 <= i < k ==> profiles[i].id != id)
    decreases |profiles|
  {
    if profiles != [] && profiles[0].id != id {
      FindProfileIsFirst(profiles[1..], id);
      assert forall i :: 1 <= i < |profiles| ==> profiles[i] == profiles[1..][i - 1];
    }
  }
}

=== FILE: uid.dfy ===
/**
 * The note UID encoder (`generateUID` in src/utils/uid.ts): the hex digits of a
 * UUID, plus one `0`, are read three at a time; each 12-bit group becomes two
 * base-64 characters, and the first `/` of the result becomes `_`.
 * The UUID itself comes from `uuidv4`, a random source: here it is the parameter `u`.
 */
module Uid {
  import opened Js

  const HexList: string := "0123456789abcdef"
  /** Each position has its own character, and none is `_`. */
  lemma B64CharIndex(i: int)
    requires 0 <= i < 64
    ensures B64Index(B64Char(i)) == i && B64Char(i) != '_'
  {
  }

  /** `b64list`, the base-64 alphabet, character by character (`B64ListIsTheLiteral` relates it to the literal). */
  function B64List(): (r: string)
    ensures |r| == 64
  {
    seq(64, B64Char)
  }

  const UpperLetters: string := "ABCDEFGHIJKLMNOPQRSTUVWXYZ"
  const LowerLetters: string := "abcdefghijklmnopqrstuvwxyz"
  const DecimalDigits: string := "0123456789"

  /** The alphabet is the source's literal `A`-`Z`, `a`-`z`, `0`-`9`, `+`, `/`. */
  lemma B64ListIsTheLiteral()
    ensures B64List() == UpperLetters + LowerLetters + DecimalDigits + "+/"
  {
    var lit := UpperLetters + LowerLetters + DecimalDigits + "+/";
    assert |UpperLetters| == 26 && forall i :: 0 <= i < 26 ==> UpperLetters[i] as int == 'A' as int + i;
    assert |LowerLetters| == 26 && forall i :: 0 <= i < 26 ==> LowerLetters[i] as int == 'a' as int + i;
    assert |DecimalDigits| == 10 && forall i :: 0 <= i < 10 ==> DecimalDigits[i] as int == '0' as int + i;
    forall i | 0 <= i < 64 ensures B64List()[i] == lit[i] {
      if i < 26 {
        assert lit[i] == UpperLetters[i];
      } else if i < 52 {
        assert lit[i] == LowerLetters[i - 26];
      } else if i < 62 {
        assert lit[i] == DecimalDigits[i - 52];
      } else {
        assert lit[i] == "+/"[i - 62];
      }
    }
  }

  /** The characters `/[0-9a-f]/i` matches. */
  predicate IsHexChar(c: char) {
    ('0' <= c <= '9') || ('a' <= c <= 'f') || ('A' <= c <= 'F')
  }

  /** `u.replace(/[^0-9a-f]/ig, '')`: the hex characters of `u`, in order. */
  function HexOnly(u: string): (r: string)
    ensures |r| <= |u|
    ensures forall c :: c in r <==> c in u && IsHexChar(c)
  {
    if u == [] then []
    else (if IsHexChar(u[0]) then [u[0]] else []) + HexOnly(u[1..])
  }

  /** `hexlist.indexOf(c)` for one character: its digit value, or -1 when it is not a lower-case hex digit. */
  function HexIndex(c: char): (d: int)
    ensures -1 <= d < 16
  {
    if '0' <= c <= '9' then c as int - '0' as int
    else if 'a' <= c <= 'f' then c as int - 'a' as int + 10
    else -1
  }

  /** `HexIndex` is `hexlist.indexOf`: the position of `c` in the list, or -1 when it is absent. */
  lemma HexIndexIsIndexOf(c: char)
    ensures HexIndex(c) >= 0 ==> HexList[HexIndex(c)] == c
    ensures HexIndex(c) < 0 ==> c !in HexList
  {
  }

  /** Every character of `s` is in `hexlist`. */
  predicate IsHexDigits(s: string) {
    forall i :: 0 <= i < |s| ==> HexIndex(s[i]) >= 0
  }

  /** The digit string the loop reads: the lower-cased hex characters of `u`, then `0`. */
  function Digits(u: string): (s: string)
    ensures |s| == |HexOnly(u)| + 1 && s[|s| - 1] == '0'
    ensures IsHexDigits(s)
  {
    var h := HexOnly(u);
    var s := Lower(h) + "0";
    assert forall i :: 0 <= i < |h| ==> IsHexChar(h[i]) by {
      forall i | 0 <= i < |h| ensures IsHexChar(h[i]) { assert h[i] in h; }
    }
    s
  }

  /** `hexlist.indexOf(s.charAt(i))`: past the end `charAt` gives "", whose index is 0. */
  function DigitAt(s: string, i: nat): (d: int)
    ensures IsHexDigits(s) ==> 0 <= d < 16
  {
    if i < |s| then HexIndex(s[i]) else 0
  }

  /** The position of a character in the alphabet, or -1. */
  function B64Index(c: char): int {
    if 'A' <= c <= 'Z' then c as int - 'A' as int
    else if 'a' <= c <= 'z' then c as int - 'a' as int + 26
    else if '0' <= c <= '9' then c as int - '0' as int + 52
    else if c == '+' then 62
    else if c == '/' then 63
    else -1
  }

  /** `b64list.charAt(i)`, computed from the four ranges of the alphabet. */
  function B64Char(i: int): char {
    if i < 0 then '/' else
    if i < 26 then ('A' as int + i) as char
    else if i < 52 then ('a' as int + i - 26) as char
    else if i < 62 then ('0' as int + i - 52) as char
    else if i == 62 then '+'
    else '/'
  }

  /** The 12-bit value of the group of three digits starting at `i`. */
  function GroupValue(s: string, i: nat): (a: int)
    requires IsHexDigits(s)
    ensures 0 <= a < 4096
  {
    256 * DigitAt(s, i) + 16 * DigitAt(s, i + 1) + DigitAt(s, i + 2)
  }

  /** The two characters one group yields: the alphabet at its high and its low six bits. */
  function GroupChars(s: string, i: nat): (r: string)
    requires IsHexDigits(s)
    ensures |r| == 2
  {
    var a := GroupValue(s, i);
    [B64Char(a / 64), B64Char(a % 64)]
  }

  /** The characters of the first `n` groups of `s`. */
  function Encoded(s: string, n: nat): (r: string)
    requires IsHexDigits(s)
    ensures |r| == 2 * n
  {
    if n == 0 then [] else Encoded(s, n - 1) + GroupChars(s, 3 * (n - 1))
  }

  /** `r.replace('/', '_')` with a string pattern: only the first `/` is replaced. */
  function ReplaceFirstSlash(s: string): (r: string)
    ensures |r| == |s|
    ensures IndexOf(s, "/").None? ==> r == s
    ensures IndexOf(s, "/").Some? ==> var i := IndexOf(s, "/").value; r == s[..i] + "_" + s[i + 1..]
  {
    if s == [] then []
    else if s[0] == '/' then
      assert s[..1] == "/";
      "_" + s[1..]
    else
      assert s[..1] != "/";
      [s[0]] + ReplaceFirstSlash(s[1..])
  }

  /** The UID `generateUID` derives from the UUID `u`. */
  function UidOf(u: string): string {
    ReplaceFirstSlash(Encoded(Digits(u), 11))
  }

  /** Shifting the digits into place and or-ing them adds them up. */
  lemma PackDigits(d0: bv12, d1: bv12, d2: bv12)
    requires d0 < 16 && d1 < 16 && d2 < 16
    ensures ((d0 << 8) | (d1 << 4) | d2) as int == 256 * d0 as int + 16 * d1 as int + d2 as int
  {
  }

  /** `a >> 6` and `a & 63` are the quotient and remainder by 64. */
  lemma ShiftAndMask(a: bv12)
    ensures (a >> 6) as int == a as int / 64
    ensures (a & 63) as int == a as int % 64
  {
  }

  /** `generateUID`, with the UUID as a parameter. */
  method GenerateUid(u: string) returns (r: string)
    ensures r == UidOf(u)
  {
    var s := Lower(HexOnly(u));
    s := s + "0";
    assert s == Digits(u);
    var out := EncodeGroups(s);
    r := ReplaceFirstSlash(out);
  }

  /** The `while (i < 33)` loop of `generateUID`: eleven groups of three digits, two characters each. */
  method EncodeGroups(s: string) returns (out: string)
    requires IsHexDigits(s)
    ensures out == Encoded(s, 11)
  {
    out := "";
    var i := 0;
    ghost var n := 0;
    while i < 33
      invariant i == 3 * n && n <= 11 && i <= 33
      invariant out == Encoded(s, n)
    {
      var pair := EncodeGroup(s, i);
      EncodedNext(s, n);
      out := out + pair;
      i := i + 3;
      n := n + 1;
    }
  }

  /** One more group appends its two characters. */
  lemma EncodedNext(s: string, n: nat)
    requires IsHexDigits(s)
    ensures Encoded(s, n + 1) == Encoded(s, n) + GroupChars(s, 3 * n)
  {
  }

  /** One pass of the loop: the three digits at `i` packed into twelve bits, then two six-bit alphabet indices. */
  method EncodeGroup(s: string, i: nat) returns (pair: string)
    requires IsHexDigits(s)
    ensures pair == GroupChars(s, i)
  {
    var d0 := DigitAt(s, i);
    var d1 := DigitAt(s, i + 1);
    var d2 := DigitAt(s, i + 2);
    // (d0 << 8) | (d1 << 4) | d2, then a >> 6 and a & 63: PackDigits and ShiftAndMask show these are the sum, quotient and remainder
    var a := d0 * 256 + d1 * 16 + d2;
    assert a == GroupValue(s, i);
    pair := [B64List()[a / 64], B64List()[a % 64]];
  }

  /** Every UID has 22 characters, each in the alphabet or `_`, and at most one `_`, standing where the first `/` was. */
  lemma UidShape(u: string)
    ensures |UidOf(u)| == 22
    ensures forall c :: c in UidOf(u) ==> B64Index(c) >= 0 || c == '_'
    ensures forall i, j :: 0 <= i < j < 22 && UidOf(u)[i] == '_' ==> UidOf(u)[j] != '_'
    ensures forall i, j :: 0 <= i < j < 22 && UidOf(u)[j] == '_' ==> UidOf(u)[i] != '/'
  {
    var e := Encoded(Digits(u), 11);
    EncodedAlphabet(Digits(u), 11);
    assert '_' !in e;
    ReplaceFirstSlashShape(e);
  }

  /** At most one `_`, and no `/` before it. */
  predicate OneUnderscoreFirst(r: string) {
    && (forall i, j :: 0 <= i < j < |r| && r[i] == '_' ==> r[j] != '_')
    && (forall i, j :: 0 <= i < j < |r| && r[j] == '_' ==> r[i] != '/')
  }

  lemma {:induction false} ReplaceFirstSlashShape(s: string)
    requires '_' !in s
    ensures forall c :: c in ReplaceFirstSlash(s) ==> c in s || c == '_'
    ensures OneUnderscoreFirst(ReplaceFirstSlash(s))
    decreases |s|
  {
    if s != [] && s[0] == '/' {
      UnderscoreFirst(s[1..]);
    } else if s != [] {
      ReplaceFirstSlashShape(s[1..]);
      KeepFirst(s[0], s[1..], ReplaceFirstSlash(s[1..]));
    }
  }

  /** `_` in front of a string without `_` is the only `_`, with nothing before it. */
  lemma UnderscoreFirst(rest: string)
    requires '_' !in rest
    ensures OneUnderscoreFirst("_" + rest)
  {
    var r := "_" + rest;
    forall j | 0 < j < |r| ensures r[j] != '_' {
      assert r[j] == rest[j - 1];
    }
  }

  /** A character other than `/` and `_` in front keeps the shape and the alphabet. */
  lemma KeepFirst(c: char, rest: string, replaced: string)
    requires c != '/' && c != '_' && OneUnderscoreFirst(replaced)
    requires forall x :: x in replaced ==> x in rest || x == '_'
    ensures OneUnderscoreFirst([c] + replaced)
    ensures forall x :: x in [c] + replaced ==> x in [c] + rest || x == '_'
  {
    var r := [c] + replaced;
    forall i, j | 0 <= i < j < |r| && r[i] == '_' ensures r[j] != '_' {
      assert r[i] == replaced[i - 1] && r[j] == replaced[j - 1];
    }
    forall i, j | 0 <= i < j < |r| && r[j] == '_' ensures r[i] != '/' {
      assert r[j] == replaced[j - 1];
      if i > 0 { assert r[i] == replaced[i - 1]; }
    }
  }

  /** Replacing the first `/` loses nothing when the string holds no `_`. */
  lemma {:induction false} ReplaceFirstSlashInjective(x: string, y: string)
    requires '_' !in x && '_' !in y
    requires ReplaceFirstSlash(x) == ReplaceFirstSlash(y)
    ensures x == y
    decreases |x|
  {
    if x != [] {
      assert y != [];
      if x[0] == '/' {
        assert ReplaceFirstSlash(x)[0] == '_';
        assert y[0] == '/';
        assert ReplaceFirstSlash(x)[1..] == x[1..];
        assert ReplaceFirstSlash(y)[1..] == y[1..];
        assert x == [x[0]] + x[1..];
        assert y == [y[0]] + y[1..];
      } else {
        assert ReplaceFirstSlash(x)[0] == x[0];
        assert y[0] != '/';
        assert ReplaceFirstSlash(x)[1..] == ReplaceFirstSlash(x[1..]);
        assert ReplaceFirstSlash(y)[1..] == ReplaceFirstSlash(y[1..]);
        ReplaceFirstSlashInjective(x[1..], y[1..]);
        assert x == [x[0]] + x[1..];
        assert y == [y[0]] + y[1..];
      }
    }
  }

  /** Group `k` of the first `n` sits at positions `2k` and `2k+1` of the encoding. */
  lemma {:induction false} EncodedAt(s: string, n: nat, k: nat)
    requires IsHexDigits(s)
    requires k < n
    ensures Encoded(s, n)[2 * k] == GroupChars(s, 3 * k)[0]
    ensures Encoded(s, n)[2 * k + 1] == GroupChars(s, 3 * k)[1]
    decreases n
  {
    var e := Encoded(s, n - 1);
    var g := GroupChars(s, 3 * (n - 1));
    assert Encoded(s, n) == e + g;
    if k < n - 1 {
      EncodedAt(s, n - 1, k);
    }
  }

  /** Every character of an encoding is in the alphabet. */
  lemma {:induction false} EncodedAlphabet(s: string, n: nat)
    requires IsHexDigits(s)
    ensures forall c :: c in Encoded(s, n) ==> B64Index(c) >= 0
    decreases n
  {
    if n > 0 {
      EncodedAlphabet(s, n - 1);
      var a := GroupValue(s, 3 * (n - 1));
      B64CharIndex(a / 64);
      B64CharIndex(a % 64);
      assert Encoded(s, n) == Encoded(s, n - 1) + [B64Char(a / 64), B64Char(a % 64)];
    }
  }

  /** Two groups that encode alike have the same three digits. */
  lemma GroupCharsInjective(s: string, t: string, i: nat)
    requires IsHexDigits(s)
    requires IsHexDigits(t)
    requires GroupChars(s, i)[0] == GroupChars(t, i)[0] && GroupChars(s, i)[1] == GroupChars(t, i)[1]
    ensures DigitAt(s, i) == DigitAt(t, i)
    ensures DigitAt(s, i + 1) == DigitAt(t, i + 1)
    ensures DigitAt(s, i + 2) == DigitAt(t, i + 2)
  {
    var a, b := GroupValue(s, i), GroupValue(t, i);
    B64CharIndex(a / 64);
    B64CharIndex(b / 64);
    B64CharIndex(a % 64);
    B64CharIndex(b % 64);
    assert a == b;
  }

  /** Equal encodings of 33 hex digits come from equal digits. */
  lemma EncodedInjective(s: string, t: string)
    requires IsHexDigits(s) && IsHexDigits(t) && |s| == 33 && |t| == 33
    requires Encoded(s, 11) == Encoded(t, 11)
    ensures s == t
  {
    forall i | 0 <= i < 33 ensures s[i] == t[i] {
      SameDigitAt(s, t, i);
    }
  }

  /** Equal encodings of 33 hex digits agree at each digit. */
  lemma SameDigitAt(s: string, t: string, i: nat)
    requires IsHexDigits(s) && IsHexDigits(t) && |s| == 33 && |t| == 33
    requires Encoded(s, 11) == Encoded(t, 11)
    requires i < 33
    ensures s[i] == t[i]
  {
    var k := i / 3;
    EncodedAt(s, 11, k);
    EncodedAt(t, 11, k);
    GroupCharsInjective(s, t, 3 * k);
    assert i == 3 * k || i == 3 * k + 1 || i == 3 * k + 2;
    assert DigitAt(s, i) == DigitAt(t, i);
    HexIndexIsIndexOf(s[i]);
    HexIndexIsIndexOf(t[i]);
  }

  /**
   * Distinct UUIDs of 32 hex digits give distinct UIDs: equal UIDs come only from
   * UUIDs with the same digits, up to letter case and non-hex characters.
   */
  lemma UidInjective(u: string, v: string)
    requires |HexOnly(u)| == 32 && |HexOnly(v)| == 32
    requires UidOf(u) == UidOf(v)
    ensures Lower(HexOnly(u)) == Lower(HexOnly(v))
  {
    var s, t := Digits(u), Digits(v);
    EncodedAlphabet(s, 11);
    EncodedAlphabet(t, 11);
    ReplaceFirstSlashInjective(Encoded(s, 11), Encoded(t, 11));
    EncodedInjective(s, t);
    assert Lower(HexOnly(u)) == s[..32] && Lower(HexOnly(v)) == t[..32];
  }

  /**
   * A UUID whose first three hex digits are `f` (as in `fff…-…-4…`) yields `//` for its
   * first group: the first `/` becomes `_`, and the second stays in the UID.
   */
  lemma LaterSlashesRemain(u: string)
    requires |HexOnly(u)| >= 3
    requires forall i :: 0 <= i < 3 ==> LowerChar(HexOnly(u)[i]) == 'f'
    ensures UidOf(u)[0] == '_' && UidOf(u)[1] == '/'
  {
    var s := Digits(u);
    assert s[0] == 'f' && s[1] == 'f' && s[2] == 'f';
    assert GroupValue(s, 0) == 4095;
    EncodedAt(s, 11, 0);
    var e := Encoded(s, 11);
    assert e[0] == '/' && e[1] == '/';
    assert ReplaceFirstSlash(e) == "_" + e[1..];
  }

  predicate IsSlash(c: char) {
    c == '/'
  }

  /** The evidently intended UID: every `/` replaced by `_`, as a URL- and file-safe identifier needs. */
  function UrlSafeUidOf(u: string): string {
    ReplaceChars(Encoded(Digits(u), 11), IsSlash, "_")
  }

  /** The intended UID has 22 characters, none of them `/`, and is still injective on 32-digit UUIDs. */
  lemma UrlSafeUid(u: string, v: string)
    ensures |UrlSafeUidOf(u)| == 22
    ensures '/' !in UrlSafeUidOf(u)
    ensures |HexOnly(u)| == 32 && |HexOnly(v)| == 32 && UrlSafeUidOf(u) == UrlSafeUidOf(v)
      ==> Lower(HexOnly(u)) == Lower(HexOnly(v))
  {
    ReplaceSlashesLength(Encoded(Digits(u), 11));
    UrlSafeUidNoSlash(u);
    UrlSafeUidInjective(u, v);
  }

  lemma UrlSafeUidNoSlash(u: string)
    ensures '/' !in UrlSafeUidOf(u)
  {
    ReplaceCharsFrom(Encoded(Digits(u), 11), IsSlash, "_");
  }

  lemma UrlSafeUidInjective(u: string, v: string)
    ensures |HexOnly(u)| == 32 && |HexOnly(v)| == 32 && UrlSafeUidOf(u) == UrlSafeUidOf(v)
      ==> Lower(HexOnly(u)) == Lower(HexOnly(v))
  {
    if |HexOnly(u)| == 32 && |HexOnly(v)| == 32 && UrlSafeUidOf(u) == UrlSafeUidOf(v) {
      var s, t := Digits(u), Digits(v);
      EncodedAlphabet(s, 11);
      EncodedAlphabet(t, 11);
      ReplaceSlashesInjective(Encoded(s, 11), Encoded(t, 11));
      assert UidOf(u) == UidOf(v);
      UidInjective(u, v);
    }
  }

  lemma {:induction false} ReplaceSlashesLength(s: string)
    ensures |ReplaceChars(s, IsSlash, "_")| == |s|
    decreases |s|
  {
    if s != [] { ReplaceSlashesLength(s[1..]); }
  }

  lemma {:induction false} ReplaceSlashesInjective(x: string, y: string)
    ensures '_' !in x && '_' !in y && ReplaceChars(x, IsSlash, "_") == ReplaceChars(y, IsSlash, "_") ==> x == y
    decreases |x|
  {
    if x != [] && '_' !in x && '_' !in y && ReplaceChars(x, IsSlash, "_") == ReplaceChars(y, IsSlash, "_") {
      ReplaceSlashesLength(x);
      ReplaceSlashesLength(y);
      var rx, ry := ReplaceChars(x, IsSlash, "_"), ReplaceChars(y, IsSlash, "_");
      assert rx[0] == (if x[0] == '/' then '_' else x[0]);
      assert ry[0] == (if y[0] == '/' then '_' else y[0]);
      assert rx[1..] == ReplaceChars(x[1..], IsSlash, "_");
      assert ry[1..] == ReplaceChars(y[1..], IsSlash, "_");
      assert '_' !in x[1..] && '_' !in y[1..];
      ReplaceSlashesInjective(x[1..], y[1..]);
      assert x == [x[0]] + x[1..];
      assert y == [y[0]] + y[1..];
    }
  }
}

=== FILE: wrappers.dfy ===
/** Optional values: JavaScript's `undefined`/`null` results and lookups that can miss. */
module Wrappers {

  datatype Option<+T> = None | Some(value: T) {

    /** The wrapped value, or `default` when there is none (JavaScript's `x ?? default`). */
    function GetOr(default: T): T {
      match this
      case Some(v) => v
      case None => default
    }
  }
}
